=== FILE: README.md ===
# Texas Hold'em engine: a verified model

This project models the core of a No-Limit Texas Hold'em engine that
exists in two implementations:

- a C++ reinforcement-learning environment (`PokerEnv`), which covers
  - card parsing;
  - the scenario reset with chosen cards;
  - blinds and antes;
  - action resolution, with the per-street raise cap and the action limit;
  - the betting-round and hand-end tests;
  - dealing;
  - side pots;
  - showdown grouping and pot distribution;
  - the range-index tables and the canonical suit map;
- a Rust engine (`State`), which covers
  - dealing from a given deck;
  - legal actions;
  - `apply_action` with its street changes and showdown;
  - `rank_hand` / `rank_card_combination`;
  - the range index.

It also covers two Rust drafts of the same engine:

- the "new" draft (`AwaitingAction`, `advance_to_next_stage_or_showdown`, `resolve_pots`);
- the "old" draft (`apply_action` with action conversion, `to_next_stage`, layered `set_winners`).

Finally it covers the game server's seat table: registration, seating,
starting a hand, turn checks, syncing chips, the end of a hand and
rotating the dealer.

Every operation is a pure function, or a method with loop invariants,
over immutable datatypes:

- C++ chip counts are `int`.
- Rust `f64` amounts are exact `real`s.
- Cards are `Card(value, suit)` with value 0..12 (two to ace) and suit 0..3.
- The game server's `u8` seats are a subrange type whose casts are written out as wrap-around.

One module per component:

| module | component |
|---|---|
| `Wrappers` | `Option`, `Result`, sums and counts |
| `Cards` | the card datatype and the 0..51 index |
| `CardParser`, `BoardParser` | card and board text |
| `Scenario` | the scenario reset |
| `PokerTable` | C++ players, forced bets, button and blinds, turn scans |
| `HandState` | the C++ hand invariant and the start of a hand |
| `ActionResolver` | action fixing and minimum raise |
| `BettingRound` | street and hand ends, dealing, moving to the next street |
| `PotLedger` | collecting bets and side pots |
| `Showdown` | grouping, pot distribution, reward assignment |
| `EngineStep` | the C++ `step` |
| `HandDescription` | rank names |
| `RangeIndex`, `SuitMap`, `PreflopTable` | range-index tables |
| `RustState` | Rust records and range index |
| `HandClassifier` | five-card scoring and `rank_hand` |
| `RustBetting` | legal actions, chips, street changes, winners |
| `RustEngine` | `from_deck`, `apply_action`, the zero-sum game |
| `SeatScan` | seat scans |
| `LayeredPots` | the drafts' layered settlement |
| `DraftRules`, `DraftNew`, `DraftOld` | the two drafts |
| `SeatTable` | the game server |

Where the source is evidently wrong (see "## Findings"), the model holds
both the operation as written, with the input that shows the fault, and
the corrected operation. The Rust hand ranking and range index are
modelled as written. The Rust engine's `apply_action` and the seat table
are built on the corrected street change and seat mapping; each member
that does so has its own line under "## Left out".

The hand evaluator the C++ engine calls is not part of this model. Its
ranks (lower is stronger) are a parameter of the showdown. The server's
deck (`Card::collect`) is not part of this model either: `start_game`
takes the deck as an argument.

## Model

| member | source | states |
|---|---|---|
| Cards.ToIndex | src/PokerEnv_notorch.cpp:3488-3493 | a card's index is value * 4 + suit, within 0..51 |
| Cards.FromIndex | src/PokerEnv_notorch.cpp:798-802 | decoding an index gives back the card with that index |
| Cards.IndexRoundTrip | src/PokerEnv_notorch.cpp:798-802 | decoding an encoded card gives the card back |
| Cards.ToIndexInjective | src/PokerEnv_notorch.cpp:3488-3493 | two cards share an index exactly when they are the same card |
| CardParser.FindSuit | src/PokerEnv_notorch.cpp:53-115 | a suit match is a suffix of the text: three bytes spelling the suit's Unicode symbol, or one trailing ASCII suit letter of either case |
| CardParser.FindValue | src/PokerEnv_notorch.cpp:117-169 | the value loop matches a face name exactly, with "T" standing for "10" |
| CardParser.CardString | src/PokerEnv_notorch.cpp:171-173 | a card's text is two or three characters long (ParseCardString states that it reads back as the card) |
| CardParser.FindSuitOfText | src/PokerEnv_notorch.cpp:53-115 | the suffix test recognises exactly the texts that name a suit |
| CardParser.FindValueSpec | src/PokerEnv_notorch.cpp:117-169 | the value loop finds value v exactly when the text names v |
| CardParser.ParseCard | src/PokerEnv_notorch.cpp:117-169 | each `throw` is an error value; `CardParser.ParseCardSpec` states which texts parse to which card |
| CardParser.ParseCardSpec | src/PokerEnv_notorch.cpp:117-169 | a string parses to card c if and only if it is a name of c's value followed by a name of c's suit |
| CardParser.ParseCardString | src/PokerEnv_notorch.cpp:117-173 | parsing what the card writer produces gives back the same card |
| BoardParser.Tokens | src/PokerEnv_notorch.cpp:3720-3750 | the words a string stream extracts are never empty |
| BoardParser.RemoveSpaces | src/PokerEnv_notorch.cpp:3750-3760 | no space is left once spaces are removed |
| BoardParser.Greedy | src/PokerEnv_notorch.cpp:3760-3810 | the back-to-back reader only adds cards, and never returns more than five |
| BoardParser.ParseBoard | src/PokerEnv_notorch.cpp:3720-3816 | a board parse yields no card, or three, four or five cards |
| BoardParser.ParseBoardSpaced | src/PokerEnv_notorch.cpp:3720-3816 | three to five cards written with spaces read back as the same cards |
| BoardParser.ParseBoardConcat | src/PokerEnv_notorch.cpp:3720-3816 | three to five cards written back to back read back as the same cards; a longer run reads as its first five |
| BoardParser.FindValueRejectsLetter | src/PokerEnv_notorch.cpp:117-169 | a value part of two or more bytes that contains a suit letter names no value |
| BoardParser.OverlongPrefixFails | src/PokerEnv_notorch.cpp:3760-3810 | the greedy reader's longer prefixes never parse past the first card string |
| BoardParser.GreedyConcat | src/PokerEnv_notorch.cpp:3760-3810 | reading back-to-back card strings takes them one by one and stops after the fifth |
| Scenario.RoundFromBoard | src/PokerEnv_notorch.cpp:770-783 | the street read from a board size is one of preflop, flop, turn and river |
| Scenario.RoundFromBoardRoundTrip | src/PokerEnv_notorch.cpp:770-783 | the board size of a street is read back as that street, and only street sizes are read as their street |
| Scenario.RemoveCard | src/PokerEnv_notorch.cpp:805-809 | removing a card succeeds exactly when the card is still in the deck, and then takes exactly that card out |
| Scenario.PlaceBoard | src/PokerEnv_notorch.cpp:794-817 | on success the board keeps its five slots and the deck only loses cards |
| Scenario.PlaceBoardSpec | src/PokerEnv_notorch.cpp:794-817 | placing the board fails if and only if a named card is missing or named twice; on success the named cards left the deck and sit in their slots, and other slots are untouched |
| Scenario.PlaceHoles | src/PokerEnv_notorch.cpp:820-870 | on success every player keeps a hand slot and the deck only loses cards |
| Scenario.PlaceHolesSpec | src/PokerEnv_notorch.cpp:820-870 | placing hole cards fails if and only if a named card is missing or repeated; on success every given pair is in its player's hand and the other hands are untouched |
| Scenario.PlaceScenario | src/PokerEnv_notorch.cpp:794-870 | the board is placed, then the hole cards, both from the deck; `Scenario.PlaceScenarioSpec` states when it is accepted |
| Scenario.PlaceScenarioSpec | src/PokerEnv_notorch.cpp:794-870 | a scenario is accepted exactly when all the cards it names are in the deck and pairwise different |
| Scenario.AvailableAppend | src/PokerEnv_notorch.cpp:794-870 | naming two lists one after the other succeeds exactly when the first is available and the second is available in what is left |
| PokerTable.BetRaise | src/PokerEnv_notorch.cpp:1394-1399 | raising a bet to a target moves exactly the difference from stack to bet and investment, and an empty stack is all-in |
| PokerTable.PostForcedCommits | src/PokerEnv_notorch.cpp:2439-2467 | a forced bet commits the amount, or the whole stack when shorter, and leaves the player's total chips unchanged |
| PokerTable.PostAntes | src/PokerEnv_notorch.cpp:2439-2449 | with an ante, every player with chips posts it; without one nothing changes |
| PokerTable.ResetPositions | src/PokerEnv_notorch.cpp:566-600 | button and both blinds are seats of the table |
| PokerTable.ResetPositionsLayout | src/PokerEnv_notorch.cpp:566-600 | whichever way the button is chosen, the blinds sit one and two seats after it (heads-up the button is the small blind), and a fixed UTG seat follows the big blind |
| PokerTable.FindNextPlayerToAct | src/PokerEnv_notorch.cpp:3297-3306 | the next seat is the first one after the current seat, going round once, that can act, and -1 exactly when no seat can |
| PokerTable.FirstToActPreFlop | src/PokerEnv_notorch.cpp:3057-3076 | preflop the scan starts at the fixed UTG seat when it is a seat, else at the seat after the big blind; the first to act is the first seat from there, going round, that can act, and the start seat itself when no seat can |
| PokerTable.FirstToActPostFlop | src/PokerEnv_notorch.cpp:3078-3109 | postflop the scan starts at the small blind when a fixed UTG seat is set, else at the button heads-up, else at the seat after the button; the first to act is the first seat from there, going round, that is neither folded nor all in, and the start seat itself when every seat is one or the other |
| HandState.StartHand | src/PokerEnv_notorch.cpp:607-635 | a hand starts with the antes collected, both blinds posted, the first preflop seat to act and no last raiser, so the big blind keeps its option |
| HandState.StartHandBlinds | src/PokerEnv_notorch.cpp:2451-2467 | each blind posts its amount, or what is left after the ante when that is shorter |
| HandState.StartHandBalanced | src/PokerEnv_notorch.cpp:2439-2467 | posting antes and blinds keeps every bankroll and leaves the hand invariant (bets and pots account for every chip invested) |
| HandState.AntesBalanced | src/PokerEnv_notorch.cpp:2439-2449 | after the antes each seat's bet is what it invested and its bankroll is unchanged |
| HandState.PostKeeps | src/PokerEnv_notorch.cpp:2451-2467 | a forced bet adds as much to the table's bets as to its investments and keeps every bankroll |
| ActionResolver.MaxBet | src/PokerEnv_notorch.cpp:3324-3330 | the biggest bet is at least every seat's bet and is some seat's bet (0 on an empty table) |
| ActionResolver.LargestBelow | src/PokerEnv_notorch.cpp:2777-2792 | the second value is the biggest bet strictly below the given one, 0 when there is none |
| ActionResolver.CurrentTotalMinRaise | src/PokerEnv_notorch.cpp:2777-2792 | the one-pass loop computes the biggest bet plus the larger of the last raise and the big blind, so at least the biggest bet plus the big blind |
| ActionResolver.CheckCallTarget | src/PokerEnv_notorch.cpp:3438-3447 | a call reaches the biggest bet, or puts in the whole stack when that is short |
| ActionResolver.RaiseTarget | src/PokerEnv_notorch.cpp:3449-3464 | a raise reaches at least the minimum raise and never more than the seat's whole stack |
| ActionResolver.FixedAction | src/PokerEnv_notorch.cpp:3579-3648 | every resolved action is one the acting seat can carry out; a free fold becomes a check; a refused raise becomes a call; bad input is an error |
| ActionResolver.StepAction | src/PokerEnv_notorch.cpp:1320-1352 | a seat at its action limit cannot raise: its raise becomes the call it could make, or a fold |
| ActionResolver.ApplyAction | src/PokerEnv_notorch.cpp:1385-1412 | carrying out an action keeps every bankroll; a raise makes the actor last raiser and counts towards the street's raises |
| BettingRound.CanActWithinNotFolded | src/PokerEnv_notorch.cpp:3332-3338 | seats that can bet are no more than the seats that have not folded |
| BettingRound.MaxBetInHand | src/PokerEnv_notorch.cpp:2469-2525 | the biggest bet among seats still in bounds every such seat's bet |
| BettingRound.YetToActIsPending | src/PokerEnv_notorch.cpp:2469-2525 | the big blind's option branch adds nothing: the per-seat test equals the plain "can bet, and not acted or short of the bet" rule |
| BettingRound.IsBettingDone | src/PokerEnv_notorch.cpp:2469-2525 | betting is over exactly when no seat is still waited for, or after the flop a lone remaining player once somebody acted |
| BettingRound.NobodyToActMeansDone | src/PokerEnv_notorch.cpp:2469-2525 | when nobody can bet, the street's betting is over |
| BettingRound.IsHandDone | src/PokerEnv_notorch.cpp:2527-2559 | the hand is over when flagged, when at most one player has not folded, or before the river when betting is done and nobody left can bet |
| BettingRound.DealNextRound | src/PokerEnv_notorch.cpp:2361-2413 | dealing a street keeps the board's five slots (DealNextRoundFills states which cards go where) |
| BettingRound.DealRemaining | src/PokerEnv_notorch.cpp:2415-2437 | dealing the rest keeps the board's five slots (DealRemainingFills states that all are filled) |
| BettingRound.DealNextRoundFills | src/PokerEnv_notorch.cpp:2361-2413 | on a board holding the earlier streets, dealing the next street fills its slots from the deck after one burnt card |
| BettingRound.DealRemainingFills | src/PokerEnv_notorch.cpp:2415-2437 | with enough cards in the deck, dealing the rest completes all five board slots |
| BettingRound.CollectAndLayer | src/PokerEnv_notorch.cpp:2600-2684 | collecting bets and rebuilding the pots keeps the hand invariant, and the pots then hold exactly what was invested |
| BettingRound.OpenStreet | src/PokerEnv_notorch.cpp:2561-2598 | a new street is dealt, nobody still in has acted, no raise is recorded and the first post-flop seat acts |
| BettingRound.MoveToNextRound | src/PokerEnv_notorch.cpp:2561-2598 | moving on keeps bankrolls and folds, empties bets into pots holding all investments, and either opens the next street or ends the hand with the rest of the board dealt |
| PotLedger.CollectBets | src/PokerEnv_notorch.cpp:2600-2609 | every bet moves into the main pot and nothing else changes |
| PotLedger.CollectBetsKeepsChips | src/PokerEnv_notorch.cpp:2600-2609 | collecting bets keeps the pot size, leaves no bet on the table and does not touch stacks or investments |
| PotLedger.NextLevel | src/PokerEnv_notorch.cpp:2611-2684 | the next level is the smallest investment above the last one, none when there is no such investment |
| PotLedger.LayerChipsIsProduct | src/PokerEnv_notorch.cpp:2611-2684 | a layer holds its height times the number of players who reached it |
| PotLedger.CappedStep | src/PokerEnv_notorch.cpp:2611-2684 | raising the cap from one level to the next adds exactly that layer's chips |
| PotLedger.CalculateSidePots | src/PokerEnv_notorch.cpp:2611-2684 | the levels are the distinct positive investments in increasing order; each investor's rank names the level equal to their investment; the main and side pots are the non-empty layers and add up to all investments |
| Showdown.SortByStrength | src/PokerEnv_notorch.cpp:4261-4285 | the sort is a permutation of the seats with stronger hands first |
| Showdown.GroupSorted | src/PokerEnv_notorch.cpp:4287-4330 | grouping a sorted list splits it into non-empty groups of one strength each, strongest first |
| Showdown.GroupByStrength | src/PokerEnv_notorch.cpp:4287-4330 | the groups together are a permutation of the seats, one strength per group, strongest group first, and none only for no seats |
| Showdown.PotWinners | src/PokerEnv_notorch.cpp:2952-3013 | the winners are eligible contenders, all of the best strength among eligible contenders; every eligible contender tied with a winner is a winner too, and some winner exists whenever an eligible contender does |
| Showdown.DistributePot | src/PokerEnv_notorch.cpp:2952-3013 | for a positive pot the winners are exactly the eligible contenders tied at the best strength; they split the pot evenly and the first also takes the remainder; non-winners get nothing; the awards add up to the pot exactly when somebody wins |
| Showdown.SharesSpec | src/PokerEnv_notorch.cpp:2952-3013 | the shares add up to one share per winner plus the remainder |
| Showdown.PayLayer | src/PokerEnv_notorch.cpp:2879-2950 | one layer goes to the lone showdown player when their rank reaches it, else through pot distribution among those reaching it |
| Showdown.FlattenTop | src/PokerEnv_notorch.cpp:4287-4330 | in strength groups, strongest first, a seat as strong as the first group's lies in the first group |
| Showdown.PotLayers | src/PokerEnv_notorch.cpp:2611-2684 | the pots are the positive layers and exist exactly when somebody invested; they add up to all investments; every investor's rank names a layer and the top investor's the last |
| Showdown.PaySeats | src/PokerEnv_notorch.cpp:2881-2946 | the showdown seats are the eligible investors; only their stacks grow; nothing is paid without one; a lone one takes every layer but those above their rank; all layers are paid when the top investor shows down |
| Showdown.PayPots | src/PokerEnv_notorch.cpp:2879-2946 | the pots add up to the investments and are all positive once someone shows down; a lone showdown player's winnings plus what they cannot reach make up the pots |
| Showdown.LoneLeavesUnreached | src/PokerEnv_notorch.cpp:2890-2917 | after a lone showdown player is paid, what stays in the main and side pots adds up to the layers above their rank |
| Showdown.SeveralLeaveNothing | src/PokerEnv_notorch.cpp:2918-2946 | after several showdown players are paid, the main pot and every side pot are zero |
| Showdown.PotsLeft | src/PokerEnv_notorch.cpp:2901-2941 | the pots left keep the side pot count; nobody at showdown leaves them untouched; with anyone at showdown a non-negative main pot is emptied |
| Showdown.AssignRewards | src/PokerEnv_notorch.cpp:2879-2950 | only stacks change; no stack falls; only eligible investors gain; the paid total is at most the investments, and all of them when the top investor shows down; the pots left behind are the source's: still every investment when nobody shows down, exactly what a lone showdown player could not reach, and all zero when several show down |
| Showdown.TopRank | src/PokerEnv_notorch.cpp:2611-2684 | after the side pots are computed, the top investor's rank is the last layer |
| EngineStep.TopInvestorShowsSame | src/PokerEnv_notorch.cpp:2879-2890 | whether the top investor shows down depends only on the hands, not on stacks, bets or ranks |
| EngineStep.Settle | src/PokerEnv_notorch.cpp:1435-1446 | settling ends the hand, grows each stack by at most what was invested, and by exactly the investments in total when the top investor shows down; with nobody at showdown no stack moves and the pots still hold every investment made; with one player at showdown stacks plus pots hold the chips that were on the table; with several the pots are all zero |
| EngineStep.Advance | src/PokerEnv_notorch.cpp:1420-1446 | after an action the hand invariant and every bankroll are kept, and on the same street the seat to act can act |
| EngineStep.Step | src/PokerEnv_notorch.cpp:1313-1474 | a bad seat or action type is an error; an unfinished hand keeps bankrolls and gives zero rewards; a finished one gives each seat its stack change, adding up to at most (with the top investor showing, exactly) the investments |
| EngineStep.ChipsBeforeSettling | src/PokerEnv_notorch.cpp:1313-1474 | until settlement the table's stacks plus investments add up to what they were |
| HandDescription.Describe | src/PokerEnv_notorch.cpp:3466-3479 | a rank gets the text "Invalid Rank" exactly when it is outside 1..7462 |
| HandDescription.DescribeMatchesClassSizes | src/PokerEnv_notorch.cpp:3466-3479 | the name thresholds are the running totals of the class sizes of the ten categories |
| HandDescription.DescribeMonotone | src/PokerEnv_notorch.cpp:3466-3479 | a stronger rank never gets a weaker category |
| RangeIndex.LexIndex | src/PokerEnv_notorch.cpp:486-497 | the index of c1 < c2 lies in the block of pairs whose lower card is c1 |
| RangeIndex.LexIndexInjective | src/PokerEnv_notorch.cpp:486-497 | distinct pairs get distinct indices |
| RangeIndex.LexRoundTrip | src/PokerEnv_notorch.cpp:486-497 | the pair at a pair's index is the pair itself |
| RangeIndex.InitRangeIdxLut | src/PokerEnv_notorch.cpp:486-497 | the nested loops number the 1326 pairs in order; the forward table holds exactly the valid pairs and the reverse table inverts it |
| RangeIndex.ColexIndex | src/state.rs:314-348 | the index of hi > lo lies in the block of pairs whose higher card is hi |
| RangeIndex.ColexInjective | src/state.rs:314-348 | distinct pairs get distinct co-lexicographic indices |
| RangeIndex.ColexRoundTrip | src/state.rs:314-348 | every index names exactly one pair and every pair of distinct cards gets its index back |
| SuitMap.BeforeTotalOrder | src/state.rs:352-403 | the sort comparator is a strict total order on the four suits |
| SuitMap.CanonicalSuitMap | src/PokerEnv_notorch.cpp:4977-5036 | the canonical map is a permutation of the four suits that puts one suit before another exactly when the comparator does |
| SuitMap.CanonicalSuitMapOrderFree | src/state.rs:352-403 | the map depends only on which cards are on the board, not their order |
| PreflopTable.Lookup | src/state.rs:286-310 | the lookup returns the place of the first matching row, or the fallback 169 |
| PreflopTable.Evaluate2CardsSymmetric | src/state.rs:286-310 | the order of the two hole cards does not matter |
| PreflopTable.Evaluate2Cards | src/state.rs:286-310 | the table lookup of the higher value, the lower value and suitedness; `PreflopTable.Evaluate2CardsRange`, `Evaluate2CardsAsWritten` and `Evaluate2CardsSeparates` state its values |
| PreflopTable.Evaluate2CardsOfClass | src/state.rs:286-310 | the evaluation of two cards is the lookup of their class |
| PreflopTable.MatchesIsSameCell | src/state.rs:286-310 | on well-formed rows, the row test is equality of chart cells |
| PreflopTable.FullPlaceInRange | src/state.rs:109-285 | with the table complete every class gets a place in 1..169 |
| PreflopTable.FullPlaceInjective | src/state.rs:109-285 | with the table complete different classes get different places |
| PreflopTable.FullPlaceOnto | src/state.rs:109-285 | with the table complete every place 1..169 belongs to some class |
| PreflopTable.LookupPairIgnoresSuit | src/state.rs:286-310 | a pair's suitedness plays no part in the lookup |
| PreflopTable.MissingRows | src/state.rs:109-285 | the classes with no row in the source's table are exactly A3s, A4s and A6s |
| PreflopTable.HandRankingsAsWritten | src/state.rs:109-310 | as written the three missing suited aces get the fallback 169 and every other class gets its proper place |
| PreflopTable.Evaluate2CardsRange | src/state.rs:286-310 | the result is between 1 and 169 |
| PreflopTable.SevenDeuceOffsuit | src/state.rs:286-310 | 72o, named as the weakest hand, gets 169 |
| PreflopTable.FallbackCollision | src/state.rs:109-310 | as written A3s and 72o are different classes that both get 169 |
| PreflopTable.Evaluate2CardsFull | src/state.rs:286-310 | with the missing rows restored the result is the class's place, within 1..169 |
| PreflopTable.Evaluate2CardsFullSeparates | src/state.rs:286-310 | with the missing rows restored two hands get the same place exactly when they are of the same class |
| PreflopTable.Evaluate2CardsAsWritten | src/state.rs:109-310 | the table as written gives the completed table's place except to the three missing classes, which fall back to 169 |
| PreflopTable.Evaluate2CardsSeparates | src/state.rs:109-310 | as written two hands get the same place exactly when they are of the same class or both sit at 169 |
| RustState.CanonicalIndexInjective | src/state.rs:314-348 | suit renaming keeps different cards at different indices |
| RustState.CalculateRangeIdx | src/state.rs:314-348 | a missing player gets -1; preflop the index is the place the table as written gives less one, in 0..168; postflop it is the index of the canonical pair, which names that pair back |
| RustState.PreflopIndexSeparates | src/state.rs:314-348 | as written, two players share a preflop range index exactly when their hands are of the same class or both fall back to the last place (A3s, A4s, A6s, 72o) |
| RustState.RangeIdxAsWritten | src/state.rs:314-348 | as written, the preflop index differs from the corrected one exactly on the three classes missing from the table, which get 168 |
| RustState.CalculateRangeIdxFixed | src/state.rs:314-348 | corrected: preflop the index is the class's place in the completed table less one; otherwise as written |
| RustState.PreflopIndexSeparatesFixed | src/state.rs:314-348 | corrected: two players share a preflop range index exactly when their hands are of the same class |
| RustState.PostflopPair | src/state.rs:314-348 | two different hole cards give a canonical pair whose number lies in 0..1325 and decodes back to the pair |
| RustState.RangeIdxBoardOrderFree | src/state.rs:314-348 | after the flop the range index depends on the board's cards, not their order |
| RustState.UpdateRangeIndices | src/state.rs:406-411 | every player's range index is recomputed and nothing else changes |
| RustState.UpdateRangeIndicesIdempotent | src/state.rs:406-411 | recomputing the range indices a second time changes nothing |
| HandClassifier.Runs | src/game_logic.rs:714-735 | a non-empty sorted list has at least one run of equal values |
| HandClassifier.Groups | src/game_logic.rs:714-735 | a non-empty list of values has at least one rank group |
| HandClassifier.EncodeFromTop | src/game_logic.rs:804-810 | the high-card code compares from the top card: a higher top card gives a stronger code whatever lies below |
| HandClassifier.Classify | src/game_logic.rs:736-802 | the category of a score is one of 1..10, whatever the shape of the hand |
| HandClassifier.RankCardCombination | src/game_logic.rs:714-802 | the score's category is one of 1..10 |
| HandClassifier.RankCardCombinationOrderFree | src/game_logic.rs:714-802 | the score depends only on which five cards are given, not on their order |
| HandClassifier.WheelIsStraight | src/game_logic.rs:736-747 | A-2-3-4-5 is a straight, or a straight flush when suited |
| HandClassifier.WheelBeatsSixHigh | src/game_logic.rs:762-782 | as written the wheel scores better than the six-high straight |
| HandClassifier.StraightScore | src/game_logic.rs:762-782 | five different values in sequence score as a straight (flush), valued by their high-card code |
| HandClassifier.RankCardCombinationFixed | src/game_logic.rs:714-802 | with straights valued by their top card the score's category is one of 1..10 |
| HandClassifier.FixedChangesOnlyStraights | src/game_logic.rs:714-802 | the fix changes only the value of straights and straight flushes |
| HandClassifier.RankCardCombinationFixedOrderFree | src/game_logic.rs:714-802 | with the fix the score still depends only on which cards are given |
| HandClassifier.FixedStraightScore | src/game_logic.rs:762-782 | with the fix a straight short of the royal flush is valued by its top card |
| HandClassifier.FixedStraightsByTop | src/game_logic.rs:762-782 | with the fix, of two straights of the same kind the higher top card wins, and the wheel is the lowest |
| HandClassifier.Choose | src/game_logic.rs:695-712 | every combination has exactly k cards (PickIsChosen and ChosenIsPick state which they are) |
| HandClassifier.PickIsChosen | src/game_logic.rs:695-712 | every choice of k positions is among the combinations |
| HandClassifier.ChosenIsPick | src/game_logic.rs:695-712 | every combination is a choice of k positions |
| HandClassifier.MinScore | src/game_logic.rs:695-712 | the minimum is in the list and no entry is below it |
| HandClassifier.RankHand | src/game_logic.rs:695-712 | the hand's rank is the as-written score of some five-card choice, and no choice scores better |
| HandClassifier.BestScore | src/game_logic.rs:695-712 | for any five-card classifier, the result is the score of some five-card choice and no choice scores better |
| HandClassifier.RankHandFixed | src/game_logic.rs:695-712 | corrected: the same minimum over the fixed classifier, straights valued by their top card |
| RustBetting.NextStage | src/game_logic.rs:585-591 | the stage advances one step and showdown stays |
| RustBetting.CardsToCome | src/game_logic.rs:592-599 | at most five cards are still to come, and none at showdown |
| RustBetting.LegalActions | src/game_logic.rs:660-692 | fold exactly while the hand is open; check-call while open unless the player is all in facing a larger bet; bet-raise exactly while open with chips behind; in fold, check-call, bet-raise order |
| RustBetting.CallMove | src/game_logic.rs:198-216 | a check moves nothing; a call moves the missing chips or the whole stake, whichever is less, from stake to bet, and leaves a non-negative stake |
| RustBetting.RaiseMove | src/game_logic.rs:218-240 | a bet or raise moves the chips asked for (the amount, plus the missing chips when there is a bet to match) or the whole stake, whichever is less |
| RustBetting.MoveChips | src/game_logic.rs:190-247 | only the actor changes; a fold puts the bet in the pot share and sets the reward to minus what was put in, a call or raise moves chips as CallMove and RaiseMove state; chips owned are kept, the pot grows by what is bet and the bet to match rises to a higher bet |
| RustBetting.MoveChipsTotals | src/game_logic.rs:190-247 | an action keeps the chips the table owns, and the pot still holds what is committed |
| RustBetting.SetWinners | src/game_logic.rs:555-583 | the winners share what the others committed, the others lose what they committed, and the hand is over with nobody in it |
| RustBetting.WinnerCount | src/game_logic.rs:555-583 | with seat-numbered players, as many players win as there are distinct seated winners |
| RustBetting.SetWinnersZeroSum | src/game_logic.rs:555-583 | the payout is zero-sum |
| RustBetting.ScanFrom | src/game_logic.rs:631-642 | the scan returns a seat of the table, the first eligible one going round from the start |
| RustBetting.ScanFinds | src/game_logic.rs:631-642 | when any seat is eligible the scan stops on an eligible seat |
| RustBetting.Deal | src/game_logic.rs:596-598 | dealing only moves cards from the deck to the board: board followed by deck is unchanged |
| RustBetting.ToNextStage | src/game_logic.rs:585-652 | with the rest of the board dealt when nobody active has chips, cards move from deck to board in order, every bet is collected, nobody's chips change, and the hand reaches a street with an eligible player to act or showdown with five board cards; whenever an eligible player is left, the street is opened by the first eligible seat scanning from the one after the button |
| RustBetting.SeatFirst | src/game_logic.rs:631-650 | when some seat is eligible, the turn goes to the first eligible seat scanning from the one after the button; when none is, the turn is left on the seat after the button and nothing else changes |
| RustBetting.NextStreet | src/game_logic.rs:585-652 | the next stage is reached with its cards dealt and bets collected; with an eligible player left the first eligible seat after the button opens it, else the turn rests on the seat after the button |
| RustBetting.ToNextStageAsWritten | src/game_logic.rs:585-652 | as written: bets are collected and only the next stage's cards are dealt; with an eligible player left the next stage is opened by the first eligible seat after the button, and with none the hand is at showdown |
| RustBetting.AsWrittenAgrees | src/game_logic.rs:618-629 | the as-written and corrected street changes agree whenever an active player has chips behind or the river is left |
| RustBetting.SkipToShowdown | src/game_logic.rs:287-289 | the loop ends at showdown with the full board and keeps every player's chips |
| RustBetting.SkipToShowdownAsWritten | src/game_logic.rs:287-289 | the loop over the street change as written ends at showdown |
| RustBetting.AllInPreflopAsWritten | src/game_logic.rs:618-629 | as written players all in preflop reach showdown with only the three flop cards dealt |
| RustBetting.ActivePlayers | src/game_logic.rs:252-256 | the active players in seat order, exactly the seats that are active |
| RustBetting.WinnerIdsDistinct | src/game_logic.rs:523-547 | the showdown winner ids are increasing, so without repeats |
| RustBetting.MinIsBest | src/game_logic.rs:523-547 | the smallest score is the one no other score beats |
| RustBetting.ShowdownWinners | src/game_logic.rs:523-547 | the winners are active players with the best score; no active player beats a winner, and every player tying the best score wins |
| RustEngine.DealOrderOnto | src/game_logic.rs:86-100 | every position in the dealing order is some seat's |
| RustEngine.FromDeck | src/game_logic.rs:54-146 | arguments are rejected in the source's order with the source's messages, and only when one fails; on success the table is the deal, and with five cards left for the board it satisfies the hand invariant |
| RustEngine.DealtFromOpening | src/game_logic.rs:124-145 | computing the range indices and legal actions changes nothing else: the players keep everything but their range index |
| RustEngine.DealtHands | src/game_logic.rs:99-122 | the players are listed by seat number and the seat dealt i-th, going round from the seat after the button, holds deck cards 2i and 2i + 1 |
| RustEngine.DealtChips | src/game_logic.rs:100-119 | every player is in with the stake split between the chips in front and behind, and the two seats after the button post the small and the big blind |
| RustEngine.DealtPot | src/game_logic.rs:102-136 | the pot holds exactly the blinds, which are all the chips in front, and the players own n stakes between them |
| RustEngine.DealtTurn | src/game_logic.rs:124-144 | the hand opens preflop with no board and the rest of the deck, the big blind to match, the third seat after the button on turn and its legal actions listed |
| RustEngine.DealtStarts | src/game_logic.rs:99-145 | after the deal each player owns exactly the stake and a seated player is on turn before the flop |
| RustEngine.DealtWellFormed | src/game_logic.rs:99-145 | a deal that leaves five cards for the board satisfies the hand invariant |
| RustEngine.StartWellFormed | src/game_logic.rs:54-146 | a fresh deal with five cards left for the board satisfies the hand invariant |
| RustEngine.MaxBet | src/game_logic.rs:467-476 | the largest bet is at least every bet and is zero or some player's bet |
| RustEngine.MeaningfulEligible | src/game_logic.rs:258-275 | a player with a meaningful stake can still bet |
| RustEngine.Payout | src/game_logic.rs:555-583 | paying distinct seated winners ends the hand with nobody in and zero-sum rewards |
| RustEngine.WinnersSeated | src/game_logic.rs:523-547 | the showdown winners are distinct seated players |
| RustEngine.NextStageKeeps | src/game_logic.rs:585-652 | for the corrected street change: the street change keeps the hand's shape, every player's chips and who is in |
| RustEngine.SkipKeeps | src/game_logic.rs:287-289 | for the corrected run-out: running out to showdown keeps the shape, chips and who is in, and completes the board |
| RustEngine.Finish | src/game_logic.rs:518-553 | the hand is over exactly when one player is left or showdown is reached; otherwise players, pot and turn are unchanged and the player on turn can act; the hand invariant is kept |
| RustEngine.Continue | src/game_logic.rs:417-553 | with the corrected street change: after the next player is found, the round's end, the run-out and the finish keep the hand invariant and the chips |
| RustEngine.ShowdownNow | src/game_logic.rs:426-445 | with the corrected run-out: players all short of chips go to showdown, the hand ends and the invariant is kept |
| RustEngine.NextRound | src/game_logic.rs:493-495 | with the corrected street change: a finished betting round moves to the next street; the invariant is kept, and unless the hand ended an eligible player is on turn with the pot and chips owned unchanged |
| RustEngine.RunOut | src/game_logic.rs:497-517 | with the corrected run-out: a hand where at most one player can bet runs to showdown; the invariant is kept, and unless the hand ended the players and pot are unchanged and an eligible player is on turn |
| RustEngine.PassOn | src/game_logic.rs:358-375 | with the corrected street change: the turn passes on round the table; the invariant is kept, and unless the hand ended an eligible player is on turn with the pot and chips owned unchanged |
| RustEngine.AfterMove | src/game_logic.rs:249-416 | with the corrected street change: after the chips move, either the hand runs out to showdown or the turn passes to an eligible seat, keeping the invariant |
| RustEngine.ApplyAction | src/game_logic.rs:148-553 | with the corrected street change: a finished or errored hand is unchanged; an action at showdown is illegal and ends the hand; an illegal action ends it with an error and no chips moved; a legal one keeps the invariant and the chips owned |
| RustEngine.Act | src/game_logic.rs:190-553 | with the corrected street change: a legal action by the player to act keeps the invariant and the table's chips |
| RustEngine.MoveKeeps | src/game_logic.rs:190-247 | moving one player's chips keeps the shape, the chips owned and the pot equal to the chips committed |
| RustEngine.Play | src/game_logic.rs:835-854 | with the corrected street change: through any sequence of actions the state stays well formed, the chips stay put while the hand runs, and a hand ending normally is zero-sum |
| RustEngine.ZeroSumGame | src/game_logic.rs:835-854 | with the corrected street change: from a deal with five board cards left, whatever actions follow, a running hand holds the starting stakes and a normally ended hand's rewards add up to zero |
| SeatScan.FirstFrom | src/PokerEnv_notorch.cpp:3297-3306 | the offset found is the first in the range whose seat passes the test, none if no seat there passes |
| SeatScan.FullLapNone | src/PokerEnv_notorch.cpp:3297-3306 | a full-lap scan finding nothing means no seat passes |
| LayeredPots.Levels | src/game_logic_new.rs:855-857 | the levels come out sorted without repeats |
| LayeredPots.LevelsMembers | src/game_logic_new.rs:843-857 | a value is a level exactly when it is some player's positive pot share |
| LayeredPots.LevelsSpaced | src/game_logic_new.rs:859-866 | when positive shares are more than 1e-9 apart from each other and from zero, no level is skipped as too thin |
| LayeredPots.BestScanBest | src/game_logic_new.rs:870-895 | the scan ends on the best rank among the seats no worse than its start |
| LayeredPots.BestScanMember | src/game_logic_new.rs:870-895 | the scan's winners are exactly the seats with the rank it ends on |
| LayeredPots.LayerWinnerIff | src/game_logic_new.rs:860-900 | a player wins a layer exactly when still in, their share reaches it, and nobody such holds a better hand |
| LayeredPots.PayLayerAt | src/game_logic_new.rs:860-905 | a layer's winners each gain an equal part of what was paid into it, everybody else keeps their reward |
| LayeredPots.PayLayersGrow | src/game_logic_new.rs:860-905 | no reward goes down while the layers are paid |
| LayeredPots.PayLayersFolded | src/game_logic_new.rs:860-905 | a folded player wins no layer |
| LayeredPots.PayLayersSum | src/game_logic_new.rs:860-905 | when no layer is skipped and each has a live player, the layers pay out exactly what the table put in |
| LayeredPots.ResolvePots | src/game_logic_new.rs:838-912 | rewards stay zero when nobody put chips in; otherwise a folded player gets nothing back and nobody loses more than they put in |
| LayeredPots.ResolvePotsZeroSum | src/game_logic_new.rs:838-912 | with no skipped layer and a live player covering everyone, the settlement only moves chips: the rewards add up to zero |
| DraftRules.RankOrFallback | src/game_logic_new.rs:949-972 | the rank is better than no rank; with fewer than three board cards it is the source's fallback rank (10,0,0), otherwise the as-written score of some five of board and hole cards (the drafts' classifier is the main engine's, line for line) |
| DraftRules.Gather | src/game_logic_new.rs:659-702 | at a street end the bet moves into the pot share and everyone must act again |
| DraftRules.GatherVersusCollect | src/game_logic_new.rs:659-702 | gathering differs from the main engine's bet collection only in forgetting the last action of an all-in player |
| DraftRules.GatherKeepsCounts | src/game_logic_new.rs:704-712 | gathering keeps the number of active players and of active players with chips |
| DraftRules.PocketAllTotals | src/game_logic_new.rs:816-834 | pocketing bets keeps the chips owned and the pot still holds what was committed |
| DraftRules.GatherAllTotals | src/game_logic_new.rs:659-702 | gathering bets keeps the chips owned and the pot still holds what was committed |
| DraftRules.DealUpTo | src/game_logic_new.rs:740-772 | up to k cards move from the deck to the board, as many as the deck has |
| DraftRules.CallChips | src/game_logic_new.rs:233-262 | a call adds nothing when level, otherwise the difference, or the whole stake when short or when less than one chip would remain |
| DraftRules.RaiseChips | src/game_logic_new.rs:266-300 | a raise adds what reaches the target, never more than the stake and nothing if already there |
| DraftRules.Folded | src/game_logic_new.rs:219-230 | a fold takes the player out, pockets the bet and sets the reward to minus what was put in |
| DraftRules.Apply | src/game_logic_new.rs:196-314 | one move changes only the actor, commits from the stake, and records the call's chips or the raise's bet |
| DraftRules.ApplyRaise | src/game_logic_new.rs:266-300 | a raise never lowers the bet to match and leaves it at least the raiser's bet |
| DraftRules.ApplyTotals | src/game_logic_new.rs:196-314 | a move keeps every player's chips and the pot grows by exactly what is committed |
| DraftRules.SettledForEngine | src/game_logic_new.rs:103-136 | a round the drafts call settled is settled for the main engine too |
| DraftRules.BigBlindSeat | src/game_logic_new.rs:120-130 | two seats after the button is the same seat counted either way |
| DraftRules.Settle | src/game_logic_new.rs:816-834 | bets are pocketed and rewards set by the layered settlement |
| DraftRules.SettleZeroSum | src/game_logic_new.rs:816-834 | under the settlement's hypotheses the rewards add up to zero |
| DraftRules.DeactivateKeepsRewards | src/game_logic_new.rs:816-834 | taking everybody out keeps the rewards |
| DraftNew.DraftLegal | src/game_logic_new.rs:333-356 | nothing when closed or out of chips; otherwise fold and check-call, plus bet-raise with a positive stake |
| DraftNew.DraftLegalMatchesEngine | src/game_logic_new.rs:333-356 | for a player with chips behind the draft offers what the main engine offers |
| DraftNew.MakeActionLegal | src/game_logic_new.rs:166-192 | a legal action is kept, an illegal one is converted to a legal fallback when there is one |
| DraftNew.MakeActionLegalIdempotent | src/game_logic_new.rs:166-192 | making an action legal twice changes nothing more |
| DraftNew.FindNextActivePlayer | src/game_logic_new.rs:139-157 | the seat found is active with chips, and none only after a lap finding nobody |
| DraftNew.FindNextIsFirst | src/game_logic_new.rs:139-157 | the seat found is the first after the current one that can act |
| DraftNew.ProbeLap | src/game_logic_new.rs:139-157 | a full lap finds a seat exactly when somebody can act, and it is the main engine's scan result |
| DraftNew.RaiseTotal | src/game_logic_new.rs:266-283 | the raise target is the whole stake, the bet to match or what is asked, as the draft's branches say |
| DraftNew.ShortRaiseIsAllIn | src/game_logic_new.rs:266-283 | a short stack goes all in on a raise |
| DraftNew.Step | src/game_logic_new.rs:196-331 | a step keeps stage, board and deck, records one action, and unless the round is over hands the turn to a player who can act |
| DraftNew.StepTotals | src/game_logic_new.rs:196-331 | a step keeps every player's chips and the pot holds what was committed on top of what it held |
| DraftNew.SetWinners | src/game_logic_new.rs:816-834 | bets pocketed, rewards settled, everybody out and the hand over |
| DraftNew.SetWinnersZeroSum | src/game_logic_new.rs:816-834 | with the settlement's hypotheses the rewards add up to zero |
| DraftNew.HandleShowdown | src/game_logic_new.rs:775-813 | the hand ends exactly when it had ended already or somebody is still in, and afterwards nobody is in |
| DraftNew.CompleteToShowdown | src/game_logic_new.rs:740-772 | the rest of the board as far as the deck goes, then showdown |
| DraftNew.NextStreet | src/game_logic_new.rs:659-702 | the street change gathers bets, deals the next stage and clears the bet to match |
| DraftNew.OpenStreet | src/game_logic_new.rs:718-737 | when some seat can act, only the turn changes and it goes to the first seat, scanning from the one after the button, that is active with chips behind; otherwise the board is run out |
| DraftNew.AdvanceAsWritten | src/game_logic_new.rs:659-737 | as written, leaving the river with two players who can act reaches showdown unsettled with a player on turn |
| DraftNew.RiverHandStuck | src/game_logic_new.rs:601-737 | as written such a hand then refuses every action and is never marked over |
| DraftNew.Advance | src/game_logic_new.rs:659-737 | corrected: the hand goes to the next street with a player who can act, or reaches showdown and is settled whenever anybody is in |
| DraftNew.AdvanceAgreesBeforeRiver | src/game_logic_new.rs:659-737 | the corrected and as-written advance agree on every street but the river |
| DraftNew.ApplyAction | src/game_logic_new.rs:601-650 | as written: stopped or finished hands are unchanged; at showdown the action is refused; otherwise the move is made and the hand stays on with an eligible player and the legal actions, or the round ends, the hand advances as written and no legal actions are published |
| DraftNew.ApplyActionFixed | src/game_logic_new.rs:601-650 | corrected: the same, and a hand that reaches showdown has nobody left in |
| DraftNew.ApplyAgreesBeforeRiver | src/game_logic_new.rs:601-737 | before the river the as-written and corrected apply_action give the same state |
| DraftNew.RiverCloseStuck | src/game_logic_new.rs:601-737 | as written, an action closing the river with two funded players leaves the hand at showdown and not over; the corrected one ends it |
| DraftOld.ConvertIllegal | src/game_logic_old.rs:949-970 | a legal action is kept; an illegal call becomes a fold, an illegal raise a call when legal and a fold otherwise |
| DraftOld.ConvertAgreesWithNew | src/game_logic_old.rs:949-970 | where folding is legal, both drafts convert an action alike |
| DraftOld.RaiseTotal | src/game_logic_old.rs:1064-1121 | the raise target is the whole stake, the bet to match or what is asked, as the old draft's branches say |
| DraftOld.RaiseAgreesWithNew | src/game_logic_old.rs:1064-1121 | with a stake covering the bet and a chip, both drafts raise to the same total |
| DraftOld.ShortRaiseIsAllIn | src/game_logic_old.rs:1064-1121 | a raise asking for more than leaves a chip behind goes all in |
| DraftOld.SetWinners | src/game_logic_old.rs:1456-1556 | bets pocketed; with nobody funded the hand just ends, otherwise layered settlement and everybody out |
| DraftOld.SetWinnersZeroSum | src/game_logic_old.rs:1456-1556 | with the settlement's hypotheses the rewards add up to zero |
| DraftOld.SetWinnersAgree | src/game_logic_old.rs:1456-1556 | both drafts settle a funded hand the same way |
| DraftOld.CloseRound | src/game_logic_old.rs:1232-1265 | a finished round moves to the next street and the turn passes from the last mover, keeping every player's chips |
| DraftOld.CompleteToShowdown | src/game_logic_old.rs:1359-1454 | bets pocketed, the rest of the board dealt as far as the deck goes, showdown, and settlement when anybody is in |
| DraftOld.PocketKeepsActive | src/game_logic_old.rs:1359-1454 | pocketing bets keeps who is in |
| DraftOld.ToNextStage | src/game_logic_old.rs:1558-1670 | the next stage and its cards, bets gathered, chips kept; unless at showdown, the seat to act is eligible and is the first after the button |
| DraftOld.NextToActAsWritten | src/game_logic_old.rs:1242-1265 | as written the next player is the first seat that can act after the last mover |
| DraftOld.NextToActAsWrittenIsNeighbour | src/game_logic_old.rs:1242-1265 | as written, when the seat after the last mover can act it is chosen, whoever holds the button |
| DraftOld.ButtonOpensFlopAsWritten | src/game_logic_old.rs:1242-1265 | three players, button 0, big blind closing preflop: as written the button opens the flop, not the seat after it |
| DraftOld.NextToAct | src/game_logic_old.rs:1242-1265 | corrected: after a street change the player chosen by the street change acts |
| DraftOld.StreetOpenedAfterButton | src/game_logic_old.rs:1558-1670 | after a street change the first seat after the button that can act opens the street |
| DraftOld.PassTurn | src/game_logic_old.rs:1242-1356 | the turn passes to the first seat after the last mover that can act, with its legal actions published, or the board is run out, keeping every player's chips |
| DraftOld.AfterMove | src/game_logic_old.rs:1182-1356 | after a move every player's chips are kept, and a running hand either has an eligible player on turn with current legal actions or nobody left in |
| DraftOld.ApplyAction | src/game_logic_old.rs:927-1356 | stopped hands unchanged; at showdown refused and over; otherwise a hand in play keeps a legal player on turn with current legal actions, and every player's chips are kept |
| SeatTable.NewTable | src/game_server.rs:66-89 | a new table has nobody registered or seated, the dealer at seat 1, no hand, and without a given configuration six seats and 1000 chips |
| SeatTable.Register | src/game_server.rs:98-128 | a known id reconnects; a new name taken by a connected player is refused; otherwise the player joins unseated with the default stack; seat agreement is kept |
| SeatTable.Disconnect | src/game_server.rs:252-258 | a known player is marked disconnected and nothing else changes |
| SeatTable.ReconnectRestores | src/game_server.rs:98-128 | dropping out and reconnecting under the same name restores the table |
| SeatTable.SeatPlayer | src/game_server.rs:130-156 | out-of-range, taken seats and unknown players are refused in that order; on success the player sits at the seat, the old seat is freed and seat agreement is kept |
| SeatTable.SeatOrder | src/game_server.rs:299-314 | the taken seats in strictly increasing order, each once |
| SeatTable.RotateDealer | src/game_server.rs:299-314 | the dealer stays with no seats taken and moves to a taken seat otherwise |
| SeatTable.RotateDealerWraps | src/game_server.rs:299-314 | from an empty seat or the highest taken seat the dealer moves to the lowest taken seat |
| SeatTable.RotateDealerIsNextSeat | src/game_server.rs:299-314 | from a taken seat below the highest the dealer moves to the lowest taken seat above it |
| SeatTable.TurnSeatAsWritten | src/game_server.rs:209-213 | as written player i is read as seat i + 1, wrapping as a u8 |
| SeatTable.ButtonAsWritten | src/game_server.rs:175-180 | as written the button is the dealer's seat less one, wrapping as a u8 |
| SeatTable.GapStrandsTurnAsWritten | src/game_server.rs:175-213 | with seats 1 and 3 and the dealer at 1, as written the player on turn is read as empty seat 2 |
| SeatTable.ContiguousSeatsAgree | src/game_server.rs:175-213 | with seats 1..n taken, the seat order reads seat i + 1 for player i, as written |
| SeatTable.StartGame | src/game_server.rs:158-195 | with the corrected seat mapping: fewer than two seats, no dealer or a missing dealer player are refused; on success the hand runs with every seated player dealt in seat order, the button on the dealer, and the default stacks |
| SeatTable.StartedTurnIsSeated | src/game_server.rs:158-213 | dealt by seat order, the player on move at the start sits at a taken seat and passes the turn check |
| SeatTable.ToEngine | src/game_server.rs:216-222 | check and call map to check-call, bet and raise to bet-raise with the same amount, fold to fold |
| SeatTable.ToEngineCollapses | src/game_server.rs:216-222 | two moves reach the engine alike exactly when equal, both check or call, or a bet and raise of the same amount |
| SeatTable.SyncChips | src/game_server.rs:260-271 | with the corrected seat mapping: a player dealt in shows stake plus bet, everyone else and every other field is unchanged |
| SeatTable.EndChipsAsWritten | src/game_server.rs:276-284 | as written the chips shown are stake plus reward, at least zero |
| SeatTable.LoserChargedTwiceAsWritten | src/game_server.rs:276-284 | as written a player who lost x from a stack is shown stack - 2x |
| SeatTable.EndChips | src/game_server.rs:276-284 | corrected: the chips shown are the starting stack plus the reward, at least zero |
| SeatTable.EndChipsKeepsStake | src/game_server.rs:276-284 | corrected, a player dealt in keeps the stack less what they put in plus what they won |
| SeatTable.EndHand | src/game_server.rs:273-297 | with the corrected seat mapping and chips: every player dealt in is settled, the hand is cleared, the table stops and the dealer rotates |
| SeatTable.Follow | src/game_server.rs:228-247 | with the corrected seat mapping: after the engine's move the chips shown follow the hand and a finished hand is settled; seat agreement is kept |
| SeatTable.HandleAction | src/game_server.rs:197-250 | with the corrected turn check: no hand, unknown, unseated or off-turn players are refused in that order; otherwise the engine applies the move, the hand stays well formed and seat agreement is kept |
| SeatTable.OnMove | src/game_server.rs:209-213 | with the corrected seat mapping: a seat is on move when it is the seat of the engine's current player in the seat order |
| SeatTable.CallAmount | src/game_server.rs:489-498 | the call amount is what is missing to the bet to match, at least zero and at most what is behind |
| SeatTable.CanCheck | src/game_server.rs:479-487 | a player on the table can check when their bet already matches the bet to match; `SeatTable.CanCheckIffNothingToCall` ties it to the call amount |
| SeatTable.CanCheckIffNothingToCall | src/game_server.rs:479-498 | with chips behind a player can check exactly when there is nothing to call |
| SeatTable.CallAmountIsEngineCall | src/game_server.rs:489-498 | the call amount shown is what the engine moves when the player on move checks or calls |

## Left out

- Observation and feature vectors, reward normalisation, pot-fraction raise sizing and the JSON configuration reader of the C++ environment: they do not change the game's state.
- The random number generator: the randomly drawn button is the parameter `drawn` of `PokerTable.ResetPositions`, the shuffled deck is an argument of the reset and of `RustEngine.FromDeck`, and the Rust `from_seed` shuffle is not modelled.
- The C++ hand evaluator is a foreign call: showdown takes per-seat ranks as a parameter (lower is stronger).
- The Rust `Card::collect` deck is not part of this model: `SeatTable.StartGame` takes the deck as an argument.
- Floating point: C++ `float` rewards and Rust `f64` chips are exact integers and reals; rounding is not modelled.
- The suit-map cache, debug printing and `Card` allocation in the C++ engine: no effect on results.
- The game server's transport, broadcasting, async locking, tracing and display helpers (`get_max_bet`, card display): no effect on the table's state.
- `get_min_raise_amount` in the game server: it reads a big-blind field the engine state does not have.
- Branches the source guards against but cannot reach from a well-formed state (a player index off the table, a failed seat scan after the stake check) are excluded by the `WellFormed` preconditions of `RustEngine.ApplyAction` and `SeatTable.HandleAction`; the table only ever holds states produced by `from_deck` and `apply_action`.
- RustEngine.FromDeck: the invariant is only established when the deck holds 2n + 5 cards; with fewer the source panics when the board is dealt.
- The drafts' bookkeeping fields (verbose flags, seeds, the per-round context's action counters) do not affect the chips or the turn and are left out.
- HandClassifier.Runs: only states that a non-empty list has a run; the run counts are used through the classifier's lemmas rather than given their own contract.
- HandClassifier.Groups: only states that a non-empty list has a group; the ordering by count then value is not given its own contract.
- HandClassifier.Classify: only the category range is stated for every shape; the straight and straight-flush categories are stated by `StraightScore`, `WheelIsStraight` and `FixedStraightScore`, the other categories' order of tests is not.
- LayeredPots.ResolvePotsZeroSum: zero-sum is proved only when every rank is a real hand's, no layer is thin enough to be skipped, shares are non-negative, and a live player covers everyone; otherwise the source may leave chips unpaid.
- DraftNew.SetWinnersZeroSum: holds under the same hypotheses as the layered settlement.
- DraftOld.SetWinnersZeroSum: holds under the same hypotheses as the layered settlement.
- DraftOld.ApplyAction: no whole-game zero-sum theorem is stated for the drafts; each step keeps every player's chips.
- SeatTable.Register: a reconnecting id may take a name another connected player already uses, as in the source; name uniqueness is kept only for new ids.
- SeatTable.SyncChips: models the corrected mapping of the Findings row on `src/game_server.rs:175-213`: a member dealt in is found by the place of their seat in the hand's seat order, where the source reads engine player `seat - 1`; the two agree only when seats 1..n are taken (`SeatTable.ContiguousSeatsAgree`). It also reads each member's own seat field instead of walking the seat map, which under `SeatTable.Consistent` is the same.
- SeatTable.StartGame: models the corrected mapping: the engine's button is the dealer's place in the seat order, where the source passes `dealer_seat - 1` (`SeatTable.ButtonAsWritten`) and `from_deck` refuses it when it is not below the number of players.
- SeatTable.OnMove: models the corrected turn check, the seat at the engine player's place in the seat order, where the source compares with `current_player + 1` (`SeatTable.TurnSeatAsWritten`).
- SeatTable.EndHand: models the corrected mapping and the corrected chips `SeatTable.EndChips`; the source reads engine player `seat - 1` and shows `SeatTable.EndChipsAsWritten`.
- SeatTable.HandleAction: models the corrected turn check `SeatTable.OnMove` and settles through `SeatTable.Follow`, so it inherits the corrected mapping and chips; it also requires the running hand to satisfy the engine's invariant, which every state the table stores does.
- SeatTable.Follow: inherits the corrected mapping and end-of-hand chips of `SeatTable.SyncChips` and `SeatTable.EndHand`, and the corrected street change of `RustEngine.ApplyAction`.
- SeatTable.CanCheck: takes the engine player's index; the source computes it as `seat - 1`, which names the right player only when seats 1..n are taken.
- SeatTable.CallAmount: takes the engine player's index; the source computes it as `seat - 1`, which names the right player only when seats 1..n are taken.
- RustEngine.ApplyAction: composes the corrected street change `RustBetting.ToNextStage` and `RustBetting.SkipToShowdown`, which deal the rest of the board before showdown; the source's street change (`RustBetting.ToNextStageAsWritten`) can reach showdown with fewer than five board cards, which the hand invariant `RustEngine.Shaped` rules out.
- RustEngine.Act: composes the corrected street change, as `RustEngine.ApplyAction` does.
- RustEngine.AfterMove: composes the corrected street change, as `RustEngine.ApplyAction` does.
- RustEngine.Continue: composes the corrected street change, as `RustEngine.ApplyAction` does.
- RustEngine.PassOn: hands over to `RustEngine.Continue`, so it composes the corrected street change too.
- RustEngine.NextRound: applies the corrected `RustBetting.ToNextStage`.
- RustEngine.RunOut: applies the corrected `RustBetting.SkipToShowdown`.
- RustEngine.ShowdownNow: applies the corrected `RustBetting.SkipToShowdown`.
- RustEngine.NextStageKeeps: is stated of the corrected `RustBetting.ToNextStage`.
- RustEngine.SkipKeeps: is stated of the corrected `RustBetting.SkipToShowdown`.
- RustEngine.Finish: requires the hand's shape, which at showdown demands the full board; the source can reach it with fewer board cards through the as-written street change.
- RustEngine.Play: runs the actions through the corrected street change of `RustEngine.ApplyAction`.
- RustEngine.ZeroSumGame: is proved of the corrected street change only. Its proof rests on the hand invariant `RustEngine.Shaped`, which demands five board cards at showdown, and the as-written street change (`RustBetting.ToNextStageAsWritten`) can reach showdown with three, so the invariant does not hold of it.
- Showdown.SortByStrength: the model's sort is stable, while `std::sort` in the source is not, so which of several tied winners is listed first (and takes the odd chip) is fixed only in the model.

## Findings

| source | as written | input that shows it | evidently intended | confidence | as-written member | corrected member |
|---|---|---|---|---|---|---|
| src/state.rs:109-310 | the preflop table has 166 rows: A3s, A4s and A6s are missing and fall back to 169 | A♠3♠ and 7♥2♣ both evaluate to 169 | 169 distinct places, one per class, 72o alone at 169 | high, not executed | PreflopTable.HandRankingsAsWritten, PreflopTable.FallbackCollision, RustState.PreflopIndexSeparates | PreflopTable.Evaluate2CardsFull, PreflopTable.Evaluate2CardsFullSeparates, RustState.PreflopIndexSeparatesFixed |
| src/game_logic.rs:762-782 | a straight is valued by the high-card code of its five values, the wheel's ace counting as the highest card | A-2-3-4-5 against 2-3-4-5-6 | the wheel is the lowest straight | high, not executed | HandClassifier.WheelBeatsSixHigh, HandClassifier.RankHand | HandClassifier.RankCardCombinationFixed, HandClassifier.FixedStraightsByTop, HandClassifier.RankHandFixed |
| src/game_logic.rs:618-629 | when nobody active has chips behind, the street change jumps to showdown with only this street's cards dealt | two players all in preflop: showdown with three board cards | the rest of the board is dealt before showdown | high, not executed | RustBetting.AllInPreflopAsWritten | RustBetting.ToNextStage, RustBetting.SkipToShowdown, RustEngine.ApplyAction |
| src/game_logic_new.rs:659-737 | leaving the river with two players who can act sets showdown but gives one of them the turn instead of settling | river closes with two active players who have chips behind | the hand is settled at showdown | high, not executed | DraftNew.AdvanceAsWritten, DraftNew.RiverHandStuck, DraftNew.RiverCloseStuck | DraftNew.Advance, DraftNew.ApplyActionFixed |
| src/game_logic_old.rs:1242-1265 | after a street change the next player is scanned from the last mover, overriding the street opener | three players, button 0, big blind closes preflop: the button opens the flop | the first seat after the button opens a new street | high, not executed | DraftOld.NextToActAsWritten, DraftOld.ButtonOpensFlopAsWritten | DraftOld.NextToAct, DraftOld.StreetOpenedAfterButton |
| src/game_server.rs:175-213 | engine player i is read as seat i + 1 and the button as dealer seat - 1, which assumes seats 1..n with no gaps | seats 1 and 3 taken, dealer at 1: the player on turn is read as empty seat 2 and nobody can act | players dealt in seat order and mapped back through that order | high, not executed | SeatTable.TurnSeatAsWritten, SeatTable.ButtonAsWritten, SeatTable.GapStrandsTurnAsWritten | SeatTable.StartGame, SeatTable.StartedTurnIsSeated, SeatTable.HandleAction |
| src/game_server.rs:276-284 | chips after the hand are stake plus reward, both of which already count what the player put in | a player with 1000 who loses 100 is shown 800 | stack plus reward, 900 | high, not executed | SeatTable.EndChipsAsWritten, SeatTable.LoserChargedTwiceAsWritten | SeatTable.EndChips, SeatTable.EndChipsKeepsStake |

=== FILE: action_resolver.dfy ===
/** The C++ engine's action resolver: the biggest bet and the minimum raise
    on the table, the call and raise targets (`_processCheckCall`,
    `_processRaise`), the validation of an intended action
    (`_getFixedAction`), the per-street action limit of `step`, and the
    application of the resolved action to the acting seat. */
module ActionResolver {
  import opened Wrappers
  import opened PokerTable
  import opened HandState

  const FOLD := 0
  const CHECK_CALL := 1
  const BET_RAISE := 2

  /** A resolved action: its kind and, for a call or a raise, the total the
      seat's bet is raised to (-1 for a fold). */
  datatype Action = Action(kind: int, amount: int)

  /** `_getBiggestBetOutThereAkaTotalToCall`: the biggest bet on the table,
      0 on an empty one. */
  function MaxBet(ps: seq<Player>): (m: nat)
    ensures forall i :: 0 <= i < |ps| ==> ps[i].currentBet <= m
    ensures m == 0 || exists i :: 0 <= i < |ps| && ps[i].currentBet == m
  {
    if |ps| == 0 then 0 else Max(MaxBet(ps[..|ps| - 1]), ps[|ps| - 1].currentBet)
  }

  /** The biggest bet strictly below `m`, 0 if there is none. */
  function LargestBelow(ps: seq<Player>, m: int): (r: nat)
    ensures forall i :: 0 <= i < |ps| && ps[i].currentBet < m ==> ps[i].currentBet <= r
    ensures r == 0 || (r < m && exists i :: 0 <= i < |ps| && ps[i].currentBet == r)
  {
    if |ps| == 0 then 0
    else
      var b := ps[|ps| - 1].currentBet;
      if b < m then Max(LargestBelow(ps[..|ps| - 1], m), b) else LargestBelow(ps[..|ps| - 1], m)
  }

  /** The minimum total a raise must reach: the biggest bet plus the
      larger of the last raise (biggest bet minus the biggest distinct bet
      below it) and the big blind. An empty table gives the big blind. */
  function MinRaise(ps: seq<Player>, bigBlind: int): int
  {
    if |ps| == 0 then bigBlind
    else MaxBet(ps) + Max(MaxBet(ps) - LargestBelow(ps, MaxBet(ps)), bigBlind)
  }

  /** When every bet is below `m`, the biggest bet below `m` is the biggest
      bet. */
  lemma {:induction false} LargestBelowAll(ps: seq<Player>, m: int)
    requires forall i :: 0 <= i < |ps| ==> ps[i].currentBet < m
    ensures LargestBelow(ps, m) == MaxBet(ps)
    decreases |ps|
  {
    if |ps| > 0 {
      LargestBelowAll(ps[..|ps| - 1], m);
    }
  }

  /** One step of the scan below keeps its two running values equal to the
      biggest bet and the biggest bet strictly below it. */
  lemma ScanStep(xs: seq<Player>, p: Player, maxBet: int, second: int)
    requires maxBet == MaxBet(xs) && second == LargestBelow(xs, maxBet)
    ensures var b := p.currentBet;
            var m := if b > maxBet then b else maxBet;
            var s := if b > maxBet then maxBet else if b > second && b < maxBet then b else second;
            m == MaxBet(xs + [p]) && s == LargestBelow(xs + [p], m)
  {
    var ys := xs + [p];
    assert ys[..|ys| - 1] == xs;
    if p.currentBet > maxBet {
      LargestBelowAll(xs, p.currentBet);
    }
  }

  /** `_getCurrentTotalMinRaise`: one pass over the table keeping the
      biggest bet and the biggest bet strictly below it. */
  method CurrentTotalMinRaise(ps: seq<Player>, bigBlind: int) returns (r: int)
    ensures r == MinRaise(ps, bigBlind)
    ensures |ps| > 0 ==> r >= MaxBet(ps) + bigBlind && r >= MaxBet(ps)
  {
    if |ps| == 0 {
      return bigBlind;
    }
    var maxBet := 0;
    var secondMaxBet := 0;
    var k := 0;
    while k < |ps|
      invariant 0 <= k <= |ps|
      invariant maxBet == MaxBet(ps[..k]) && secondMaxBet == LargestBelow(ps[..k], maxBet)
    {
      var b := ps[k].currentBet;
      ScanStep(ps[..k], ps[k], maxBet, secondMaxBet);
      TakeOneMore(ps, k);
      if b > maxBet {
        secondMaxBet := maxBet;
        maxBet := b;
      } else if b > secondMaxBet && b < maxBet {
        secondMaxBet := b;
      }
      k := k + 1;
    }
    assert ps[..k] == ps;
    var lastRaiseSize := maxBet - secondMaxBet;
    r := maxBet + Max(lastRaiseSize, bigBlind);
  }

  /** `_processCheckCall`: the seat calls the biggest bet, or puts in its
      whole stack when that is short. */
  function CheckCallTarget(p: Player, toCall: int): (target: int)
    ensures target <= p.currentBet + p.stack && target <= toCall
    ensures target == toCall || target == p.currentBet + p.stack
    ensures toCall >= p.currentBet ==> target >= p.currentBet
  {
    p.currentBet + Min(toCall - p.currentBet, p.stack)
  }

  /** `_processRaise`: the intended total is lifted to the minimum raise and
      cut to the seat's whole stack. */
  function RaiseTarget(p: Player, intended: int, minRaise: int): (target: int)
    ensures target <= p.currentBet + p.stack
    ensures target >= minRaise || target == p.currentBet + p.stack
    ensures minRaise <= intended <= p.currentBet + p.stack ==> target == intended
    ensures target >= Min(minRaise, p.currentBet + p.stack)
  {
    Min(Max(minRaise, intended), p.currentBet + p.stack)
  }

  /** Fixed limit after the flop: the street's raise cap is reached, or the
      street has no cap entry. */
  predicate RaiseCapReached(rules: Rules, t: Table)
  {
    rules.fixedLimit && t.round != PREFLOP &&
    (0 <= t.round < |rules.maxRaisesPerRound| ==> t.nRaises >= rules.maxRaisesPerRound[t.round])
  }

  /** The last raiser is all-in and no seat other than the actor and that
      raiser can still bet. */
  predicate LastRaiserShortAllIn(t: Table)
    requires -1 <= t.lastRaiser < |t.players|
  {
    t.lastRaiser != -1 && t.players[t.lastRaiser].isAllin &&
    !(exists i :: 0 <= i < |t.players| && i != t.current && i != t.lastRaiser && CanAct(t.players[i]))
  }

  /** A raise is refused: the cap, a stack that cannot beat the biggest bet,
      the capped-raise record naming the actor, or the short all-in rule. */
  predicate RaiseRefused(rules: Rules, t: Table)
    requires 0 <= t.current < |t.players| && -1 <= t.lastRaiser < |t.players|
  {
    var p := t.players[t.current];
    RaiseCapReached(rules, t)
    || p.stack + p.currentBet <= MaxBet(t.players)
    || (t.capped.happenedThisRound && t.capped.playerThatCantReopen == t.current)
    || LastRaiserShortAllIn(t)
  }

  /** A resolved action the acting seat can carry out: a fold, or a bet
      total between its current bet and its current bet plus its stack. */
  predicate Carryable(a: Action, p: Player)
  {
    (a.kind == FOLD && a.amount == -1)
    || ((a.kind == CHECK_CALL || a.kind == BET_RAISE) && p.currentBet <= a.amount <= p.currentBet + p.stack)
  }

  /** `_getFixedAction`: the action vector holds the action index and, when
      present, the intended raise total. A fold that owes nothing becomes a
      check; a call on the very first action preflop becomes a fold under
      the first-action rule; a refused raise becomes a call. An empty
      vector, an invalid actor or an unknown index is an error. */
  function FixedAction(rules: Rules, t: Table, action: seq<int>): (r: Result<Action, string>)
    requires -1 <= t.lastRaiser < |t.players|
    ensures r.Err? <==> |action| == 0 || !(0 <= t.current < |t.players|)
                        || !(action[0] in {FOLD, CHECK_CALL, BET_RAISE})
    ensures r.Ok? ==> Carryable(r.value, t.players[t.current])
    ensures r.Ok? && r.value.kind == CHECK_CALL ==>
      r.value.amount == Min(MaxBet(t.players), t.players[t.current].currentBet + t.players[t.current].stack)
    ensures r.Ok? && action[0] == FOLD ==>
      (r.value.kind == FOLD <==> MaxBet(t.players) > t.players[t.current].currentBet)
    ensures r.Ok? && action[0] == CHECK_CALL ==>
      (r.value.kind == FOLD <==> rules.firstActionNoCall && t.nActions == 0 && t.round == PREFLOP)
    ensures r.Ok? && action[0] == BET_RAISE ==>
      (r.value.kind == BET_RAISE <==> !RaiseRefused(rules, t)) && r.value.kind != FOLD
    ensures r.Ok? && r.value.kind == BET_RAISE ==>
      action[0] == BET_RAISE && r.value.amount >= MaxBet(t.players)
      && (rules.bigBlind > 0 ==> r.value.amount > MaxBet(t.players))
  {
    if |action| == 0 then Err("Empty action vector in _getFixedAction")
    else if !(0 <= t.current < |t.players|) then Err("Current player not set or invalid in _getFixedAction")
    else
      var actionIdx := action[0];
      var intended := if |action| > 1 then action[1] else 0;
      var p := t.players[t.current];
      var toCall := MaxBet(t.players);
      var call := Action(CHECK_CALL, CheckCallTarget(p, toCall));
      if actionIdx == FOLD then
        if toCall <= p.currentBet then Ok(call) else Ok(Action(FOLD, -1))
      else if actionIdx == CHECK_CALL then
        if rules.firstActionNoCall && t.nActions == 0 && t.round == PREFLOP then Ok(Action(FOLD, -1))
        else Ok(call)
      else if actionIdx == BET_RAISE then
        if RaiseRefused(rules, t) then Ok(call)
        else Ok(Action(BET_RAISE, RaiseTarget(p, intended, MinRaise(t.players, rules.bigBlind))))
      else Err("Invalid action index in _getFixedAction")
  }

  /** The head of `step(actionType, amount)`: a seat that has used up its
      actions for the street may not raise; its raise becomes the call it
      could make, or a fold when calling is not allowed. The result is then
      resolved like any other action. */
  function StepAction(rules: Rules, t: Table, kind: int, amount: int): (r: Result<Action, string>)
    requires -1 <= t.lastRaiser < |t.players| && |t.actionsThisStreet| == |t.players|
    ensures r.Err? <==> !(0 <= t.current < |t.players|) || !(kind in {FOLD, CHECK_CALL, BET_RAISE})
    ensures r.Ok? ==> Carryable(r.value, t.players[t.current])
    ensures r.Ok? && rules.maxActionsPerStreet > 0 && t.actionsThisStreet[t.current] >= rules.maxActionsPerStreet ==>
      r.value.kind != BET_RAISE
    ensures r.Ok? && !(rules.maxActionsPerStreet > 0 && t.actionsThisStreet[t.current] >= rules.maxActionsPerStreet)
            ==> r == FixedAction(rules, t, [kind, amount])
  {
    if !(0 <= t.current < |t.players|) then Err("Invalid current player index")
    else
      var limited := rules.maxActionsPerStreet > 0 && t.actionsThisStreet[t.current] >= rules.maxActionsPerStreet;
      var downgraded :=
        if limited && kind == BET_RAISE then
          match FixedAction(rules, t, [CHECK_CALL, -1])
          case Ok(a) => if a.kind == CHECK_CALL then Action(CHECK_CALL, a.amount) else Action(FOLD, -1)
          case Err(_) => Action(FOLD, -1)
        else Action(kind, amount);
      FixedAction(rules, t, [downgraded.kind, downgraded.amount])
  }

  /** The middle of `step`: the resolved action is carried out by the
      acting seat, a raise makes it the last raiser and counts towards the
      street's raises, and the seat's and the hand's action counters move
      on. */
  function ApplyAction(t: Table, a: Action): (u: Table)
    requires WellFormed(t) && 0 <= t.current < |t.players|
    requires Carryable(a, t.players[t.current])
    ensures WellFormed(u) && |u.players| == |t.players|
    ensures Balanced(t) ==> Balanced(u)
    ensures PotsSound(t) ==> PotsSound(u)
    ensures forall i :: 0 <= i < |t.players| ==> Bankroll(u.players[i]) == Bankroll(t.players[i])
    ensures forall i :: 0 <= i < |t.players| && i != t.current ==> u.players[i] == t.players[i]
    ensures u.players[t.current].folded <==> t.players[t.current].folded || a.kind == FOLD
    ensures a.kind != FOLD ==> u.players[t.current].currentBet == a.amount
    ensures a.kind == BET_RAISE ==> u.lastRaiser == t.current && u.nRaises == t.nRaises + 1
    ensures a.kind != BET_RAISE ==> u.lastRaiser == t.lastRaiser && u.nRaises == t.nRaises
    ensures u.nActions == t.nActions + 1
    ensures u.actionsThisStreet == t.actionsThisStreet[t.current := t.actionsThisStreet[t.current] + 1]
    ensures u.mainPot == t.mainPot && u.sidePots == t.sidePots && u.round == t.round
  {
    var i := t.current;
    var p := t.players[i];
    var q := if a.kind == FOLD then Fold(p) else BetRaise(p, a.amount);
    TotalUpdate(t.players, i, q, BetOf);
    TotalUpdate(t.players, i, q, InvestedOf);
    var counted := t.(players := t.players[i := q],
                      actionsThisStreet := t.actionsThisStreet[i := t.actionsThisStreet[i] + 1],
                      nActions := t.nActions + 1);
    if a.kind == BET_RAISE then counted.(lastRaiser := i, nRaises := t.nRaises + 1) else counted
  }
}

=== FILE: betting_round.dfy ===
/** The C++ engine's betting-round state machine: when a street's betting
    is over (`_isBettingDone`), when the hand is over (`_isHandDone`),
    dealing the community cards, and moving to the next street
    (`_moveToNextRound`). */
module BettingRound {
  import opened Wrappers
  import opened Cards
  import opened PokerTable
  import opened PotLedger
  import opened HandState

  // ----- Counting seats -----

  function NotFoldedFlags(ps: seq<Player>): (ok: seq<bool>)
    ensures |ok| == |ps| && forall i :: 0 <= i < |ps| ==> ok[i] == !ps[i].folded
  {
    seq(|ps|, i requires 0 <= i < |ps| => !ps[i].folded)
  }

  /** `getNumActivePlayersNotFolded`. */
  function NumNotFolded(ps: seq<Player>): nat
  {
    CountTrue(NotFoldedFlags(ps))
  }

  /** Seats that can bet are among the seats that have not folded. */
  lemma CanActWithinNotFolded(ps: seq<Player>)
    ensures CountTrue(CanActFlags(ps)) <= NumNotFolded(ps)
  {
    CountTrueMono(CanActFlags(ps), NotFoldedFlags(ps));
  }

  /** The biggest bet among the seats still in the hand (`maxBetOnTable`). */
  function MaxBetInHand(ps: seq<Player>): (m: nat)
    ensures forall i :: 0 <= i < |ps| && !ps[i].folded ==> ps[i].currentBet <= m
    ensures m == 0 || exists i :: 0 <= i < |ps| && !ps[i].folded && ps[i].currentBet == m
  {
    if |ps| == 0 then 0
    else
      var last := ps[|ps| - 1];
      var m := MaxBetInHand(ps[..|ps| - 1]);
      if last.folded then m else Max(m, last.currentBet)
  }

  // ----- Betting done -----

  /** The per-seat test of `_isBettingDone` as written, with the big
      blind's preflop option as its own branch. */
  predicate YetToActAsWritten(rules: Rules, t: Table, i: nat, maxBet: int)
    requires i < |t.players|
  {
    var p := t.players[i];
    && CanAct(p)
    && (!p.hasActed || (p.currentBet < maxBet && i != t.lastRaiser))
    && (if t.round == PREFLOP && i == t.pos.bb && maxBet == rules.bigBlind && t.lastRaiser == -1 && !p.hasActed then true
        else if p.currentBet < maxBet then true
        else !p.hasActed)
  }

  /** A seat the street still waits for: it can bet, and it has not acted
      yet, or it is short of the biggest bet and not the last raiser. */
  predicate Pending(t: Table, i: nat, maxBet: int)
    requires i < |t.players|
  {
    var p := t.players[i];
    CanAct(p) && (!p.hasActed || (p.currentBet < maxBet && i != t.lastRaiser))
  }

  /** The big blind's option adds nothing to the test: a big blind that has
      not acted is pending anyway. */
  lemma YetToActIsPending(rules: Rules, t: Table, i: nat, maxBet: int)
    requires i < |t.players|
    ensures YetToActAsWritten(rules, t, i, maxBet) <==> Pending(t, i, maxBet)
  {
  }

  function YetToActFlags(rules: Rules, t: Table): (ok: seq<bool>)
    ensures |ok| == |t.players|
    ensures forall i :: 0 <= i < |t.players| ==> ok[i] == YetToActAsWritten(rules, t, i, MaxBetInHand(t.players))
  {
    var m := MaxBetInHand(t.players);
    seq(|t.players|, i requires 0 <= i < |t.players| => YetToActAsWritten(rules, t, i, m))
  }

  /** `_isBettingDone`: after the flop, once somebody acted, a lone
      remaining player ends the street; otherwise the street is over when
      no seat is still waited for. */
  function IsBettingDone(rules: Rules, t: Table): (done: bool)
    ensures done <==>
      (NumNotFolded(t.players) <= 1 && t.round > PREFLOP && t.nActions > 0)
      || forall i :: 0 <= i < |t.players| ==> !Pending(t, i, MaxBetInHand(t.players))
  {
    var ps := t.players;
    var flags := YetToActFlags(rules, t);
    CanActWithinNotFolded(ps);
    CountTrueZero(flags);
    assert forall i :: 0 <= i < |ps| ==> (flags[i] <==> Pending(t, i, MaxBetInHand(ps)));
    (NumNotFolded(ps) <= 1 && t.round > PREFLOP && t.nActions > 0 && CountTrue(CanActFlags(ps)) <= 1)
    || CountTrue(flags) == 0
  }

  /** When nobody can bet, the street's betting is over. */
  lemma NobodyToActMeansDone(rules: Rules, t: Table)
    requires forall i :: 0 <= i < |t.players| ==> !CanAct(t.players[i])
    ensures IsBettingDone(rules, t)
  {
  }

  // ----- Hand done -----

  /** `_isHandDone`: the hand is flagged over, at most one player has not
      folded, or, before the river, betting is done and every player left
      is all-in or out of chips. */
  function IsHandDone(rules: Rules, t: Table): (done: bool)
    ensures done <==>
      t.handIsOver || NumNotFolded(t.players) <= 1
      || (t.round < RIVER && forall i :: 0 <= i < |t.players| ==> !CanAct(t.players[i]))
  {
    var ps := t.players;
    var canBet := CanActFlags(ps);
    CountTrueZero(canBet);
    if t.handIsOver then true
    else if NumNotFolded(ps) <= 1 then true
    else if CountTrue(canBet) <= 1 && IsBettingDone(rules, t) then
      t.round < RIVER && (forall i :: 0 <= i < |ps| ==> !CanAct(ps[i]))
    else false
  }

  // ----- Dealing -----

  const N_FLOP_CARDS := 3

  /** `Deck::burnCard`: the top card is discarded when there is one. */
  function Burn(deck: seq<Card>): (rest: seq<Card>)
    ensures |deck| > 0 ==> rest == deck[1..]
    ensures |deck| == 0 ==> rest == deck
  {
    if |deck| > 0 then deck[1..] else deck
  }

  /** Draws `count` cards into the slots `from ..`; an empty deck leaves a
      slot empty (`drawCard` returns no card). */
  function DrawInto(board: seq<Option<Card>>, deck: seq<Card>, from: nat, count: nat)
    : (r: (seq<Option<Card>>, seq<Card>))
    requires from + count <= |board|
    ensures |r.0| == |board|
    ensures forall j :: 0 <= j < |board| && !(from <= j < from + count) ==> r.0[j] == board[j]
    ensures count <= |deck| ==> r.1 == deck[count..]
    ensures count <= |deck| ==> forall j :: from <= j < from + count ==> r.0[j] == Some(deck[j - from])
    decreases count
  {
    if count == 0 then (board, deck)
    else if |deck| == 0 then DrawInto(board[from := None], deck, from + 1, count - 1)
    else
      var r := DrawInto(board[from := Some(deck[0])], deck[1..], from + 1, count - 1);
      assert count <= |deck| ==> deck[1..][count - 1..] == deck[count..];
      r
  }

  /** `_dealFlop`, `_dealTurn`, `_dealRiver`: burn one card, then draw into
      the street's slots. */
  function DealSlots(board: seq<Option<Card>>, deck: seq<Card>, from: nat, count: nat)
    : (r: (seq<Option<Card>>, seq<Card>))
    requires from + count <= |board|
    ensures |r.0| == |board|
  {
    DrawInto(board, Burn(deck), from, count)
  }

  /** `_dealNextRound` for the street just entered. */
  function DealNextRound(round: int, board: seq<Option<Card>>, deck: seq<Card>)
    : (r: (seq<Option<Card>>, seq<Card>))
    requires |board| == 5
    ensures |r.0| == 5
  {
    if round == FLOP then DealSlots(board, deck, 0, N_FLOP_CARDS)
    else if round == TURN then DealSlots(board, deck, N_FLOP_CARDS, 1)
    else if round == RIVER then DealSlots(board, deck, N_FLOP_CARDS + 1, 1)
    else (board, deck)
  }

  /** `_dealRemainingCommunityCards`: every street not yet dealt. */
  function DealRemaining(round: int, board: seq<Option<Card>>, deck: seq<Card>)
    : (r: (seq<Option<Card>>, seq<Card>))
    requires |board| == 5
    ensures |r.0| == 5
  {
    if round == PREFLOP then
      var f := DealNextRound(FLOP, board, deck);
      var t := DealNextRound(TURN, f.0, f.1);
      DealNextRound(RIVER, t.0, t.1)
    else if round == FLOP then
      var t := DealNextRound(TURN, board, deck);
      DealNextRound(RIVER, t.0, t.1)
    else if round == TURN then DealNextRound(RIVER, board, deck)
    else (board, deck)
  }

  /** Cards on the board once a street has been dealt. */
  function BoardCards(round: int): nat
  {
    if round == FLOP then 3 else if round == TURN then 4 else if round == RIVER then 5 else 0
  }

  /** Cards (burns included) still needed from the deck to finish the board. */
  function CardsNeeded(round: int): nat
  {
    if round == PREFLOP then 8 else if round == FLOP then 4 else if round == TURN then 2 else 0
  }

  predicate Filled(board: seq<Option<Card>>, n: nat)
    requires n <= |board|
  {
    forall j :: 0 <= j < n ==> board[j].Some?
  }

  /** Dealing the next street on a board that holds the previous streets
      fills that street's slots from the deck, after one burnt card. */
  lemma DealNextRoundFills(round: int, board: seq<Option<Card>>, deck: seq<Card>)
    requires |board| == 5 && FLOP <= round <= RIVER
    requires Filled(board, BoardCards(round - 1))
    requires |deck| >= 1 + BoardCards(round) - BoardCards(round - 1)
    ensures Filled(DealNextRound(round, board, deck).0, BoardCards(round))
    ensures DealNextRound(round, board, deck).1 == deck[1 + BoardCards(round) - BoardCards(round - 1)..]
  {
    assert Burn(deck)[BoardCards(round) - BoardCards(round - 1)..]
        == deck[1 + BoardCards(round) - BoardCards(round - 1)..];
  }

  /** With enough cards in the deck, dealing the rest completes the
      board: all five slots hold a card. */
  lemma {:induction false} DealRemainingFills(round: int, board: seq<Option<Card>>, deck: seq<Card>)
    requires |board| == 5 && PREFLOP <= round <= RIVER
    requires Filled(board, BoardCards(round))
    requires |deck| >= CardsNeeded(round)
    ensures Filled(DealRemaining(round, board, deck).0, 5)
  {
    if round == PREFLOP {
      DealNextRoundFills(FLOP, board, deck);
      var f := DealNextRound(FLOP, board, deck);
      DealNextRoundFills(TURN, f.0, f.1);
      var t := DealNextRound(TURN, f.0, f.1);
      DealNextRoundFills(RIVER, t.0, t.1);
    } else if round == FLOP {
      DealNextRoundFills(TURN, board, deck);
      var t := DealNextRound(TURN, board, deck);
      DealNextRoundFills(RIVER, t.0, t.1);
    } else if round == TURN {
      DealNextRoundFills(RIVER, board, deck);
    }
  }

  // ----- Next street -----

  /** The seats after the pots are recomputed at the end of a street: every
      bet is collected and each seat's pot rank is recomputed. */
  predicate Collected(ps: seq<Player>, qs: seq<Player>)
  {
    |qs| == |ps| &&
    forall i :: 0 <= i < |ps| ==> qs[i] == ps[i].(currentBet := 0, sidePotRank := qs[i].sidePotRank)
  }

  /** `_putCurrentBetsIntoMainPotAndSidePots` followed by
      `_calculateSidePots`: every bet is collected, the pots are rebuilt
      from the investments, and each seat's pot rank is recomputed. */
  method CollectAndLayer(t: Table) returns (u: Table)
    requires Consistent(t)
    ensures Consistent(u)
    ensures u == t.(players := u.players, mainPot := u.mainPot, sidePots := u.sidePots)
    ensures Collected(t.players, u.players)
    ensures u.mainPot + Sum(u.sidePots) == Total(t.players, InvestedOf)
  {
    var collected := CollectBets(t.players, t.mainPot);
    CollectBetsKeepsChips(t.players, t.mainPot, t.sidePots);
    var ranked, main, sides, levels := CalculateSidePots(collected.0, collected.1);
    TotalSame(collected.0, ranked, InvestedOf, InvestedOf);
    TotalSame(t.players, collected.0, InvestedOf, InvestedOf);
    TotalZero(ranked, BetOf);
    if levels == [] {
      NobodyInvested(t);
    } else {
      SidesNonNegative(collected.0, levels, sides);
    }
    u := t.(players := ranked, mainPot := main, sidePots := sides);
  }

  /** Every seat still in the hand has yet to act. */
  function Reopen(ps: seq<Player>): (qs: seq<Player>)
    ensures |qs| == |ps|
    ensures forall i :: 0 <= i < |ps| ==> qs[i] == ps[i].(hasActed := ps[i].folded && ps[i].hasActed)
    ensures Total(qs, BetOf) == Total(ps, BetOf) && Total(qs, InvestedOf) == Total(ps, InvestedOf)
  {
    var qs := seq(|ps|, i requires 0 <= i < |ps| => if ps[i].folded then ps[i] else ps[i].(hasActed := false));
    TotalSame(ps, qs, BetOf, BetOf);
    TotalSame(ps, qs, InvestedOf, InvestedOf);
    qs
  }

  /** The next street of `_moveToNextRound`: it is dealt, nobody still in
      the hand has acted, no raise has been made, and the first seat after
      the button acts. */
  function OpenStreet(rules: Rules, t: Table): (u: Table)
    requires Consistent(t) && t.round < RIVER
    ensures Consistent(u)
    ensures |u.players| == |t.players| && u.round == t.round + 1
    ensures forall i :: 0 <= i < |t.players| ==>
      u.players[i] == t.players[i].(hasActed := t.players[i].folded && t.players[i].hasActed)
    ensures u.lastRaiser == -1 && u.nRaises == 0 && u.capped == NoCappedRaise
    ensures u.current == FirstToActPostFlop(u.players, rules.fixUtg, u.pos)
    ensures (u.board, u.deck) == DealNextRound(u.round, t.board, t.deck)
    ensures u == t.(players := u.players, round := u.round, board := u.board, deck := u.deck,
                    current := u.current, nRaises := 0, lastRaiser := -1, capped := NoCappedRaise)
  {
    var reopened := Reopen(t.players);
    var dealt := DealNextRound(t.round + 1, t.board, t.deck);
    t.(players := reopened, round := t.round + 1, board := dealt.0, deck := dealt.1,
       current := FirstToActPostFlop(reopened, rules.fixUtg, t.pos),
       nRaises := 0, lastRaiser := -1, capped := NoCappedRaise)
  }

  /** `_moveToNextRound`: the bets are collected and the pots recomputed;
      then either the next street opens, or the last street was played and
      the hand ends, with the rest of the board dealt unless only preflop is
      played. */
  method MoveToNextRound(rules: Rules, t: Table) returns (u: Table)
    requires Consistent(t) && ValidRules(rules)
    ensures Consistent(u)
    ensures |u.players| == |t.players|
    ensures forall i :: 0 <= i < |t.players| ==> u.players[i].currentBet == 0
    ensures forall i :: 0 <= i < |t.players| ==> Bankroll(u.players[i]) == Bankroll(t.players[i])
    ensures forall i :: 0 <= i < |t.players| ==> u.players[i].folded == t.players[i].folded
    ensures u.mainPot + Sum(u.sidePots) == Total(t.players, InvestedOf)
    ensures u.actionsThisStreet == t.actionsThisStreet && u.nActions == t.nActions && u.pos == t.pos
    ensures t.round < rules.endWithRound ==>
      && u.round == t.round + 1 && u.handIsOver == t.handIsOver
      && u.lastRaiser == -1 && u.nRaises == 0 && u.capped == NoCappedRaise
      && (forall i :: 0 <= i < |t.players| ==> u.players[i].hasActed == (t.players[i].folded && t.players[i].hasActed))
      && u.current == FirstToActPostFlop(u.players, rules.fixUtg, u.pos)
      && (u.board, u.deck) == DealNextRound(u.round, t.board, t.deck)
    ensures t.round >= rules.endWithRound ==>
      && u.handIsOver && u.round == t.round && u.current == t.current
      && (forall i :: 0 <= i < |t.players| ==> u.players[i].hasActed == t.players[i].hasActed)
      && (rules.endWithRound == 0 ==> u.board == t.board && u.deck == t.deck)
      && (rules.endWithRound != 0 ==> (u.board, u.deck) == DealRemaining(t.round, t.board, t.deck))
  {
    var c := CollectAndLayer(t);
    if t.round < rules.endWithRound {
      u := OpenStreet(rules, c);
    } else if rules.endWithRound == 0 {
      u := c.(handIsOver := true);
    } else {
      var dealt := DealRemaining(t.round, t.board, t.deck);
      u := c.(handIsOver := true, board := dealt.0, deck := dealt.1);
    }
  }

  /** With nothing invested there is no bet on the table and every
      collected pot is empty. */
  lemma NobodyInvested(t: Table)
    requires Consistent(t)
    requires forall i :: 0 <= i < |t.players| ==> t.players[i].totalInvested == 0
    ensures t.mainPot + Total(t.players, BetOf) == 0 && Sum(t.sidePots) == 0
  {
    TotalZero(t.players, InvestedOf);
    TotalZero(t.players, BetOf);
    SumNonNegative(t.sidePots);
  }

  lemma SidesNonNegative(ps: seq<Player>, levels: seq<nat>, sides: seq<int>)
    requires |sides| == |levels| - 1
    requires forall k :: 0 < k < |levels| ==> sides[k - 1] == LayerPot(ps, levels, k)
    requires forall k :: 0 <= k < |levels| ==> LayerPot(ps, levels, k) > 0
    ensures forall k :: 0 <= k < |sides| ==> sides[k] >= 0
  {
    forall k | 0 <= k < |sides| ensures sides[k] >= 0 {
      assert sides[k] == LayerPot(ps, levels, k + 1);
    }
  }
}

=== FILE: board_parser.dfy ===
/** The C++ engine's board reader `_parseBoardString`: a board is either
    whitespace-separated card strings or card strings written back to back.
    A board that cannot be read is the empty board. */
module BoardParser {
  import opened Wrappers
  import opened Cards
  import opened CardParser

  /** `::isspace` in the C locale. */
  predicate IsSpace(c: char)
  {
    c == ' ' || c == '\t' || c == '\n' || c == '\U{0b}' || c == '\U{0c}' || c == '\r'
  }

  /** Length of the run of non-space characters at the start of `s`. */
  function WordLen(s: string): (n: nat)
    ensures n <= |s|
    ensures forall i :: 0 <= i < n ==> !IsSpace(s[i])
    ensures n < |s| ==> IsSpace(s[n])
  {
    if |s| == 0 || IsSpace(s[0]) then 0 else 1 + WordLen(s[1..])
  }

  /** The words `istringstream >>` extracts: maximal runs of non-space
      characters. */
  function Tokens(s: string): (ts: seq<string>)
    ensures forall i :: 0 <= i < |ts| ==> |ts[i]| > 0
    decreases |s|
  {
    if |s| == 0 then []
    else if IsSpace(s[0]) then Tokens(s[1..])
    else
      var n := WordLen(s);
      [s[..n]] + Tokens(s[n..])
  }

  /** `std::remove_if(..., ::isspace)`. */
  function RemoveSpaces(s: string): (t: string)
    ensures forall i :: 0 <= i < |t| ==> !IsSpace(t[i])
  {
    if |s| == 0 then []
    else if IsSpace(s[0]) then RemoveSpaces(s[1..])
    else [s[0]] + RemoveSpaces(s[1..])
  }

  /** Every token parses; the first failure abandons the whole list. */
  function ParseAll(ts: seq<string>): (r: Option<seq<Card>>)
    ensures r.Some? ==> |r.value| == |ts|
  {
    if |ts| == 0 then Some([])
    else match ParseCard(ts[0])
      case Err(_) => None
      case Ok(c) =>
        match ParseAll(ts[1..])
        case None => None
        case Some(cs) => Some([c] + cs)
  }

  /** The inner loop of the back-to-back reader: try the longest prefix
      of `rest` first, `len` bytes down to 2. */
  function TryPrefix(rest: string, len: nat): (r: Option<(Card, nat)>)
    requires len <= |rest|
    ensures r.Some? ==> 2 <= r.value.1 <= len
    decreases len
  {
    if len < 2 then None
    else match ParseCard(rest[..len])
      case Ok(c) => Some((c, len))
      case Err(_) => TryPrefix(rest, len - 1)
  }

  /** The outer loop of the back-to-back reader: read cards until the text
      is used up or five cards are read; a position where no card can be
      read makes the board empty (`None`). */
  function Greedy(rest: string, out: seq<Card>): (r: Option<seq<Card>>)
    requires |out| <= 5
    ensures r.Some? ==> |out| <= |r.value| <= 5
    decreases |rest|
  {
    if |rest| == 0 || |out| >= 5 then Some(out)
    else match TryPrefix(rest, Min(5, |rest|))
      case None => None
      case Some((c, n)) => Greedy(rest[n..], out + [c])
  }

  predicate BoardSize(n: int)
  {
    n == 0 || n == 3 || n == 4 || n == 5
  }

  /** The whitespace-separated reading: used only when the text holds a
      space and yields 3, 4 or 5 words that all parse. */
  function ParseSpaced(b: string): (r: Option<seq<Card>>)
    ensures r.Some? ==> BoardSize(|r.value|)
  {
    var toks := Tokens(b);
    if ' ' in b && |toks| > 0 && BoardSize(|toks|) then ParseAll(toks) else None
  }

  /** The back-to-back reading of a text with no whitespace left in it. */
  function ParseBackToBack(t: string): (cards: seq<Card>)
    ensures BoardSize(|cards|)
  {
    if |t| == 0 then []
    else match Greedy(t, [])
      case None => []
      case Some(cs) => if BoardSize(|cs|) then cs else []
  }

  /** `_parseBoardString`. */
  function ParseBoard(b: string): (cards: seq<Card>)
    ensures BoardSize(|cards|)
  {
    if |b| == 0 then []
    else
      var spaced := ParseSpaced(b);
      if spaced.Some? then spaced.value
      else ParseBackToBack(if ' ' in b then RemoveSpaces(b) else b)
  }

  // ----- Writing boards, and reading them back -----

  /** Card strings separated by single spaces. */
  function JoinSpaced(cs: seq<Card>): string
    requires |cs| > 0
  {
    if |cs| == 1 then CardString(cs[0])
    else CardString(cs[0]) + " " + JoinSpaced(cs[1..])
  }

  /** Card strings back to back. */
  function Concat(cs: seq<Card>): string
  {
    if |cs| == 0 then [] else CardString(cs[0]) + Concat(cs[1..])
  }

  lemma CardStringNoSpace(c: Card)
    ensures forall i :: 0 <= i < |CardString(c)| ==> !IsSpace(CardString(c)[i])
  {
  }

  /** A word followed by nothing or by a space is one token. */
  lemma {:induction false} TokensWord(w: string, rest: string)
    requires |w| > 0
    requires forall i :: 0 <= i < |w| ==> !IsSpace(w[i])
    requires |rest| == 0 || IsSpace(rest[0])
    ensures Tokens(w + rest) == [w] + Tokens(rest)
  {
    WordLenWord(w, rest);
    assert (w + rest)[..|w|] == w;
    assert (w + rest)[|w|..] == rest;
  }

  lemma {:induction false} WordLenWord(w: string, rest: string)
    requires forall i :: 0 <= i < |w| ==> !IsSpace(w[i])
    requires |rest| == 0 || IsSpace(rest[0])
    ensures WordLen(w + rest) == |w|
    decreases |w|
  {
    if |w| > 0 {
      assert (w + rest)[1..] == w[1..] + rest;
      WordLenWord(w[1..], rest);
    }
  }

  function CardStrings(cs: seq<Card>): (ts: seq<string>)
    ensures |ts| == |cs|
  {
    if |cs| == 0 then [] else [CardString(cs[0])] + CardStrings(cs[1..])
  }

  lemma {:induction false} TokensJoinSpaced(cs: seq<Card>)
    requires |cs| > 0
    ensures Tokens(JoinSpaced(cs)) == CardStrings(cs)
    decreases |cs|
  {
    CardStringNoSpace(cs[0]);
    if |cs| == 1 {
      TokensWord(CardString(cs[0]), []);
      assert CardString(cs[0]) + [] == CardString(cs[0]);
    } else {
      var tail := " " + JoinSpaced(cs[1..]);
      assert JoinSpaced(cs) == CardString(cs[0]) + tail;
      TokensWord(CardString(cs[0]), tail);
      assert tail[1..] == JoinSpaced(cs[1..]);
      TokensJoinSpaced(cs[1..]);
    }
  }

  lemma {:induction false} ParseAllCardStrings(cs: seq<Card>)
    ensures ParseAll(CardStrings(cs)) == Some(cs)
    decreases |cs|
  {
    if |cs| > 0 {
      ParseCardString(cs[0]);
      assert CardStrings(cs)[1..] == CardStrings(cs[1..]);
      ParseAllCardStrings(cs[1..]);
      assert [cs[0]] + cs[1..] == cs;
    }
  }

  lemma {:induction false} JoinSpacedHasSpace(cs: seq<Card>)
    requires |cs| >= 2
    ensures ' ' in JoinSpaced(cs)
  {
    assert JoinSpaced(cs)[|CardString(cs[0])|] == ' ';
  }

  /** A board of three to five cards written with spaces reads back as the
      same cards. */
  lemma ParseBoardSpaced(cs: seq<Card>)
    requires 3 <= |cs| <= 5
    ensures ParseBoard(JoinSpaced(cs)) == cs
  {
    JoinSpacedHasSpace(cs);
    TokensJoinSpaced(cs);
    ParseAllCardStrings(cs);
  }

  /** A value part of two or more bytes that holds a suit letter names no
      card value: the only two-byte face name is "10". */
  lemma FindValueRejectsLetter(v: string, j: nat)
    requires 2 <= |v| && j < |v|
    requires v[j] in {'d', 'c', 'h', 's'}
    ensures FindValue(UpperIfSingle(v), 0).None?
  {
    forall i: Value ensures ValueStrings[i] != v {
      if i == Ten {
        assert v[j] !in ValueStrings[Ten];
      } else {
        assert |ValueStrings[i]| == 1;
      }
    }
  }

  /** A prefix longer than the first card string never parses. */
  lemma {:induction false} OverlongPrefixFails(c: Card, rest: string, len: nat)
    requires |CardString(c)| < len <= |CardString(c) + rest|
    ensures ParseCard((CardString(c) + rest)[..len]).Err?
  {
    var x := (CardString(c) + rest)[..len];
    var k := |CardString(c)|;
    assert x[..k] == CardString(c);
    assert x[k - 1] == LowerSuit(c.suit);
    match FindSuit(x)
    case None =>
    case Some(m) =>
      if m.len == 3 {
        assert x[len - 3] == '\U{e2}';
        assert forall i :: 0 <= i < k ==> x[i] != '\U{e2}';
        assert len - 3 >= k;
      }
      FindValueRejectsLetter(x[..len - m.len], k - 1);
  }

  lemma TryPrefixFindsCard(c: Card, rest: string, len: nat)
    requires |CardString(c)| <= len <= |CardString(c) + rest|
    ensures TryPrefix(CardString(c) + rest, len) == Some((c, |CardString(c)|))
  {
    var w := CardString(c) + rest;
    var k := |CardString(c)|;
    ExactPrefix(c, rest);
    forall m | k < m <= len
      ensures TryPrefix(w, m) == TryPrefix(w, m - 1)
    {
      OverlongPrefix(c, rest, m);
    }
    TryPrefixFalls(w, k, len);
  }

  /** When every prefix longer than `k` fails to read, the reader falls
      back to the prefix of length `k`. */
  lemma {:induction false} TryPrefixFalls(w: string, k: nat, len: nat)
    requires k <= len <= |w|
    requires forall m :: k < m <= len ==> TryPrefix(w, m) == TryPrefix(w, m - 1)
    ensures TryPrefix(w, len) == TryPrefix(w, k)
    decreases len
  {
    if len > k {
      TryPrefixFalls(w, k, len - 1);
    }
  }

  /** The prefix exactly as long as the card's text reads the card. */
  lemma ExactPrefix(c: Card, rest: string)
    ensures TryPrefix(CardString(c) + rest, |CardString(c)|) == Some((c, |CardString(c)|))
  {
    assert (CardString(c) + rest)[..|CardString(c)|] == CardString(c);
    ParseCardString(c);
  }

  /** A prefix longer than the card's text is not a card, so the reader
      tries one character less. */
  lemma OverlongPrefix(c: Card, rest: string, len: nat)
    requires |CardString(c)| < len <= |CardString(c) + rest|
    ensures TryPrefix(CardString(c) + rest, len) == TryPrefix(CardString(c) + rest, len - 1)
  {
    OverlongPrefixFails(c, rest, len);
  }

  lemma GreedyStep(c: Card, rest: string, out: seq<Card>)
    requires |out| < 5
    ensures Greedy(CardString(c) + rest, out) == Greedy(rest, out + [c])
  {
    var w := CardString(c) + rest;
    var k := |CardString(c)|;
    var n := Min(5, |w|);
    assert k <= n;
    TryPrefixFindsCard(c, rest, n);
    assert w[k..] == rest;
  }

  lemma ShiftPrefix(out: seq<Card>, cs: seq<Card>, m: nat)
    requires m < |cs|
    ensures (out + [cs[0]]) + cs[1..][..m] == out + cs[..m + 1]
  {
    var a := (out + [cs[0]]) + cs[1..][..m];
    var b := out + cs[..m + 1];
    assert |a| == |b|;
    forall i | 0 <= i < |a| ensures a[i] == b[i] {
      if i > |out| {
        assert a[i] == cs[1..][i - |out| - 1] == cs[i - |out|];
      }
    }
  }

  /** Reading back-to-back card strings takes them one by one, and stops
      after the fifth card. */
  lemma {:induction false} GreedyConcat(cs: seq<Card>, out: seq<Card>)
    requires |out| <= 5
    ensures Greedy(Concat(cs), out) == Some(out + cs[..Min(|cs|, 5 - |out|)])
    decreases |cs|
  {
    if |cs| == 0 || |out| >= 5 {
      assert cs[..Min(|cs|, 5 - |out|)] == [];
      assert out + [] == out;
    } else {
      assert Concat(cs) == CardString(cs[0]) + Concat(cs[1..]);
      GreedyStep(cs[0], Concat(cs[1..]), out);
      GreedyConcat(cs[1..], out + [cs[0]]);
      var m := Min(|cs| - 1, 5 - |out| - 1);
      assert Min(|cs|, 5 - |out|) == m + 1;
      ShiftPrefix(out, cs, m);
    }
  }

  lemma {:induction false} ConcatNoSpace(cs: seq<Card>)
    ensures ' ' !in Concat(cs)
    ensures |cs| > 0 ==> |Concat(cs)| > 0
    decreases |cs|
  {
    if |cs| > 0 {
      CardStringNoSpace(cs[0]);
      ConcatNoSpace(cs[1..]);
    }
  }

  /** A board of three to five cards written back to back reads back as the
      same cards; a longer one reads as its first five cards. */
  lemma ParseBoardConcat(cs: seq<Card>)
    requires 3 <= |cs|
    ensures ParseBoard(Concat(cs)) == cs[..Min(|cs|, 5)]
  {
    ConcatNoSpace(cs);
    assert ParseSpaced(Concat(cs)).None?;
    BackToBackConcat(cs);
  }

  /** Three or more cards written back to back are read greedily as the
      first five of them. */
  lemma BackToBackConcat(cs: seq<Card>)
    requires 3 <= |cs|
    ensures ParseBackToBack(Concat(cs)) == cs[..Min(|cs|, 5)]
  {
    ConcatNoSpace(cs);
    GreedyConcat(cs, []);
    assert [] + cs[..Min(|cs|, 5)] == cs[..Min(|cs|, 5)];
  }
}

=== FILE: card_parser.dfy ===
/** The C++ engine's card-string reader (`findSuitInString`,
    `parseCardStringInternal`) and writer (`getCardString`).

    A C++ `std::string` is a sequence of bytes; here each byte is a `char`
    whose code is below 256, so the UTF-8 suit symbols appear as their three
    bytes. The card face names (`Card::ValueString`) are "2" .. "9", "10",
    "J", "Q", "K", "A"; the ASCII suit letters written by `getCardString`
    are the lower-case letters d, c, h, s. */
module CardParser {
  import opened Wrappers
  import opened Cards

  datatype ParseError = EmptyString | NoSuit | OnlySuit | BadValue

  const ValueStrings: seq<string> :=
    ["2", "3", "4", "5", "6", "7", "8", "9", "10", "J", "Q", "K", "A"]

  /** UTF-8 bytes of the suit symbols ♢ ♣ ♡ ♠, indexed by suit. */
  function UnicodeSuit(s: Suit): (t: string)
    ensures |t| == 3 && t[0] == '\U{e2}' && t[1] == '\U{99}'
  {
    match s
    case 0 => ['\U{e2}', '\U{99}', '\U{a2}']
    case 1 => ['\U{e2}', '\U{99}', '\U{a3}']
    case 2 => ['\U{e2}', '\U{99}', '\U{a1}']
    case 3 => ['\U{e2}', '\U{99}', '\U{a0}']
  }

  function LowerSuit(s: Suit): char
  {
    match s
    case 0 => 'd'
    case 1 => 'c'
    case 2 => 'h'
    case 3 => 's'
  }

  function UpperSuit(s: Suit): char
  {
    match s
    case 0 => 'D'
    case 1 => 'C'
    case 2 => 'H'
    case 3 => 'S'
  }

  predicate EndsWith(s: string, suffix: string)
  {
    |s| >= |suffix| && s[|s| - |suffix|..] == suffix
  }

  /** A suit found at the end of a card string, with the number of bytes it
      occupies. */
  datatype SuitMatch = SuitMatch(suit: Suit, len: nat)

  /** `findSuitInString`: the Unicode symbols are tried first, in the order
      spade, heart, club, diamond; then the last byte as an ASCII letter of
      either case. */
  function FindSuit(s: string): (r: Option<SuitMatch>)
    ensures r.Some? ==> r.value.len <= |s|
    ensures r.Some? && r.value.len == 3 ==> s[|s| - 3..] == UnicodeSuit(r.value.suit)
    ensures r.Some? && r.value.len != 3 ==>
      r.value.len == 1 && s[|s| - 1] in {LowerSuit(r.value.suit), UpperSuit(r.value.suit)}
  {
    if EndsWith(s, UnicodeSuit(Spades)) then Some(SuitMatch(Spades, 3))
    else if EndsWith(s, UnicodeSuit(Hearts)) then Some(SuitMatch(Hearts, 3))
    else if EndsWith(s, UnicodeSuit(Clubs)) then Some(SuitMatch(Clubs, 3))
    else if EndsWith(s, UnicodeSuit(Diamonds)) then Some(SuitMatch(Diamonds, 3))
    else if |s| >= 1 then
      var last := s[|s| - 1];
      if last == 's' || last == 'S' then Some(SuitMatch(Spades, 1))
      else if last == 'h' || last == 'H' then Some(SuitMatch(Hearts, 1))
      else if last == 'c' || last == 'C' then Some(SuitMatch(Clubs, 1))
      else if last == 'd' || last == 'D' then Some(SuitMatch(Diamonds, 1))
      else None
    else None
  }

  /** `std::toupper` in the C locale. */
  function ToUpper(c: char): char
  {
    if 'a' <= c <= 'z' then (c as int - 32) as char else c
  }

  /** The parser upper-cases a value part only when it is one byte long. */
  function UpperIfSingle(v: string): string
  {
    if |v| == 1 then [ToUpper(v[0])] else v
  }

  /** The value loop of `parseCardStringInternal`, from index `i` on: a
      face name matches exactly, and "T" matches the "10" entry. */
  function FindValue(u: string, i: nat): (r: Option<Value>)
    requires i <= 13
    ensures r.Some? ==> i <= r.value && (ValueStrings[r.value] == u || (r.value == Ten && u == "T"))
    ensures r.None? ==> forall j :: i <= j < 13 ==> ValueStrings[j] != u && !(j == Ten && u == "T")
    decreases 13 - i
  {
    if i == 13 then None
    else if ValueStrings[i] == u then Some(i)
    else if ValueStrings[i] == "10" && u == "T" then Some(i)
    else FindValue(u, i + 1)
  }

  /** `parseCardStringInternal`: every `throw` becomes an `Err`. */
  function ParseCard(s: string): (r: Result<Card, ParseError>)
  {
    if |s| == 0 then Err(EmptyString)
    else match FindSuit(s)
      case None => Err(NoSuit)
      case Some(m) =>
        if |s| <= m.len then Err(OnlySuit)
        else
          match FindValue(UpperIfSingle(s[..|s| - m.len]), 0)
          case None => Err(BadValue)
          case Some(v) => Ok(Card(v, m.suit))
  }

  /** `getCardString`: face name followed by the ASCII suit letter. */
  function CardString(c: Card): (t: string)
    ensures 2 <= |t| <= 3
  {
    ValueStrings[c.value] + [LowerSuit(c.suit)]
  }

  /** Text that names suit `s`: its symbol or its letter in either case. */
  predicate SuitText(t: string, s: Suit)
  {
    t == UnicodeSuit(s) || t == [LowerSuit(s)] || t == [UpperSuit(s)]
  }

  /** Text that names value `v`: its face name, or for a one-byte name
      either case, and "T"/"t" for Ten. */
  predicate ValueText(t: string, v: Value)
  {
    UpperIfSingle(t) == ValueStrings[v] || (v == Ten && UpperIfSingle(t) == "T")
  }

  lemma ValueStringsDistinct(i: Value, j: Value)
    ensures ValueStrings[i] == ValueStrings[j] ==> i == j
  {
  }

  lemma FindValueSpec(u: string, v: Value)
    ensures FindValue(u, 0) == Some(v) <==> (ValueStrings[v] == u || (v == Ten && u == "T"))
  {
    var r := FindValue(u, 0);
    if ValueStrings[v] == u || (v == Ten && u == "T") {
      assert r.Some?;
      if u == "T" {
        assert forall j: Value :: ValueStrings[j] != "T";
      } else {
        ValueStringsDistinct(r.value, v);
      }
    }
  }

  /** The suffix test of `FindSuit` recognises exactly the suit texts. */
  lemma FindSuitOfText(p: string, t: string, s: Suit)
    requires SuitText(t, s)
    ensures FindSuit(p + t) == Some(SuitMatch(s, |t|))
  {
    if t == UnicodeSuit(s) {
      FindSymbol(p, s);
    } else {
      FindLetter(p, t[0], s);
      assert p + t == p + [t[0]];
    }
  }

  /** A text ending in a suit's symbol is read as that suit. */
  lemma FindSymbol(p: string, s: Suit)
    ensures FindSuit(p + UnicodeSuit(s)) == Some(SuitMatch(s, 3))
  {
    var w := p + UnicodeSuit(s);
    assert w[|w| - 3..] == UnicodeSuit(s);
    assert w[|w| - 1] == UnicodeSuit(s)[2];
    forall x: Suit | x != s
      ensures !EndsWith(w, UnicodeSuit(x))
    {
      NotSymbolEnd(w, x);
    }
  }

  /** A text ending in a suit's letter, of either case, is read as that
      suit. */
  lemma FindLetter(p: string, ch: char, s: Suit)
    requires ch == LowerSuit(s) || ch == UpperSuit(s)
    ensures FindSuit(p + [ch]) == Some(SuitMatch(s, 1))
  {
    var w := p + [ch];
    assert w[|w| - 1] == ch;
    forall x: Suit
      ensures !EndsWith(w, UnicodeSuit(x))
    {
      NotSymbolEnd(w, x);
    }
  }

  /** A text whose last byte is not the last byte of a suit symbol does not
      end in that symbol. */
  lemma NotSymbolEnd(w: string, x: Suit)
    requires |w| >= 1 && w[|w| - 1] != UnicodeSuit(x)[2]
    ensures !EndsWith(w, UnicodeSuit(x))
  {
    if |w| >= 3 {
      assert w[|w| - 3..][2] == w[|w| - 1];
    }
  }

  /** A card string parses to `c` exactly when it is a name of `c`'s value
      followed by a name of `c`'s suit. */
  lemma ParseCardSpec(s: string, c: Card)
    ensures ParseCard(s) == Ok(c) <==>
      exists k :: 0 < k < |s| && ValueText(s[..k], c.value) && SuitText(s[k..], c.suit)
  {
    if ParseCard(s) == Ok(c) {
      ParsedCardNamed(s, c);
    }
    if exists k :: 0 < k < |s| && ValueText(s[..k], c.value) && SuitText(s[k..], c.suit) {
      var k :| 0 < k < |s| && ValueText(s[..k], c.value) && SuitText(s[k..], c.suit);
      NamedCardParses(s, c, k);
    }
  }

  /** A string that parses to `c` splits into a name of its value and a
      name of its suit. */
  lemma ParsedCardNamed(s: string, c: Card)
    requires ParseCard(s) == Ok(c)
    ensures var k := |s| - FindSuit(s).value.len;
            0 < k < |s| && ValueText(s[..k], c.value) && SuitText(s[k..], c.suit)
  {
    var m := FindSuit(s).value;
    var k := |s| - m.len;
    FindValueSpec(UpperIfSingle(s[..k]), c.value);
  }

  /** A name of a value followed by a name of a suit parses to that card. */
  lemma NamedCardParses(s: string, c: Card, k: nat)
    requires 0 < k < |s| && ValueText(s[..k], c.value) && SuitText(s[k..], c.suit)
    ensures ParseCard(s) == Ok(c)
  {
    assert s == s[..k] + s[k..];
    FindSuitOfText(s[..k], s[k..], c.suit);
    FindValueSpec(UpperIfSingle(s[..k]), c.value);
  }

  /** Reading back what `getCardString` writes gives the same card. */
  lemma ParseCardString(c: Card)
    ensures ParseCard(CardString(c)) == Ok(c)
  {
    var t := CardString(c);
    var k := |ValueStrings[c.value]|;
    assert t[..k] == ValueStrings[c.value];
    assert t[k..] == [LowerSuit(c.suit)];
    ParseCardSpec(t, c);
  }
}

=== FILE: cards.dfy ===
/** Playing cards as both engines see them: a value 0 (Two) .. 12 (Ace)
    and a suit 0 .. 3. The C++ engine orders suits Diamonds, Clubs, Hearts,
    Spades and numbers a card `value * 4 + suit`; the Rust range index uses
    the same `rank * 4 + suit` layout. */
module Cards {

  type Value = v: int | 0 <= v < 13
  type Suit = s: int | 0 <= s < 4

  const Diamonds: Suit := 0
  const Clubs: Suit := 1
  const Hearts: Suit := 2
  const Spades: Suit := 3

  const Ten: Value := 8
  const Ace: Value := 12

  datatype Card = Card(value: Value, suit: Suit)

  type CardIndex = i: int | 0 <= i < 52

  /** The C++ `_cardToInt`: value * 4 + suit. */
  function ToIndex(c: Card): (i: CardIndex)
    ensures i / 4 == c.value && i % 4 == c.suit
  {
    c.value * 4 + c.suit
  }

  /** The scenario reset's decoding of a board or hole-card index. */
  function FromIndex(i: CardIndex): (c: Card)
    ensures ToIndex(c) == i
  {
    Card(i / 4, i % 4)
  }

  lemma IndexRoundTrip(c: Card)
    ensures FromIndex(ToIndex(c)) == c
  {
  }

  /** Two cards are the same card exactly when their indices agree. */
  lemma ToIndexInjective(c: Card, d: Card)
    ensures ToIndex(c) == ToIndex(d) <==> c == d
  {
    if ToIndex(c) == ToIndex(d) {
      IndexRoundTrip(c);
      IndexRoundTrip(d);
    }
  }
}

=== FILE: draft_new.dfy ===
/** The state-machine draft of the Rust engine (`game_logic_new.rs`). An
    `AwaitingAction` state takes one move from the player to act: an
    illegal move is turned into a legal one, the chips move, and the
    betting round is either over or passes to the next player who can
    act. When the round is over the hand goes to the next street, or runs
    out the board and settles the pots in layers. */
module DraftNew {
  import opened Wrappers
  import opened Cards
  import opened RustState
  import opened HandClassifier
  import opened RustBetting
  import opened RustEngine
  import opened LayeredPots
  import opened DraftRules

  // ----- AwaitingAction -----

  /** `get_legal_actions` for the seat to act: nothing once the hand is
      closed or the player has nothing behind; otherwise fold and check or
      call, and bet or raise with a positive stake. */
  function DraftLegal(s: State, i: nat): (r: seq<ActionKind>)
    requires i < |s.players|
    ensures Fold in r <==> !Closed(s) && s.players[i].stake != 0.0
    ensures CheckCall in r <==> Fold in r
    ensures BetRaise in r <==> !Closed(s) && s.players[i].stake > 0.0
    ensures forall j, k :: 0 <= j < k < |r| ==> KindIndex(r[j]) < KindIndex(r[k])
  {
    if s.finalState || s.stage == Showdown then []
    else if s.players[i].stake == 0.0 then []
    else [Fold, CheckCall] + (if s.players[i].stake > 0.0 then [BetRaise] else [])
  }

  /** For a player with chips behind, the draft offers what the main
      engine's `legal_actions` offers. */
  lemma DraftLegalMatchesEngine(s: State)
    requires s.currentPlayer < |s.players| && s.players[s.currentPlayer].stake > 0.0
    ensures DraftLegal(s, s.currentPlayer) == LegalActions(s)
  {
    if Closed(s) {
      assert LegalActions(s) == [];
    } else {
      assert LegalActions(s) == [Fold, CheckCall, BetRaise];
    }
  }

  /** `make_action_legal`: a legal action is kept; an illegal check or
      call becomes a fold and an illegal bet or raise a check or call, or
      failing that a fold, when those are legal; otherwise the action is
      kept as it is. */
  function MakeActionLegal(legal: seq<ActionKind>, a: Action): (r: Action)
    ensures a.kind in legal ==> r == a
    ensures r.kind in legal || r == a
    ensures Fold in legal ==> r.kind in legal
    ensures r != a ==> r.amount == 0.0 && KindIndex(r.kind) < KindIndex(a.kind)
  {
    if a.kind in legal then a
    else
      match a.kind
      case CheckCall => if Fold in legal then Action(Fold, 0.0) else a
      case BetRaise =>
        if CheckCall in legal then Action(CheckCall, 0.0)
        else if Fold in legal then Action(Fold, 0.0)
        else a
      case Fold => a
  }

  /** Making an action legal twice changes nothing more. */
  lemma MakeActionLegalIdempotent(legal: seq<ActionKind>, a: Action)
    ensures MakeActionLegal(legal, MakeActionLegal(legal, a)) == MakeActionLegal(legal, a)
  {
  }

  /** The seat `k` places into the scan that starts at `from`, if none of
      the earlier ones could act: the first later seat that is active with
      chips behind, or none after one lap. */
  function Probe(ps: seq<PlayerState>, from: nat, k: nat): (r: Option<nat>)
    requires from < |ps| && k <= |ps|
    decreases |ps| - k
  {
    if k == |ps| then None
    else if Eligible(ps[SeatAfter(from, k, |ps|)]) then Some(SeatAfter(from, k, |ps|))
    else Probe(ps, from, k + 1)
  }

  /** When some later seat can act, the probe finds the same seat as the
      main engine's scan. */
  lemma {:induction false} ProbeIsScan(ps: seq<PlayerState>, from: nat, k: nat)
    requires from < |ps| && k <= |ps|
    requires exists j :: k <= j < |ps| && Eligible(ps[SeatAfter(from, j, |ps|)])
    ensures Probe(ps, from, k) == Some(ScanFrom(ps, from, k))
    decreases |ps| - k
  {
    if !Eligible(ps[SeatAfter(from, k, |ps|)]) {
      var j :| k <= j < |ps| && Eligible(ps[SeatAfter(from, j, |ps|)]);
      assert j != k;
      ProbeIsScan(ps, from, k + 1);
    }
  }

  /** When no later seat can act, the probe finds nothing. */
  lemma {:induction false} ProbeMisses(ps: seq<PlayerState>, from: nat, k: nat)
    requires from < |ps| && k <= |ps|
    requires forall j :: k <= j < |ps| ==> !Eligible(ps[SeatAfter(from, j, |ps|)])
    ensures Probe(ps, from, k) == None
    decreases |ps| - k
  {
    if k < |ps| {
      ProbeMisses(ps, from, k + 1);
    }
  }

  /** A full lap finds a seat exactly when somebody can act, and what it
      finds is the main engine's scan. */
  lemma ProbeLap(ps: seq<PlayerState>, from: nat)
    requires from < |ps|
    ensures Probe(ps, from, 0).None? <==> !AnyEligible(ps)
    ensures AnyEligible(ps) ==>
      (exists j :: 0 <= j < |ps| && Eligible(ps[SeatAfter(from, j, |ps|)])) &&
      Probe(ps, from, 0) == Some(ScanFrom(ps, from, 0))
  {
    if AnyEligible(ps) {
      ScanFinds(ps, from);
      ProbeIsScan(ps, from, 0);
    } else {
      ProbeMisses(ps, from, 0);
    }
  }

  /** `find_next_active_player`: the first seat after `cur`, going round,
      that is active with chips behind; none after a full lap. */
  function FindNextActivePlayer(ps: seq<PlayerState>, cur: nat): (r: Option<nat>)
    requires cur < |ps|
    ensures r.None? <==> !AnyEligible(ps)
    ensures r.Some? ==> r.value < |ps| && Eligible(ps[r.value])
  {
    ProbeLap(ps, NextSeat(cur, |ps|));
    Probe(ps, NextSeat(cur, |ps|), 0)
  }

  /** The seat found is the first one after `cur` that can act. */
  lemma FindNextIsFirst(ps: seq<PlayerState>, cur: nat, d: nat)
    requires cur < |ps| && d < |ps|
    requires FindNextActivePlayer(ps, cur) == Some(SeatAfter(NextSeat(cur, |ps|), d, |ps|))
    ensures forall m :: 0 <= m < d ==> !Eligible(ps[SeatAfter(NextSeat(cur, |ps|), m, |ps|)])
  {
    var from := NextSeat(cur, |ps|);
    ProbeLap(ps, from);
    var r := ScanFrom(ps, from, 0);
    var j :| (0 <= j < |ps| && r == SeatAfter(from, j, |ps|)
              && forall m :: 0 <= m < j ==> !Eligible(ps[SeatAfter(from, m, |ps|)]));
    SeatAfterInjective(from, j, d, |ps|);
  }

  lemma SeatAfterInjective(from: nat, j: nat, d: nat, n: nat)
    requires from < n && j < n && d < n && SeatAfter(from, j, n) == SeatAfter(from, d, n)
    ensures j == d
  {
  }

  /** `is_round_over`: at most one player is still in, or the betting is
      settled. */
  predicate RoundOver(s: State)
    requires |s.players| > 0
  {
    |ActivePlayers(s.players)| <= 1 || BettingSettled(s)
  }

  /** The new draft's target for a bet or raise of `desired`: the whole
      stake when it is below the bet to match or below one chip; the bet to
      match (or the player's bet, if larger) when less is asked; otherwise
      what is asked. */
  function RaiseTotal(p: PlayerState, minBet: real, desired: real): (total: real)
    ensures p.stake < minBet || p.stake < MinMeaningfulStake ==> total == p.betChips + p.stake
    ensures p.stake >= minBet && p.stake >= MinMeaningfulStake ==> total >= minBet && total >= desired
  {
    if p.stake < minBet || p.stake < MinMeaningfulStake then p.betChips + p.stake
    else if desired < minBet then (if minBet > p.betChips then minBet else p.betChips)
    else desired
  }

  /** A short stack goes all in on a bet or raise. */
  lemma ShortRaiseIsAllIn(s: State, a: Action)
    requires s.currentPlayer < |s.players| && a.kind == BetRaise
    requires var p := s.players[s.currentPlayer]; p.stake >= 0.0 && (p.stake < s.minBet || p.stake < MinMeaningfulStake)
    ensures var p := s.players[s.currentPlayer];
      Apply(s, a, RaiseTotal(p, s.minBet, a.amount)).0.players[s.currentPlayer].stake == 0.0
  {
  }

  /** `AwaitingAction::apply_action`: the move, made legal, with its
      record; then whether the round is over, or the next player to act. */
  function Step(s: State, a: Action): (r: (State, bool))
    requires s.currentPlayer < |s.players|
    ensures |r.0.players| == |s.players| && r.0.currentPlayer < |s.players|
    ensures r.0.stage == s.stage && r.0.finalState == s.finalState && r.0.status == s.status
    ensures r.0.button == s.button && r.0.publicCards == s.publicCards && r.0.deck == s.deck
    ensures !r.1 ==> Eligible(r.0.players[r.0.currentPlayer])
    ensures |r.0.actionList| == |s.actionList| + 1
  {
    var c := s.currentPlayer;
    var act := MakeActionLegal(DraftLegal(s, c), a);
    var moved := Apply(s, act, RaiseTotal(s.players[c], s.minBet, act.amount));
    var m := moved.0;
    var record := ActionRecord(c, moved.1, m.stage, DraftLegal(m, c));
    var u := m.(fromAction := Some(record), actionList := s.actionList + [record]);
    if RoundOver(u) then (u, true)
    else
      match FindNextActivePlayer(u.players, c)
      case None => (u, true)
      case Some(next) => (u.(currentPlayer := next), false)
  }

  /** A step keeps every player's chips, and the pot keeps holding what
      was committed on top of what it held before. */
  lemma StepTotals(s: State, a: Action)
    requires s.currentPlayer < |s.players|
    ensures var t := Step(s, a).0;
      && Total(t.players, Owned) == Total(s.players, Owned)
      && t.pot - Total(t.players, InPlay) == s.pot - Total(s.players, InPlay)
  {
    var c := s.currentPlayer;
    var act := MakeActionLegal(DraftLegal(s, c), a);
    ApplyTotals(s, act, RaiseTotal(s.players[c], s.minBet, act.amount));
  }

  // ----- Advancing the hand -----

  /** `set_winners`: bets pocketed, the layered settlement, everybody out
      of the hand and the hand over. */
  function SetWinners(v: State): (t: State)
    ensures t.finalState && |t.players| == |v.players| && t.stage == v.stage && t.status == v.status
    ensures forall i :: 0 <= i < |v.players| ==> !t.players[i].active && t.players[i].betChips == 0.0
    ensures forall i :: 0 <= i < |v.players| ==> Owned(t.players[i]) == Owned(v.players[i])
    ensures forall i :: 0 <= i < |v.players| && !v.players[i].active && Funded(v.players) ==>
      t.players[i].reward == -InPlay(v.players[i])
  {
    v.(players := Deactivate(Settle(v.players, v.publicCards)), finalState := true)
  }

  /** With pot shares set apart and an active player who covers everyone,
      the rewards add up to zero. */
  lemma SetWinnersZeroSum(v: State)
    requires Spread(v.players) && CoveredByActive(v.players)
    ensures Total(SetWinners(v).players, RewardOf) == 0.0
  {
    SettleZeroSum(v.players, v.publicCards);
    DeactivateKeepsRewards(Settle(v.players, v.publicCards));
  }

  /** `handle_showdown`: nothing to do with nobody in; otherwise the
      layered settlement, which does not read the winners it is given. */
  function HandleShowdown(v: State): (t: State)
    ensures t.stage == v.stage && |t.players| == |v.players| && t.currentPlayer == v.currentPlayer
    ensures t.status == v.status
    ensures t.finalState <==> v.finalState || |ActivePlayers(v.players)| > 0
    ensures |ActivePlayers(t.players)| == 0
  {
    if |ActivePlayers(v.players)| == 0 then v
    else
      var t := SetWinners(v);
      NoneActive(t.players);
      t
  }

  /** A table where nobody is in has no active players. */
  lemma NoneActive(ps: seq<PlayerState>)
    requires forall i :: 0 <= i < |ps| ==> !ps[i].active
    ensures |ActivePlayers(ps)| == 0
  {
  }

  /** `complete_to_showdown`: the rest of the board, as far as the deck
      goes, then showdown. */
  function CompleteToShowdown(u: State): (t: State)
    ensures t.stage == Showdown && |t.players| == |u.players| && t.currentPlayer == u.currentPlayer
    ensures t.status == u.status
    ensures |ActivePlayers(t.players)| == 0
    ensures t.publicCards + t.deck == u.publicCards + u.deck
    ensures CardsToCome(u.stage) <= |u.deck| ==> |t.publicCards| == |u.publicCards| + CardsToCome(u.stage)
    ensures t.finalState <==> u.finalState || |ActivePlayers(u.players)| > 0
  {
    var v := DealUpTo(u, CardsToCome(u.stage)).(stage := Showdown);
    assert v.players == u.players;
    HandleShowdown(v)
  }

  /** The street change both versions of `advance_to_next_stage_or_showdown`
      begin with: bets gathered, the next stage and its cards, no bet to
      match. */
  function NextStreet(s: State): (u: State)
    requires s.stage != Showdown
    ensures u.stage == NextStage(s.stage) && u.minBet == 0.0 && |u.players| == |s.players|
    ensures u.players == GatherAll(s.players) && u.button == s.button && u.status == s.status
    ensures u.finalState == s.finalState && u.currentPlayer == s.currentPlayer
    ensures u.publicCards + u.deck == s.publicCards + s.deck
  {
    DealUpTo(s.(players := GatherAll(s.players)), DealCount(NextStage(s.stage))).(stage := NextStage(s.stage), minBet := 0.0)
  }

  /** Too few players to bet: at most one still in, or at most one of
      them with chips behind. */
  predicate ShortHanded(u: State)
  {
    |ActivePlayers(u.players)| <= 1 || WithChips(ActivePlayers(u.players)) <= 1
  }

  /** The first player to act on a new street, the first seat after the
      button that can act; when nobody can, the board is run out. */
  function OpenStreet(u: State): (t: State)
    requires |u.players| > 0
    ensures AnyEligible(u.players) ==>
      t == u.(currentPlayer := t.currentPlayer) && t.currentPlayer < |t.players| && Eligible(t.players[t.currentPlayer])
    ensures AnyEligible(u.players) ==> OpensAfter(u.players, u.button, t.currentPlayer)
    ensures !AnyEligible(u.players) ==> t == CompleteToShowdown(u)
  {
    var from := (u.button + 1) % |u.players|;
    ProbeLap(u.players, from);
    match Probe(u.players, from, 0)
    case Some(first) =>
      ProbeFinds(u.players, from);
      assert OpensAfter(u.players, u.button, first);
      u.(currentPlayer := first)
    case None => CompleteToShowdown(u)
  }

  /** `advance_to_next_stage_or_showdown` as written. Leaving the river
      reaches showdown, but while two active players have chips behind the
      hand is not settled: the first of them is given the turn instead,
      and the hand stays open. */
  function AdvanceAsWritten(s: State): (t: State)
    requires |s.players| > 0
    ensures |t.players| == |s.players| && t.publicCards + t.deck == s.publicCards + s.deck
    ensures s.currentPlayer < |s.players| ==> t.currentPlayer < |t.players|
    ensures t.status == s.status
    ensures s.stage == River && !s.finalState && WithChips(ActivePlayers(s.players)) >= 2 ==>
      t.stage == Showdown && !t.finalState && t.currentPlayer < |t.players| && t.status == s.status
  {
    if s.stage == Showdown then HandleShowdown(s.(players := GatherAll(s.players)))
    else
      var u := NextStreet(s);
      RiverFacts(s, u);
      if ShortHanded(u) then CompleteToShowdown(u) else OpenStreet(u)
  }

  /** Two active players with chips behind keep their chips through the
      street change, so after the river somebody can act. */
  lemma RiverFacts(s: State, u: State)
    requires s.stage != Showdown && u.stage == NextStage(s.stage) && u.players == GatherAll(s.players)
    ensures s.stage == River ==> u.stage == Showdown
    ensures WithChips(ActivePlayers(s.players)) >= 2 ==> !ShortHanded(u) && AnyEligible(u.players)
  {
    if WithChips(ActivePlayers(s.players)) >= 2 {
      GatheredCanAct(s.players);
    }
  }

  /** Gathering the bets leaves two active players with chips behind able
      to bet. */
  lemma GatheredCanAct(ps: seq<PlayerState>)
    requires WithChips(ActivePlayers(ps)) >= 2
    ensures WithChips(ActivePlayers(GatherAll(ps))) >= 2 && |ActivePlayers(GatherAll(ps))| >= 2
    ensures AnyEligible(GatherAll(ps))
  {
    GatherKeepsCounts(ps);
    ChipsMeanEligible(GatherAll(ps));
  }

  /** An active player with chips behind can act. */
  lemma ChipsMeanEligible(ps: seq<PlayerState>)
    requires WithChips(ActivePlayers(ps)) > 0
    ensures AnyEligible(ps)
  {
    var active := ActivePlayers(ps);
    var p :| p in active && p.stake > 0.0;
    var i :| 0 <= i < |ps| && ps[i] == p;
    assert Eligible(ps[i]);
  }

  /** As written, a hand whose river closes with two active players who
      have chips behind reaches showdown without being settled, and from
      there every action is refused: the hand never ends. */
  lemma RiverHandStuck(s: State, a: Action)
    requires |s.players| > 0 && s.stage == River && !s.finalState && s.status == StateStatus.Ok
    requires WithChips(ActivePlayers(s.players)) >= 2
    ensures AdvanceAsWritten(s).currentPlayer < |AdvanceAsWritten(s).players|
    ensures ApplyAction(AdvanceAsWritten(s), a) == AdvanceAsWritten(s).(status := StateStatus.IllegalAction)
    ensures !ApplyAction(AdvanceAsWritten(s), a).finalState
  {
  }

  /** `advance_to_next_stage_or_showdown`, settling the hand as soon as it
      reaches showdown. The hand either goes on to the next street with a
      player who can act, or reaches showdown and is settled whenever
      anybody is still in. */
  function Advance(s: State): (t: State)
    requires |s.players| > 0
    ensures |t.players| == |s.players| && t.publicCards + t.deck == s.publicCards + s.deck
    ensures t.stage == Showdown || (s.stage != Showdown && t.stage == NextStage(s.stage))
    ensures t.stage != Showdown ==>
      t.currentPlayer < |t.players| && Eligible(t.players[t.currentPlayer]) && t.finalState == s.finalState
    ensures t.stage == Showdown && |ActivePlayers(s.players)| > 0 ==> t.finalState
    ensures t.stage == Showdown ==> |ActivePlayers(t.players)| == 0
    ensures s.currentPlayer < |s.players| ==> t.currentPlayer < |t.players|
    ensures t.status == s.status
  {
    GatherKeepsCounts(s.players);
    if s.stage == Showdown then HandleShowdown(s.(players := GatherAll(s.players)))
    else StreetOrShowdown(NextStreet(s))
  }

  /** After the street change: straight to showdown once there, or with
      too few players to bet; otherwise the first player to act. */
  function StreetOrShowdown(u: State): (t: State)
    requires |u.players| > 0
    ensures |t.players| == |u.players| && t.publicCards + t.deck == u.publicCards + u.deck
    ensures t.status == u.status && (t.stage == Showdown || t.stage == u.stage)
    ensures t.stage != Showdown ==>
      t.currentPlayer < |t.players| && Eligible(t.players[t.currentPlayer]) && t.finalState == u.finalState
    ensures t.stage == Showdown && |ActivePlayers(u.players)| > 0 ==> t.finalState
    ensures t.stage == Showdown ==> |ActivePlayers(t.players)| == 0
    ensures u.currentPlayer < |u.players| ==> t.currentPlayer < |t.players|
  {
    if u.stage == Showdown || ShortHanded(u) then CompleteToShowdown(u) else OpenStreet(u)
  }

  lemma ProbeFinds(ps: seq<PlayerState>, from: nat)
    requires from < |ps|
    ensures Probe(ps, from, 0).Some? ==> Probe(ps, from, 0).value < |ps| && Eligible(ps[Probe(ps, from, 0).value])
  {
    ProbeLap(ps, from);
  }

  /** The settlement both ways of advancing end in: they agree on every
      street but the river. */
  lemma AdvanceAgreesBeforeRiver(s: State)
    requires |s.players| > 0 && s.stage != River
    ensures Advance(s) == AdvanceAsWritten(s)
  {
  }

  // ----- apply_action -----

  /** `apply_action` as written: a hand that has stopped or finished is
      returned as it is; at showdown the action is refused (the hand is not
      marked over); otherwise the player to act moves, and when that ends
      the round the hand advances as written and no legal actions are
      published. */
  function ApplyAction(s: State, a: Action): (t: State)
    requires s.currentPlayer < |s.players|
    ensures |t.players| == |s.players| && t.currentPlayer < |t.players|
    ensures s.status != StateStatus.Ok || s.finalState ==> t == s
    ensures s.status == StateStatus.Ok && !s.finalState && s.stage == Showdown ==>
      t == s.(status := StateStatus.IllegalAction)
    ensures s.status == StateStatus.Ok && !s.finalState && s.stage != Showdown ==>
      && t.status == StateStatus.Ok
      && (t.legalActions == [] ||
          (t.legalActions == AllKinds && t.stage == s.stage && !t.finalState && Eligible(t.players[t.currentPlayer])))
  {
    if s.status != StateStatus.Ok || s.finalState then s
    else if s.stage == Showdown then s.(status := StateStatus.IllegalAction)
    else
      var r := Step(s, a);
      if r.1 then
        AdvanceAsWritten(r.0).(legalActions := [])
      else
        assert DraftLegal(r.0, r.0.currentPlayer) == AllKinds;
        r.0.(legalActions := DraftLegal(r.0, r.0.currentPlayer))
  }

  /** `apply_action` with the corrected advance: the same, except that a
      hand reaching showdown is settled whenever anybody is still in. */
  function ApplyActionFixed(s: State, a: Action): (t: State)
    requires s.currentPlayer < |s.players|
    ensures |t.players| == |s.players| && t.currentPlayer < |t.players|
    ensures s.status != StateStatus.Ok || s.finalState ==> t == s
    ensures s.status == StateStatus.Ok && !s.finalState && s.stage == Showdown ==>
      t == s.(status := StateStatus.IllegalAction)
    ensures s.status == StateStatus.Ok && !s.finalState && s.stage != Showdown ==>
      && t.status == StateStatus.Ok
      && (t.legalActions == [] ||
          (t.legalActions == AllKinds && t.stage == s.stage && !t.finalState && Eligible(t.players[t.currentPlayer])))
    ensures s.status == StateStatus.Ok && !s.finalState && s.stage != Showdown && t.stage == Showdown ==>
      |ActivePlayers(t.players)| == 0
  {
    if s.status != StateStatus.Ok || s.finalState then s
    else if s.stage == Showdown then s.(status := StateStatus.IllegalAction)
    else
      var r := Step(s, a);
      if r.1 then
        var t := Advance(r.0);
        t.(legalActions := [])
      else
        assert DraftLegal(r.0, r.0.currentPlayer) == AllKinds;
        r.0.(legalActions := DraftLegal(r.0, r.0.currentPlayer))
  }

  /** Before the river, `apply_action` as written and with the corrected
      advance are the same. */
  lemma ApplyAgreesBeforeRiver(s: State, a: Action)
    requires s.currentPlayer < |s.players| && s.stage != River
    ensures ApplyAction(s, a) == ApplyActionFixed(s, a)
  {
    if s.status == StateStatus.Ok && !s.finalState && s.stage != Showdown {
      AdvanceAgreesBeforeRiver(Step(s, a).0);
    }
  }

  /** As written, an action that closes the river with two active players
      who have chips behind leaves the hand at showdown and not over, where
      the corrected advance settles it. */
  lemma RiverCloseStuck(s: State, a: Action)
    requires s.currentPlayer < |s.players| && s.status == StateStatus.Ok && !s.finalState && s.stage == River
    requires Step(s, a).1 && WithChips(ActivePlayers(Step(s, a).0.players)) >= 2
    ensures ApplyAction(s, a).stage == Showdown && !ApplyAction(s, a).finalState
    ensures ApplyActionFixed(s, a).stage == Showdown && ApplyActionFixed(s, a).finalState
  {
    var v := Step(s, a).0;
    assert WithChips(ActivePlayers(v.players)) <= |ActivePlayers(v.players)|;
  }
}

=== FILE: draft_old.dfy ===
/** The earlier draft of the Rust engine (`game_logic_old.rs`): one
    `apply_action` that converts an illegal action, moves the chips, then
    settles a hand with one player left, runs out the board when at most
    one player can bet, moves to the next street when the round is over,
    and passes the turn; `set_winners` settles the pots in layers. */
module DraftOld {
  import opened Wrappers
  import opened Cards
  import opened RustState
  import opened HandClassifier
  import opened RustBetting
  import opened RustEngine
  import opened LayeredPots
  import opened DraftRules
  import DraftNew

  /** The conversion of an action not among the published legal actions:
      a check or call becomes a fold; a bet or raise becomes a check or
      call when that is legal, and a fold otherwise; a fold stays. */
  function ConvertIllegal(legal: seq<ActionKind>, a: Action): (r: Action)
    ensures a.kind in legal ==> r == a
    ensures a.kind !in legal && a.kind != Fold ==> r.amount == 0.0 && KindIndex(r.kind) < KindIndex(a.kind)
    ensures a.kind !in legal && a.kind == BetRaise && CheckCall in legal ==> r.kind == CheckCall
    ensures r.kind == Fold || r.kind in legal || (a.kind == Fold && r == a)
  {
    if a.kind in legal then a
    else
      match a.kind
      case CheckCall => Action(Fold, 0.0)
      case BetRaise => if CheckCall in legal then Action(CheckCall, 0.0) else Action(Fold, 0.0)
      case Fold => a
  }

  /** Where folding is legal, both drafts convert an action the same way. */
  lemma ConvertAgreesWithNew(legal: seq<ActionKind>, a: Action)
    requires Fold in legal
    ensures ConvertIllegal(legal, a) == DraftNew.MakeActionLegal(legal, a)
  {
  }

  /** The old draft's target for a bet or raise of `desired`: the whole
      stake when it is below the bet to match or the raise would leave
      less than one chip; the bet to match when less is asked; otherwise
      what is asked. */
  function RaiseTotal(p: PlayerState, minBet: real, desired: real): (total: real)
    ensures p.stake < minBet || (desired > p.betChips && p.stake - (desired - p.betChips) < MinMeaningfulStake) ==>
      total == p.betChips + p.stake
    ensures total == p.betChips + p.stake || total == desired || (desired < minBet && total == minBet)
  {
    if p.stake < minBet || (desired > p.betChips && p.stake - (desired - p.betChips) < MinMeaningfulStake) then
      p.betChips + p.stake
    else if desired < minBet then minBet
    else desired
  }

  /** With a stake that covers the bet to match and one chip, asking at
      least the bet to match and leaving at least a chip behind, the two
      drafts raise the same. */
  lemma RaiseAgreesWithNew(p: PlayerState, minBet: real, desired: real)
    requires p.stake >= minBet && p.stake >= MinMeaningfulStake && desired >= minBet
    requires desired <= p.betChips || p.stake - (desired - p.betChips) >= MinMeaningfulStake
    ensures RaiseTotal(p, minBet, desired) == DraftNew.RaiseTotal(p, minBet, desired)
  {
  }

  /** A raise that asks for more than the stake leaves a chip behind goes
      all in. */
  lemma ShortRaiseIsAllIn(s: State, a: Action)
    requires s.currentPlayer < |s.players| && a.kind == BetRaise
    requires var p := s.players[s.currentPlayer];
      p.stake >= 0.0 && a.amount > p.betChips && p.stake - (a.amount - p.betChips) < MinMeaningfulStake
    ensures var p := s.players[s.currentPlayer];
      Apply(s, a, RaiseTotal(p, s.minBet, a.amount)).0.players[s.currentPlayer].stake == 0.0
  {
  }

  // ----- set_winners, complete_to_showdown, to_next_stage -----

  /** `set_winners`: bets pocketed and rewards reset; when nobody put chips
      in the hand just ends, and otherwise the pots are settled in layers
      and everybody leaves the hand. */
  function SetWinners(v: State): (t: State)
    ensures t.finalState && |t.players| == |v.players| && t.stage == v.stage && t.status == v.status
    ensures t.currentPlayer == v.currentPlayer
    ensures forall i :: 0 <= i < |v.players| ==> t.players[i].betChips == 0.0
    ensures forall i :: 0 <= i < |v.players| ==> Owned(t.players[i]) == Owned(v.players[i])
    ensures !Funded(v.players) ==> forall i :: 0 <= i < |v.players| ==>
      t.players[i].reward == 0.0 && t.players[i].active == v.players[i].active
    ensures Funded(v.players) ==> forall i :: 0 <= i < |v.players| ==> !t.players[i].active
    ensures forall i :: 0 <= i < |v.players| && !v.players[i].active && Funded(v.players) ==>
      t.players[i].reward == -InPlay(v.players[i])
  {
    var settled := Settle(v.players, v.publicCards);
    v.(players := if Funded(v.players) then Deactivate(settled) else settled, finalState := true)
  }

  /** The rewards add up to zero when the pot shares are set apart and an
      active player covers everyone. */
  lemma SetWinnersZeroSum(v: State)
    requires Spread(v.players) && CoveredByActive(v.players)
    ensures Total(SetWinners(v).players, RewardOf) == 0.0
  {
    SettleZeroSum(v.players, v.publicCards);
    DeactivateKeepsRewards(Settle(v.players, v.publicCards));
  }

  /** Both drafts settle a funded hand the same way. */
  lemma SetWinnersAgree(v: State)
    requires Funded(v.players)
    ensures SetWinners(v) == DraftNew.SetWinners(v)
  {
  }

  /** `complete_to_showdown`: bets pocketed, the rest of the board as far
      as the deck goes, showdown, and the settlement if anybody is in. */
  function CompleteToShowdown(u: State): (t: State)
    ensures t.stage == Showdown && |t.players| == |u.players| && t.currentPlayer == u.currentPlayer
    ensures t.status == u.status && t.publicCards + t.deck == u.publicCards + u.deck
    ensures CardsToCome(u.stage) <= |u.deck| ==> |t.publicCards| == |u.publicCards| + CardsToCome(u.stage)
    ensures t.finalState <==> u.finalState || |ActivePlayers(u.players)| > 0
  {
    var v := DealUpTo(u.(players := PocketAll(u.players)), CardsToCome(u.stage)).(stage := Showdown);
    PocketKeepsActive(u.players);
    if |ActivePlayers(v.players)| > 0 then SetWinners(v) else v
  }

  /** Pocketing bets keeps who is in. */
  lemma {:induction false} PocketKeepsActive(ps: seq<PlayerState>)
    ensures |ActivePlayers(PocketAll(ps))| == |ActivePlayers(ps)|
    decreases |ps|
  {
    if |ps| > 0 {
      var n := |ps|;
      assert PocketAll(ps)[..n - 1] == PocketAll(ps[..n - 1]);
      PocketKeepsActive(ps[..n - 1]);
    }
  }

  /** `to_next_stage`: the next stage (showdown after the river and at
      showdown), its cards as far as the deck goes, bets gathered, no bet
      to match; then straight to showdown when nobody active has chips,
      or the first seat after the button that can act, with the range
      indices recomputed. */
  function ToNextStage(s: State): (t: State)
    requires |s.players| > 0
    ensures Gathered(s, t)
    ensures t.stage == NextStage(s.stage) || t.stage == Showdown
    ensures s.currentPlayer < |s.players| ==> t.currentPlayer < |t.players|
    ensures t.stage != Showdown ==>
      && t.currentPlayer < |t.players| && Eligible(t.players[t.currentPlayer])
      && DraftNew.Probe(GatherAll(s.players), (s.button + 1) % |s.players|, 0) == Some(t.currentPlayer)
  {
    var u := Street(s);
    if !AnyEligible(u.players) && u.stage != Showdown then u.(stage := Showdown)
    else OpenStreet(s)
  }

  /** What every street change keeps: the players, up to gathered bets and
      recomputed range indices, with their chips; the status; and the
      cards, with the board grown from the front of the deck. */
  predicate Gathered(s: State, t: State)
  {
    && |t.players| == |s.players|
    && (forall i :: 0 <= i < |s.players| ==> t.players[i] == Gather(s.players[i]).(rangeIdx := t.players[i].rangeIdx))
    && (forall i :: 0 <= i < |s.players| ==> Owned(t.players[i]) == Owned(s.players[i]))
    && t.status == s.status && t.finalState == s.finalState
    && t.publicCards + t.deck == s.publicCards + s.deck
  }

  /** The next stage with its cards dealt as far as the deck goes, every
      bet gathered and no bet to match. */
  function Street(s: State): (u: State)
    ensures u.players == GatherAll(s.players) && u.stage == NextStage(s.stage) && u.minBet == 0.0
    ensures Gathered(s, u) && u.button == s.button && u.currentPlayer == s.currentPlayer
  {
    DealUpTo(s.(players := GatherAll(s.players)), DealCount(NextStage(s.stage))).(stage := NextStage(s.stage), minBet := 0.0)
  }

  /** The first seat after the button that can act opens the street, with
      the range indices recomputed; with nobody able to act the hand is at
      showdown. */
  function OpenStreet(s: State): (t: State)
    requires |s.players| > 0
    ensures Gathered(s, t) && t.currentPlayer < |t.players|
    ensures t.stage == NextStage(s.stage) || t.stage == Showdown
    ensures t.stage != Showdown ==>
      && Eligible(t.players[t.currentPlayer])
      && DraftNew.Probe(GatherAll(s.players), (s.button + 1) % |s.players|, 0) == Some(t.currentPlayer)
  {
    var u := Street(s);
    var from := (s.button + 1) % |s.players|;
    assert u.players == GatherAll(s.players) && |u.players| == |s.players|;
    DraftNew.ProbeLap(u.players, from);
    match DraftNew.Probe(u.players, from, 0)
    case None => u.(currentPlayer := from, stage := Showdown)
    case Some(first) =>
      DraftNew.ProbeFinds(u.players, from);
      UpdateRangeIndices(u.(currentPlayer := first))
  }

  // ----- apply_action -----

  /** The betting round is over: two or more players are in and the
      betting is settled. */
  predicate RoundEnded(u: State)
    requires |u.players| > 0
  {
    |ActivePlayers(u.players)| >= 2 && BettingSettled(u)
  }

  /** Who acts next, as written: the first seat after the player who just
      moved that can act, even when the street has just changed and
      `to_next_stage` has already chosen the first seat after the button. */
  function NextToActAsWritten(v: State, c: nat): (r: Option<nat>)
    requires c < |v.players|
    ensures r.Some? ==> r.value < |v.players| && Eligible(v.players[r.value])
    ensures r.None? <==> !AnyEligible(v.players)
  {
    DraftNew.FindNextActivePlayer(v.players, c)
  }

  /** When the seat after the last mover can act, the as-written choice is
      that seat, whoever holds the button. */
  lemma NextToActAsWrittenIsNeighbour(v: State, c: nat)
    requires c < |v.players| && Eligible(v.players[NextSeat(c, |v.players|)])
    ensures NextToActAsWritten(v, c) == Some(NextSeat(c, |v.players|))
  {
    assert SeatAfter(NextSeat(c, |v.players|), 0, |v.players|) == NextSeat(c, |v.players|);
  }

  /** Three players who can all act, the button at seat 0, and the big
      blind (seat 2) closing the preflop round: as written the flop is
      opened by the button, while the first seat after the button, the
      small blind, should open it. */
  lemma ButtonOpensFlopAsWritten(v: State)
    requires |v.players| == 3 && v.button == 0
    requires forall i :: 0 <= i < 3 ==> Eligible(v.players[i])
    ensures NextToActAsWritten(v, 2) == Some(0)
    ensures DraftNew.Probe(v.players, (v.button + 1) % 3, 0) == Some(1)
  {
    NextToActAsWrittenIsNeighbour(v, 2);
    assert SeatAfter(1, 0, 3) == 1;
  }

  /** Who acts next: after a street change, the player `to_next_stage`
      chose; otherwise the first seat after the player who just moved that
      can act. */
  function NextToAct(v: State, c: nat, streetChanged: bool): (r: Option<nat>)
    requires c < |v.players| && v.currentPlayer < |v.players|
    ensures streetChanged ==> r == Some(v.currentPlayer)
    ensures !streetChanged ==> r == NextToActAsWritten(v, c)
  {
    if streetChanged then Some(v.currentPlayer) else DraftNew.FindNextActivePlayer(v.players, c)
  }

  /** After a street change the next street is opened by the first seat
      after the button that can act. */
  lemma StreetOpenedAfterButton(u: State, c: nat)
    requires |u.players| > 0 && c < |u.players| && u.currentPlayer < |u.players|
    requires ToNextStage(u).stage != Showdown
    ensures NextToAct(ToNextStage(u), c, true) == DraftNew.Probe(GatherAll(u.players), (u.button + 1) % |u.players|, 0)
  {
  }

  /** The published legal actions once the turn has passed. */
  function Publish(w: State): (t: State)
    requires w.currentPlayer < |w.players|
    ensures t == w.(legalActions := LegalActions(w))
  {
    w.(legalActions := LegalActions(w))
  }

  /** The end of `apply_action`: the next player to act, scanned from the
      seat after the player who just moved, or the board run out when
      nobody can act; at showdown the settlement. */
  function PassTurn(v: State, c: nat): (t: State)
    requires c < |v.players| && v.currentPlayer < |v.players|
    ensures |t.players| == |v.players| && t.status == v.status
    ensures forall i :: 0 <= i < |v.players| ==> Owned(t.players[i]) == Owned(v.players[i])
    ensures v.stage != Showdown && NextToActAsWritten(v, c).Some? ==>
      t == Publish(v.(currentPlayer := NextToActAsWritten(v, c).value))
    ensures !t.finalState && !v.finalState ==>
      (t.stage != Showdown && t.currentPlayer < |t.players| && Eligible(t.players[t.currentPlayer])
       && t.legalActions == LegalActions(t)) || |ActivePlayers(t.players)| == 0
  {
    if v.stage != Showdown then
      match NextToActAsWritten(v, c)
      case None => CompleteToShowdown(v)
      case Some(next) => Publish(v.(currentPlayer := next))
    else if |ActivePlayers(v.players)| >= 1 then Publish(SetWinners(v))
    else Publish(v)
  }

  /** What follows the move in `apply_action`: one player left wins; with
      at most one player able to bet the board is run out; a finished
      round moves to the next street; then the turn passes. */
  function AfterMove(u: State, c: nat): (t: State)
    requires c < |u.players| && u.currentPlayer < |u.players| && u.stage != Showdown
    ensures |t.players| == |u.players| && t.status == u.status
    ensures forall i :: 0 <= i < |u.players| ==> Owned(t.players[i]) == Owned(u.players[i])
    ensures !t.finalState && !u.finalState ==>
      (t.stage != Showdown && t.currentPlayer < |t.players| && Eligible(t.players[t.currentPlayer])
       && t.legalActions == LegalActions(t)) || |ActivePlayers(t.players)| == 0
  {
    var active := ActivePlayers(u.players);
    if |active| == 1 then SetWinners(u)
    else if |active| > 1 && WithChips(active) <= 1 then CompleteToShowdown(u)
    else if RoundEnded(u) then CloseRound(u, c)
    else PassTurn(u, c)
  }

  /** A finished round: the next street, then the turn passes as written,
      from the seat after the player who just moved, overriding the opener
      `to_next_stage` chose. */
  function CloseRound(u: State, c: nat): (t: State)
    requires c < |u.players| && u.currentPlayer < |u.players|
    ensures |t.players| == |u.players| && t.status == u.status
    ensures forall i :: 0 <= i < |u.players| ==> Owned(t.players[i]) == Owned(u.players[i])
    ensures !t.finalState && !u.finalState ==>
      (t.stage != Showdown && t.currentPlayer < |t.players| && Eligible(t.players[t.currentPlayer])
       && t.legalActions == LegalActions(t)) || |ActivePlayers(t.players)| == 0
  {
    PassTurn(ToNextStage(u), c)
  }

  /** `apply_action`: a hand that has stopped or finished is returned as
      it is; at showdown the action is refused and the hand marked over;
      otherwise the action is converted if it is not among the published
      legal actions, its chips move, it is recorded with the published
      legal actions, and the hand goes on. No player's chips change: only
      their place (stake, bet, pot share) does. A hand still going on has
      a player who can act and the legal actions published for them, or
      nobody left in it. */
  function ApplyAction(s: State, a: Action): (t: State)
    requires s.currentPlayer < |s.players|
    ensures |t.players| == |s.players|
    ensures s.status != StateStatus.Ok || s.finalState ==> t == s
    ensures s.status == StateStatus.Ok && !s.finalState && s.stage == Showdown ==>
      t == s.(status := StateStatus.IllegalAction, finalState := true)
    ensures forall i :: 0 <= i < |s.players| ==> Owned(t.players[i]) == Owned(s.players[i])
    ensures s.status == StateStatus.Ok && !t.finalState ==>
      && t.status == StateStatus.Ok
      && ((t.stage != Showdown && t.currentPlayer < |t.players| && Eligible(t.players[t.currentPlayer])
           && t.legalActions == LegalActions(t)) || |ActivePlayers(t.players)| == 0)
  {
    if s.status != StateStatus.Ok || s.finalState then s
    else if s.stage == Showdown then s.(status := StateStatus.IllegalAction, finalState := true)
    else
      var c := s.currentPlayer;
      var act := ConvertIllegal(s.legalActions, a);
      var moved := Apply(s, act, RaiseTotal(s.players[c], s.minBet, act.amount));
      var record := ActionRecord(c, moved.1, s.stage, s.legalActions);
      AfterMove(moved.0.(fromAction := Some(record), actionList := s.actionList + [record]), c)
  }
}

=== FILE: draft_rules.dfy ===
/** What the two unfinished drafts of the Rust engine (`game_logic_new.rs`
    and `game_logic_old.rs`) have in common: the rank of a hand on a short
    board, the entries the layered settlement reads, pocketing and
    gathering bets, dealing while the deck lasts, the chips a check, call,
    fold or raise moves, and the test that a betting round is settled. */
module DraftRules {
  import opened Wrappers
  import opened Cards
  import opened RustState
  import opened HandClassifier
  import opened RustBetting
  import opened RustEngine
  import opened LayeredPots

  /** The rank both drafts fall back to for a hand that cannot make five
      cards. Lower scores are better, so it is no worse than a real
      high-card score, whose second part is the encoded card values. */
  const FallbackRank: Score := (10, 0, 0)

  /** `rank_hand` in both drafts: the best five-card score of the board and
      the hole cards, or the fallback rank when there are fewer than five. */
  function RankOrFallback(hole: (Card, Card), board: seq<Card>): (r: Score)
    ensures ScoreLess(r, NoRank)
    ensures |board| < 3 ==> r == FallbackRank
    ensures |board| >= 3 ==> exists idx :: (Increasing(idx, |board| + 2) && |idx| == 5 &&
                                            r == RankCardCombination(Pick(board + [hole.0, hole.1], idx)))
  {
    if |board| < 3 then FallbackRank else RankHand(hole, board)
  }

  /** What the settlement reads of each seat: pot share, still in, rank. */
  function Entries(ps: seq<PlayerState>, board: seq<Card>): (es: seq<Entry>)
    ensures |es| == |ps| && Ranked(es)
    ensures forall i :: 0 <= i < |ps| ==> es[i].pot == ps[i].potChips && es[i].live == ps[i].active
  {
    seq(|ps|, i requires 0 <= i < |ps| => Entry(ps[i].potChips, ps[i].active, RankOrFallback(ps[i].hand, board)))
  }

  // ----- Moving bets into the pot share -----

  /** A bet moved into the pot share. */
  function Pocket(p: PlayerState): (q: PlayerState)
    ensures q.betChips == 0.0 && InPlay(q) == InPlay(p) && Owned(q) == Owned(p)
    ensures q.stake == p.stake && q.active == p.active && q.hand == p.hand
  {
    p.(potChips := p.potChips + p.betChips, betChips := 0.0)
  }

  /** The end of a street in both drafts: the bet goes into the pot share
      and everyone, all in or not, has to act again. */
  function Gather(p: PlayerState): (q: PlayerState)
    ensures q == Pocket(p).(lastStageAction := None)
  {
    p.(potChips := p.potChips + p.betChips, betChips := 0.0, lastStageAction := None)
  }

  function PocketAll(ps: seq<PlayerState>): (qs: seq<PlayerState>)
    ensures |qs| == |ps| && forall i :: 0 <= i < |ps| ==> qs[i] == Pocket(ps[i])
  {
    seq(|ps|, i requires 0 <= i < |ps| => Pocket(ps[i]))
  }

  function GatherAll(ps: seq<PlayerState>): (qs: seq<PlayerState>)
    ensures |qs| == |ps| && forall i :: 0 <= i < |ps| ==> qs[i] == Gather(ps[i])
  {
    seq(|ps|, i requires 0 <= i < |ps| => Gather(ps[i]))
  }

  /** Gathering differs from the main engine's `CollectBets` only in
      clearing the last action of a player with nothing behind. */
  lemma GatherVersusCollect(p: PlayerState)
    ensures p.stake != 0.0 ==> Gather(p) == CollectBets(p)
    ensures p.stake == 0.0 ==> Gather(p) == CollectBets(p).(lastStageAction := None)
  {
  }

  /** Gathering keeps who is in and who has chips behind, so it keeps the
      number of active players and of active players with chips. */
  lemma {:induction false} GatherKeepsCounts(ps: seq<PlayerState>)
    ensures |ActivePlayers(GatherAll(ps))| == |ActivePlayers(ps)|
    ensures WithChips(ActivePlayers(GatherAll(ps))) == WithChips(ActivePlayers(ps))
    decreases |ps|
  {
    if |ps| > 0 {
      var n := |ps|;
      var front := ps[..n - 1];
      assert GatherAll(ps)[..n - 1] == GatherAll(front);
      GatherKeepsCounts(front);
      var g := GatherAll(ps);
      assert ActivePlayers(g) == ActivePlayers(g[..n - 1]) + (if g[n - 1].active then [g[n - 1]] else []);
      assert ActivePlayers(ps) == ActivePlayers(front) + (if ps[n - 1].active then [ps[n - 1]] else []);
      WithChipsAppend(ActivePlayers(GatherAll(front)), if g[n - 1].active then [g[n - 1]] else []);
      WithChipsAppend(ActivePlayers(front), if ps[n - 1].active then [ps[n - 1]] else []);
    }
  }

  lemma {:induction false} WithChipsAppend(a: seq<PlayerState>, b: seq<PlayerState>)
    ensures WithChips(a + b) == WithChips(a) + WithChips(b)
    decreases |b|
  {
    if |b| > 0 {
      var n := |b|;
      assert (a + b)[..|a + b| - 1] == a + b[..n - 1];
      WithChipsAppend(a, b[..n - 1]);
    } else {
      assert a + b == a;
    }
  }

  /** A pot that keeps its chips: the chips the players own add up to the
      same, and the pot holds what they committed. */
  lemma PocketAllTotals(ps: seq<PlayerState>)
    ensures Total(PocketAll(ps), InPlay) == Total(ps, InPlay)
    ensures Total(PocketAll(ps), Owned) == Total(ps, Owned)
  {
    TotalSame(PocketAll(ps), ps, InPlay, InPlay);
    TotalSame(PocketAll(ps), ps, Owned, Owned);
  }

  lemma GatherAllTotals(ps: seq<PlayerState>)
    ensures Total(GatherAll(ps), InPlay) == Total(ps, InPlay)
    ensures Total(GatherAll(ps), Owned) == Total(ps, Owned)
  {
    TotalSame(GatherAll(ps), ps, InPlay, InPlay);
    TotalSame(GatherAll(ps), ps, Owned, Owned);
  }

  // ----- Dealing -----

  /** Up to `k` board cards off the front of the deck, as many as it has:
      both drafts deal one card at a time while the deck is not empty. */
  function DealUpTo(s: State, k: nat): (t: State)
    ensures t.publicCards + t.deck == s.publicCards + s.deck
    ensures |t.publicCards| == |s.publicCards| + (if k <= |s.deck| then k else |s.deck|)
    ensures t == s.(publicCards := t.publicCards, deck := t.deck)
  {
    Deal(s, if k <= |s.deck| then k else |s.deck|)
  }

  // ----- The chips a move puts in -----

  /** Check or call against the largest active bet: nothing when the bet
      is already the largest; otherwise the difference, or the whole stake
      when that does not cover it or would leave less than one chip. */
  function CallChips(bet: real, stake: real, maxBet: real): (c: real)
    ensures bet >= maxBet ==> c == 0.0
    ensures bet < maxBet ==> c == stake || bet + c == maxBet
    ensures bet < maxBet ==> stake - c == 0.0 || stake - c >= MinMeaningfulStake
    ensures bet < maxBet && stake >= 0.0 ==> 0.0 <= c <= stake
    ensures bet < maxBet && bet + stake >= maxBet + MinMeaningfulStake ==> bet + c == maxBet
  {
    if bet >= maxBet then 0.0
    else
      var required := maxBet - bet;
      if required > stake then stake
      else if stake - required < MinMeaningfulStake then stake
      else required
  }

  /** The chips a bet or raise adds to reach `total`: none if the bet is
      already there, and never more than the stake. */
  function RaiseChips(bet: real, stake: real, total: real): (c: real)
    ensures stake >= 0.0 ==> 0.0 <= c <= stake
    ensures c == stake || c == 0.0 || bet + c == total
    ensures total <= bet ==> c == 0.0 || c == stake
    ensures bet < total <= bet + stake ==> bet + c == total
  {
    var add := if total > bet then total - bet else 0.0;
    if add > stake then stake else add
  }

  /** Fold in both drafts: out of the hand, the bet into the pot share, and
      the reward is minus everything put in. */
  function Folded(p: PlayerState): (q: PlayerState)
    ensures !q.active && q.betChips == 0.0 && q.reward == -InPlay(p)
    ensures InPlay(q) == InPlay(p) && Owned(q) == Owned(p)
    ensures q == Pocket(p).(active := false, reward := q.reward)
  {
    p.(active := false, potChips := p.potChips + p.betChips, betChips := 0.0, reward := -(p.potChips + p.betChips))
  }

  /** `c` chips from the stake into the bet. */
  function Commit(p: PlayerState, c: real): (q: PlayerState)
    ensures q.betChips == p.betChips + c && Owned(q) == Owned(p) && q.potChips == p.potChips
    ensures q == p.(stake := q.stake, betChips := q.betChips)
  {
    p.(stake := p.stake - c, betChips := p.betChips + c)
  }

  /** One move by the player to act, shared by both drafts once each has
      converted the action and (for a raise) fixed the `total` to bet up
      to: the new state and the action as recorded. A check records the
      action as given, a call the chips it moved, a raise the bet it
      reached; the raise lifts the bet to match to that bet. The player's
      last action on this street is set. */
  function Apply(s: State, a: Action, total: real): (r: (State, Action))
    requires s.currentPlayer < |s.players|
    ensures |r.0.players| == |s.players|
    ensures r.0 == s.(players := r.0.players, pot := r.0.pot, minBet := r.0.minBet)
    ensures forall j :: 0 <= j < |s.players| && j != s.currentPlayer ==> r.0.players[j] == s.players[j]
    ensures Owned(r.0.players[s.currentPlayer]) == Owned(s.players[s.currentPlayer])
    ensures r.0.pot - s.pot == InPlay(r.0.players[s.currentPlayer]) - InPlay(s.players[s.currentPlayer])
    ensures r.0.players[s.currentPlayer].lastStageAction == Some(a.kind)
    ensures r.0.players[s.currentPlayer].active == (s.players[s.currentPlayer].active && a.kind != Fold)
    ensures r.1.kind == a.kind
  {
    var c := s.currentPlayer;
    var p := s.players[c];
    match a.kind
    case Fold =>
      (s.(players := s.players[c := Folded(p).(lastStageAction := Some(Fold))]), a)
    case CheckCall =>
      var maxBet := MaxBet(ActivePlayers(s.players));
      if p.betChips >= maxBet then
        (s.(players := s.players[c := p.(lastStageAction := Some(CheckCall))]), a)
      else
        var chips := CallChips(p.betChips, p.stake, maxBet);
        (s.(players := s.players[c := Commit(p, chips).(lastStageAction := Some(CheckCall))], pot := s.pot + chips),
         Action(CheckCall, chips))
    case BetRaise =>
      var chips := RaiseChips(p.betChips, p.stake, total);
      var q := Commit(p, chips);
      (s.(players := s.players[c := q.(lastStageAction := Some(BetRaise))], pot := s.pot + chips,
          minBet := if q.betChips > s.minBet then q.betChips else s.minBet),
       Action(BetRaise, q.betChips))
  }

  /** A raise never lowers the bet to match and leaves it at least the
      raiser's new bet. */
  lemma ApplyRaise(s: State, a: Action, total: real)
    requires s.currentPlayer < |s.players| && a.kind == BetRaise
    requires s.players[s.currentPlayer].stake >= 0.0
    ensures var t := Apply(s, a, total).0;
      && t.minBet >= s.minBet && t.minBet >= t.players[s.currentPlayer].betChips
      && t.players[s.currentPlayer].betChips >= s.players[s.currentPlayer].betChips
      && t.players[s.currentPlayer].stake >= 0.0
      && Apply(s, a, total).1.amount == t.players[s.currentPlayer].betChips
  {
  }

  /** One move keeps every player's chips, and the pot grows by exactly
      what the players commit. */
  lemma ApplyTotals(s: State, a: Action, total: real)
    requires s.currentPlayer < |s.players|
    ensures var t := Apply(s, a, total).0;
      && Total(t.players, Owned) == Total(s.players, Owned)
      && t.pot - Total(t.players, InPlay) == s.pot - Total(s.players, InPlay)
  {
    var t := Apply(s, a, total).0;
    var c := s.currentPlayer;
    assert t.players == s.players[c := t.players[c]];
    TotalUpdate(s.players, c, t.players[c], Owned);
    TotalUpdate(s.players, c, t.players[c], InPlay);
  }

  // ----- The end of a betting round -----

  /** Every active player has acted on this street or has nothing behind. */
  predicate Acted(ps: seq<PlayerState>)
  {
    forall i :: 0 <= i < |ps| && ps[i].active ==> ps[i].lastStageAction.Some? || ps[i].stake == 0.0
  }

  /** Every active bet is the largest active bet, or the player has nothing
      behind. */
  predicate Level(ps: seq<PlayerState>)
  {
    forall i :: 0 <= i < |ps| && ps[i].active ==>
      ps[i].betChips == MaxBet(ActivePlayers(ps)) || ps[i].stake == 0.0
  }

  /** Before the flop, the big blind (two seats after the button) has acted
      or folded. */
  predicate BigBlindDone(s: State)
    requires |s.players| > 0
  {
    var bb := s.players[(s.button + 2) % |s.players|];
    s.stage != Preflop || !bb.active || bb.lastStageAction.Some?
  }

  /** The betting test both drafts run after a move. */
  predicate BettingSettled(s: State)
    requires |s.players| > 0
  {
    Acted(s.players) && Level(s.players) && BigBlindDone(s)
  }

  /** A round the drafts call settled is settled for the main engine too,
      which also counts a stake below one chip as all in. */
  lemma SettledForEngine(s: State)
    requires Shaped(s) && BettingSettled(s)
    ensures AllActed(ActivePlayers(s.players)) && AllMatched(ActivePlayers(s.players)) && BigBlindHeard(s)
  {
    ActedForEngine(s.players);
    BigBlindSeat(s.button, |s.players|);
  }

  lemma ActedForEngine(ps: seq<PlayerState>)
    requires Acted(ps) && Level(ps)
    ensures AllActed(ActivePlayers(ps)) && AllMatched(ActivePlayers(ps))
  {
    var active := ActivePlayers(ps);
    forall p | p in active
      ensures p.lastStageAction.Some? || p.stake < MinMeaningfulStake
      ensures p.betChips == MaxBet(active) || p.stake < MinMeaningfulStake
    {
      var i :| 0 <= i < |ps| && ps[i] == p;
    }
  }

  /** Two seats after the button, counted either way. */
  lemma BigBlindSeat(b: nat, n: nat)
    requires b < n && n >= 2
    ensures NextSeat(NextSeat(b, n), n) == (b + 2) % n
  {
  }

  // ----- The layered settlement, on the table -----

  /** Somebody has chips in the hand. */
  predicate Funded(ps: seq<PlayerState>)
  {
    exists i :: 0 <= i < |ps| && InPlay(ps[i]) > 0.0
  }

  /** Every bet pocketed and every reward set by the layered settlement of
      the pot shares, with the hands ranked on `board`. */
  function Settle(ps: seq<PlayerState>, board: seq<Card>): (qs: seq<PlayerState>)
    ensures |qs| == |ps|
    ensures forall i :: 0 <= i < |ps| ==> qs[i] == Pocket(ps[i]).(reward := qs[i].reward)
    ensures !Funded(ps) ==> forall i :: 0 <= i < |ps| ==> qs[i].reward == 0.0
    ensures Funded(ps) ==> forall i :: 0 <= i < |ps| ==> qs[i].reward >= -InPlay(ps[i])
    ensures Funded(ps) ==> forall i :: 0 <= i < |ps| && !ps[i].active ==> qs[i].reward == -InPlay(ps[i])
  {
    var won := ResolvePots(TableEntries(ps, board));
    SettledShares(ps, board);
    WithRewards(ps, won)
  }

  /** Every bet pocketed and every reward taken from `won`. */
  function WithRewards(ps: seq<PlayerState>, won: seq<real>): (qs: seq<PlayerState>)
    requires |won| == |ps|
    ensures |qs| == |ps| && forall i :: 0 <= i < |ps| ==> qs[i] == Pocket(ps[i]).(reward := won[i])
  {
    seq(|ps|, i requires 0 <= i < |ps| => Pocket(ps[i]).(reward := won[i]))
  }

  /** The layered settlement's rewards, read seat by seat against the
      table. */
  lemma SettledShares(ps: seq<PlayerState>, board: seq<Card>)
    ensures var won := ResolvePots(TableEntries(ps, board));
      && |won| == |ps|
      && (!Funded(ps) ==> forall i :: 0 <= i < |ps| ==> won[i] == 0.0)
      && (Funded(ps) ==> forall i :: 0 <= i < |ps| ==> won[i] >= -InPlay(ps[i]))
      && (Funded(ps) ==> forall i :: 0 <= i < |ps| && !ps[i].active ==> won[i] == -InPlay(ps[i]))
  {
    var es := TableEntries(ps, board);
    FundedShares(ps, board);
    SharesOnTable(ps, es, ResolvePots(es));
  }

  /** Rewards read against settlement entries that mirror the table are
      read seat by seat against the table. */
  lemma SharesOnTable(ps: seq<PlayerState>, es: seq<Entry>, won: seq<real>)
    requires |es| == |ps| == |won| && (Funded(ps) <==> AnyShare(es))
    requires forall i :: 0 <= i < |ps| ==> es[i].pot == InPlay(ps[i]) && es[i].live == ps[i].active
    requires !AnyShare(es) ==> forall i :: 0 <= i < |es| ==> won[i] == 0.0
    requires AnyShare(es) ==> forall i :: 0 <= i < |es| ==> won[i] >= -es[i].pot
    requires AnyShare(es) ==> forall i :: 0 <= i < |es| && !es[i].live ==> won[i] == -es[i].pot
    ensures !Funded(ps) ==> forall i :: 0 <= i < |ps| ==> won[i] == 0.0
    ensures Funded(ps) ==> forall i :: 0 <= i < |ps| ==> won[i] >= -InPlay(ps[i])
    ensures Funded(ps) ==> forall i :: 0 <= i < |ps| && !ps[i].active ==> won[i] == -InPlay(ps[i])
  {
  }

  /** The settlement's view of the table: each seat's pot share once the
      bets are pocketed, whether it is still in, and its hand's rank. */
  function TableEntries(ps: seq<PlayerState>, board: seq<Card>): (es: seq<Entry>)
    ensures |es| == |ps| && Ranked(es)
    ensures forall i :: 0 <= i < |ps| ==> es[i].pot == InPlay(ps[i]) && es[i].live == ps[i].active
  {
    Entries(PocketAll(ps), board)
  }

  lemma FundedShares(ps: seq<PlayerState>, board: seq<Card>)
    ensures Funded(ps) <==> AnyShare(TableEntries(ps, board))
  {
    FundedMirror(ps, TableEntries(ps, board));
  }

  /** Entries holding the table's pot shares have a share exactly when
      somebody has chips in the hand. */
  lemma FundedMirror(ps: seq<PlayerState>, es: seq<Entry>)
    requires |es| == |ps| && forall i :: 0 <= i < |ps| ==> es[i].pot == InPlay(ps[i])
    ensures Funded(ps) <==> AnyShare(es)
  {
    if Funded(ps) {
      var i :| 0 <= i < |ps| && InPlay(ps[i]) > 0.0;
      assert es[i].pot > 0.0;
    }
    if AnyShare(es) {
      var i :| 0 <= i < |es| && es[i].pot > 0.0;
      assert InPlay(ps[i]) > 0.0;
    }
  }

  /** Pot shares that are never negative, and distinct positive shares that
      are more than the skipped sliver apart. */
  predicate Spread(ps: seq<PlayerState>)
  {
    && (forall i :: 0 <= i < |ps| ==> 0.0 <= InPlay(ps[i]))
    && (forall i :: 0 <= i < |ps| && InPlay(ps[i]) > 0.0 ==> Epsilon < InPlay(ps[i]))
    && (forall i, j :: 0 <= i < |ps| && 0 <= j < |ps| && 0.0 < InPlay(ps[i]) < InPlay(ps[j]) ==>
          InPlay(ps[i]) + Epsilon < InPlay(ps[j]))
  }

  /** Spread pot shares make settlement levels no layer of which is
      skipped. */
  lemma SpreadSpaced(ps: seq<PlayerState>, board: seq<Card>)
    requires Spread(ps)
    ensures Spaced(Levels(TableEntries(ps, board)), 0.0)
  {
    var es := TableEntries(ps, board);
    assert Separated(es);
    LevelsSpaced(es);
  }

  /** An active player put in as much as anybody. */
  predicate CoveredByActive(ps: seq<PlayerState>)
  {
    exists w :: 0 <= w < |ps| && ps[w].active && forall j :: 0 <= j < |ps| ==> InPlay(ps[j]) <= InPlay(ps[w])
  }

  /** The settlement hands out exactly what was put in. */
  lemma SettleZeroSum(ps: seq<PlayerState>, board: seq<Card>)
    requires Spread(ps) && CoveredByActive(ps)
    ensures Total(Settle(ps, board), RewardOf) == 0.0
  {
    SettleRewards(ps, board);
    assert SumR(ResolvePots(TableEntries(ps, board))) == 0.0 by {
      SpreadSpaced(ps, board);
      CoveredShares(ps, board);
      ResolvePotsZeroSum(TableEntries(ps, board));
    }
  }

  /** A covering active player covers the settlement entries. */
  lemma CoveredShares(ps: seq<PlayerState>, board: seq<Card>)
    requires CoveredByActive(ps)
    ensures var es := TableEntries(ps, board);
      exists w :: 0 <= w < |es| && es[w].live && Covers(es, w)
  {
    var es := TableEntries(ps, board);
    var w :| 0 <= w < |ps| && ps[w].active && forall j :: 0 <= j < |ps| ==> InPlay(ps[j]) <= InPlay(ps[w]);
    assert Covers(es, w);
  }

  /** The rewards the settlement sets are the layered settlement's, seat by
      seat. */
  lemma SettleRewards(ps: seq<PlayerState>, board: seq<Card>)
    ensures Col(Settle(ps, board), RewardOf) == ResolvePots(TableEntries(ps, board))
    ensures Total(Settle(ps, board), RewardOf) == SumR(ResolvePots(TableEntries(ps, board)))
  {
    var qs := Settle(ps, board);
    var won := ResolvePots(TableEntries(ps, board));
    forall i | 0 <= i < |ps| ensures Col(qs, RewardOf)[i] == won[i] {
      assert qs[i].reward == won[i];
    }
  }

  /** Everyone out of the hand. */
  function Deactivate(ps: seq<PlayerState>): (qs: seq<PlayerState>)
    ensures |qs| == |ps| && forall i :: 0 <= i < |ps| ==> qs[i] == ps[i].(active := false)
  {
    seq(|ps|, i requires 0 <= i < |ps| => ps[i].(active := false))
  }

  lemma DeactivateKeepsRewards(ps: seq<PlayerState>)
    ensures Total(Deactivate(ps), RewardOf) == Total(ps, RewardOf)
  {
    TotalSame(Deactivate(ps), ps, RewardOf, RewardOf);
  }
}

=== FILE: engine_step.dfy ===
/** One call of the C++ engine's `step(actionType, amount)`: resolve the
    action, carry it out, then close the street, end the hand, or pass the
    turn on. The rewards are the seats' stack changes in chips. */
module EngineStep {
  import opened Wrappers
  import opened PokerTable
  import opened PotLedger
  import opened Showdown
  import opened HandState
  import opened ActionResolver
  import opened BettingRound

  /** Seats that differ at most in stack, bet and pot rank. */
  predicate SameHands(ps: seq<Player>, qs: seq<Player>)
  {
    |qs| == |ps| &&
    forall i :: 0 <= i < |ps| ==>
      qs[i] == ps[i].(stack := qs[i].stack, currentBet := qs[i].currentBet, sidePotRank := qs[i].sidePotRank)
  }

  lemma {:induction false} MaxInvestedSame(ps: seq<Player>, qs: seq<Player>)
    requires SameHands(ps, qs)
    ensures MaxInvested(ps) == MaxInvested(qs)
    decreases |ps|
  {
    if |ps| > 0 {
      MaxInvestedSame(ps[..|ps| - 1], qs[..|qs| - 1]);
    }
  }

  /** Whether the top investor shows down depends only on the hands, not
      on stacks, bets or ranks. */
  lemma TopInvestorShowsSame(ps: seq<Player>, qs: seq<Player>)
    requires SameHands(ps, qs)
    ensures TopInvestorShows(ps) <==> TopInvestorShows(qs)
  {
    MaxInvestedSame(ps, qs);
    if TopInvestorShows(ps) {
      var w :| 0 <= w < |ps| && ShowdownEligible(ps[w]) && ps[w].totalInvested > 0
               && ps[w].totalInvested == MaxInvested(ps);
      assert ShowdownEligible(qs[w]);
    }
    if TopInvestorShows(qs) {
      var w :| 0 <= w < |qs| && ShowdownEligible(qs[w]) && qs[w].totalInvested > 0
               && qs[w].totalInvested == MaxInvested(qs);
      assert ShowdownEligible(ps[w]);
    }
  }

  /** Each seat's stack change. */
  function StackChanges(before: seq<Player>, after: seq<Player>): (d: seq<int>)
    requires |after| == |before|
    ensures |d| == |before|
    ensures forall i :: 0 <= i < |before| ==> d[i] == after[i].stack - before[i].stack
    ensures Sum(d) == Total(after, StackOf) - Total(before, StackOf)
    decreases |before|
  {
    if |before| == 0 then []
    else
      var n := |before|;
      var d := StackChanges(before[..n - 1], after[..n - 1]) + [after[n - 1].stack - before[n - 1].stack];
      assert d[..n - 1] == StackChanges(before[..n - 1], after[..n - 1]);
      d
  }

  /** The end of a hand in `step`: the last bets are collected and
      `_assignRewardsAndResetBets` pays the pots. Stacks only grow, by at
      most what was invested, and by exactly that when the top investor
      shows down. The pots are left as the source leaves them: untouched
      when nobody shows down, holding exactly what a lone showdown player
      could not take, and cleared when several show down. */
  method Settle(t: Table, strength: seq<nat>) returns (u: Table)
    requires Consistent(t) && |strength| == |t.players|
    ensures u.handIsOver && SameHands(t.players, u.players)
    ensures forall i :: 0 <= i < |t.players| ==> u.players[i].stack >= t.players[i].stack
    ensures Total(u.players, StackOf) <= Total(t.players, StackOf) + Total(t.players, InvestedOf)
    ensures TopInvestorShows(u.players) ==>
      Total(u.players, StackOf) == Total(t.players, StackOf) + Total(t.players, InvestedOf)
    ensures u == t.(players := u.players, mainPot := u.mainPot, sidePots := u.sidePots, handIsOver := true)
    ensures |ShowdownSeats(t.players, |t.players|)| == 0 ==>
      forall i :: 0 <= i < |t.players| ==> u.players[i].stack == t.players[i].stack
    ensures |ShowdownSeats(t.players, |t.players|)| == 0 && (exists i :: 0 <= i < |t.players| && t.players[i].totalInvested > 0) ==>
      u.mainPot + Sum(u.sidePots) == Total(t.players, InvestedOf)
    ensures |ShowdownSeats(t.players, |t.players|)| == 1 ==>
      Total(u.players, StackOf) + u.mainPot + Sum(u.sidePots) == Total(t.players, StackOf) + Total(t.players, InvestedOf)
    ensures |ShowdownSeats(t.players, |t.players|)| > 1 ==>
      u.mainPot == 0 && forall i :: 0 <= i < |u.sidePots| ==> u.sidePots[i] == 0
  {
    var collected := CollectBets(t.players, t.mainPot);
    CollectBetsKeepsChips(t.players, t.mainPot, t.sidePots);
    var paidOut, paid, left := AssignRewards(collected.0, collected.1, strength);
    TotalSame(t.players, collected.0, InvestedOf, InvestedOf);
    TopInvestorShowsSame(collected.0, paidOut);
    TopInvestorShowsSame(t.players, collected.0);
    ShowdownSeatsSame(t.players, collected.0, |t.players|);
    if |ShowdownSeats(t.players, |t.players|)| == 0 {
      if i :| 0 <= i < |t.players| && t.players[i].totalInvested > 0 {
        assert collected.0[i].totalInvested > 0;
      }
    }
    u := t.(players := paidOut, mainPot := left.0, sidePots := left.1, handIsOver := true);
  }

  /** The part of `step` after the action: if the hand is not over but the
      street is, move to the next street; if the hand is still not over
      and the street did not change, pass the turn to the next seat that
      can act, and end the hand when there is none. */
  method Advance(rules: Rules, t: Table) returns (u: Table, done: bool)
    requires Consistent(t) && ValidRules(rules) && 0 <= t.current < |t.players|
    ensures Consistent(u) && |u.players| == |t.players|
    ensures forall i :: 0 <= i < |t.players| ==> Bankroll(u.players[i]) == Bankroll(t.players[i])
    ensures !done ==> !u.handIsOver
    ensures !done && u.current >= 0 ==> (u.round == t.round ==> CanAct(u.players[u.current]))
  {
    u := t;
    done := IsHandDone(rules, u);
    var moved := false;
    if !done && IsBettingDone(rules, u) {
      u := MoveToNextRound(rules, u);
      moved := true;
      done := IsHandDone(rules, u);
    }
    if !done && !moved {
      var next := FindNextPlayerToAct(u.players, u.current);
      u := u.(current := next);
      done := next == -1;
    }
  }

  /** `step(actionType, amount)`. The action is resolved (with the
      per-street limit) and carried out. If that ends the hand, or ends the
      street and moving on ends the hand, or nobody is left to act, the
      hand is settled and the rewards are the stack changes of this step;
      otherwise the rewards are zero and the table keeps its invariant. */
  method Step(rules: Rules, t: Table, strength: seq<nat>, kind: int, amount: int)
    returns (r: Result<(Table, seq<int>), string>)
    requires Consistent(t) && ValidRules(rules) && |strength| == |t.players|
    ensures r.Err? <==> !(0 <= t.current < |t.players|) || !(kind in {FOLD, CHECK_CALL, BET_RAISE})
    ensures r.Ok? ==> |r.value.0.players| == |t.players| && |r.value.1| == |t.players|
    ensures r.Ok? && !r.value.0.handIsOver ==>
      && Consistent(r.value.0)
      && (forall i :: 0 <= i < |t.players| ==> Bankroll(r.value.0.players[i]) == Bankroll(t.players[i]))
      && (forall i :: 0 <= i < |t.players| ==> r.value.1[i] == 0)
    ensures r.Ok? && r.value.0.handIsOver ==>
      && (forall i :: 0 <= i < |t.players| ==> r.value.1[i] == r.value.0.players[i].stack - t.players[i].stack)
      && Sum(r.value.1) <= Total(t.players, InvestedOf)
      && (TopInvestorShows(r.value.0.players) ==> Sum(r.value.1) == Total(t.players, InvestedOf))
  {
    var resolved := StepAction(rules, t, kind, amount);
    if resolved.Err? {
      return Err(resolved.error);
    }
    var u := ApplyAction(t, resolved.value);
    var done;
    u, done := Advance(rules, u);
    if done {
      ChipsBeforeSettling(t, u);
      var settled := Settle(u, strength);
      var rewards := StackChanges(t.players, settled.players);
      r := Ok((settled, rewards));
    } else {
      r := Ok((u, seq(|t.players|, i => 0)));
    }
  }

  /** Until the hand is settled every seat keeps its bankroll, so the
      table's stacks and investments add up to what they were. */
  lemma ChipsBeforeSettling(t: Table, u: Table)
    requires |u.players| == |t.players|
    requires forall i :: 0 <= i < |t.players| ==> Bankroll(u.players[i]) == Bankroll(t.players[i])
    ensures Total(u.players, StackOf) + Total(u.players, InvestedOf)
         == Total(t.players, StackOf) + Total(t.players, InvestedOf)
  {
    TotalSame(t.players, u.players, Bankroll, Bankroll);
    TotalAdd(t.players, StackOf, InvestedOf, Bankroll);
    TotalAdd(u.players, StackOf, InvestedOf, Bankroll);
  }

  lemma {:induction false} TotalAdd(ps: seq<Player>, f: Player -> int, g: Player -> int, h: Player -> int)
    requires forall p :: h(p) == f(p) + g(p)
    ensures Total(ps, h) == Total(ps, f) + Total(ps, g)
    decreases |ps|
  {
    if |ps| > 0 {
      TotalAdd(ps[..|ps| - 1], f, g, h);
    }
  }
}

=== FILE: hand_classifier.dfy ===
/** The Rust engine's own five-card classifier (`rank_card_combination`,
    `high_card_value`) and `rank_hand`, which takes the best five-card
    combination of a player's cards. A score is a triple compared
    lexicographically; lower is stronger. The first component is the
    category: 1 royal flush, 2 straight flush, 3 four of a kind, 4 full
    house, 5 flush, 6 straight, 7 three of a kind, 8 two pair, 9 one pair,
    10 high card. */
module HandClassifier {
  import opened Wrappers
  import opened Cards

  type Score = (int, int, int)

  /** Rust's tuple order. */
  predicate ScoreLess(a: Score, b: Score)
  {
    a.0 < b.0 || (a.0 == b.0 && (a.1 < b.1 || (a.1 == b.1 && a.2 < b.2)))
  }

  predicate ScoreLe(a: Score, b: Score)
  {
    a == b || ScoreLess(a, b)
  }

  // ----- Sorting card values -----

  predicate Sorted(xs: seq<int>)
  {
    forall i, j :: 0 <= i < j < |xs| ==> xs[i] <= xs[j]
  }

  lemma ConsSorted(a: int, t: seq<int>)
    requires Sorted(t) && (|t| > 0 ==> a <= t[0])
    ensures Sorted([a] + t)
  {
  }

  function Insert(x: int, xs: seq<int>): (r: seq<int>)
    requires Sorted(xs)
    ensures Sorted(r) && multiset(r) == multiset(xs) + multiset{x} && |r| == |xs| + 1
    ensures r[0] == x || (|xs| > 0 && r[0] == xs[0])
  {
    if |xs| == 0 then [x]
    else if x <= xs[0] then ConsSorted(x, xs); [x] + xs
    else
      var t := Insert(x, xs[1..]);
      ConsSorted(xs[0], t);
      assert xs == [xs[0]] + xs[1..];
      [xs[0]] + t
  }

  function Sort(xs: seq<int>): (r: seq<int>)
    ensures Sorted(r) && multiset(r) == multiset(xs) && |r| == |xs|
  {
    if |xs| == 0 then []
    else
      assert xs == xs[..|xs| - 1] + [xs[|xs| - 1]];
      Insert(xs[|xs| - 1], Sort(xs[..|xs| - 1]))
  }

  /** The first element of a sorted list is its smallest. */
  lemma SameHead(a: seq<int>, b: seq<int>)
    requires Sorted(a) && Sorted(b) && multiset(a) == multiset(b) && |a| > 0
    ensures |b| > 0 && a[0] == b[0]
  {
    assert a[0] in multiset(b);
    assert b[0] in multiset(a);
    var j :| 0 <= j < |b| && b[j] == a[0];
    var k :| 0 <= k < |a| && a[k] == b[0];
  }

  lemma SameTail(a: seq<int>, b: seq<int>)
    requires Sorted(a) && Sorted(b) && multiset(a) == multiset(b) && |a| > 0
    ensures |b| > 0 && Sorted(a[1..]) && Sorted(b[1..]) && multiset(a[1..]) == multiset(b[1..])
  {
    SameHead(a, b);
    assert a == [a[0]] + a[1..] && b == [b[0]] + b[1..];
    assert multiset(a[1..]) == multiset(a) - multiset{a[0]};
    assert multiset(b[1..]) == multiset(b) - multiset{b[0]};
  }

  /** A sorted list is determined by its elements. */
  lemma {:induction false} SortedUnique(a: seq<int>, b: seq<int>)
    requires Sorted(a) && Sorted(b) && multiset(a) == multiset(b)
    ensures a == b
    decreases |a|
  {
    assert |a| == |multiset(a)| == |b|;
    if |a| > 0 {
      SameTail(a, b);
      SortedUnique(a[1..], b[1..]);
      SameHead(a, b);
      assert a == [a[0]] + a[1..] && b == [b[0]] + b[1..];
    }
  }

  function Values(cs: seq<Card>): (vs: seq<int>)
    ensures |vs| == |cs| && forall i :: 0 <= i < |cs| ==> vs[i] == cs[i].value
  {
    seq(|cs|, i requires 0 <= i < |cs| => cs[i].value)
  }

  lemma ValuesAppend(a: seq<Card>, b: seq<Card>)
    ensures Values(a + b) == Values(a) + Values(b)
  {
  }

  /** Taking one card out of a list takes its value out of the values. */
  lemma ValuesRemove(b: seq<Card>, j: int)
    requires 0 <= j < |b|
    ensures multiset(Values(b)) == multiset(Values(b[..j] + b[j + 1..])) + multiset{b[j].value}
  {
    assert Values(b) == Values(b[..j]) + [b[j].value] + Values(b[j + 1..]);
    ValuesAppend(b[..j], b[j + 1..]);
  }

  lemma RemoveOne(a: seq<Card>, b: seq<Card>, j: int)
    requires multiset(a) == multiset(b) && |a| > 0 && 0 <= j < |b| && b[j] == a[0]
    ensures multiset(a[1..]) == multiset(b[..j] + b[j + 1..])
  {
    assert b == b[..j] + [b[j]] + b[j + 1..];
    assert a == [a[0]] + a[1..];
    assert multiset(b) == multiset(b[..j]) + multiset{b[j]} + multiset(b[j + 1..]);
    assert multiset(a[1..]) == multiset(a) - multiset{a[0]};
  }

  /** Cards that are a reordering of each other have values that are a
      reordering of each other. */
  lemma {:induction false} ValuesPermutation(a: seq<Card>, b: seq<Card>)
    requires multiset(a) == multiset(b)
    ensures multiset(Values(a)) == multiset(Values(b))
    decreases |a|
  {
    assert |a| == |multiset(a)| == |b|;
    if |a| > 0 {
      assert a[0] in multiset(b);
      var j :| 0 <= j < |b| && b[j] == a[0];
      RemoveOne(a, b, j);
      ValuesPermutation(a[1..], b[..j] + b[j + 1..]);
      ValuesRemove(b, j);
      assert Values(a) == [a[0].value] + Values(a[1..]);
      assert multiset(Values(a)) == multiset{a[0].value} + multiset(Values(a[1..]));
    }
  }

  /** The values of the five cards in ascending order. */
  function SortedValues(cs: seq<Card>): seq<int>
  {
    Sort(Values(cs))
  }

  lemma SortedValuesPermutation(a: seq<Card>, b: seq<Card>)
    requires multiset(a) == multiset(b)
    ensures SortedValues(a) == SortedValues(b)
  {
    ValuesPermutation(a, b);
    SortedUnique(SortedValues(a), SortedValues(b));
  }

  // ----- Flush, straight and groups of equal values -----

  /** `suit_duplicates[0].0 == 5`: the longest run of one suit covers all
      five cards, which is all five cards sharing a suit. */
  predicate AllSameSuit(cs: seq<Card>)
  {
    forall i :: 0 <= i < |cs| ==> cs[i].suit == cs[0].suit
  }

  lemma AllSameSuitPermutation(a: seq<Card>, b: seq<Card>)
    requires multiset(a) == multiset(b)
    ensures AllSameSuit(a) <==> AllSameSuit(b)
  {
    assert |a| == |multiset(a)| == |b|;
    if |a| > 0 {
      assert a[0] in multiset(b) && b[0] in multiset(a);
      forall i | 0 <= i < |b| ensures b[i] in multiset(a) {
        assert b[i] in multiset(b);
      }
      forall i | 0 <= i < |a| ensures a[i] in multiset(b) {
        assert a[i] in multiset(a);
      }
    }
  }

  const Wheel: seq<int> := [0, 1, 2, 3, 12]
  const Broadway: seq<int> := [8, 9, 10, 11, 12]
  const SixHigh: seq<int> := [0, 1, 2, 3, 4]

  /** `ranks_in_sequence`: every step between neighbours is one, or the
      values are A-2-3-4-5. */
  predicate InSequence(s: seq<int>)
  {
    (forall i :: 0 <= i < |s| - 1 ==> s[i + 1] - s[i] == 1) || s == Wheel
  }

  /** Run lengths of a sorted list (`dedup_with_count`): (count, value) in
      ascending value order. */
  function Runs(s: seq<int>): (r: seq<(nat, int)>)
    ensures |s| > 0 ==> |r| > 0
  {
    if |s| == 0 then []
    else
      var rest := Runs(s[..|s| - 1]);
      if |rest| > 0 && rest[|rest| - 1].1 == s[|s| - 1] then
        rest[..|rest| - 1] + [(rest[|rest| - 1].0 + 1, s[|s| - 1])]
      else rest + [(1, s[|s| - 1])]
  }

  predicate GroupBefore(a: (nat, int), b: (nat, int))
  {
    a.0 > b.0 || (a.0 == b.0 && a.1 >= b.1)
  }

  function InsertGroup(g: (nat, int), gs: seq<(nat, int)>): (r: seq<(nat, int)>)
    ensures multiset(r) == multiset(gs) + multiset{g}
  {
    if |gs| == 0 || GroupBefore(g, gs[0]) then [g] + gs
    else
      assert gs == [gs[0]] + gs[1..];
      [gs[0]] + InsertGroup(g, gs[1..])
  }

  /** `rank_duplicates`: the runs stably sorted by count ascending and
      then reversed, which orders them by count and then by value, both
      descending. */
  function Groups(s: seq<int>): (r: seq<(nat, int)>)
    ensures |s| > 0 ==> |r| > 0
  {
    SortGroups(Runs(s))
  }

  function SortGroups(gs: seq<(nat, int)>): (r: seq<(nat, int)>)
    ensures multiset(r) == multiset(gs)
  {
    if |gs| == 0 then []
    else
      assert gs == [gs[0]] + gs[1..];
      InsertGroup(gs[0], SortGroups(gs[1..]))
  }

  /** The largest group, and the next one (a missing second group, which
      five cards never produce when the first has fewer than five, reads
      as empty). */
  function First(s: seq<int>): (nat, int)
  {
    var g := Groups(s);
    if |g| > 0 then g[0] else (0, 0)
  }

  function Second(s: seq<int>): (nat, int)
  {
    var g := Groups(s);
    if |g| > 1 then g[1] else (0, 0)
  }

  // ----- high_card_value -----

  function Pow13(n: nat): (p: nat)
    ensures p >= 1
  {
    if n == 0 then 1 else 13 * Pow13(n - 1)
  }

  /** Base-13 digits 12 - v, the lowest value as the least significant
      digit. */
  function Encode(s: seq<int>): int
  {
    if |s| == 0 then 0 else Encode(s[..|s| - 1]) + Pow13(|s| - 1) * (12 - s[|s| - 1])
  }

  /** `high_card_value`: the values sorted, then encoded. */
  function HighCardValue(vs: seq<int>): int
  {
    Encode(Sort(vs))
  }

  predicate ValidValues(s: seq<int>)
  {
    forall i :: 0 <= i < |s| ==> 0 <= s[i] <= 12
  }

  lemma {:induction false} EncodeBounds(s: seq<int>)
    requires ValidValues(s)
    ensures 0 <= Encode(s) < Pow13(|s|)
  {
    if |s| > 0 {
      EncodeBounds(s[..|s| - 1]);
      DigitBound(Pow13(|s| - 1), Encode(s[..|s| - 1]), 12 - s[|s| - 1]);
    }
  }

  /** One more base-13 digit on top stays below the next power. */
  lemma DigitBound(p: int, e: int, d: int)
    requires 0 <= e < p && 0 <= d <= 12
    ensures 0 <= e + p * d < 13 * p
  {
    assert p * d <= p * 12 by {
      Distribute(p, d, 12 - d);
    }
  }

  /** A larger top digit outweighs every lower digit together. */
  lemma DigitOutweighs(p: int, da: int, db: int, ea: int, eb: int)
    requires p >= 1 && da > db && 0 <= ea < p && 0 <= eb < p
    ensures eb + p * db < ea + p * da
  {
    var d := da - db;
    AtLeastOnce(p, d);
    Distribute(p, db, d);
  }

  lemma AtLeastOnce(p: int, d: int)
    requires p >= 1 && d >= 1
    ensures p * d >= p
  {
    assert p * d == p + p * (d - 1);
  }

  lemma Distribute(p: int, b: int, d: int)
    ensures p * (b + d) == p * b + p * d
  {
  }

  /** The encoding compares from the top: a higher last value gives a
      smaller (stronger) code whatever comes below it, and with equal last
      values the rest decides. */
  lemma EncodeFromTop(a: seq<int>, b: seq<int>)
    requires |a| == |b| > 0 && ValidValues(a) && ValidValues(b)
    ensures a[|a| - 1] > b[|b| - 1] ==> Encode(a) < Encode(b)
    ensures a[|a| - 1] == b[|b| - 1] ==> (Encode(a) < Encode(b) <==> Encode(a[..|a| - 1]) < Encode(b[..|b| - 1]))
  {
    var n := |a|;
    if a[n - 1] > b[n - 1] {
      EncodeBounds(a[..n - 1]);
      EncodeBounds(b[..n - 1]);
      DigitOutweighs(Pow13(n - 1), 12 - b[n - 1], 12 - a[n - 1], Encode(b[..n - 1]), Encode(a[..n - 1]));
    } else if a[n - 1] == b[n - 1] {
      SameTopDigit(a, b);
    }
  }

  /** Equal top digits add the same amount to both codes. */
  lemma SameTopDigit(a: seq<int>, b: seq<int>)
    requires |a| == |b| > 0 && a[|a| - 1] == b[|b| - 1]
    ensures Encode(a) - Encode(a[..|a| - 1]) == Encode(b) - Encode(b[..|b| - 1])
  {
  }

  // ----- rank_card_combination -----

  /** The score of five cards given their sorted values `s`, whether they
      share a suit, and a straight's second component. */
  function Classify(s: seq<int>, flush: bool, straightValue: int): (r: Score)
    ensures 1 <= r.0 <= 10
  {
    var straight := InSequence(s);
    var first := First(s);
    var second := Second(s);
    if s == Broadway && flush then (1, 0, 0)
    else if straight && flush then (2, straightValue, 0)
    else if first.0 == 4 then (3, HighCardValue([first.1]), HighCardValue(s))
    else if first.0 == 3 && second.0 == 2 then (4, HighCardValue([first.1]), HighCardValue(s))
    else if flush then (5, HighCardValue(s), 0)
    else if straight then (6, straightValue, 0)
    else if first.0 == 3 then (7, HighCardValue([first.1]), HighCardValue(s))
    else if first.0 == 2 && second.0 == 2 then (8, HighCardValue([first.1, second.1]), HighCardValue(s))
    else if first.0 == 2 then (9, HighCardValue([first.1]), HighCardValue(s))
    else (10, HighCardValue(s), 0)
  }

  /** `rank_card_combination` as written: a straight is valued by
      `high_card_value` of its five values, the ace of A-2-3-4-5 included
      as the highest card. */
  function RankCardCombination(cs: seq<Card>): (r: Score)
    requires |cs| == 5
    ensures 1 <= r.0 <= 10
  {
    Classify(SortedValues(cs), AllSameSuit(cs), HighCardValue(SortedValues(cs)))
  }

  /** The score depends only on which five cards are given, not on their
      order. */
  lemma RankCardCombinationOrderFree(a: seq<Card>, b: seq<Card>)
    requires |a| == 5 && multiset(a) == multiset(b)
    ensures |b| == 5 && RankCardCombination(a) == RankCardCombination(b)
  {
    assert |a| == |multiset(a)| == |b|;
    SortedValuesPermutation(a, b);
    AllSameSuitPermutation(a, b);
  }

  /** A-2-3-4-5 is a straight: of one suit it scores as a straight flush,
      otherwise as a straight. */
  lemma WheelIsStraight(cs: seq<Card>)
    requires |cs| == 5 && SortedValues(cs) == Wheel
    ensures RankCardCombination(cs) == (if AllSameSuit(cs) then 2 else 6, HighCardValue(SortedValues(cs)), 0)
  {
    WheelShape(SortedValues(cs));
    StraightScore(cs);
  }

  lemma WheelShape(s: seq<int>)
    requires s == Wheel
    ensures Increasing5(s) && InSequence(s) && s != Broadway && Sorted(s) && ValidValues(s)
  {
    assert s[0] != Broadway[0];
  }

  /** Five values in sequence, all different, score as a straight flush
      when they share a suit (unless ten to ace) and as a straight
      otherwise, with the given straight value. */
  lemma ClassifyStraight(s: seq<int>, flush: bool, v: int)
    requires InSequence(s) && First(s).0 == 1 && !(s == Broadway && flush)
    ensures Classify(s, flush, v) == (if flush then (2, v, 0) else (6, v, 0))
  {
  }

  predicate Increasing5(s: seq<int>)
  {
    |s| == 5 && forall i :: 0 <= i < 4 ==> s[i] < s[i + 1]
  }

  /** Different values in ascending order form groups of one. */
  lemma {:induction false} RunsOfDistinct(s: seq<int>)
    requires forall i, j :: 0 <= i < j < |s| ==> s[i] < s[j]
    ensures Runs(s) == seq(|s|, i requires 0 <= i < |s| => (1, s[i]))
    decreases |s|
  {
    if |s| > 0 {
      RunsOfDistinct(s[..|s| - 1]);
    }
  }

  /** Five different values form five groups of one. */
  lemma GroupsOfDistinct(s: seq<int>)
    requires Increasing5(s)
    ensures First(s).0 == 1 && Second(s).0 == 1
  {
    assert forall i, j :: 0 <= i < j < |s| ==> s[i] < s[j] by {
      assert s[0] < s[1] < s[2] < s[3] < s[4];
    }
    RunsOfDistinct(s);
    var r := Runs(s);
    var g := Groups(s);
    assert multiset(g) == multiset(r);
    assert |g| == |r| == 5;
    OnesKept(r, g[0]);
    OnesKept(r, g[1]);
  }

  lemma OnesKept(r: seq<(nat, int)>, x: (nat, int))
    requires forall i :: 0 <= i < |r| ==> r[i].0 == 1
    requires x in multiset(r)
    ensures x.0 == 1
  {
    assert x in r;
  }

  // ----- The wheel's value -----

  /** The straight's top card, where A-2-3-4-5 is topped by its five. */
  function StraightTop(s: seq<int>): int
    requires |s| == 5
  {
    if s == Wheel then 3 else s[4]
  }

  /** As written, the wheel A-2-3-4-5 scores better than the six-high
      straight 2-3-4-5-6 (and worse only than the ace-high one), though it
      is the lowest straight. */
  lemma WheelBeatsSixHigh(w: seq<Card>, x: seq<Card>)
    requires |w| == 5 && SortedValues(w) == Wheel && !AllSameSuit(w)
    requires |x| == 5 && SortedValues(x) == SixHigh && !AllSameSuit(x)
    ensures RankCardCombination(w).0 == 6 && RankCardCombination(x).0 == 6
    ensures ScoreLess(RankCardCombination(w), RankCardCombination(x))
  {
    WheelIsStraight(w);
    SixHighIsStraight(x);
    WheelCode();
  }

  lemma SixHighIsStraight(x: seq<Card>)
    requires |x| == 5 && SortedValues(x) == SixHigh && !AllSameSuit(x)
    ensures RankCardCombination(x) == (6, HighCardValue(SortedValues(x)), 0)
  {
    SixHighShape(SortedValues(x));
    StraightScore(x);
  }

  lemma SixHighShape(s: seq<int>)
    requires s == SixHigh
    ensures Increasing5(s) && InSequence(s) && s != Broadway && Sorted(s) && ValidValues(s)
  {
    assert s[0] != Broadway[0];
  }

  /** Five different values in sequence score as a straight flush when
      they share a suit (unless ten to ace) and as a straight otherwise,
      valued by their high-card code. */
  lemma StraightScore(x: seq<Card>)
    requires |x| == 5 && InSequence(SortedValues(x))
    requires !(SortedValues(x) == Broadway && AllSameSuit(x))
    ensures RankCardCombination(x) == (if AllSameSuit(x) then 2 else 6, HighCardValue(SortedValues(x)), 0)
  {
    var sx := SortedValues(x);
    InSequenceIncreasing(sx);
    GroupsOfDistinct(sx);
    ClassifyStraight(sx, AllSameSuit(x), HighCardValue(sx));
  }

  /** High-card codes of the wheel and of the six-high straight. */
  lemma WheelCode()
    ensures HighCardValue(Wheel) < HighCardValue(SixHigh)
  {
    WheelShape(Wheel);
    SixHighShape(SixHigh);
    SortOfSorted(Wheel);
    SortOfSorted(SixHigh);
    EncodeFromTop(Wheel, SixHigh);
  }

  /** Sorting a sorted list leaves it as it is. */
  lemma SortOfSorted(s: seq<int>)
    requires Sorted(s)
    ensures Sort(s) == s
  {
    SortedUnique(Sort(s), s);
  }

  /** `rank_card_combination` with a straight valued by its top card, the
      wheel's top being its five. */
  function RankCardCombinationFixed(cs: seq<Card>): (r: Score)
    requires |cs| == 5
    ensures 1 <= r.0 <= 10
  {
    Classify(SortedValues(cs), AllSameSuit(cs), 12 - StraightTop(SortedValues(cs)))
  }

  /** The fix changes only the value of straights and straight flushes;
      every other hand scores as before. */
  lemma FixedChangesOnlyStraights(a: seq<Card>)
    requires |a| == 5
    ensures RankCardCombinationFixed(a).0 == RankCardCombination(a).0
    ensures RankCardCombinationFixed(a).0 !in {2, 6} ==> RankCardCombinationFixed(a) == RankCardCombination(a)
  {
    var s := SortedValues(a);
    ClassifyStraightValue(s, AllSameSuit(a), HighCardValue(s), 12 - StraightTop(s));
  }

  /** With the fix the score still depends only on which cards are given. */
  lemma RankCardCombinationFixedOrderFree(a: seq<Card>, b: seq<Card>)
    requires |a| == 5 && multiset(a) == multiset(b)
    ensures |b| == 5 && RankCardCombinationFixed(a) == RankCardCombinationFixed(b)
  {
    assert |a| == |multiset(a)| == |b|;
    SortedValuesPermutation(a, b);
    AllSameSuitPermutation(a, b);
  }

  /** The straight value is used by straights and straight flushes only. */
  lemma ClassifyStraightValue(s: seq<int>, flush: bool, v: int, w: int)
    ensures Classify(s, flush, v).0 == Classify(s, flush, w).0
    ensures Classify(s, flush, v).0 !in {2, 6} ==> Classify(s, flush, v) == Classify(s, flush, w)
  {
  }

  /** With the fix, a straight (or straight flush) short of the royal
      flush is valued by its top card. */
  lemma FixedStraightScore(x: seq<Card>)
    requires |x| == 5 && InSequence(SortedValues(x))
    requires !(SortedValues(x) == Broadway && AllSameSuit(x))
    ensures RankCardCombinationFixed(x) == (if AllSameSuit(x) then 2 else 6, 12 - StraightTop(SortedValues(x)), 0)
  {
    StraightValued(SortedValues(x), AllSameSuit(x));
  }

  /** Five values in sequence score as a straight (flush) valued by the
      top card. */
  lemma StraightValued(s: seq<int>, flush: bool)
    requires |s| == 5 && InSequence(s) && !(s == Broadway && flush)
    ensures Classify(s, flush, 12 - StraightTop(s)) == (if flush then 2 else 6, 12 - StraightTop(s), 0)
  {
    InSequenceIncreasing(s);
    GroupsOfDistinct(s);
    ClassifyStraight(s, flush, 12 - StraightTop(s));
  }

  lemma InSequenceIncreasing(s: seq<int>)
    requires |s| == 5 && InSequence(s)
    ensures Increasing5(s)
  {
    if s == Wheel {
      WheelShape(s);
    }
  }

  /** Card values are between two and ace. */
  lemma SortedValuesValid(cs: seq<Card>)
    ensures ValidValues(SortedValues(cs))
  {
    var s := SortedValues(cs);
    forall i | 0 <= i < |s| ensures 0 <= s[i] <= 12 {
      assert s[i] in multiset(Values(cs));
    }
  }

  /** With the fix, of two straights of the same kind the one with the
      higher top card scores better, and the wheel is the lowest. */
  lemma FixedStraightsByTop(a: seq<Card>, b: seq<Card>)
    requires |a| == 5 && InSequence(SortedValues(a)) && !(SortedValues(a) == Broadway && AllSameSuit(a))
    requires |b| == 5 && InSequence(SortedValues(b)) && !(SortedValues(b) == Broadway && AllSameSuit(b))
    requires AllSameSuit(a) == AllSameSuit(b)
    ensures ScoreLess(RankCardCombinationFixed(a), RankCardCombinationFixed(b))
        <==> StraightTop(SortedValues(a)) > StraightTop(SortedValues(b))
    ensures SortedValues(a) == Wheel && SortedValues(b) != Wheel ==>
      ScoreLess(RankCardCombinationFixed(b), RankCardCombinationFixed(a))
  {
    FixedStraightScore(a);
    FixedStraightScore(b);
    var s := SortedValues(b);
    if SortedValues(a) == Wheel && s != Wheel {
      SortedValuesValid(b);
      assert s[4] == s[0] + 4 by {
        assert s[1] == s[0] + 1 && s[2] == s[1] + 1 && s[3] == s[2] + 1 && s[4] == s[3] + 1;
      }
    }
  }

  // ----- rank_hand -----

  function PrependAll(c: Card, xss: seq<seq<Card>>): (r: seq<seq<Card>>)
    ensures |r| == |xss| && forall i :: 0 <= i < |xss| ==> r[i] == [c] + xss[i]
  {
    seq(|xss|, i requires 0 <= i < |xss| => [c] + xss[i])
  }

  /** `combinations(k)`: the k-element sub-sequences in index order. */
  function Choose(s: seq<Card>, k: nat): (r: seq<seq<Card>>)
    ensures forall i :: 0 <= i < |r| ==> |r[i]| == k
    decreases |s|
  {
    if k == 0 then [[]]
    else if |s| < k then []
    else PrependAll(s[0], Choose(s[1..], k - 1)) + Choose(s[1..], k)
  }

  /** Strictly increasing positions below n. */
  predicate Increasing(idx: seq<int>, n: int)
  {
    (forall i :: 0 <= i < |idx| ==> 0 <= idx[i] < n)
    && forall i :: 0 <= i < |idx| - 1 ==> idx[i] < idx[i + 1]
  }

  /** The cards of `s` at the positions `idx`. */
  function Pick(s: seq<Card>, idx: seq<int>): (r: seq<Card>)
    requires Increasing(idx, |s|)
    ensures |r| == |idx| && forall i :: 0 <= i < |idx| ==> r[i] == s[idx[i]]
  {
    seq(|idx|, i requires 0 <= i < |idx| => s[idx[i]])
  }

  function Shift(idx: seq<int>, d: int): (r: seq<int>)
    ensures |r| == |idx| && forall i :: 0 <= i < |idx| ==> r[i] == idx[i] + d
  {
    seq(|idx|, i requires 0 <= i < |idx| => idx[i] + d)
  }

  lemma {:induction false} IncreasingBound(idx: seq<int>, n: int)
    requires Increasing(idx, n) && |idx| > 0
    ensures idx[|idx| - 1] >= idx[0] + |idx| - 1 && |idx| <= n
    decreases |idx|
  {
    if |idx| > 1 {
      IncreasingBound(idx[..|idx| - 1], n);
    }
  }

  /** Positions starting at the first card: the rest, one card further on. */
  lemma PickFirst(s: seq<Card>, idx: seq<int>)
    requires Increasing(idx, |s|) && |idx| > 0 && idx[0] == 0
    ensures Increasing(Shift(idx[1..], -1), |s| - 1)
    ensures Pick(s, idx) == [s[0]] + Pick(s[1..], Shift(idx[1..], -1))
  {
    ShiftTail(idx, |s|);
    var later := Pick(s[1..], Shift(idx[1..], -1));
    forall i | 0 <= i < |idx| ensures Pick(s, idx)[i] == ([s[0]] + later)[i] {
      if i > 0 {
        assert later[i - 1] == s[1..][idx[i] - 1];
      }
    }
  }

  /** Dropping a first position 0 and moving the rest one card back keeps
      the positions increasing and in range. */
  lemma ShiftTail(idx: seq<int>, n: int)
    requires Increasing(idx, n) && |idx| > 0 && idx[0] == 0
    ensures Increasing(Shift(idx[1..], -1), n - 1)
  {
    forall i | 0 <= i < |idx| ensures idx[i] >= i {
      IncreasingFrom(idx, n, i);
    }
  }

  lemma {:induction false} IncreasingFrom(idx: seq<int>, n: int, i: int)
    requires Increasing(idx, n) && 0 <= i < |idx|
    ensures idx[0] + i <= idx[i]
    decreases i
  {
    if i > 0 {
      IncreasingFrom(idx, n, i - 1);
    }
  }

  /** Positions past the first card. */
  lemma PickLater(s: seq<Card>, idx: seq<int>)
    requires Increasing(idx, |s|) && |idx| > 0 && idx[0] > 0
    ensures Increasing(Shift(idx, -1), |s| - 1)
    ensures Pick(s, idx) == Pick(s[1..], Shift(idx, -1))
  {
    IncreasingBound(idx, |s|);
    forall i | 0 <= i < |idx| ensures idx[i] > 0 {
      IncreasingFrom(idx, |s|, i);
    }
  }

  lemma InFront(c: Card, xss: seq<seq<Card>>, xs: seq<Card>)
    requires xs in xss
    ensures [c] + xs in PrependAll(c, xss)
  {
    var j :| 0 <= j < |xss| && xss[j] == xs;
    assert PrependAll(c, xss)[j] == [c] + xs;
  }

  /** Every choice of k positions is among the combinations. */
  lemma {:induction false} PickIsChosen(s: seq<Card>, idx: seq<int>)
    requires Increasing(idx, |s|)
    ensures Pick(s, idx) in Choose(s, |idx|)
    decreases |s|
  {
    var k := |idx|;
    if k == 0 {
      assert Pick(s, idx) == [];
    } else {
      IncreasingBound(idx, |s|);
      var tail := s[1..];
      var with := Choose(tail, k - 1);
      assert Choose(s, k) == PrependAll(s[0], with) + Choose(tail, k);
      if idx[0] == 0 {
        PickFirst(s, idx);
        var rest := Shift(idx[1..], -1);
        PickIsChosen(tail, rest);
        InFront(s[0], with, Pick(tail, rest));
      } else {
        PickLater(s, idx);
        PickIsChosen(tail, Shift(idx, -1));
      }
    }
  }

  lemma FromFront(c: Card, xss: seq<seq<Card>>, ys: seq<Card>)
    requires ys in PrependAll(c, xss)
    ensures |ys| > 0 && ys[1..] in xss && ys == [c] + ys[1..]
  {
    var j :| 0 <= j < |xss| && PrependAll(c, xss)[j] == ys;
    assert ys[1..] == xss[j];
  }

  lemma PickPrepend(s: seq<Card>, idx: seq<int>)
    requires |s| > 0 && Increasing(idx, |s| - 1)
    ensures Increasing([0] + Shift(idx, 1), |s|)
    ensures Pick(s, [0] + Shift(idx, 1)) == [s[0]] + Pick(s[1..], idx)
  {
  }

  lemma PickSkip(s: seq<Card>, idx: seq<int>)
    requires |s| > 0 && Increasing(idx, |s| - 1)
    ensures Increasing(Shift(idx, 1), |s|)
    ensures Pick(s, Shift(idx, 1)) == Pick(s[1..], idx)
  {
  }

  /** Every combination is a choice of k positions. */
  lemma {:induction false} ChosenIsPick(s: seq<Card>, k: nat, c: seq<Card>)
    requires c in Choose(s, k)
    ensures exists idx :: Increasing(idx, |s|) && |idx| == k && Pick(s, idx) == c
    decreases |s|
  {
    if k == 0 {
      assert Increasing([], |s|) && Pick(s, []) == c;
    } else {
      var with := Choose(s[1..], k - 1);
      var front := PrependAll(s[0], with);
      assert Choose(s, k) == front + Choose(s[1..], k);
      if c in front {
        FromFront(s[0], with, c);
        ChosenIsPick(s[1..], k - 1, c[1..]);
        var idx :| Increasing(idx, |s| - 1) && |idx| == k - 1 && Pick(s[1..], idx) == c[1..];
        PickPrepend(s, idx);
      } else {
        ChosenIsPick(s[1..], k, c);
        var idx :| Increasing(idx, |s| - 1) && |idx| == k && Pick(s[1..], idx) == c;
        PickSkip(s, idx);
      }
    }
  }

  /** The smallest score of a non-empty list. */
  function MinScore(xs: seq<Score>): (m: Score)
    requires |xs| > 0
    ensures m in xs && forall i :: 0 <= i < |xs| ==> ScoreLe(m, xs[i])
  {
    if |xs| == 1 then xs[0]
    else
      var m := MinScore(xs[1..]);
      assert forall i :: 1 <= i < |xs| ==> xs[i] == xs[1..][i - 1];
      if ScoreLe(xs[0], m) then xs[0] else m
  }

  /** A five-card classifier: the as-written one or the fixed one. */
  ghost predicate Rates(rate: seq<Card> --> Score)
  {
    forall cs: seq<Card> :: |cs| == 5 ==> rate.requires(cs)
  }

  /** The scores of all five-card combinations. */
  function Scores(cards: seq<Card>, rate: seq<Card> --> Score): (r: seq<Score>)
    requires Rates(rate)
    ensures |r| == |Choose(cards, 5)|
    ensures forall i :: 0 <= i < |r| ==> r[i] == rate(Choose(cards, 5)[i])
  {
    var combos := Choose(cards, 5);
    seq(|combos|, i requires 0 <= i < |combos| => rate(combos[i]))
  }

  /** Every choice of five cards has its score among the scores. */
  lemma PickScored(cards: seq<Card>, rate: seq<Card> --> Score, idx: seq<int>)
    requires Rates(rate)
    requires Increasing(idx, |cards|) && |idx| == 5
    ensures rate(Pick(cards, idx)) in Scores(cards, rate)
  {
    PickIsChosen(cards, idx);
    var combos := Choose(cards, 5);
    var j :| 0 <= j < |combos| && combos[j] == Pick(cards, idx);
    assert Scores(cards, rate)[j] == rate(Pick(cards, idx));
  }

  /** Every score is that of some choice of five cards. */
  lemma ScoreOfPick(cards: seq<Card>, rate: seq<Card> --> Score, m: Score)
    requires Rates(rate)
    requires m in Scores(cards, rate)
    ensures exists idx :: (Increasing(idx, |cards|) && |idx| == 5 &&
                           m == rate(Pick(cards, idx)))
  {
    var j :| 0 <= j < |Scores(cards, rate)| && Scores(cards, rate)[j] == m;
    ChosenIsPick(cards, 5, Choose(cards, 5)[j]);
  }

  /** The positions 0 to 4. */
  lemma FirstFive(cards: seq<Card>, rate: seq<Card> --> Score)
    requires Rates(rate)
    requires |cards| >= 5
    ensures |Scores(cards, rate)| > 0
  {
    var idx := [0, 1, 2, 3, 4];
    assert Increasing(idx, |cards|);
    PickScored(cards, rate, idx);
  }

  /** The best score over all five-card combinations of the board and hole
      cards, under the given classifier. */
  function BestScore(rate: seq<Card> --> Score, hole: (Card, Card), board: seq<Card>): (r: Score)
    requires Rates(rate)
    requires |board| >= 3
    ensures forall idx :: Increasing(idx, |board| + 2) && |idx| == 5 ==>
      ScoreLe(r, rate(Pick(board + [hole.0, hole.1], idx)))
    ensures exists idx :: (Increasing(idx, |board| + 2) && |idx| == 5 &&
                           r == rate(Pick(board + [hole.0, hole.1], idx)))
  {
    var cards := board + [hole.0, hole.1];
    FirstFive(cards, rate);
    var m := MinScore(Scores(cards, rate));
    BestOfScores(cards, rate, m);
    m
  }

  lemma BestOfScores(cards: seq<Card>, rate: seq<Card> --> Score, m: Score)
    requires Rates(rate)
    requires m in Scores(cards, rate) && forall i :: 0 <= i < |Scores(cards, rate)| ==> ScoreLe(m, Scores(cards, rate)[i])
    ensures forall idx :: Increasing(idx, |cards|) && |idx| == 5 ==>
      ScoreLe(m, rate(Pick(cards, idx)))
    ensures exists idx :: (Increasing(idx, |cards|) && |idx| == 5 &&
                           m == rate(Pick(cards, idx)))
  {
    forall idx | Increasing(idx, |cards|) && |idx| == 5
      ensures ScoreLe(m, rate(Pick(cards, idx)))
    {
      PickScored(cards, rate, idx);
    }
    ScoreOfPick(cards, rate, m);
  }

  /** `rank_hand`: the best as-written score over all five-card
      combinations of the board and hole cards. Fewer than five cards make
      the source panic, which this precondition excludes. */
  function RankHand(hole: (Card, Card), board: seq<Card>): (r: Score)
    requires |board| >= 3
    ensures forall idx :: Increasing(idx, |board| + 2) && |idx| == 5 ==>
      ScoreLe(r, RankCardCombination(Pick(board + [hole.0, hole.1], idx)))
    ensures exists idx :: (Increasing(idx, |board| + 2) && |idx| == 5 &&
                           r == RankCardCombination(Pick(board + [hole.0, hole.1], idx)))
  {
    BestScore(RankCardCombination, hole, board)
  }

  /** `rank_hand` with straights valued by their top card: the corrected
      half of the wheel finding. */
  function RankHandFixed(hole: (Card, Card), board: seq<Card>): (r: Score)
    requires |board| >= 3
    ensures forall idx :: Increasing(idx, |board| + 2) && |idx| == 5 ==>
      ScoreLe(r, RankCardCombinationFixed(Pick(board + [hole.0, hole.1], idx)))
    ensures exists idx :: (Increasing(idx, |board| + 2) && |idx| == 5 &&
                           r == RankCardCombinationFixed(Pick(board + [hole.0, hole.1], idx)))
  {
    BestScore(RankCardCombinationFixed, hole, board)
  }
}

=== FILE: hand_description.dfy ===
/** `getHandDescriptionFromRank`: the category name of an evaluator rank,
    where rank 1 is the best five-card hand and 7462 the worst. */
module HandDescription {

  const MaxRank := 7462

  const CategoryNames: seq<string> :=
    ["Straight Flush", "Four of a Kind", "Full House", "Flush", "Straight",
     "Three of a Kind", "Two Pair", "One Pair", "High Card"]

  /** Number of distinct five-card hand classes in each category, best
      category first. */
  const ClassSizes: seq<nat> := [10, 156, 156, 1277, 10, 858, 858, 2860, 1277]

  /** Last rank of category `k`: the classes of categories 0 .. k. */
  function LastRankOf(k: nat): (n: nat)
    requires k < |ClassSizes|
  {
    if k == 0 then ClassSizes[0] else LastRankOf(k - 1) + ClassSizes[k]
  }

  /** The category of a valid rank: the first whose last rank reaches it. */
  function CategoryOf(r: int, k: nat): (c: nat)
    requires k < |ClassSizes| && 1 <= r <= MaxRank
    requires k > 0 ==> LastRankOf(k - 1) < r
    ensures k <= c < |ClassSizes| && r <= LastRankOf(c)
    ensures c > 0 ==> LastRankOf(c - 1) < r
    decreases |ClassSizes| - k
  {
    if r <= LastRankOf(k) then k
    else
      LastRankTable();
      CategoryOf(r, k + 1)
  }

  /** The name chain of `getHandDescriptionFromRank`. */
  function Describe(rank: int): (d: string)
    ensures d == "Invalid Rank" <==> !(1 <= rank <= MaxRank)
  {
    if rank <= 0 || rank > 7462 then "Invalid Rank"
    else if rank <= 10 then "Straight Flush"
    else if rank <= 166 then "Four of a Kind"
    else if rank <= 322 then "Full House"
    else if rank <= 1599 then "Flush"
    else if rank <= 1609 then "Straight"
    else if rank <= 2467 then "Three of a Kind"
    else if rank <= 3325 then "Two Pair"
    else if rank <= 6185 then "One Pair"
    else "High Card"
  }

  /** The thresholds of the chain are the running totals of the class
      sizes: every valid rank is named after the category it falls in. */
  lemma DescribeMatchesClassSizes(rank: int)
    requires 1 <= rank <= MaxRank
    ensures Describe(rank) == CategoryNames[CategoryOf(rank, 0)]
  {
    LastRankTable();
  }

  lemma LastRankTable()
    ensures LastRankOf(0) == 10 && LastRankOf(1) == 166 && LastRankOf(2) == 322
    ensures LastRankOf(3) == 1599 && LastRankOf(4) == 1609 && LastRankOf(5) == 2467
    ensures LastRankOf(6) == 3325 && LastRankOf(7) == 6185 && LastRankOf(8) == MaxRank
  {
    assert LastRankOf(0) == 10;
    assert LastRankOf(1) == 166;
    assert LastRankOf(2) == 322;
    assert LastRankOf(3) == 1599;
    assert LastRankOf(4) == 1609;
    assert LastRankOf(5) == 2467;
    assert LastRankOf(6) == 3325;
    assert LastRankOf(7) == 6185;
  }

  /** A better (smaller) rank never gets a worse category. */
  lemma DescribeMonotone(r1: int, r2: int)
    requires 1 <= r1 <= r2 <= MaxRank
    ensures CategoryOf(r1, 0) <= CategoryOf(r2, 0)
  {
    var c1 := CategoryOf(r1, 0);
    var c2 := CategoryOf(r2, 0);
    if c2 < c1 {
      LastRankMonotone(c2, c1 - 1);
    }
  }

  lemma {:induction false} LastRankMonotone(a: nat, b: nat)
    requires a <= b < |ClassSizes|
    ensures LastRankOf(a) <= LastRankOf(b)
    decreases b - a
  {
    if a < b {
      LastRankMonotone(a, b - 1);
    }
  }
}

=== FILE: hand_state.dfy ===
/** The state `PokerEnv` keeps for the hand in progress, the table rules
    read from its configuration, and the start of a hand (`reset`, steps 8
    and 9): antes, blinds, and who acts first. */
module HandState {
  import opened Wrappers
  import opened Cards
  import opened PokerTable
  import opened PotLedger

  /** The capped-raise record consulted by `_getFixedAction`. Its
      declaration lives in a header that is not part of this model; only
      `happenedThisRound` and `playerThatCantReopen` are read. */
  datatype CappedRaise = CappedRaise(happenedThisRound: bool, playerThatRaised: int, playerThatCantReopen: int)

  /** `cappedRaise_member.reset()`. */
  const NoCappedRaise := CappedRaise(false, -1, -1)

  /** The configuration the engine reads: blinds, ante, the fixed-limit
      raise caps, the first-action rule, the per-street action limit
      (`max_rounds_per_hand`), the last street played and the fixed UTG
      seat (`fix_utg_position`, -1 when unset). */
  datatype Rules = Rules(
    smallBlind: nat,
    bigBlind: nat,
    ante: nat,
    fixedLimit: bool,
    maxRaisesPerRound: seq<int>,
    firstActionNoCall: bool,
    maxActionsPerStreet: int,
    endWithRound: int,
    fixUtg: int)

  /** The last street is clamped to PREFLOP .. RIVER when it is read. */
  predicate ValidRules(rules: Rules)
  {
    PREFLOP <= rules.endWithRound <= RIVER
  }

  /** One hand in progress: the seats, the collected pots, the street, the
      seat to act (-1 when none), the betting history of the street, the
      community card slots (`None` for an empty slot) and the deck. */
  datatype Table = Table(
    players: seq<Player>,
    mainPot: int,
    sidePots: seq<int>,
    round: int,
    current: int,
    lastRaiser: int,
    nRaises: int,
    nActions: nat,
    capped: CappedRaise,
    actionsThisStreet: seq<nat>,
    handIsOver: bool,
    pos: Positions,
    board: seq<Option<Card>>,
    deck: seq<Card>)

  /** The shape every reachable table has. */
  predicate WellFormed(t: Table)
  {
    && |t.players| >= 1
    && -1 <= t.lastRaiser < |t.players|
    && -1 <= t.current < |t.players|
    && |t.actionsThisStreet| == |t.players|
    && PREFLOP <= t.round <= RIVER
    && t.pos.button < |t.players| && t.pos.sb < |t.players| && t.pos.bb < |t.players|
    && |t.board| == 5
  }

  /** Every chip invested this hand is either still a bet on the table or
      in a collected pot. */
  predicate Balanced(t: Table)
  {
    t.mainPot + Sum(t.sidePots) + Total(t.players, BetOf) == Total(t.players, InvestedOf)
  }

  /** The collected pots are never negative, and no seat has bet more this
      street than it invested this hand. */
  predicate PotsSound(t: Table)
  {
    && t.mainPot >= 0
    && (forall k :: 0 <= k < |t.sidePots| ==> t.sidePots[k] >= 0)
    && (forall i :: 0 <= i < |t.players| ==> t.players[i].currentBet <= t.players[i].totalInvested)
  }

  /** The invariant of a hand in progress. */
  predicate Consistent(t: Table)
  {
    WellFormed(t) && Balanced(t) && PotsSound(t)
  }

  /** `getPotSize`. */
  function Pot(t: Table): int
  {
    PotSize(t.players, t.mainPot, t.sidePots)
  }

  /** A seat's chips at the start of the hand: what it still holds plus
      what it has invested. */
  function Bankroll(p: Player): int
  {
    p.stack + p.totalInvested
  }

  /** The player records as `PokerPlayer::reset` leaves them: nothing bet
      or invested yet. */
  predicate FreshSeats(ps: seq<Player>)
  {
    forall i :: 0 <= i < |ps| ==> ps[i].currentBet == 0 && ps[i].totalInvested == 0
  }

  /** `reset`, steps 8 and 9: antes are posted and collected, then the small
      and big blind are posted; the first seat preflop acts, and nobody
      has raised yet (the big blind's option depends on that). */
  function StartHand(rules: Rules, ps: seq<Player>, pos: Positions, board: seq<Option<Card>>, deck: seq<Card>)
    : (t: Table)
    requires |ps| >= 1 && pos.button < |ps| && pos.sb < |ps| && pos.bb < |ps| && |board| == 5
    requires FreshSeats(ps)
    ensures Consistent(t) && !t.handIsOver && t.round == PREFLOP
    ensures |t.players| == |ps|
    ensures forall i :: 0 <= i < |ps| ==> Bankroll(t.players[i]) == Bankroll(ps[i])
    ensures t.mainPot == Total(PostAntes(ps, rules.ante), InvestedOf)
    ensures t.current == FirstToActPreFlop(t.players, rules.fixUtg, pos.bb) && t.lastRaiser == -1
  {
    var first := FirstToActPreFlop(Blinds(rules, ps, pos), rules.fixUtg, pos.bb);
    StartHandBalanced(rules, ps, pos);
    OpeningConsistent(rules, ps, pos, board, deck, first);
    Opening(rules, ps, pos, board, deck, first)
  }

  /** The table right after the blinds, with `first` on turn. */
  function Opening(rules: Rules, ps: seq<Player>, pos: Positions, board: seq<Option<Card>>, deck: seq<Card>, first: int)
    : (t: Table)
    requires pos.sb < |ps| && pos.bb < |ps|
  {
    Table(Blinds(rules, ps, pos), AntePot(ps, rules.ante), [], PREFLOP, first,
          -1, 0, 0, NoCappedRaise, seq(|ps|, i => 0), false, pos, board, deck)
  }

  /** Whoever of the seats is put on turn, the opening table is consistent. */
  lemma OpeningConsistent(rules: Rules, ps: seq<Player>, pos: Positions, board: seq<Option<Card>>, deck: seq<Card>, first: int)
    requires |ps| >= 1 && pos.button < |ps| && pos.sb < |ps| && pos.bb < |ps| && |board| == 5
    requires FreshSeats(ps) && 0 <= first < |ps|
    ensures Consistent(Opening(rules, ps, pos, board, deck, first))
  {
    StartHandBalanced(rules, ps, pos);
  }

  /** The chips the antes put in the pot once they are collected. */
  function AntePot(ps: seq<Player>, ante: nat): int
  {
    CollectBets(PostAntes(ps, ante), 0).1
  }

  /** The seats after the antes are collected and both blinds posted. */
  function Blinds(rules: Rules, ps: seq<Player>, pos: Positions): (qs: seq<Player>)
    requires pos.sb < |ps| && pos.bb < |ps|
    ensures |qs| == |ps|
  {
    var collected := CollectBets(PostAntes(ps, rules.ante), 0);
    var withSb := collected.0[pos.sb := PostForced(collected.0[pos.sb], rules.smallBlind)];
    withSb[pos.bb := PostForced(withSb[pos.bb], rules.bigBlind)]
  }

  /** With distinct blind seats, each blind posts its amount or, when
      shorter, whatever is left after the ante. */
  lemma StartHandBlinds(rules: Rules, ps: seq<Player>, pos: Positions, board: seq<Option<Card>>, deck: seq<Card>)
    requires |ps| >= 1 && pos.button < |ps| && pos.sb < |ps| && pos.bb < |ps| && |board| == 5
    requires FreshSeats(ps) && pos.sb != pos.bb
    ensures StartHand(rules, ps, pos, board, deck).players[pos.sb].currentBet
         == Min(rules.smallBlind, PostAntes(ps, rules.ante)[pos.sb].stack)
    ensures StartHand(rules, ps, pos, board, deck).players[pos.bb].currentBet
         == Min(rules.bigBlind, PostAntes(ps, rules.ante)[pos.bb].stack)
  {
    var collected := CollectBets(PostAntes(ps, rules.ante), 0);
    PostForcedCommits(collected.0[pos.sb], rules.smallBlind);
    PostForcedCommits(collected.0[pos.bb], rules.bigBlind);
  }

  lemma StartHandBalanced(rules: Rules, ps: seq<Player>, pos: Positions)
    requires |ps| >= 1 && pos.sb < |ps| && pos.bb < |ps|
    requires FreshSeats(ps)
    ensures AntePot(ps, rules.ante) + Total(Blinds(rules, ps, pos), BetOf) == Total(Blinds(rules, ps, pos), InvestedOf)
    ensures forall i :: 0 <= i < |ps| ==> Bankroll(Blinds(rules, ps, pos)[i]) == Bankroll(ps[i])
    ensures AntePot(ps, rules.ante) == Total(PostAntes(ps, rules.ante), InvestedOf) >= 0
    ensures forall i :: 0 <= i < |ps| ==> Blinds(rules, ps, pos)[i].currentBet <= Blinds(rules, ps, pos)[i].totalInvested
  {
    var anted := PostAntes(ps, rules.ante);
    var collected := CollectBets(anted, 0);
    AntesBalanced(ps, rules.ante);
    CollectBetsKeepsChips(anted, 0, []);
    TotalSame(anted, collected.0, InvestedOf, InvestedOf);
    PostKeeps(collected.0, pos.sb, rules.smallBlind);
    var withSb := collected.0[pos.sb := PostForced(collected.0[pos.sb], rules.smallBlind)];
    PostKeeps(withSb, pos.bb, rules.bigBlind);
    PostKeeps(collected.0, pos.sb, rules.smallBlind);
    TotalNonNegative(anted, InvestedOf);
  }

  /** Posting the antes on fresh seats: every seat's bet is what it
      invested, and its bankroll is unchanged. */
  lemma AntesBalanced(ps: seq<Player>, ante: nat)
    requires FreshSeats(ps)
    ensures Total(PostAntes(ps, ante), BetOf) == Total(PostAntes(ps, ante), InvestedOf)
    ensures forall i :: 0 <= i < |ps| ==> Bankroll(PostAntes(ps, ante)[i]) == Bankroll(ps[i])
  {
    var anted := PostAntes(ps, ante);
    forall i | 0 <= i < |ps|
      ensures anted[i].currentBet == anted[i].totalInvested
      ensures Bankroll(anted[i]) == Bankroll(ps[i])
    {
      PostForcedCommits(ps[i], ante);
    }
    TotalSame(anted, anted, BetOf, InvestedOf);
  }

  lemma {:induction false} TotalNonNegative(ps: seq<Player>, f: Player -> int)
    requires forall i :: 0 <= i < |ps| ==> f(ps[i]) >= 0
    ensures Total(ps, f) >= 0
    decreases |ps|
  {
    if |ps| > 0 {
      TotalNonNegative(ps[..|ps| - 1], f);
    }
  }

  /** A forced bet at one seat adds as much to the table's bets as to its
      investments, and keeps every bankroll. */
  lemma PostKeeps(ps: seq<Player>, i: nat, amount: nat)
    requires i < |ps|
    ensures var qs := ps[i := PostForced(ps[i], amount)];
            Total(qs, InvestedOf) - Total(qs, BetOf) == Total(ps, InvestedOf) - Total(ps, BetOf)
            && (forall j :: 0 <= j < |ps| ==> Bankroll(qs[j]) == Bankroll(ps[j]))
            && (forall j :: 0 <= j < |ps| && j != i ==> qs[j] == ps[j])
            && qs[i].currentBet - ps[i].currentBet == qs[i].totalInvested - ps[i].totalInvested
  {
    var q := PostForced(ps[i], amount);
    PostForcedCommits(ps[i], amount);
    TotalUpdate(ps, i, q, BetOf);
    TotalUpdate(ps, i, q, InvestedOf);
  }
}

=== FILE: layered_pots.dfy ===
/** The layered settlement both Rust drafts end a hand with
    (`resolve_pots` in one, `set_winners` in the other). The pot is cut
    into layers at each distinct pot share. Each layer is paid in equal
    parts to the best hands among the players still in who reached it.
    A player's reward is what they won less what they put in. The list of
    winners the callers pass is not read. */
module LayeredPots {
  import opened Wrappers
  import opened HandClassifier
  import opened RustBetting

  /** Layers this thin or thinner are skipped. */
  const Epsilon: real := 0.000000001

  /** The rank the winner scan starts from, worse than any hand. */
  const NoRank: Score := (11, 0, 0)

  /** What the settlement reads of a player: the chips put in, whether
      still in the hand, and the hand's rank (lower is better). */
  datatype Entry = Entry(pot: real, live: bool, rank: Score)

  /** Every rank is a real hand's, so better than the scan's start. */
  predicate Ranked(es: seq<Entry>)
  {
    forall i :: 0 <= i < |es| ==> ScoreLess(es[i].rank, NoRank)
  }

  /** Somebody put chips in: otherwise the settlement returns at once. */
  predicate AnyShare(es: seq<Entry>)
  {
    exists i :: 0 <= i < |es| && es[i].pot > 0.0
  }

  function Zeros(n: nat): (z: seq<real>)
    ensures |z| == n && SumR(z) == 0.0
    ensures forall i :: 0 <= i < n ==> z[i] == 0.0
  {
    if n == 0 then []
    else
      var z := Zeros(n - 1) + [0.0];
      assert z[..n - 1] == Zeros(n - 1);
      z
  }

  // ----- The levels -----

  predicate StrictlyIncreasing(xs: seq<real>)
  {
    forall i, j :: 0 <= i < j < |xs| ==> xs[i] < xs[j]
  }

  function InsertLevel(x: real, xs: seq<real>): (r: seq<real>)
    requires StrictlyIncreasing(xs)
    ensures StrictlyIncreasing(r)
    ensures forall y :: y in r <==> y == x || y in xs
  {
    if |xs| == 0 then [x]
    else if x < xs[0] then [x] + xs
    else if x == xs[0] then xs
    else
      var rest := InsertLevel(x, xs[1..]);
      assert forall y :: y in rest ==> xs[0] < y;
      ConsIncreasing(xs[0], rest);
      [xs[0]] + rest
  }

  lemma ConsIncreasing(x: real, xs: seq<real>)
    requires StrictlyIncreasing(xs) && forall y :: y in xs ==> x < y
    ensures StrictlyIncreasing([x] + xs)
  {
    forall i, j | 0 <= i < j < |xs| + 1 ensures ([x] + xs)[i] < ([x] + xs)[j] {
      assert ([x] + xs)[j] == xs[j - 1] && xs[j - 1] in xs;
      if i > 0 {
        assert ([x] + xs)[i] == xs[i - 1];
      }
    }
  }

  /** The pot shares above zero, sorted and without repeats. */
  function Levels(es: seq<Entry>): (r: seq<real>)
    ensures StrictlyIncreasing(r)
  {
    if |es| == 0 then []
    else
      var rest := Levels(es[..|es| - 1]);
      if es[|es| - 1].pot > 0.0 then InsertLevel(es[|es| - 1].pot, rest) else rest
  }

  /** The levels are exactly the positive shares. */
  lemma {:induction false} LevelsMembers(es: seq<Entry>)
    ensures forall y :: y in Levels(es) <==> exists i :: 0 <= i < |es| && es[i].pot == y && y > 0.0
    decreases |es|
  {
    if |es| > 0 {
      var front := es[..|es| - 1];
      LevelsMembers(front);
      assert forall i :: 0 <= i < |es| - 1 ==> front[i] == es[i];
    }
  }

  // ----- Sums over the table -----

  function MinR(a: real, b: real): real
  {
    if a <= b then a else b
  }

  /** What `c` players pay at `slice` each (a layer of thickness `slice`
      that `c` players reached holds this much), added up one player at a
      time. */
  function Paid(slice: real, c: nat): (t: real)
    ensures slice >= 0.0 ==> t >= 0.0
  {
    if c == 0 then 0.0 else Paid(slice, c - 1) + slice
  }

  lemma {:induction false} PaidProduct(slice: real, c: nat)
    ensures Paid(slice, c) == slice * c as real
  {
    if c > 0 {
      PaidProduct(slice, c - 1);
      assert slice * (c - 1) as real + slice == slice * c as real;
    }
  }

  /** One of `n` equal parts of `total`: `n` of them make up `total`. */
  function Part(total: real, n: nat): (p: real)
    requires n > 0
    ensures Paid(p, n) == total
    ensures total >= 0.0 ==> p >= 0.0
  {
    PaidProduct(total / n as real, n);
    total / n as real
  }

  /** Number of players whose share reaches `level`. */
  function Contributors(es: seq<Entry>, level: real): (c: nat)
    ensures c <= |es|
  {
    if |es| == 0 then 0
    else Contributors(es[..|es| - 1], level) + (if es[|es| - 1].pot >= level then 1 else 0)
  }

  /** What the table has put in, counting each share only up to
      `level`. */
  function CapSum(es: seq<Entry>, level: real): real
  {
    if |es| == 0 then 0.0 else CapSum(es[..|es| - 1], level) + MinR(es[|es| - 1].pot, level)
  }

  function PotTotal(es: seq<Entry>): real
  {
    if |es| == 0 then 0.0 else PotTotal(es[..|es| - 1]) + es[|es| - 1].pot
  }

  /** Between two levels with no share strictly inside, what the table
      has put in grows by the layer's thickness once per player who
      reaches the upper level. */
  lemma {:induction false} CapStep(es: seq<Entry>, a: real, b: real)
    requires a < b
    requires forall i :: 0 <= i < |es| ==> es[i].pot <= a || es[i].pot >= b
    ensures CapSum(es, b) - CapSum(es, a) == Paid(b - a, Contributors(es, b))
    decreases |es|
  {
    if |es| > 0 {
      var front := es[..|es| - 1];
      assert forall i :: 0 <= i < |front| ==> front[i] == es[i];
      CapStep(front, a, b);
    }
  }

  /** With no negative share, nothing has been put in up to level zero. */
  lemma {:induction false} CapAtZero(es: seq<Entry>)
    requires forall i :: 0 <= i < |es| ==> es[i].pot >= 0.0
    ensures CapSum(es, 0.0) == 0.0
    decreases |es|
  {
    if |es| > 0 {
      var front := es[..|es| - 1];
      assert forall i :: 0 <= i < |front| ==> front[i] == es[i];
      CapAtZero(front);
    }
  }

  /** Up to a level no share exceeds, everything put in counts. */
  lemma {:induction false} CapAtTop(es: seq<Entry>, top: real)
    requires forall i :: 0 <= i < |es| ==> es[i].pot <= top
    ensures CapSum(es, top) == PotTotal(es)
    decreases |es|
  {
    if |es| > 0 {
      var front := es[..|es| - 1];
      assert forall i :: 0 <= i < |front| ==> front[i] == es[i];
      CapAtTop(front, top);
    }
  }

  // ----- One layer's winners -----

  /** The players still in whose share reaches `level`, in seat order
      (all of them: see `EligibleSeatsFacts`). */
  function EligibleSeats(es: seq<Entry>, level: real): (r: seq<nat>)
    ensures forall k :: 0 <= k < |r| ==> r[k] < |es| && es[r[k]].live && es[r[k]].pot >= level
  {
    if |es| == 0 then []
    else
      var front := es[..|es| - 1];
      var rest := EligibleSeats(front, level);
      assert forall i :: 0 <= i < |front| ==> front[i] == es[i];
      if es[|es| - 1].live && es[|es| - 1].pot >= level then rest + [|es| - 1] else rest
  }

  lemma {:induction false} EligibleSeatsFacts(es: seq<Entry>, level: real)
    ensures forall i :: 0 <= i < |es| && es[i].live && es[i].pot >= level ==> i in EligibleSeats(es, level)
    ensures Distinct(EligibleSeats(es, level))
  {
    EligibleSeatsAll(es, level);
    EligibleSeatsDistinct(es, level);
  }

  lemma {:induction false} EligibleSeatsAll(es: seq<Entry>, level: real)
    ensures forall i :: 0 <= i < |es| && es[i].live && es[i].pot >= level ==> i in EligibleSeats(es, level)
    decreases |es|
  {
    if |es| > 0 {
      var front := es[..|es| - 1];
      assert forall i :: 0 <= i < |front| ==> front[i] == es[i];
      EligibleSeatsAll(front, level);
    }
  }

  lemma {:induction false} EligibleSeatsDistinct(es: seq<Entry>, level: real)
    ensures Distinct(EligibleSeats(es, level))
    decreases |es|
  {
    if |es| > 0 {
      var front := es[..|es| - 1];
      EligibleSeatsDistinct(front, level);
      var rest := EligibleSeats(front, level);
      assert forall k :: 0 <= k < |rest| ==> rest[k] < |es| - 1;
    }
  }

  /** The scan over `seats`: a strictly better rank restarts the list of
      winners, an equal one joins it. Returns the best rank seen (the
      start rank if none is better) and the winners. */
  function BestScan(es: seq<Entry>, seats: seq<nat>): (r: (Score, seq<nat>))
    requires forall k :: 0 <= k < |seats| ==> seats[k] < |es|
  {
    if |seats| == 0 then (NoRank, [])
    else
      var front := seats[..|seats| - 1];
      var x := seats[|seats| - 1];
      var prev := BestScan(es, front);
      if ScoreLess(es[x].rank, prev.0) then (es[x].rank, [x])
      else if es[x].rank == prev.0 then (prev.0, prev.1 + [x])
      else prev
  }

  /** The scan ends on the best rank among the seats that is no worse
      than its start, and on the start rank only if no seat beats it. */
  lemma {:induction false} BestScanBest(es: seq<Entry>, seats: seq<nat>)
    requires forall k :: 0 <= k < |seats| ==> seats[k] < |es|
    ensures var r := BestScan(es, seats);
      && ScoreLe(r.0, NoRank)
      && (forall k :: 0 <= k < |seats| && ScoreLe(es[seats[k]].rank, NoRank) ==> ScoreLe(r.0, es[seats[k]].rank))
      && (r.0 == NoRank || exists k :: 0 <= k < |seats| && es[seats[k]].rank == r.0)
    decreases |seats|
  {
    if |seats| > 0 {
      var front := seats[..|seats| - 1];
      assert forall k :: 0 <= k < |front| ==> front[k] == seats[k];
      BestScanBest(es, front);
    }
  }

  /** The scan's winners are exactly the seats holding the rank it ends
      on, each listed once when the seats are. */
  lemma {:induction false} BestScanMember(es: seq<Entry>, seats: seq<nat>)
    requires forall k :: 0 <= k < |seats| ==> seats[k] < |es|
    ensures var r := BestScan(es, seats);
      && (forall x :: x in r.1 <==> x in seats && es[x].rank == r.0)
      && (Distinct(seats) ==> Distinct(r.1))
    decreases |seats|
  {
    if |seats| > 0 {
      var front := seats[..|seats| - 1];
      var x := seats[|seats| - 1];
      assert seats == front + [x];
      BestScanMember(es, front);
      BestScanBest(es, front);
    }
  }

  /** The winners of the layer at `level`: of the players still in who
      reached it, those with the best rank (see `LayerWinnerIff`). There
      is at least one when anybody still in reached the level. */
  function LayerWinners(es: seq<Entry>, level: real): (ws: seq<nat>)
    ensures Distinct(ws)
    ensures forall k :: 0 <= k < |ws| ==> ws[k] < |es| && es[ws[k]].live && es[ws[k]].pot >= level
    ensures Ranked(es) && (exists i :: 0 <= i < |es| && es[i].live && es[i].pot >= level) ==> |ws| > 0
  {
    var seats := EligibleSeats(es, level);
    ScanFacts(es, level);
    BestScan(es, seats).1
  }

  lemma ScanFacts(es: seq<Entry>, level: real)
    ensures var seats := EligibleSeats(es, level);
      var ws := BestScan(es, seats).1;
      && Distinct(ws)
      && (forall k :: 0 <= k < |ws| ==> ws[k] < |es| && es[ws[k]].live && es[ws[k]].pot >= level)
      && (Ranked(es) && (exists i :: 0 <= i < |es| && es[i].live && es[i].pot >= level) ==> |ws| > 0)
  {
    var seats := EligibleSeats(es, level);
    var r := BestScan(es, seats);
    EligibleSeatsFacts(es, level);
    BestScanMember(es, seats);
    BestScanBest(es, seats);
    forall k | 0 <= k < |r.1| ensures r.1[k] < |es| && es[r.1[k]].live && es[r.1[k]].pot >= level {
      assert r.1[k] in r.1;
      var m :| 0 <= m < |seats| && seats[m] == r.1[k];
    }
    if Ranked(es) && |seats| > 0 {
      assert ScoreLe(r.0, es[seats[0]].rank);
      var k :| 0 <= k < |seats| && es[seats[k]].rank == r.0;
      assert seats[k] in r.1;
    }
  }

  lemma WinnerIsLive(es: seq<Entry>, level: real, i: nat)
    ensures i in LayerWinners(es, level) ==> i < |es| && es[i].live
  {
    var ws := LayerWinners(es, level);
    if i in ws {
      var k :| 0 <= k < |ws| && ws[k] == i;
    }
  }

  /** A player wins the layer at `level` exactly when still in, their
      share reaches the level, and no such player holds a better hand. */
  lemma LayerWinnerIff(es: seq<Entry>, level: real, i: nat)
    requires Ranked(es) && i < |es|
    ensures i in LayerWinners(es, level) <==>
      es[i].live && es[i].pot >= level
      && forall j :: 0 <= j < |es| && es[j].live && es[j].pot >= level ==> ScoreLe(es[i].rank, es[j].rank)
  {
    var seats := EligibleSeats(es, level);
    var r := BestScan(es, seats);
    assert LayerWinners(es, level) == r.1;
    EligibleSeatsFacts(es, level);
    BestScanMember(es, seats);
    BestScanBest(es, seats);
    forall j | 0 <= j < |es| && es[j].live && es[j].pot >= level
      ensures ScoreLe(r.0, es[j].rank)
    {
      var k :| 0 <= k < |seats| && seats[k] == j;
    }
    if es[i].live && es[i].pot >= level {
      assert i in seats;
      if r.0 != NoRank {
        var k :| 0 <= k < |seats| && es[seats[k]].rank == r.0;
      }
    }
  }

  // ----- Paying the layers -----

  /** Add `amt` to the reward of each listed seat. */
  function AddShare(rewards: seq<real>, ws: seq<nat>, amt: real): (r: seq<real>)
    requires forall k :: 0 <= k < |ws| ==> ws[k] < |rewards|
    ensures |r| == |rewards|
    ensures SumR(r) == SumR(rewards) + Paid(amt, |ws|)
  {
    if |ws| == 0 then rewards
    else
      var front := ws[..|ws| - 1];
      var w := ws[|ws| - 1];
      var prev := AddShare(rewards, front, amt);
      SumRUpdate(prev, w, prev[w] + amt);
      prev[w := prev[w] + amt]
  }

  /** Seat by seat: a listed seat (listed once) gains `amt`, any other
      keeps its reward. */
  lemma {:induction false} AddShareAt(rewards: seq<real>, ws: seq<nat>, amt: real, i: nat)
    requires forall k :: 0 <= k < |ws| ==> ws[k] < |rewards|
    requires i < |rewards|
    ensures i !in ws ==> AddShare(rewards, ws, amt)[i] == rewards[i]
    ensures i in ws && Distinct(ws) ==> AddShare(rewards, ws, amt)[i] == rewards[i] + amt
    ensures amt >= 0.0 ==> AddShare(rewards, ws, amt)[i] >= rewards[i]
    decreases |ws|
  {
    if |ws| > 0 {
      var front := ws[..|ws| - 1];
      assert ws == front + [ws[|ws| - 1]];
      AddShareAt(rewards, front, amt, i);
    }
  }

  /** One layer of thickness `slice` at `level`: every player who reached
      it paid `slice`, and the layer's winners share what was paid. */
  function PayLayer(es: seq<Entry>, level: real, slice: real, rewards: seq<real>): (r: seq<real>)
    requires |rewards| == |es|
    ensures |r| == |es|
    ensures Ranked(es) && (exists i :: 0 <= i < |es| && es[i].live && es[i].pot >= level) ==>
      SumR(r) == SumR(rewards) + Paid(slice, Contributors(es, level))
  {
    var ws := LayerWinners(es, level);
    if |ws| > 0 then AddShare(rewards, ws, Part(Paid(slice, Contributors(es, level)), |ws|))
    else rewards
  }

  /** Seat by seat: the layer's winners each gain an equal part of what
      was paid into it; everyone else keeps their reward. */
  lemma PayLayerAt(es: seq<Entry>, level: real, slice: real, rewards: seq<real>, i: nat)
    requires |rewards| == |es| && i < |es|
    ensures var r := PayLayer(es, level, slice, rewards);
      var ws := LayerWinners(es, level);
      && (i !in ws ==> r[i] == rewards[i])
      && (i in ws ==> r[i] == rewards[i] + Part(Paid(slice, Contributors(es, level)), |ws|))
      && (slice >= 0.0 ==> r[i] >= rewards[i])
  {
    var ws := LayerWinners(es, level);
    if |ws| > 0 {
      AddShareAt(rewards, ws, Part(Paid(slice, Contributors(es, level)), |ws|), i);
    }
  }

  /** The walk over the levels from the bottom: a layer no thicker than
      `Epsilon` is skipped and does not move the floor `last`. */
  function PayLayers(es: seq<Entry>, levels: seq<real>, last: real, rewards: seq<real>): (r: seq<real>)
    requires |rewards| == |es|
    ensures |r| == |es|
    decreases |levels|
  {
    if |levels| == 0 then rewards
    else if levels[0] - last <= Epsilon then PayLayers(es, levels[1..], last, rewards)
    else PayLayers(es, levels[1..], levels[0], PayLayer(es, levels[0], levels[0] - last, rewards))
  }

  /** A layer more than `Epsilon` thick is paid before the walk goes on. */
  lemma PayLayersUp(es: seq<Entry>, levels: seq<real>, last: real, rewards: seq<real>)
    requires |rewards| == |es| && |levels| > 0 && levels[0] - last > Epsilon
    ensures PayLayers(es, levels, last, rewards)
         == PayLayers(es, levels[1..], levels[0], PayLayer(es, levels[0], levels[0] - last, rewards))
  {
  }

  /** Seat by seat: nobody's reward goes down on the walk. */
  lemma {:induction false} PayLayersGrow(es: seq<Entry>, levels: seq<real>, last: real, rewards: seq<real>, i: nat)
    requires |rewards| == |es| && i < |es|
    ensures PayLayers(es, levels, last, rewards)[i] >= rewards[i]
    decreases |levels|
  {
    if |levels| > 0 {
      if levels[0] - last <= Epsilon {
        PayLayersGrow(es, levels[1..], last, rewards, i);
      } else {
        var next := PayLayer(es, levels[0], levels[0] - last, rewards);
        PayLayerAt(es, levels[0], levels[0] - last, rewards, i);
        PayLayersGrow(es, levels[1..], levels[0], next, i);
      }
    }
  }

  /** A player who folded wins no layer. */
  lemma {:induction false} PayLayersFolded(es: seq<Entry>, levels: seq<real>, last: real, rewards: seq<real>, i: nat)
    requires |rewards| == |es| && i < |es| && !es[i].live
    ensures PayLayers(es, levels, last, rewards)[i] == rewards[i]
    decreases |levels|
  {
    if |levels| > 0 {
      if levels[0] - last <= Epsilon {
        PayLayersFolded(es, levels[1..], last, rewards, i);
      } else {
        var next := PayLayer(es, levels[0], levels[0] - last, rewards);
        PayLayerAt(es, levels[0], levels[0] - last, rewards, i);
        WinnerIsLive(es, levels[0], i);
        PayLayersFolded(es, levels[1..], levels[0], next, i);
      }
    }
  }

  /** Levels above `last` and each more than `Epsilon` above the one
      before: no layer is skipped. */
  predicate Spaced(levels: seq<real>, last: real)
  {
    && (forall i :: 0 <= i < |levels| ==> last + Epsilon < levels[i])
    && (forall i, j :: 0 <= i < j < |levels| ==> levels[i] + Epsilon < levels[j])
  }

  function Top(levels: seq<real>, last: real): real
  {
    if |levels| == 0 then last else levels[|levels| - 1]
  }

  /** When no layer is skipped and each has a player still in, the walk
      pays out exactly what the table put in between `last` and the top
      level. */
  lemma {:induction false} PayLayersSum(es: seq<Entry>, levels: seq<real>, last: real, rewards: seq<real>)
    requires |rewards| == |es| && Ranked(es) && Spaced(levels, last)
    requires forall i :: 0 <= i < |es| ==> es[i].pot <= last || es[i].pot in levels
    requires |levels| > 0 ==> exists w :: 0 <= w < |es| && es[w].live && es[w].pot >= levels[|levels| - 1]
    ensures SumR(PayLayers(es, levels, last, rewards)) == SumR(rewards) + CapSum(es, Top(levels, last)) - CapSum(es, last)
    decreases |levels|
  {
    if |levels| > 0 {
      var next := PayLayer(es, levels[0], levels[0] - last, rewards);
      WalkStep(es, levels, last, rewards);
      WalkOn(es, levels, last);
      PayLayersSum(es, levels[1..], levels[0], next);
    }
  }

  /** One step of the walk: the first layer is paid, and what it pays is
      what the table put in between the floor and that level. */
  lemma WalkStep(es: seq<Entry>, levels: seq<real>, last: real, rewards: seq<real>)
    requires |rewards| == |es| && Ranked(es) && Spaced(levels, last) && |levels| > 0
    requires forall i :: 0 <= i < |es| ==> es[i].pot <= last || es[i].pot in levels
    requires exists w :: 0 <= w < |es| && es[w].live && es[w].pot >= levels[|levels| - 1]
    ensures var next := PayLayer(es, levels[0], levels[0] - last, rewards);
      && PayLayers(es, levels, last, rewards) == PayLayers(es, levels[1..], levels[0], next)
      && SumR(next) == SumR(rewards) + CapSum(es, levels[0]) - CapSum(es, last)
  {
    var level := levels[0];
    assert level - last > Epsilon && CapSum(es, level) - CapSum(es, last) == Paid(level - last, Contributors(es, level)) by {
      LevelStep(es, levels, last);
      CapStep(es, last, level);
    }
    assert exists w :: 0 <= w < |es| && es[w].live && es[w].pot >= level by {
      TopAhead(es, levels, last);
    }
    PayLayersUp(es, levels, last, rewards);
  }

  /** The rest of the walk keeps its preconditions. */
  lemma WalkOn(es: seq<Entry>, levels: seq<real>, last: real)
    requires Spaced(levels, last) && |levels| > 0
    requires forall i :: 0 <= i < |es| ==> es[i].pot <= last || es[i].pot in levels
    requires exists w :: 0 <= w < |es| && es[w].live && es[w].pot >= levels[|levels| - 1]
    ensures Spaced(levels[1..], levels[0])
    ensures forall i :: 0 <= i < |es| ==> es[i].pot <= levels[0] || es[i].pot in levels[1..]
    ensures |levels[1..]| > 0 ==> exists w :: 0 <= w < |es| && es[w].live && es[w].pot >= levels[1..][|levels[1..]| - 1]
    ensures Top(levels[1..], levels[0]) == Top(levels, last)
  {
    LevelsAhead(es, levels, last);
    TopAhead(es, levels, last);
  }

  /** Walking up one level: the level is more than `Epsilon` above the
      floor and no share lies strictly between the two. */
  lemma LevelStep(es: seq<Entry>, levels: seq<real>, last: real)
    requires |levels| > 0 && Spaced(levels, last)
    requires forall i :: 0 <= i < |es| ==> es[i].pot <= last || es[i].pot in levels
    ensures last < levels[0] && levels[0] - last > Epsilon
    ensures forall i :: 0 <= i < |es| ==> es[i].pot <= last || es[i].pot >= levels[0]
  {
    forall i | 0 <= i < |es| ensures es[i].pot <= last || es[i].pot >= levels[0] {
      if es[i].pot > last {
        var k :| 0 <= k < |levels| && levels[k] == es[i].pot;
        assert k == 0 || levels[0] < levels[k];
      }
    }
  }

  /** Every share above the next level is one of the levels still ahead. */
  lemma LevelsAhead(es: seq<Entry>, levels: seq<real>, last: real)
    requires |levels| > 0
    requires forall i :: 0 <= i < |es| ==> es[i].pot <= last || es[i].pot in levels
    requires Spaced(levels, last)
    ensures forall i :: 0 <= i < |es| ==> es[i].pot <= levels[0] || es[i].pot in levels[1..]
  {
    forall i | 0 <= i < |es| ensures es[i].pot <= levels[0] || es[i].pot in levels[1..] {
      if es[i].pot > levels[0] {
        var k :| 0 <= k < |levels| && levels[k] == es[i].pot;
        assert levels[1..][k - 1] == es[i].pot;
      }
    }
  }

  /** The player who covers the top reaches the next level, and the
      levels still ahead stay spaced with the same top. */
  lemma TopAhead(es: seq<Entry>, levels: seq<real>, last: real)
    requires |levels| > 0 && Spaced(levels, last)
    requires exists w :: 0 <= w < |es| && es[w].live && es[w].pot >= levels[|levels| - 1]
    ensures exists w :: 0 <= w < |es| && es[w].live && es[w].pot >= levels[0]
    ensures Spaced(levels[1..], levels[0])
    ensures |levels| > 1 ==> levels[1..][|levels| - 2] == levels[|levels| - 1]
    ensures Top(levels[1..], levels[0]) == Top(levels, last)
  {
    var w :| 0 <= w < |es| && es[w].live && es[w].pot >= levels[|levels| - 1];
    assert |levels| - 1 == 0 || levels[0] < levels[|levels| - 1];
  }

  /** `resolve_pots`: rewards start at zero; if nobody put chips in they
      stay there; otherwise the layers are paid and each player's share
      is taken off. A player who folded gets nothing back, and nobody
      loses more than they put in. */
  function ResolvePots(es: seq<Entry>): (r: seq<real>)
    ensures |r| == |es|
    ensures !AnyShare(es) ==> forall i :: 0 <= i < |es| ==> r[i] == 0.0
    ensures AnyShare(es) ==> forall i :: 0 <= i < |es| ==> r[i] >= -es[i].pot
    ensures AnyShare(es) ==> forall i :: 0 <= i < |es| && !es[i].live ==> r[i] == -es[i].pot
  {
    var zero := Zeros(|es|);
    if !AnyShare(es) then zero
    else
      var won := PayLayers(es, Levels(es), 0.0, zero);
      PaidFromZero(es, Levels(es));
      seq(|es|, i requires 0 <= i < |es| => won[i] - es[i].pot)
  }

  lemma PaidFromZero(es: seq<Entry>, levels: seq<real>)
    ensures var won := PayLayers(es, levels, 0.0, Zeros(|es|));
      && (forall i :: 0 <= i < |es| ==> won[i] >= 0.0)
      && (forall i :: 0 <= i < |es| && !es[i].live ==> won[i] == 0.0)
  {
    forall i | 0 <= i < |es| ensures PayLayers(es, levels, 0.0, Zeros(|es|))[i] >= 0.0 {
      PayLayersGrow(es, levels, 0.0, Zeros(|es|), i);
    }
    forall i | 0 <= i < |es| && !es[i].live ensures PayLayers(es, levels, 0.0, Zeros(|es|))[i] == 0.0 {
      PayLayersFolded(es, levels, 0.0, Zeros(|es|), i);
    }
  }

  /** Every two different positive shares, and every positive share and
      zero, are more than `Epsilon` apart. */
  predicate Separated(es: seq<Entry>)
  {
    && (forall i :: 0 <= i < |es| && es[i].pot > 0.0 ==> Epsilon < es[i].pot)
    && (forall i, j :: 0 <= i < |es| && 0 <= j < |es| && 0.0 < es[i].pot < es[j].pot ==>
          es[i].pot + Epsilon < es[j].pot)
  }

  /** Seat `w` put in at least as much as anybody. */
  predicate Covers(es: seq<Entry>, w: nat)
    requires w < |es|
  {
    forall j :: 0 <= j < |es| ==> es[j].pot <= es[w].pot
  }

  lemma {:induction false} SumRMinusPots(won: seq<real>, es: seq<Entry>)
    requires |won| == |es|
    ensures SumR(seq(|es|, i requires 0 <= i < |es| => won[i] - es[i].pot)) == SumR(won) - PotTotal(es)
    decreases |es|
  {
    if |es| > 0 {
      var n := |es|;
      var front := es[..n - 1];
      SumRMinusPots(won[..n - 1], front);
      assert seq(n, i requires 0 <= i < n => won[i] - es[i].pot)[..n - 1]
          == seq(n - 1, i requires 0 <= i < n - 1 => won[..n - 1][i] - front[i].pot);
    }
  }

  /** Every positive share is a level, and the top level is the largest
      share. */
  lemma LevelsCover(es: seq<Entry>)
    ensures forall i :: 0 <= i < |es| ==> es[i].pot <= 0.0 || es[i].pot in Levels(es)
    ensures forall i :: 0 <= i < |es| ==> es[i].pot <= Top(Levels(es), 0.0)
  {
    LevelsMembers(es);
    LevelsTop(es);
  }

  /** The levels of a separated table are spaced from zero up: no layer
      is thin enough to be skipped. */
  lemma LevelsSpaced(es: seq<Entry>)
    requires Separated(es)
    ensures Spaced(Levels(es), 0.0)
  {
    LevelsMembers(es);
    var levels := Levels(es);
    forall i | 0 <= i < |levels| ensures 0.0 + Epsilon < levels[i] {
      assert levels[i] in levels;
    }
    forall i, j | 0 <= i < j < |levels| ensures levels[i] + Epsilon < levels[j] {
      assert levels[i] in levels && levels[j] in levels;
    }
  }

  lemma LevelsTop(es: seq<Entry>)
    ensures forall i :: 0 <= i < |es| ==> es[i].pot <= Top(Levels(es), 0.0)
  {
    LevelsMembers(es);
    var levels := Levels(es);
    if |levels| > 0 {
      assert levels[|levels| - 1] in levels;
    }
    forall i | 0 <= i < |es| ensures es[i].pot <= Top(levels, 0.0) {
      if es[i].pot > 0.0 {
        assert es[i].pot in levels;
        var k :| 0 <= k < |levels| && levels[k] == es[i].pot;
        assert k == |levels| - 1 || levels[k] < levels[|levels| - 1];
      }
    }
  }

  /** When no layer is thin enough to be skipped and a player still in
      put in the most, the settlement only moves chips between players:
      the rewards add up to zero. */
  lemma ResolvePotsZeroSum(es: seq<Entry>)
    requires Ranked(es) && Spaced(Levels(es), 0.0)
    requires forall i :: 0 <= i < |es| ==> es[i].pot >= 0.0
    requires exists w :: 0 <= w < |es| && es[w].live && Covers(es, w)
    ensures SumR(ResolvePots(es)) == 0.0
  {
    if AnyShare(es) {
      ResolvePotsTotal(es);
      LayersPayEverything(es);
    }
  }

  /** Under the same hypotheses the layers pay out exactly what was put
      in. */
  lemma LayersPayEverything(es: seq<Entry>)
    requires AnyShare(es) && Ranked(es) && Spaced(Levels(es), 0.0)
    requires forall i :: 0 <= i < |es| ==> es[i].pot >= 0.0
    requires exists w :: 0 <= w < |es| && es[w].live && Covers(es, w)
    ensures SumR(PayLayers(es, Levels(es), 0.0, Zeros(|es|))) == PotTotal(es)
  {
    TopCovered(es);
    CapAtZero(es);
    PayAllLayers(es, Levels(es));
  }

  /** Once somebody put chips in, the rewards add up to what the layers
      paid out less what was put in. */
  lemma ResolvePotsTotal(es: seq<Entry>)
    requires AnyShare(es)
    ensures SumR(ResolvePots(es)) == SumR(PayLayers(es, Levels(es), 0.0, Zeros(|es|))) - PotTotal(es)
  {
    SumRMinusPots(PayLayers(es, Levels(es), 0.0, Zeros(|es|)), es);
  }

  /** Every positive share is one of `levels`, none is above the top one,
      and a player still in reaches the top. */
  predicate Reaches(es: seq<Entry>, levels: seq<real>)
  {
    && |levels| > 0
    && (forall i :: 0 <= i < |es| ==> es[i].pot <= 0.0 || es[i].pot in levels)
    && (forall i :: 0 <= i < |es| ==> es[i].pot <= Top(levels, 0.0))
    && (exists w :: 0 <= w < |es| && es[w].live && es[w].pot >= levels[|levels| - 1])
  }

  /** When the levels are spaced from zero up, every positive share is a
      level, and a player still in reaches the top one, the layers pay
      out everything that was put in. */
  lemma PayAllLayers(es: seq<Entry>, levels: seq<real>)
    requires Ranked(es) && Spaced(levels, 0.0) && CapSum(es, 0.0) == 0.0 && Reaches(es, levels)
    ensures SumR(PayLayers(es, levels, 0.0, Zeros(|es|))) == PotTotal(es)
  {
    PayLayersSum(es, levels, 0.0, Zeros(|es|));
    CapAtTop(es, Top(levels, 0.0));
  }

  /** Somebody put chips in, so the levels are not empty, and the player
      still in who put in the most reaches the top one. */
  lemma TopCovered(es: seq<Entry>)
    requires AnyShare(es)
    requires exists w :: 0 <= w < |es| && es[w].live && Covers(es, w)
    ensures Reaches(es, Levels(es))
  {
    var levels := Levels(es);
    assert |levels| > 0 && exists w :: 0 <= w < |es| && es[w].live && es[w].pot >= levels[|levels| - 1] by {
      LevelsMembers(es);
      var i0 :| 0 <= i0 < |es| && es[i0].pot > 0.0;
      assert es[i0].pot in levels;
      var top := levels[|levels| - 1];
      assert top in levels;
      var w :| 0 <= w < |es| && es[w].live && Covers(es, w);
      var i :| 0 <= i < |es| && es[i].pot == top && top > 0.0;
      assert es[i].pot <= es[w].pot;
    }
    LevelsCover(es);
  }
}

=== FILE: poker_table.dfy ===
/** Seats of the C++ engine (`PokerEnv`): the player record, the two
    chip-moving primitives of `PokerPlayer`, blind and ante posting, the
    button/blind positions chosen by `reset`, and the seat scans that pick
    who acts. Chips are integers. */
module PokerTable {
  import opened Wrappers
  import opened SeatScan

  const PREFLOP := 0
  const FLOP := 1
  const TURN := 2
  const RIVER := 3

  /** The fields of `PokerPlayer` the engine reads and writes. */
  datatype Player = Player(
    stack: nat,
    currentBet: nat,
    totalInvested: nat,
    folded: bool,
    isAllin: bool,
    hasActed: bool,
    sidePotRank: int)

  function StackOf(p: Player): int { p.stack }
  function BetOf(p: Player): int { p.currentBet }
  function InvestedOf(p: Player): int { p.totalInvested }

  /** Sum of one chip field over the table. */
  function Total(ps: seq<Player>, f: Player -> int): int
  {
    if |ps| == 0 then 0 else Total(ps[..|ps| - 1], f) + f(ps[|ps| - 1])
  }

  lemma {:induction false} TotalSame(ps: seq<Player>, qs: seq<Player>, f: Player -> int, g: Player -> int)
    requires |ps| == |qs|
    requires forall i :: 0 <= i < |ps| ==> f(ps[i]) == g(qs[i])
    ensures Total(ps, f) == Total(qs, g)
    decreases |ps|
  {
    if |ps| > 0 {
      TotalSame(ps[..|ps| - 1], qs[..|qs| - 1], f, g);
    }
  }

  lemma {:induction false} TotalZero(ps: seq<Player>, f: Player -> int)
    requires forall i :: 0 <= i < |ps| ==> f(ps[i]) == 0
    ensures Total(ps, f) == 0
    decreases |ps|
  {
    if |ps| > 0 {
      TotalZero(ps[..|ps| - 1], f);
    }
  }

  /** Changing one seat changes a table total by that seat's difference. */
  lemma {:induction false} TotalUpdate(ps: seq<Player>, i: nat, q: Player, f: Player -> int)
    requires i < |ps|
    ensures Total(ps[i := q], f) == Total(ps, f) - f(ps[i]) + f(q)
    decreases |ps|
  {
    var n := |ps|;
    if i == n - 1 {
      assert ps[i := q][..n - 1] == ps[..n - 1];
    } else {
      assert ps[i := q][..n - 1] == ps[..n - 1][i := q];
      TotalUpdate(ps[..n - 1], i, q, f);
    }
  }

  /** `PokerPlayer::betRaise(target)`: raise this street's bet to `target`,
      paying the difference out of the stack; an empty stack is all-in. */
  function BetRaise(p: Player, target: int): (q: Player)
    requires p.currentBet <= target <= p.currentBet + p.stack
    ensures q.stack + q.currentBet == p.stack + p.currentBet
    ensures q.totalInvested - p.totalInvested == q.currentBet - p.currentBet
    ensures q.currentBet == target && q.hasActed
    ensures q.isAllin <==> p.isAllin || q.stack == 0
    ensures q.folded == p.folded && q.sidePotRank == p.sidePotRank
  {
    var paid := target - p.currentBet;
    p.(stack := p.stack - paid, currentBet := target,
       totalInvested := p.totalInvested + paid,
       isAllin := p.isAllin || p.stack - paid == 0, hasActed := true)
  }

  /** `PokerPlayer::fold`. */
  function Fold(p: Player): Player
  {
    p.(folded := true)
  }

  /** A forced bet (`_postAntes`, `_postSmallBlind`, `_postBigBlind`): a
      player with chips puts in `amount`, or the whole stack if that is
      smaller, and the posting does not count as having acted. */
  function PostForced(p: Player, amount: nat): (q: Player)
  {
    if p.stack > 0 then BetRaise(p, p.currentBet + Min(amount, p.stack)).(hasActed := false)
    else p
  }

  lemma PostForcedCommits(p: Player, amount: nat)
    ensures PostForced(p, amount).currentBet - p.currentBet == Min(amount, p.stack)
    ensures PostForced(p, amount).totalInvested - p.totalInvested == Min(amount, p.stack)
    ensures PostForced(p, amount).stack + PostForced(p, amount).currentBet == p.stack + p.currentBet
    ensures p.stack == 0 ==> PostForced(p, amount) == p
    ensures p.stack > 0 ==> !PostForced(p, amount).hasActed
    ensures PostForced(p, amount).folded == p.folded
  {
  }

  /** `_postAntes`: every player with chips posts the ante, when there is
      one. */
  function PostAntes(ps: seq<Player>, ante: nat): (qs: seq<Player>)
    ensures |qs| == |ps|
    ensures forall i :: 0 <= i < |ps| ==> qs[i] == if ante > 0 then PostForced(ps[i], ante) else ps[i]
  {
    if ante == 0 then ps else seq(|ps|, i requires 0 <= i < |ps| => PostForced(ps[i], ante))
  }

  // ----- Button and blinds -----

  datatype Positions = Positions(button: nat, sb: nat, bb: nat)

  predicate ValidUtg(fixUtg: int, n: int)
  {
    0 <= fixUtg < n
  }

  /** The position block of `reset`. With a fixed UTG seat the button is
      derived backwards from it; otherwise the button moves one seat on (a
      new round) or is the seat `drawn` at random, and the blinds follow
      it. */
  function ResetPositions(n: nat, fixUtg: int, isNewRound: bool, prevButton: nat, drawn: nat)
    : (pos: Positions)
    requires n >= 1
    requires isNewRound || drawn < n
    ensures pos.button < n && pos.sb < n && pos.bb < n
  {
    if ValidUtg(fixUtg, n) then
      if n == 2 then Positions(fixUtg, fixUtg, (fixUtg + 1) % n)
      else if n > 2 then
        var bb := (fixUtg - 1 + n) % n;
        var sb := (bb - 1 + n) % n;
        Positions((sb - 1 + n) % n, sb, bb)
      else Positions(0, 0, 0)
    else
      var button := if isNewRound then (prevButton + 1) % n else drawn;
      if n == 2 then Positions(button, button, (button + 1) % n)
      else if n > 2 then Positions(button, (button + 1) % n, (button + 2) % n)
      else Positions(button, 0, 0)
  }

  /** The usual layout: small blind one seat after the button and big
      blind two seats after it; heads-up the button posts the small blind. */
  predicate StandardLayout(pos: Positions, n: nat)
    requires n >= 2
  {
    if n == 2 then pos.sb == pos.button && pos.bb == (pos.button + 1) % n
    else pos.sb == (pos.button + 1) % n && pos.bb == (pos.button + 2) % n
  }

  /** Whichever way the button is chosen, the blinds sit in the standard
      layout around it; a fixed UTG seat is the one right after the big
      blind (heads-up, the button itself). */
  lemma ResetPositionsLayout(n: nat, fixUtg: int, isNewRound: bool, prevButton: nat, drawn: nat)
    requires n >= 2
    requires isNewRound || drawn < n
    ensures StandardLayout(ResetPositions(n, fixUtg, isNewRound, prevButton, drawn), n)
    ensures ValidUtg(fixUtg, n) ==>
      (ResetPositions(n, fixUtg, isNewRound, prevButton, drawn).bb + 1) % n == fixUtg
  {
    if ValidUtg(fixUtg, n) && n > 2 {
      FixedUtgLayout(fixUtg, n);
    }
  }

  /** Counting the big blind, small blind and button back from a fixed UTG
      seat gives the standard layout, with UTG right after the big blind. */
  lemma FixedUtgLayout(utg: nat, n: nat)
    requires utg < n && n > 2
    ensures var bb := (utg - 1 + n) % n;
            var sb := (bb - 1 + n) % n;
            var button := (sb - 1 + n) % n;
            sb == (button + 1) % n && bb == (button + 2) % n && (bb + 1) % n == utg
  {
    var bb := (utg - 1 + n) % n;
    PrevSeat(utg, n);
    var sb := (bb - 1 + n) % n;
    PrevSeat(bb, n);
    var button := (sb - 1 + n) % n;
    PrevSeat(sb, n);
    NextSeat(button, n);
    SecondSeat(button, n);
    NextSeat(bb, n);
  }

  /** The seat before `x`, counting round the table. */
  lemma PrevSeat(x: nat, n: nat)
    requires x < n
    ensures (x - 1 + n) % n == if x == 0 then n - 1 else x - 1
  {
    if x == 0 {
      SmallMod(n - 1, n);
    } else {
      WrapMod(x - 1 + n, n);
    }
  }

  /** The seat after `x`, counting round the table. */
  lemma NextSeat(x: nat, n: nat)
    requires x < n
    ensures (x + 1) % n == if x + 1 == n then 0 else x + 1
  {
    if x + 1 == n {
      WrapMod(n, n);
    } else {
      SmallMod(x + 1, n);
    }
  }

  /** The seat two after `x`, counting round the table. */
  lemma SecondSeat(x: nat, n: nat)
    requires x < n && n > 2
    ensures (x + 2) % n == if x + 2 < n then x + 2 else x + 2 - n
  {
    if x + 2 < n {
      SmallMod(x + 2, n);
    } else {
      WrapMod(x + 2, n);
    }
  }

  // ----- Who acts -----

  /** A seat that can still make a betting decision. */
  predicate CanAct(p: Player)
  {
    !p.folded && !p.isAllin && p.stack > 0
  }

  function CanActFlags(ps: seq<Player>): (ok: seq<bool>)
    ensures |ok| == |ps| && forall i :: 0 <= i < |ps| ==> ok[i] == CanAct(ps[i])
  {
    seq(|ps|, i requires 0 <= i < |ps| => CanAct(ps[i]))
  }

  /** Post-flop the scan only skips folded and all-in seats. */
  function InHandFlags(ps: seq<Player>): (ok: seq<bool>)
    ensures |ok| == |ps| && forall i :: 0 <= i < |ps| ==> ok[i] == (!ps[i].folded && !ps[i].isAllin)
  {
    seq(|ps|, i requires 0 <= i < |ps| => !ps[i].folded && !ps[i].isAllin)
  }

  /** `findNextPlayerToAct`: the first seat after `cur`, going round the
      table once and ending at `cur` itself, that can act; -1 if none. */
  function FindNextPlayerToAct(ps: seq<Player>, cur: nat): (r: int)
    requires cur < |ps|
    ensures -1 <= r < |ps|
    ensures r == -1 <==> forall i :: 0 <= i < |ps| ==> !CanAct(ps[i])
    ensures r >= 0 ==> CanAct(ps[r])
    ensures r >= 0 ==> forall j :: 1 <= j < (if r == cur then |ps| else OffsetOf(cur, r, |ps|))
                                   ==> !CanAct(ps[SeatAt(cur, j, |ps|)])
  {
    var ok := CanActFlags(ps);
    match FirstFrom(ok, cur, 1, |ps| + 1)
    case None =>
      FullLapNone(ok, cur, 1);
      -1
    case Some(k) =>
      var r := SeatAt(cur, k, |ps|);
      assert r == cur ==> k == |ps|;
      assert r != cur ==> k == OffsetOf(cur, r, |ps|);
      r
  }

  /** `_getFirstToActPreFlop`: from the fixed UTG seat, or else the seat
      after the big blind, the first seat that can act; if none can, the
      starting seat. */
  function FirstToActPreFlop(ps: seq<Player>, fixUtg: int, bbPos: nat): (r: int)
    requires bbPos < |ps|
    ensures 0 <= r < |ps|
    ensures var start := if ValidUtg(fixUtg, |ps|) then fixUtg else (bbPos + 1) % |ps|;
      (forall i :: 0 <= i < |ps| ==> !CanAct(ps[i])) ==> r == start
    ensures var start := if ValidUtg(fixUtg, |ps|) then fixUtg else (bbPos + 1) % |ps|;
      (exists i :: 0 <= i < |ps| && CanAct(ps[i])) ==>
        CanAct(ps[r]) && forall j :: 0 <= j < OffsetOf(start, r, |ps|) ==> !CanAct(ps[SeatAt(start, j, |ps|)])
  {
    var n := |ps|;
    var start := if ValidUtg(fixUtg, n) then fixUtg else (bbPos + 1) % n;
    var ok := CanActFlags(ps);
    match FirstFrom(ok, start, 0, n)
    case None =>
      FullLapNone(ok, start, 0);
      start
    case Some(k) =>
      var r := SeatAt(start, k, n);
      assert k == OffsetOf(start, r, n);
      r
  }

  /** `_getFirstToActPostFlop`: from the small blind (fixed UTG), else the
      seat after the button (heads-up: the button), the first seat that is
      neither folded nor all-in; if none, the starting seat. */
  function FirstToActPostFlop(ps: seq<Player>, fixUtg: int, pos: Positions): (r: int)
    requires pos.button < |ps| && pos.sb < |ps|
    ensures 0 <= r < |ps|
    ensures var start := if ValidUtg(fixUtg, |ps|) then pos.sb else if |ps| == 2 then pos.button else (pos.button + 1) % |ps|;
      (forall i :: 0 <= i < |ps| ==> ps[i].folded || ps[i].isAllin) ==> r == start
    ensures var start := if ValidUtg(fixUtg, |ps|) then pos.sb else if |ps| == 2 then pos.button else (pos.button + 1) % |ps|;
      (exists i :: 0 <= i < |ps| && !ps[i].folded && !ps[i].isAllin) ==>
        !ps[r].folded && !ps[r].isAllin
        && forall j :: 0 <= j < OffsetOf(start, r, |ps|) ==> ps[SeatAt(start, j, |ps|)].folded || ps[SeatAt(start, j, |ps|)].isAllin
  {
    var n := |ps|;
    var start :=
      if ValidUtg(fixUtg, n) then pos.sb
      else if n == 2 then pos.button
      else (pos.button + 1) % n;
    var ok := InHandFlags(ps);
    match FirstFrom(ok, start, 0, n)
    case None =>
      FullLapNone(ok, start, 0);
      start
    case Some(k) =>
      var r := SeatAt(start, k, n);
      assert k == OffsetOf(start, r, n);
      r
  }
}

=== FILE: pot_ledger.dfy ===
/** The C++ engine's pot ledger: collecting the street's bets into the main
    pot (`_putCurrentBetsIntoMainPotAndSidePots`), splitting everything
    invested this hand into a main pot and side pots, one layer per distinct
    investment level (`_calculateSidePots`), and the pot size seen by the
    players (`getPotSize`). */
module PotLedger {
  import opened Wrappers
  import opened PokerTable

  /** `_putCurrentBetsIntoMainPotAndSidePots`: every bet on the table moves
      into the main pot. */
  function CollectBets(ps: seq<Player>, mainPot: int): (r: (seq<Player>, int))
    ensures |r.0| == |ps|
    ensures forall i :: 0 <= i < |ps| ==> r.0[i] == ps[i].(currentBet := 0)
    ensures r.1 == mainPot + Total(ps, BetOf)
  {
    var qs := seq(|ps|, i requires 0 <= i < |ps| => ps[i].(currentBet := 0));
    TotalSame(ps, qs, StackOf, StackOf);
    (qs, mainPot + Total(ps, BetOf))
  }

  /** `getPotSize`: the collected pots plus the bets still on the table. */
  function PotSize(ps: seq<Player>, mainPot: int, sidePots: seq<int>): int
  {
    mainPot + Sum(sidePots) + Total(ps, BetOf)
  }

  /** Collecting bets neither creates nor destroys chips: the pot size is
      unchanged, the table holds no bets afterwards, and stacks and
      investments are untouched. */
  lemma CollectBetsKeepsChips(ps: seq<Player>, mainPot: int, sidePots: seq<int>)
    ensures PotSize(CollectBets(ps, mainPot).0, CollectBets(ps, mainPot).1, sidePots)
         == PotSize(ps, mainPot, sidePots)
    ensures Total(CollectBets(ps, mainPot).0, BetOf) == 0
    ensures Total(CollectBets(ps, mainPot).0, StackOf) == Total(ps, StackOf)
    ensures Total(CollectBets(ps, mainPot).0, InvestedOf) == Total(ps, InvestedOf)
  {
    var qs := CollectBets(ps, mainPot).0;
    TotalZero(qs, BetOf);
    TotalSame(ps, qs, StackOf, StackOf);
    TotalSame(ps, qs, InvestedOf, InvestedOf);
  }

  // ----- Investment levels -----

  /** Number of players who invested at least `level` this hand. */
  function CountAtLeast(ps: seq<Player>, level: int): (c: nat)
    ensures c <= |ps|
  {
    if |ps| == 0 then 0
    else CountAtLeast(ps[..|ps| - 1], level) + (if ps[|ps| - 1].totalInvested >= level then 1 else 0)
  }

  /** Number of players who invested exactly `level` this hand. */
  function CountExactly(ps: seq<Player>, level: int): (c: nat)
    ensures c <= CountAtLeast(ps, level)
  {
    if |ps| == 0 then 0
    else CountExactly(ps[..|ps| - 1], level) + (if ps[|ps| - 1].totalInvested == level then 1 else 0)
  }

  /** Investments capped at `level`, summed: what the layers up to `level`
      hold. */
  function Capped(ps: seq<Player>, level: int): int
  {
    if |ps| == 0 then 0
    else Capped(ps[..|ps| - 1], level) + Min(ps[|ps| - 1].totalInvested, level)
  }

  function MaxInvested(ps: seq<Player>): (m: nat)
    ensures forall i :: 0 <= i < |ps| ==> ps[i].totalInvested <= m
  {
    if |ps| == 0 then 0 else Max(MaxInvested(ps[..|ps| - 1]), ps[|ps| - 1].totalInvested)
  }

  /** The smallest investment above `last`: the next level the sorted scan
      of `_calculateSidePots` reaches (equal investments are skipped). */
  function NextLevel(ps: seq<Player>, last: int): (r: Option<nat>)
    ensures r.Some? ==> last < r.value <= MaxInvested(ps) && CountExactly(ps, r.value) >= 1
    ensures r.Some? ==> forall i :: 0 <= i < |ps| && ps[i].totalInvested > last ==> ps[i].totalInvested >= r.value
    ensures r.None? ==> forall i :: 0 <= i < |ps| ==> ps[i].totalInvested <= last
  {
    if |ps| == 0 then None
    else
      var x := ps[|ps| - 1].totalInvested;
      var rest := NextLevel(ps[..|ps| - 1], last);
      assert forall i :: 0 <= i < |ps| - 1 ==> ps[..|ps| - 1][i] == ps[i];
      if x <= last then rest
      else if rest.Some? && rest.value <= x then rest
      else Some(x)
  }

  lemma {:induction false} CappedNothing(ps: seq<Player>)
    ensures Capped(ps, 0) == 0
    decreases |ps|
  {
    if |ps| > 0 {
      CappedNothing(ps[..|ps| - 1]);
    }
  }

  /** Chips the players put into the layer between `lo` and `hi`: the inner
      loop of `_calculateSidePots`, adding `hi - lo` for every player who
      invested at least `hi`. */
  function LayerChips(ps: seq<Player>, lo: int, hi: int): int
  {
    if |ps| == 0 then 0
    else LayerChips(ps[..|ps| - 1], lo, hi) + (if ps[|ps| - 1].totalInvested >= hi then hi - lo else 0)
  }

  /** A layer holds its height times the number of players who reached it. */
  lemma {:induction false} LayerChipsIsProduct(ps: seq<Player>, lo: int, hi: int)
    ensures LayerChips(ps, lo, hi) == (hi - lo) * CountAtLeast(ps, hi)
    decreases |ps|
  {
    if |ps| > 0 {
      LayerChipsIsProduct(ps[..|ps| - 1], lo, hi);
      var c := CountAtLeast(ps[..|ps| - 1], hi);
      assert (hi - lo) * (c + 1) == (hi - lo) * c + (hi - lo);
    }
  }

  /** A layer of positive height that someone reached holds chips. */
  lemma {:induction false} LayerChipsPositive(ps: seq<Player>, lo: int, hi: int)
    requires lo < hi && CountExactly(ps, hi) >= 1
    ensures LayerChips(ps, lo, hi) >= hi - lo
    decreases |ps|
  {
    var init := ps[..|ps| - 1];
    if ps[|ps| - 1].totalInvested != hi {
      LayerChipsPositive(init, lo, hi);
    } else {
      LayerChipsNonNegative(init, lo, hi);
    }
  }

  lemma {:induction false} LayerChipsNonNegative(ps: seq<Player>, lo: int, hi: int)
    requires lo <= hi
    ensures LayerChips(ps, lo, hi) >= 0
    decreases |ps|
  {
    if |ps| > 0 {
      LayerChipsNonNegative(ps[..|ps| - 1], lo, hi);
    }
  }

  /** Raising the cap from `last` to the next level adds that layer. */
  lemma {:induction false} CappedStep(ps: seq<Player>, last: int, level: int)
    requires last < level
    requires forall i :: 0 <= i < |ps| ==> !(last < ps[i].totalInvested < level)
    ensures Capped(ps, level) - Capped(ps, last) == LayerChips(ps, last, level)
    decreases |ps|
  {
    if |ps| > 0 {
      var init := ps[..|ps| - 1];
      assert forall i :: 0 <= i < |init| ==> init[i] == ps[i];
      CappedStep(init, last, level);
    }
  }

  /** A cap at or above every investment caps nothing. */
  lemma {:induction false} CappedAll(ps: seq<Player>, last: int)
    requires forall i :: 0 <= i < |ps| ==> ps[i].totalInvested <= last
    ensures Capped(ps, last) == Total(ps, InvestedOf)
    decreases |ps|
  {
    if |ps| > 0 {
      var init := ps[..|ps| - 1];
      assert forall i :: 0 <= i < |init| ==> init[i] == ps[i];
      CappedAll(init, last);
    }
  }

  /** Chips in layer `k`: the level's height above the previous level,
      paid by every player who reached it. */
  function LayerPot(ps: seq<Player>, levels: seq<nat>, k: nat): int
    requires k < |levels|
  {
    LayerChips(ps, if k == 0 then 0 else levels[k - 1], levels[k])
  }

  predicate StrictlyIncreasing(xs: seq<nat>)
  {
    forall i, j :: 0 <= i < j < |xs| ==> xs[i] < xs[j]
  }

  /** The scan's state after some levels: players with the ranks set so
      far, the main pot, the side pots, the levels done and the last one. */
  datatype Layering = Layering(qs: seq<Player>, main: int, sides: seq<int>, levels: seq<nat>, last: nat)

  predicate LevelsOk(ps: seq<Player>, st: Layering)
  {
    StrictlyIncreasing(st.levels)
    && (st.levels == [] ==> st.last == 0)
    && (st.levels != [] ==> st.last == st.levels[|st.levels| - 1])
    && (forall k :: 0 <= k < |st.levels| ==> st.levels[k] > 0 && CountExactly(ps, st.levels[k]) >= 1)
  }

  predicate RanksOk(ps: seq<Player>, st: Layering)
  {
    |st.qs| == |ps|
    && (forall i :: 0 <= i < |ps| ==> st.qs[i] == ps[i].(sidePotRank := st.qs[i].sidePotRank))
    && (forall i :: 0 <= i < |ps| && ps[i].totalInvested == 0 ==> st.qs[i] == ps[i])
    && (forall i :: 0 <= i < |ps| && 0 < ps[i].totalInvested <= st.last ==>
          0 <= st.qs[i].sidePotRank < |st.levels|
          && st.levels[st.qs[i].sidePotRank] == ps[i].totalInvested)
    && (forall i :: 0 <= i < |ps| && ps[i].totalInvested > st.last ==>
          if st.levels == [] then st.qs[i] == ps[i] else st.qs[i].sidePotRank == |st.levels| - 1)
  }

  predicate PotsOk(ps: seq<Player>, st: Layering)
  {
    (st.levels == [] ==> st.main == 0 && st.sides == [])
    && (st.levels != [] ==>
          st.main > 0 && |st.sides| == |st.levels| - 1 && st.main == LayerPot(ps, st.levels, 0))
    && (forall k :: 0 < k < |st.levels| && k - 1 < |st.sides| ==> st.sides[k - 1] == LayerPot(ps, st.levels, k))
    && (forall k :: 0 <= k < |st.levels| ==> LayerPot(ps, st.levels, k) > 0)
    && st.main + Sum(st.sides) == Capped(ps, st.last)
  }

  predicate LayeringInv(ps: seq<Player>, st: Layering)
  {
    LevelsOk(ps, st) && RanksOk(ps, st) && PotsOk(ps, st)
  }

  /** The inner loop of `_calculateSidePots`: everyone who invested at
      least `level` gets `rank`. */
  function Rerank(ps: seq<Player>, qs: seq<Player>, level: nat, rank: int): (rs: seq<Player>)
    requires |qs| == |ps|
    ensures |rs| == |qs|
    ensures forall i :: 0 <= i < |qs| ==>
      rs[i] == if ps[i].totalInvested >= level then qs[i].(sidePotRank := rank) else qs[i]
  {
    seq(|qs|, i requires 0 <= i < |qs| =>
      if ps[i].totalInvested >= level then qs[i].(sidePotRank := rank) else qs[i])
  }

  /** A non-empty layer becomes the main pot if there is none yet, and the
      next side pot otherwise. */
  function OpenLayer(main: int, sides: seq<int>, pot: int): (r: (int, seq<int>))
  {
    if pot > 0 then
      if main == 0 && sides == [] then (pot, sides) else (main, sides + [pot])
    else (main, sides)
  }

  /** One pass of the outer loop of `_calculateSidePots` at a new level. */
  function AddLayer(ps: seq<Player>, st: Layering, level: nat): (r: Layering)
    requires |st.qs| == |ps| && st.last < level
  {
    var rank := if st.main == 0 && st.sides == [] then 0 else 1 + |st.sides|;
    var pot := LayerChips(ps, st.last, level);
    var pots := OpenLayer(st.main, st.sides, pot);
    Layering(Rerank(ps, st.qs, level, rank), pots.0, pots.1, st.levels + [level], level)
  }

  lemma AddLayerLevels(ps: seq<Player>, st: Layering, level: nat)
    requires LevelsOk(ps, st) && |st.qs| == |ps| && NextLevel(ps, st.last) == Some(level)
    ensures LevelsOk(ps, AddLayer(ps, st, level))
  {
    var r := AddLayer(ps, st, level);
    assert r.levels == st.levels + [level];
    assert forall k :: 0 <= k < |st.levels| ==> r.levels[k] == st.levels[k] <= st.last;
  }

  lemma AddLayerRanks(ps: seq<Player>, st: Layering, level: nat)
    requires LevelsOk(ps, st) && RanksOk(ps, st)
    requires st.levels == [] <==> (st.main == 0 && st.sides == [])
    requires st.levels != [] ==> |st.sides| == |st.levels| - 1
    requires NextLevel(ps, st.last) == Some(level)
    ensures RanksOk(ps, AddLayer(ps, st, level))
  {
    var rank := if st.main == 0 && st.sides == [] then 0 else 1 + |st.sides|;
    assert rank == |st.levels|;
    var r := AddLayer(ps, st, level);
    assert r.qs == Rerank(ps, st.qs, level, rank);
    assert r.levels == st.levels + [level] && r.last == level;
    forall i | 0 <= i < |ps| && 0 < ps[i].totalInvested <= level
      ensures 0 <= r.qs[i].sidePotRank < |r.levels| && r.levels[r.qs[i].sidePotRank] == ps[i].totalInvested
    {
      if ps[i].totalInvested <= st.last {
        assert st.last < level;
      } else {
        assert ps[i].totalInvested == level;
      }
    }
  }

  lemma AddLayerPots(ps: seq<Player>, st: Layering, level: nat)
    requires PotsOk(ps, st) && |st.qs| == |ps|
    requires st.levels == [] ==> st.last == 0
    requires st.levels != [] ==> st.last == st.levels[|st.levels| - 1]
    requires NextLevel(ps, st.last) == Some(level)
    ensures PotsOk(ps, AddLayer(ps, st, level))
  {
    var pot := LayerChips(ps, st.last, level);
    LayerChipsPositive(ps, st.last, level);
    CappedStep(ps, st.last, level);
    var r := AddLayer(ps, st, level);
    var n := |st.levels|;
    assert r.levels == st.levels + [level] && r.last == level;
    assert LayerPot(ps, r.levels, n) == pot;
    forall k | 0 <= k < n
      ensures LayerPot(ps, r.levels, k) == LayerPot(ps, st.levels, k)
    {
      assert r.levels[k] == st.levels[k];
      if k > 0 {
        assert r.levels[k - 1] == st.levels[k - 1];
      }
    }
    if n == 0 {
      assert r.main == pot && r.sides == [];
    } else {
      assert r.main == st.main && r.sides == st.sides + [pot];
      SumAppend(st.sides, [pot]);
      assert Sum([pot]) == pot by { assert [pot][..0] == []; }
    }
  }

  /** `_calculateSidePots`. `levels` are the distinct positive investments
      in increasing order; layer 0 is the main pot and layer k > 0 is side
      pot k - 1. Each investor's `sidePotRank` becomes the index of the
      level equal to their investment, which is the highest layer they pay
      into. With no investor at all the old main pot stands. */
  method CalculateSidePots(ps: seq<Player>, mainPot: int)
    returns (qs: seq<Player>, main: int, sides: seq<int>, levels: seq<nat>)
    ensures |qs| == |ps|
    ensures forall i :: 0 <= i < |ps| ==> qs[i] == ps[i].(sidePotRank := qs[i].sidePotRank)
    ensures forall i :: 0 <= i < |ps| && ps[i].totalInvested == 0 ==> qs[i] == ps[i]
    ensures StrictlyIncreasing(levels)
    ensures forall k :: 0 <= k < |levels| ==> levels[k] > 0 && CountExactly(ps, levels[k]) >= 1
    ensures forall i :: 0 <= i < |ps| && ps[i].totalInvested > 0 ==>
      0 <= qs[i].sidePotRank < |levels| && levels[qs[i].sidePotRank] == ps[i].totalInvested
    ensures levels == [] ==> main == mainPot && sides == []
    ensures levels != [] ==> |sides| == |levels| - 1 && main == LayerPot(ps, levels, 0)
    ensures forall k :: 0 < k < |levels| ==> sides[k - 1] == LayerPot(ps, levels, k)
    ensures forall k :: 0 <= k < |levels| ==> LayerPot(ps, levels, k) > 0
    ensures levels != [] ==> main + Sum(sides) == Total(ps, InvestedOf)
  {
    var st := Layering(ps, 0, [], [], 0);
    CappedNothing(ps);
    var next := NextLevel(ps, 0);
    while next.Some?
      invariant LayeringInv(ps, st) && next == NextLevel(ps, st.last)
      invariant st.last <= MaxInvested(ps)
      decreases MaxInvested(ps) - st.last
    {
      AddLayerLevels(ps, st, next.value);
      AddLayerRanks(ps, st, next.value);
      AddLayerPots(ps, st, next.value);
      st := AddLayer(ps, st, next.value);
      next := NextLevel(ps, st.last);
    }
    qs, sides, levels := st.qs, st.sides, st.levels;
    if levels == [] {
      main := mainPot;
    } else {
      main := st.main;
      CappedAll(ps, st.last);
    }
  }
}

=== FILE: preflop_table.dfy ===
/** The Rust engine's preflop table (`State::HAND_RANKINGS`) and
    `evaluate_2cards`: a two-card hand is classified by its higher value,
    its lower value and whether it is suited, and the table gives the
    class its place 1 (strongest, aces) .. 169 (weakest) in a strength
    order. A class missing from the table gets the fallback 169. */
module PreflopTable {
  import opened Wrappers
  import opened Cards

  /** One table row: higher value, lower value, suited flag (0 or 1;
      ignored for pairs) and the class's place. */
  datatype Row = Row(high: int, low: int, suited: int, rank: int)

  const NumClasses := 169

  /** The place returned when no row matches. */
  const Fallback := 169

  // The table in the source's order, in blocks of thirteen rows: the
  // pairs, then the suited hands, then the offsuit hands.
  const Block0: seq<Row> := [
      Row(12, 12, 0, 1),
      Row(11, 11, 0, 2),
      Row(10, 10, 0, 3),
      Row(9, 9, 0, 5),
      Row(8, 8, 0, 10),
      Row(7, 7, 0, 17),
      Row(6, 6, 0, 21),
      Row(5, 5, 0, 29),
      Row(4, 4, 0, 36),
      Row(3, 3, 0, 46),
      Row(2, 2, 0, 50),
      Row(0, 0, 0, 51),
      Row(1, 1, 0, 52)]

  const Block1: seq<Row> := [
      Row(12, 11, 1, 4),
      Row(12, 10, 1, 6),
      Row(11, 10, 1, 7),
      Row(12, 9, 1, 8),
      Row(11, 9, 1, 9),
      Row(12, 8, 1, 12),
      Row(10, 9, 1, 13),
      Row(11, 8, 1, 14),
      Row(10, 8, 1, 15),
      Row(9, 8, 1, 16),
      Row(12, 7, 1, 19),
      Row(11, 7, 1, 22),
      Row(8, 7, 1, 23)]

  const Block2: seq<Row> := [
      Row(12, 6, 1, 24),
      Row(10, 7, 1, 25),
      Row(9, 7, 1, 26),
      Row(12, 3, 1, 28),
      Row(12, 5, 1, 30),
      Row(11, 6, 1, 37),
      Row(8, 6, 1, 38),
      Row(12, 0, 1, 39),
      Row(7, 6, 1, 40),
      Row(9, 6, 1, 41),
      Row(10, 6, 1, 43),
      Row(11, 5, 1, 44),
      Row(6, 5, 1, 48)]

  const Block3: seq<Row> := [
      Row(11, 4, 1, 53),
      Row(7, 5, 1, 54),
      Row(11, 3, 1, 55),
      Row(5, 4, 1, 56),
      Row(8, 5, 1, 57),
      Row(11, 2, 1, 58),
      Row(11, 1, 1, 59),
      Row(11, 0, 1, 60),
      Row(10, 5, 1, 61),
      Row(6, 4, 1, 62),
      Row(4, 3, 1, 63),
      Row(9, 5, 1, 64),
      Row(3, 2, 1, 65)]

  const Block4: seq<Row> := [
      Row(10, 4, 1, 66),
      Row(5, 3, 1, 67),
      Row(7, 4, 1, 68),
      Row(10, 3, 1, 69),
      Row(4, 2, 1, 70),
      Row(10, 2, 1, 71),
      Row(10, 1, 1, 72),
      Row(8, 4, 1, 74),
      Row(10, 0, 1, 75),
      Row(3, 1, 1, 77),
      Row(6, 3, 1, 78),
      Row(9, 4, 1, 79),
      Row(9, 3, 1, 82)]

  const Block5: seq<Row> := [
      Row(2, 1, 1, 84),
      Row(5, 2, 1, 85),
      Row(9, 2, 1, 86),
      Row(9, 1, 1, 87),
      Row(7, 3, 1, 88),
      Row(9, 0, 1, 89),
      Row(4, 1, 1, 90),
      Row(3, 0, 1, 92),
      Row(8, 3, 1, 93),
      Row(6, 2, 1, 94),
      Row(8, 2, 1, 95),
      Row(8, 1, 1, 96),
      Row(2, 0, 1, 97)]

  const Block6: seq<Row> := [
      Row(8, 0, 1, 98),
      Row(5, 1, 1, 103),
      Row(1, 0, 1, 105),
      Row(7, 2, 1, 106),
      Row(7, 1, 1, 107),
      Row(4, 0, 1, 110),
      Row(7, 0, 1, 111),
      Row(6, 1, 1, 116),
      Row(6, 0, 1, 118),
      Row(5, 0, 1, 120),
      Row(12, 11, 0, 11),
      Row(12, 10, 0, 18),
      Row(11, 10, 0, 20)]

  const Block7: seq<Row> := [
      Row(12, 9, 0, 27),
      Row(11, 9, 0, 31),
      Row(10, 9, 0, 35),
      Row(12, 8, 0, 42),
      Row(11, 8, 0, 45),
      Row(9, 8, 0, 47),
      Row(10, 8, 0, 49),
      Row(8, 7, 0, 73),
      Row(12, 7, 0, 76),
      Row(9, 7, 0, 80),
      Row(11, 7, 0, 81),
      Row(10, 7, 0, 83),
      Row(12, 6, 0, 91)]

  const Block8: seq<Row> := [
      Row(7, 6, 0, 99),
      Row(8, 6, 0, 100),
      Row(12, 3, 0, 101),
      Row(12, 5, 0, 102),
      Row(12, 2, 0, 104),
      Row(9, 6, 0, 108),
      Row(12, 1, 0, 109),
      Row(11, 6, 0, 112),
      Row(12, 4, 0, 113),
      Row(6, 5, 0, 114),
      Row(10, 6, 0, 115),
      Row(12, 0, 0, 117),
      Row(7, 5, 0, 119)]

  const Block9: seq<Row> := [
      Row(5, 4, 0, 121),
      Row(11, 5, 0, 122),
      Row(4, 3, 0, 123),
      Row(8, 5, 0, 124),
      Row(11, 4, 0, 125),
      Row(6, 4, 0, 126),
      Row(3, 2, 0, 127),
      Row(11, 3, 0, 128),
      Row(9, 5, 0, 129),
      Row(5, 3, 0, 130),
      Row(10, 5, 0, 131),
      Row(11, 2, 0, 132),
      Row(11, 1, 0, 133)]

  const Block10: seq<Row> := [
      Row(7, 4, 0, 134),
      Row(11, 0, 0, 135),
      Row(4, 2, 0, 136),
      Row(10, 4, 0, 137),
      Row(3, 1, 0, 138),
      Row(6, 3, 0, 139),
      Row(8, 4, 0, 140),
      Row(10, 3, 0, 141),
      Row(2, 1, 0, 142),
      Row(10, 2, 0, 143),
      Row(10, 1, 0, 144),
      Row(5, 2, 0, 145),
      Row(10, 0, 0, 146)]

  const Block11: seq<Row> := [
      Row(9, 4, 0, 147),
      Row(4, 1, 0, 148),
      Row(9, 3, 0, 149),
      Row(7, 3, 0, 150),
      Row(3, 0, 0, 151),
      Row(9, 2, 0, 152),
      Row(9, 1, 0, 153),
      Row(2, 0, 0, 154),
      Row(9, 0, 0, 155),
      Row(6, 2, 0, 156),
      Row(8, 3, 0, 157),
      Row(8, 2, 0, 158),
      Row(1, 0, 0, 159)]

  const Block12: seq<Row> := [
      Row(8, 1, 0, 160),
      Row(5, 1, 0, 161),
      Row(8, 0, 0, 162),
      Row(4, 0, 0, 163),
      Row(7, 2, 0, 164),
      Row(7, 1, 0, 165),
      Row(7, 0, 0, 166),
      Row(6, 1, 0, 167),
      Row(6, 0, 0, 168),
      Row(5, 0, 0, 169)]

  const HandRankings: seq<Row> :=
    Block0 + Block1 + Block2 + Block3 + Block4 + Block5 + Block6 + Block7 + Block8 + Block9 + Block10 + Block11 + Block12

  /** The row test of the lookup loop: same values, and the same suitedness
      unless the hand is a pair. */
  predicate Matches(row: Row, high: int, low: int, suited: int)
  {
    row.high == high && row.low == low && (high == low || row.suited == suited)
  }

  /** The place of the first matching row, or the fallback. */
  function Lookup(rows: seq<Row>, high: int, low: int, suited: int): (r: int)
    ensures (exists i :: 0 <= i < |rows| && Matches(rows[i], high, low, suited)
               && r == rows[i].rank
               && forall j :: 0 <= j < i ==> !Matches(rows[j], high, low, suited))
         || (r == Fallback && forall i :: 0 <= i < |rows| ==> !Matches(rows[i], high, low, suited))
  {
    if |rows| == 0 then Fallback
    else if Matches(rows[0], high, low, suited) then rows[0].rank
    else
      var r := Lookup(rows[1..], high, low, suited);
      assert forall i :: 1 <= i < |rows| ==> rows[1..][i - 1] == rows[i];
      r
  }

  /** `evaluate_2cards`. */
  function Evaluate2Cards(a: Card, b: Card): (r: int)
  {
    Lookup(HandRankings, Max(a.value, b.value), Min(a.value, b.value), if a.suit == b.suit then 1 else 0)
  }

  /** The order of the two cards does not matter. */
  lemma Evaluate2CardsSymmetric(a: Card, b: Card)
    ensures Evaluate2Cards(a, b) == Evaluate2Cards(b, a)
  {
  }

  // ----- Hand classes and the 13 x 13 chart -----

  /** A two-card hand class: a pair is never suited. */
  datatype HandClass = HandClass(high: Value, low: Value, suited: bool)

  predicate ValidClass(c: HandClass)
  {
    c.low <= c.high && (c.high == c.low ==> !c.suited)
  }

  function ClassOf(a: Card, b: Card): (c: HandClass)
    ensures ValidClass(c)
  {
    HandClass(Max(a.value, b.value), Min(a.value, b.value), a.suit == b.suit && a.value != b.value)
  }

  /** The place of a class in the usual 13 x 13 chart: pairs on the
      diagonal, offsuit hands below it (row = higher value), suited hands
      above it (row = lower value). Every chart cell holds one class. */
  function Cell(high: int, low: int, suited: bool): (int, int)
  {
    if high == low || !suited then (high, low) else (low, high)
  }

  function RowCell(row: Row): (int, int)
  {
    Cell(row.high, row.low, row.suited == 1)
  }

  function ClassAt(row: int, col: int): (c: HandClass)
    requires 0 <= row < 13 && 0 <= col < 13
    ensures ValidClass(c) && Cell(c.high, c.low, c.suited) == (row, col)
  {
    if col <= row then HandClass(row, col, false) else HandClass(col, row, true)
  }

  predicate ValidRow(row: Row)
  {
    0 <= row.low <= row.high < 13 && row.suited in {0, 1} && (row.high == row.low ==> row.suited == 0)
      && 1 <= row.rank <= NumClasses
  }

  /** On well-formed rows the lookup's test is equality of chart cells. */
  lemma MatchesIsSameCell(row: Row, c: HandClass)
    requires ValidRow(row) && ValidClass(c)
    ensures Matches(row, c.high, c.low, if c.suited then 1 else 0) <==> RowCell(row) == Cell(c.high, c.low, c.suited)
  {
  }

  /** The evaluation of two cards is the lookup of their class. */
  lemma Evaluate2CardsOfClass(a: Card, b: Card)
    ensures Evaluate2Cards(a, b) == Lookup(HandRankings, ClassOf(a, b).high, ClassOf(a, b).low, if ClassOf(a, b).suited then 1 else 0)
  {
  }

  // ----- The table with its three missing rows -----

  /** The suited aces A6s, A4s and A3s have no row in `HandRankings`, and
      the places 32, 33 and 34 are held by no row. These rows give the
      three classes those places; which of them takes which place is not
      recoverable from the table, and here the higher kicker comes first. */
  const MissingSuitedAces: seq<Row> := [Row(12, 4, 1, 32), Row(12, 2, 1, 33), Row(12, 1, 1, 34)]

  const FullRankings: seq<Row> := HandRankings + MissingSuitedAces

  /** Proof witnesses for the full table: the row of each chart cell, and
      the row holding each place (place 13 k + j + 1 at [k][j]). */
  const ChartRow: seq<seq<int>> := [
      [11, 80, 77, 72, 83, 87, 86, 84, 78, 70, 60, 46, 33],
      [155, 12, 65, 61, 71, 79, 85, 82, 76, 68, 58, 45, 168],
      [150, 138, 10, 51, 56, 66, 74, 81, 75, 67, 57, 44, 167],
      [147, 134, 123, 9, 49, 53, 62, 69, 73, 64, 55, 41, 29],
      [159, 144, 132, 119, 8, 42, 48, 54, 59, 63, 52, 39, 166],
      [165, 157, 141, 126, 117, 7, 38, 40, 43, 50, 47, 37, 30],
      [164, 163, 152, 135, 122, 113, 6, 34, 32, 35, 36, 31, 26],
      [162, 161, 160, 146, 130, 116, 104, 5, 25, 28, 27, 24, 23],
      [158, 156, 154, 153, 136, 120, 105, 98, 4, 22, 21, 20, 18],
      [151, 149, 148, 145, 143, 125, 109, 100, 96, 3, 19, 17, 16],
      [142, 140, 139, 137, 133, 127, 114, 102, 97, 93, 2, 15, 14],
      [131, 129, 128, 124, 121, 118, 111, 101, 95, 92, 90, 1, 13],
      [115, 110, 108, 106, 112, 107, 103, 99, 94, 91, 89, 88, 0]]

  const PlaceRow: seq<seq<int>> := [
      [0, 1, 2, 13, 3, 14, 15, 16, 17, 4, 88, 18, 19],
      [20, 21, 22, 5, 89, 23, 90, 6, 24, 25, 26, 27, 28],
      [91, 29, 7, 30, 92, 166, 167, 168, 93, 8, 31, 32, 33],
      [34, 35, 94, 36, 37, 95, 9, 96, 38, 97, 10, 11, 12],
      [39, 40, 41, 42, 43, 44, 45, 46, 47, 48, 49, 50, 51],
      [52, 53, 54, 55, 56, 57, 58, 98, 59, 60, 99, 61, 62],
      [63, 100, 101, 64, 102, 65, 66, 67, 68, 69, 70, 71, 103],
      [72, 73, 74, 75, 76, 77, 78, 104, 105, 106, 107, 79, 108],
      [80, 81, 82, 109, 110, 83, 84, 111, 112, 113, 114, 85, 115],
      [86, 116, 87, 117, 118, 119, 120, 121, 122, 123, 124, 125, 126],
      [127, 128, 129, 130, 131, 132, 133, 134, 135, 136, 137, 138, 139],
      [140, 141, 142, 143, 144, 145, 146, 147, 148, 149, 150, 151, 152],
      [153, 154, 155, 156, 157, 158, 159, 160, 161, 162, 163, 164, 165]]

  function CellRow(c: (int, int)): int
  {
    if 0 <= c.0 < |ChartRow| && 0 <= c.1 < |ChartRow[c.0]| then ChartRow[c.0][c.1] else -1
  }

  function RankRow(rank: int): int
  {
    var k := rank - 1;
    if 0 <= k / 13 < |PlaceRow| && 0 <= k % 13 < |PlaceRow[k / 13]| then PlaceRow[k / 13][k % 13] else -1
  }

  /** Row `i` is well formed, and both witnesses point back at it. */
  predicate RowFacts(i: int)
  {
    0 <= i < |FullRankings| && ValidRow(FullRankings[i])
      && CellRow(RowCell(FullRankings[i])) == i && RankRow(FullRankings[i].rank) == i
  }

  /** The chart cell (h, l) is the cell of its witness row. */
  predicate CellFacts(h: int, l: int)
  {
    0 <= CellRow((h, l)) < |FullRankings| && RowCell(FullRankings[CellRow((h, l))]) == (h, l)
  }

  /** Place `rank` is the place of its witness row. */
  predicate PlaceFacts(rank: int)
  {
    0 <= RankRow(rank) < |FullRankings| && FullRankings[RankRow(rank)].rank == rank
  }

  lemma RowsBlock0()
    ensures forall i :: 0 <= i < 7 ==> RowFacts(i)
  {
  }

  lemma RowsBlock0Tail()
    ensures forall i :: 7 <= i < 13 ==> RowFacts(i)
  {
  }

  lemma ChartBlock0()
    ensures forall l :: 0 <= l < 13 ==> CellFacts(0, l)
  {
  }

  lemma PlacesBlock0()
    ensures forall j :: 1 <= j <= 13 ==> PlaceFacts(j)
  {
  }

  lemma RowsBlock1()
    ensures forall i :: 13 <= i < 20 ==> RowFacts(i)
  {
  }

  lemma RowsBlock1Tail()
    ensures forall i :: 20 <= i < 26 ==> RowFacts(i)
  {
  }

  lemma ChartBlock1()
    ensures forall l :: 0 <= l < 13 ==> CellFacts(1, l)
  {
  }

  lemma PlacesBlock1()
    ensures forall j :: 14 <= j <= 26 ==> PlaceFacts(j)
  {
  }

  lemma RowsBlock2()
    ensures forall i :: 26 <= i < 33 ==> RowFacts(i)
  {
  }

  lemma RowsBlock2Tail()
    ensures forall i :: 33 <= i < 39 ==> RowFacts(i)
  {
  }

  lemma ChartBlock2()
    ensures forall l :: 0 <= l < 13 ==> CellFacts(2, l)
  {
  }

  lemma PlacesBlock2()
    ensures forall j :: 27 <= j <= 39 ==> PlaceFacts(j)
  {
  }

  lemma RowsBlock3()
    ensures forall i :: 39 <= i < 46 ==> RowFacts(i)
  {
  }

  lemma RowsBlock3Tail()
    ensures forall i :: 46 <= i < 52 ==> RowFacts(i)
  {
  }

  lemma ChartBlock3()
    ensures forall l :: 0 <= l < 13 ==> CellFacts(3, l)
  {
  }

  lemma PlacesBlock3()
    ensures forall j :: 40 <= j <= 52 ==> PlaceFacts(j)
  {
  }

  lemma RowsBlock4()
    ensures forall i :: 52 <= i < 59 ==> RowFacts(i)
  {
  }

  lemma RowsBlock4Tail()
    ensures forall i :: 59 <= i < 65 ==> RowFacts(i)
  {
  }

  lemma ChartBlock4()
    ensures forall l :: 0 <= l < 13 ==> CellFacts(4, l)
  {
  }

  lemma PlacesBlock4()
    ensures forall j :: 53 <= j <= 65 ==> PlaceFacts(j)
  {
  }

  lemma RowsBlock5()
    ensures forall i :: 65 <= i < 72 ==> RowFacts(i)
  {
  }

  lemma RowsBlock5Tail()
    ensures forall i :: 72 <= i < 78 ==> RowFacts(i)
  {
  }

  lemma ChartBlock5()
    ensures forall l :: 0 <= l < 13 ==> CellFacts(5, l)
  {
  }

  lemma PlacesBlock5()
    ensures forall j :: 66 <= j <= 78 ==> PlaceFacts(j)
  {
  }

  lemma RowsBlock6()
    ensures forall i :: 78 <= i < 85 ==> RowFacts(i)
  {
  }

  lemma RowsBlock6Tail()
    ensures forall i :: 85 <= i < 91 ==> RowFacts(i)
  {
  }

  lemma ChartBlock6()
    ensures forall l :: 0 <= l < 13 ==> CellFacts(6, l)
  {
  }

  lemma PlacesBlock6()
    ensures forall j :: 79 <= j <= 91 ==> PlaceFacts(j)
  {
  }

  lemma RowsBlock7()
    ensures forall i :: 91 <= i < 98 ==> RowFacts(i)
  {
  }

  lemma RowsBlock7Tail()
    ensures forall i :: 98 <= i < 104 ==> RowFacts(i)
  {
  }

  lemma ChartBlock7()
    ensures forall l :: 0 <= l < 13 ==> CellFacts(7, l)
  {
  }

  lemma PlacesBlock7()
    ensures forall j :: 92 <= j <= 104 ==> PlaceFacts(j)
  {
  }

  lemma RowsBlock8()
    ensures forall i :: 104 <= i < 111 ==> RowFacts(i)
  {
  }

  lemma RowsBlock8Tail()
    ensures forall i :: 111 <= i < 117 ==> RowFacts(i)
  {
  }

  lemma ChartBlock8()
    ensures forall l :: 0 <= l < 13 ==> CellFacts(8, l)
  {
  }

  lemma PlacesBlock8()
    ensures forall j :: 105 <= j <= 117 ==> PlaceFacts(j)
  {
  }

  lemma RowsBlock9()
    ensures forall i :: 117 <= i < 124 ==> RowFacts(i)
  {
  }

  lemma RowsBlock9Tail()
    ensures forall i :: 124 <= i < 130 ==> RowFacts(i)
  {
  }

  lemma ChartBlock9()
    ensures forall l :: 0 <= l < 13 ==> CellFacts(9, l)
  {
  }

  lemma PlacesBlock9()
    ensures forall j :: 118 <= j <= 130 ==> PlaceFacts(j)
  {
  }

  lemma RowsBlock10()
    ensures forall i :: 130 <= i < 137 ==> RowFacts(i)
  {
  }

  lemma RowsBlock10Tail()
    ensures forall i :: 137 <= i < 143 ==> RowFacts(i)
  {
  }

  lemma ChartBlock10()
    ensures forall l :: 0 <= l < 13 ==> CellFacts(10, l)
  {
  }

  lemma PlacesBlock10()
    ensures forall j :: 131 <= j <= 143 ==> PlaceFacts(j)
  {
  }

  lemma RowsBlock11()
    ensures forall i :: 143 <= i < 150 ==> RowFacts(i)
  {
  }

  lemma RowsBlock11Tail()
    ensures forall i :: 150 <= i < 156 ==> RowFacts(i)
  {
  }

  lemma ChartBlock11()
    ensures forall l :: 0 <= l < 13 ==> CellFacts(11, l)
  {
  }

  lemma PlacesBlock11()
    ensures forall j :: 144 <= j <= 156 ==> PlaceFacts(j)
  {
  }

  lemma RowsBlock12()
    ensures forall i :: 156 <= i < 163 ==> RowFacts(i)
  {
  }

  lemma RowsBlock12Tail()
    ensures forall i :: 163 <= i < 169 ==> RowFacts(i)
  {
  }

  lemma ChartBlock12()
    ensures forall l :: 0 <= l < 13 ==> CellFacts(12, l)
  {
  }

  lemma PlacesBlock12()
    ensures forall j :: 157 <= j <= 169 ==> PlaceFacts(j)
  {
  }

  lemma AllRows()
    ensures |FullRankings| == NumClasses
    ensures forall i :: 0 <= i < NumClasses ==> RowFacts(i)
  {
    RowsBlock0();
    RowsBlock0Tail();
    RowsBlock1();
    RowsBlock1Tail();
    RowsBlock2();
    RowsBlock2Tail();
    RowsBlock3();
    RowsBlock3Tail();
    RowsBlock4();
    RowsBlock4Tail();
    RowsBlock5();
    RowsBlock5Tail();
    RowsBlock6();
    RowsBlock6Tail();
    RowsBlock7();
    RowsBlock7Tail();
    RowsBlock8();
    RowsBlock8Tail();
    RowsBlock9();
    RowsBlock9Tail();
    RowsBlock10();
    RowsBlock10Tail();
    RowsBlock11();
    RowsBlock11Tail();
    RowsBlock12();
    RowsBlock12Tail();
  }

  lemma AllCells()
    ensures forall h, l :: 0 <= h < 13 && 0 <= l < 13 ==> CellFacts(h, l)
  {
    ChartBlock0();
    ChartBlock1();
    ChartBlock2();
    ChartBlock3();
    ChartBlock4();
    ChartBlock5();
    ChartBlock6();
    ChartBlock7();
    ChartBlock8();
    ChartBlock9();
    ChartBlock10();
    ChartBlock11();
    ChartBlock12();
  }

  lemma AllPlaces()
    ensures forall r :: 1 <= r <= NumClasses ==> PlaceFacts(r)
  {
    PlacesBlock0();
    PlacesBlock1();
    PlacesBlock2();
    PlacesBlock3();
    PlacesBlock4();
    PlacesBlock5();
    PlacesBlock6();
    PlacesBlock7();
    PlacesBlock8();
    PlacesBlock9();
    PlacesBlock10();
    PlacesBlock11();
    PlacesBlock12();
  }

  function Flag(suited: bool): int
  {
    if suited then 1 else 0
  }

  /** The place the full table gives a class. */
  function FullPlace(c: HandClass): int
  {
    Lookup(FullRankings, c.high, c.low, Flag(c.suited))
  }

  /** In the full table every class finds its own row: the one its chart
      cell names. */
  lemma FullPlaceIsChartRow(c: HandClass)
    requires ValidClass(c)
    ensures RowFacts(CellRow(Cell(c.high, c.low, c.suited)))
    ensures RowCell(FullRankings[CellRow(Cell(c.high, c.low, c.suited))]) == Cell(c.high, c.low, c.suited)
    ensures FullPlace(c) == FullRankings[CellRow(Cell(c.high, c.low, c.suited))].rank
  {
    AllRows();
    AllCells();
    var x := Cell(c.high, c.low, c.suited);
    var k := CellRow(x);
    assert CellFacts(x.0, x.1);
    assert RowFacts(k);
    MatchesIsSameCell(FullRankings[k], c);
    var r := FullPlace(c);
    if i :| 0 <= i < |FullRankings| && Matches(FullRankings[i], c.high, c.low, Flag(c.suited)) && r == FullRankings[i].rank {
      assert RowFacts(i);
      MatchesIsSameCell(FullRankings[i], c);
    }
  }

  /** Every class gets a place in 1 .. 169. */
  lemma FullPlaceInRange(c: HandClass)
    requires ValidClass(c)
    ensures 1 <= FullPlace(c) <= NumClasses
  {
    FullPlaceIsChartRow(c);
  }

  /** Different classes get different places. */
  lemma FullPlaceInjective(c: HandClass, d: HandClass)
    requires ValidClass(c) && ValidClass(d) && c != d
    ensures FullPlace(c) != FullPlace(d)
  {
    FullPlaceIsChartRow(c);
    FullPlaceIsChartRow(d);
  }

  /** Every place is some class's place. */
  lemma FullPlaceOnto(r: int)
    requires 1 <= r <= NumClasses
    ensures exists c :: ValidClass(c) && FullPlace(c) == r
  {
    AllPlaces();
    AllRows();
    assert PlaceFacts(r);
    var k := RankRow(r);
    assert RowFacts(k);
    var x := RowCell(FullRankings[k]);
    var c := ClassAt(x.0, x.1);
    FullPlaceIsChartRow(c);
  }

  /** A pair's suitedness plays no part in the lookup. */
  lemma {:induction false} LookupPairIgnoresSuit(rows: seq<Row>, v: int, s1: int, s2: int)
    ensures Lookup(rows, v, v, s1) == Lookup(rows, v, v, s2)
  {
    if |rows| > 0 {
      LookupPairIgnoresSuit(rows[1..], v, s1, s2);
    }
  }

  /** Two cards are looked up as their class. */
  lemma CardsAsClass(rows: seq<Row>, a: Card, b: Card)
    ensures Lookup(rows, Max(a.value, b.value), Min(a.value, b.value), if a.suit == b.suit then 1 else 0)
         == Lookup(rows, ClassOf(a, b).high, ClassOf(a, b).low, Flag(ClassOf(a, b).suited))
  {
    if a.value == b.value {
      LookupPairIgnoresSuit(rows, a.value, if a.suit == b.suit then 1 else 0, 0);
    }
  }

  /** The lookup over two tables one after the other: the first table
      decides when it has a matching row, the second otherwise. */
  lemma {:induction false} LookupAppend(xs: seq<Row>, ys: seq<Row>, high: int, low: int, suited: int)
    ensures (exists i :: 0 <= i < |xs| && Matches(xs[i], high, low, suited)) ==>
              Lookup(xs + ys, high, low, suited) == Lookup(xs, high, low, suited)
    ensures (forall i :: 0 <= i < |xs| ==> !Matches(xs[i], high, low, suited)) ==>
              Lookup(xs + ys, high, low, suited) == Lookup(ys, high, low, suited)
  {
    if |xs| > 0 {
      assert (xs + ys)[0] == xs[0];
      assert (xs + ys)[1..] == xs[1..] + ys;
      LookupAppend(xs[1..], ys, high, low, suited);
      if !Matches(xs[0], high, low, suited) && exists i :: 0 <= i < |xs| && Matches(xs[i], high, low, suited) {
        var i :| 0 <= i < |xs| && Matches(xs[i], high, low, suited);
        assert xs[1..][i - 1] == xs[i];
      }
    } else {
      assert xs + ys == ys;
    }
  }

  /** The three classes without a row. */
  predicate MissingClass(c: HandClass)
  {
    c.suited && c.high == Ace && c.low in {1, 2, 4}
  }

  /** The classes whose chart row lies past the source's table are exactly
      the three missing ones. */
  lemma MissingRows(c: HandClass)
    requires ValidClass(c)
    ensures MissingClass(c) <==> CellRow(Cell(c.high, c.low, c.suited)) >= |HandRankings|
  {
    HandRankingsLength();
    if MissingClass(c) {
      MissingCells(c);
    } else {
      PresentCells(c);
    }
  }

  lemma HandRankingsLength()
    ensures |HandRankings| == 166 && |FullRankings| == 169
  {
  }

  /** The three missing classes have their chart rows past the source's
      table. */
  lemma MissingCells(c: HandClass)
    requires MissingClass(c)
    ensures CellRow(Cell(c.high, c.low, c.suited)) >= 166
  {
    assert Cell(c.high, c.low, c.suited) == (c.low, 12);
    assert ChartRow[4][12] == 166 && ChartRow[2][12] == 167 && ChartRow[1][12] == 168;
  }

  /** Every other class has its chart row inside the source's table. */
  lemma PresentCells(c: HandClass)
    requires ValidClass(c) && !MissingClass(c)
    ensures CellRow(Cell(c.high, c.low, c.suited)) < 166
  {
    FullPlaceIsChartRow(c);
    var k := CellRow(Cell(c.high, c.low, c.suited));
    if k >= 166 {
      MissingTail(k);
    }
  }

  lemma MissingTail(k: int)
    requires 166 <= k < 169
    ensures FullRankings[k] == MissingSuitedAces[k - 166]
  {
  }

  /** `evaluate_2cards` as written gives the fallback 169 to the three
      missing suited aces and agrees with the full table on every other
      class. */
  lemma HandRankingsAsWritten(c: HandClass)
    requires ValidClass(c)
    ensures Lookup(HandRankings, c.high, c.low, Flag(c.suited)) == (if MissingClass(c) then Fallback else FullPlace(c))
  {
    FullPlaceIsChartRow(c);
    var x := Cell(c.high, c.low, c.suited);
    var k := CellRow(x);
    var n := |HandRankings|;
    assert n == 166;
    MissingRows(c);
    if k < n {
      assert HandRankings[k] == FullRankings[k];
      MatchesIsSameCell(FullRankings[k], c);
      LookupAppend(HandRankings, MissingSuitedAces, c.high, c.low, Flag(c.suited));
    } else {
      forall i | 0 <= i < n ensures !Matches(HandRankings[i], c.high, c.low, Flag(c.suited)) {
        AllRows();
        assert HandRankings[i] == FullRankings[i];
        assert RowFacts(i);
        MatchesIsSameCell(FullRankings[i], c);
      }
    }
  }

  /** The source's promise, `1 (strongest AA) to 169 (weakest 72o)`, holds
      as a range. */
  lemma Evaluate2CardsRange(a: Card, b: Card)
    ensures 1 <= Evaluate2Cards(a, b) <= NumClasses
  {
    CardsAsClass(HandRankings, a, b);
    HandRankingsAsWritten(ClassOf(a, b));
    if !MissingClass(ClassOf(a, b)) {
      FullPlaceInRange(ClassOf(a, b));
    }
  }

  /** 72o, the class the source names as the weakest, has place 169. */
  lemma SevenDeuceOffsuit(a: Card, b: Card)
    requires a.value == 5 && b.value == 0 && a.suit != b.suit
    ensures Evaluate2Cards(a, b) == Fallback
  {
    var c := ClassOf(a, b);
    CardsAsClass(HandRankings, a, b);
    HandRankingsAsWritten(c);
    assert FullPlace(c) == Fallback by {
      FullPlaceIsChartRow(c);
      SevenDeuceRow();
    }
  }

  /** 72o's chart cell names the last row of the source's table, whose
      place is 169. */
  lemma SevenDeuceRow()
    ensures CellRow(Cell(5, 0, false)) == 165 && FullRankings[165].rank == 169
  {
    assert ChartRow[5][0] == 165;
    PlacesBlock12();
    assert RankRow(169) == 165;
  }

  /** A3s and 72o, two different classes, both come out as 169. */
  lemma FallbackCollision(a: Card, b: Card, c: Card, d: Card)
    requires a.value == Ace && b.value == 1 && a.suit == b.suit
    requires c.value == 5 && d.value == 0 && c.suit != d.suit
    ensures ClassOf(a, b) != ClassOf(c, d)
    ensures Evaluate2Cards(a, b) == Fallback && Evaluate2Cards(c, d) == Fallback
  {
    CardsAsClass(HandRankings, a, b);
    HandRankingsAsWritten(ClassOf(a, b));
    SevenDeuceOffsuit(c, d);
  }

  /** `evaluate_2cards` over the table with the missing rows restored. */
  function Evaluate2CardsFull(a: Card, b: Card): (r: int)
    ensures 1 <= r <= NumClasses
    ensures r == FullPlace(ClassOf(a, b))
  {
    CardsAsClass(FullRankings, a, b);
    FullPlaceInRange(ClassOf(a, b));
    Lookup(FullRankings, Max(a.value, b.value), Min(a.value, b.value), if a.suit == b.suit then 1 else 0)
  }

  /** With the full table, two hands get the same place exactly when they
      are of the same class. */
  lemma Evaluate2CardsFullSeparates(a: Card, b: Card, c: Card, d: Card)
    ensures Evaluate2CardsFull(a, b) == Evaluate2CardsFull(c, d) <==> ClassOf(a, b) == ClassOf(c, d)
  {
    if ClassOf(a, b) != ClassOf(c, d) {
      FullPlaceInjective(ClassOf(a, b), ClassOf(c, d));
    }
  }

  /** A class the source's table places at the fallback: one of its three
      missing rows, or the class whose own row is the last place. */
  predicate AtFallback(c: HandClass)
  {
    MissingClass(c) || FullPlace(c) == Fallback
  }

  /** The table as written agrees with the full table except on the three
      missing classes, which fall back to the last place. */
  lemma Evaluate2CardsAsWritten(a: Card, b: Card)
    ensures Evaluate2Cards(a, b) == if MissingClass(ClassOf(a, b)) then Fallback else Evaluate2CardsFull(a, b)
  {
    CardsAsClass(HandRankings, a, b);
    HandRankingsAsWritten(ClassOf(a, b));
  }

  /** As written, two hands get the same place exactly when they are of the
      same class or both sit at the fallback. */
  lemma Evaluate2CardsSeparates(a: Card, b: Card, c: Card, d: Card)
    ensures Evaluate2Cards(a, b) == Evaluate2Cards(c, d) <==>
            (ClassOf(a, b) == ClassOf(c, d) || (AtFallback(ClassOf(a, b)) && AtFallback(ClassOf(c, d))))
  {
    Evaluate2CardsAsWritten(a, b);
    Evaluate2CardsAsWritten(c, d);
    Evaluate2CardsFullSeparates(a, b, c, d);
  }
}

=== FILE: range_index.dfy ===
/** The two numberings of unordered two-card hands ("ranges") used by the
    engines. The C++ engine enumerates the pairs c1 < c2 of card indices in
    lexicographic order (`_initRangeIdxLut`); the Rust engine numbers a pair
    c1 > c2 as c1 (c1 - 1) / 2 + c2 (`calculate_range_idx`). Both are
    bijections between the 1326 pairs and 0 .. 1325. */
module RangeIndex {

  const NumCards := 52
  const NumPairs := 1326

  predicate ValidPair(c1: int, c2: int)
  {
    0 <= c1 < c2 < NumCards
  }

  // ----- Lexicographic numbering (C++) -----

  /** Number of pairs whose first card is below `c1`. */
  function PairsBefore(c1: nat): (n: nat)
    requires c1 <= NumCards
    ensures 2 * n == c1 * (2 * NumCards - 1 - c1)
  {
    if c1 == 0 then 0
    else
      var n := PairsBefore(c1 - 1) + (NumCards - c1);
      assert c1 * (2 * NumCards - 1 - c1)
          == (c1 - 1) * (2 * NumCards - c1) + 2 * (NumCards - c1);
      n
  }

  lemma {:induction false} PairsBeforeMonotone(a: nat, b: nat)
    requires a <= b <= NumCards
    ensures PairsBefore(a) <= PairsBefore(b)
    decreases b - a
  {
    if a < b {
      PairsBeforeMonotone(a, b - 1);
    }
  }

  lemma PairsBeforeAll()
    ensures PairsBefore(NumCards) == NumPairs
  {
  }

  /** The index `_initRangeIdxLut` gives the pair (c1, c2). */
  function LexIndex(c1: int, c2: int): (i: int)
    requires ValidPair(c1, c2)
    ensures PairsBefore(c1) <= i < PairsBefore(c1 + 1)
  {
    PairsBefore(c1) + (c2 - c1 - 1)
  }

  /** First card of the pair at lexicographic index `i`, searching from `c1`. */
  function LexFirst(i: int, c1: nat): (r: nat)
    requires c1 < NumCards - 1 && PairsBefore(c1) <= i < NumPairs
    ensures c1 <= r < NumCards - 1 && PairsBefore(r) <= i < PairsBefore(r + 1)
    decreases NumCards - c1
  {
    PairsBeforeAll();
    if i < PairsBefore(c1 + 1) then c1
    else
      assert c1 + 1 < NumCards - 1;
      LexFirst(i, c1 + 1)
  }

  /** The pair at lexicographic index `i`. */
  function LexPair(i: int): (p: (int, int))
    requires 0 <= i < NumPairs
    ensures ValidPair(p.0, p.1) && LexIndex(p.0, p.1) == i
  {
    var c1 := LexFirst(i, 0);
    (c1, i - PairsBefore(c1) + c1 + 1)
  }

  /** Distinct pairs get distinct lexicographic indices. */
  lemma LexIndexInjective(a1: int, a2: int, b1: int, b2: int)
    requires ValidPair(a1, a2) && ValidPair(b1, b2)
    ensures LexIndex(a1, a2) == LexIndex(b1, b2) ==> a1 == b1 && a2 == b2
  {
    if a1 < b1 {
      PairsBeforeMonotone(a1 + 1, b1);
    } else if b1 < a1 {
      PairsBeforeMonotone(b1 + 1, a1);
    }
  }

  lemma LexRoundTrip(c1: int, c2: int)
    requires ValidPair(c1, c2)
    ensures 0 <= LexIndex(c1, c2) < NumPairs
    ensures LexPair(LexIndex(c1, c2)) == (c1, c2)
  {
    PairsBeforeMonotone(c1 + 1, NumCards);
    PairsBeforeAll();
    var p := LexPair(LexIndex(c1, c2));
    LexIndexInjective(p.0, p.1, c1, c2);
  }

  /** `_initRangeIdxLut`: the nested loops number the pairs in order and
      fill both the pair-to-index table and the index-to-pair table. */
  method InitRangeIdxLut() returns (lut: map<(int, int), int>, rev: seq<(int, int)>)
    ensures |rev| == NumPairs
    ensures forall c1, c2 :: ValidPair(c1, c2) <==> (c1, c2) in lut
    ensures forall p :: p in lut ==> lut[p] == LexIndex(p.0, p.1)
    ensures forall i :: 0 <= i < |rev| ==> rev[i] in lut && lut[rev[i]] == i
  {
    lut := map[];
    rev := [];
    var idx := 0;
    var c1 := 0;
    while c1 < NumCards
      invariant 0 <= c1 <= NumCards
      invariant idx == PairsBefore(c1) == |rev|
      invariant forall a, b :: (a, b) in lut <==> ValidPair(a, b) && a < c1
      invariant forall p :: p in lut ==> ValidPair(p.0, p.1) && lut[p] == LexIndex(p.0, p.1)
      invariant forall i :: 0 <= i < |rev| ==> rev[i] in lut && lut[rev[i]] == i
    {
      var c2 := c1 + 1;
      while c2 < NumCards
        invariant c1 + 1 <= c2 <= NumCards
        invariant idx == PairsBefore(c1) + (c2 - c1 - 1) == |rev|
        invariant forall a, b :: (a, b) in lut <==> ValidPair(a, b) && (a < c1 || (a == c1 && b < c2))
        invariant forall p :: p in lut ==> ValidPair(p.0, p.1) && lut[p] == LexIndex(p.0, p.1)
        invariant forall i :: 0 <= i < |rev| ==> rev[i] in lut && lut[rev[i]] == i
      {
        lut := lut[(c1, c2) := idx];
        rev := rev + [(c1, c2)];
        idx := idx + 1;
        c2 := c2 + 1;
      }
      c1 := c1 + 1;
    }
    PairsBeforeAll();
  }

  // ----- Co-lexicographic numbering (Rust) -----

  /** Number of pairs whose higher card is below `c`: c (c - 1) / 2. */
  function Triangle(c: nat): (t: nat)
    ensures t == c * (c - 1) / 2
  {
    if c == 0 then 0
    else
      var t := Triangle(c - 1) + (c - 1);
      assert c * (c - 1) == (c - 1) * (c - 2) + 2 * (c - 1);
      t
  }

  /** `calculate_range_idx` on two canonical card indices hi > lo. */
  function ColexIndex(hi: int, lo: int): (i: int)
    requires ValidPair(lo, hi)
    ensures Triangle(hi) <= i < Triangle(hi + 1)
  {
    hi * (hi - 1) / 2 + lo
  }

  lemma {:induction false} TriangleMonotone(a: nat, b: nat)
    requires a <= b
    ensures Triangle(a) <= Triangle(b)
    decreases b - a
  {
    if a < b {
      TriangleMonotone(a, b - 1);
    }
  }

  lemma ColexInjective(h1: int, l1: int, h2: int, l2: int)
    requires ValidPair(l1, h1) && ValidPair(l2, h2)
    ensures ColexIndex(h1, l1) == ColexIndex(h2, l2) ==> h1 == h2 && l1 == l2
  {
    if h1 < h2 {
      TriangleMonotone(h1 + 1, h2);
    } else if h2 < h1 {
      TriangleMonotone(h2 + 1, h1);
    }
  }

  /** Higher card of the pair at co-lexicographic index `i`. */
  function ColexHigh(i: nat, hi: nat): (r: nat)
    requires 1 <= hi < NumCards && Triangle(hi) <= i < NumPairs
    ensures hi <= r < NumCards && Triangle(r) <= i < Triangle(r + 1)
    decreases NumCards - hi
  {
    if i < Triangle(hi + 1) then hi
    else
      assert hi + 1 < NumCards;
      ColexHigh(i, hi + 1)
  }

  /** The pair (hi, lo) at co-lexicographic index `i`. */
  function ColexPair(i: nat): (p: (int, int))
    requires i < NumPairs
    ensures ValidPair(p.1, p.0) && ColexIndex(p.0, p.1) == i
  {
    var hi := ColexHigh(i, 1);
    (hi, i - Triangle(hi))
  }

  /** Every index 0 .. 1325 names exactly one pair, and every pair of
      distinct cards gets an index in that range. */
  lemma ColexRoundTrip(hi: int, lo: int)
    requires ValidPair(lo, hi)
    ensures 0 <= ColexIndex(hi, lo) < NumPairs
    ensures ColexPair(ColexIndex(hi, lo)) == (hi, lo)
  {
    TriangleMonotone(hi + 1, NumCards);
    var p := ColexPair(ColexIndex(hi, lo));
    ColexInjective(p.0, p.1, hi, lo);
  }
}

=== FILE: rust_betting.dfy ===
/** The pieces the Rust engine's `apply_action` is built from: the legal
    actions, the chips an action moves, the street change
    (`to_next_stage`), the run to showdown, the showdown winners and the
    payout (`set_winners`). Chips are exact reals. */
module RustBetting {
  import opened Wrappers
  import opened Cards
  import opened RustState
  import opened HandClassifier

  // ----- Sums over the players -----

  /** A column of the player table. */
  function Col(ps: seq<PlayerState>, f: PlayerState -> real): (c: seq<real>)
    ensures |c| == |ps| && forall i :: 0 <= i < |ps| ==> c[i] == f(ps[i])
  {
    seq(|ps|, i requires 0 <= i < |ps| => f(ps[i]))
  }

  function Total(ps: seq<PlayerState>, f: PlayerState -> real): real
  {
    SumR(Col(ps, f))
  }

  /** Chips a player has committed this hand. */
  function InPlay(p: PlayerState): real
  {
    p.betChips + p.potChips
  }

  /** Chips a player owns: behind, in front and already in the pot. */
  function Owned(p: PlayerState): real
  {
    p.stake + p.betChips + p.potChips
  }

  function StakeOf(p: PlayerState): real { p.stake }
  function RewardOf(p: PlayerState): real { p.reward }

  /** A total is the total of all but the last player plus the last. */
  lemma TotalSnoc(ps: seq<PlayerState>, f: PlayerState -> real)
    requires |ps| > 0
    ensures Total(ps, f) == Total(ps[..|ps| - 1], f) + f(ps[|ps| - 1])
  {
    assert Col(ps, f)[..|ps| - 1] == Col(ps[..|ps| - 1], f);
  }

  /** Replacing one player changes a total by that player's difference. */
  lemma TotalUpdate(ps: seq<PlayerState>, i: int, p: PlayerState, f: PlayerState -> real)
    requires 0 <= i < |ps|
    ensures Total(ps[i := p], f) == Total(ps, f) - f(ps[i]) + f(p)
  {
    assert Col(ps[i := p], f) == Col(ps, f)[i := f(p)];
    SumRUpdate(Col(ps, f), i, f(p));
  }

  /** Tables that agree on a column have the same total. */
  lemma TotalSame(ps: seq<PlayerState>, qs: seq<PlayerState>, f: PlayerState -> real, g: PlayerState -> real)
    requires |ps| == |qs| && forall i :: 0 <= i < |ps| ==> f(ps[i]) == g(qs[i])
    ensures Total(ps, f) == Total(qs, g)
  {
    assert Col(ps, f) == Col(qs, g);
  }

  // ----- Stages -----

  function StageIndex(st: Stage): nat
  {
    match st
    case Preflop => 0
    case Flop => 1
    case Turn => 2
    case River => 3
    case Showdown => 4
  }

  /** The stage after `st`; showdown stays. */
  function NextStage(st: Stage): (r: Stage)
    ensures st != Showdown ==> StageIndex(r) == StageIndex(st) + 1
    ensures st == Showdown ==> r == Showdown
  {
    match st
    case Preflop => Flop
    case Flop => Turn
    case Turn => River
    case _ => Showdown
  }

  /** Board cards dealt on entering a stage. */
  function DealCount(st: Stage): nat
  {
    match st
    case Flop => 3
    case Turn => 1
    case River => 1
    case _ => 0
  }

  /** Board cards still to come once a stage is reached. */
  function CardsToCome(st: Stage): (k: nat)
    ensures k <= 5 && (st == Showdown ==> k == 0)
  {
    match st
    case Preflop => 5
    case Flop => 2
    case Turn => 1
    case _ => 0
  }

  /** The cards still to come are those of the next street and after. */
  lemma CardsToComeStep(st: Stage)
    ensures st != Showdown ==> CardsToCome(st) == DealCount(NextStage(st)) + CardsToCome(NextStage(st))
  {
  }

  // ----- legal_actions -----

  /** The hand is closed to actions. */
  predicate Closed(s: State)
  {
    s.stage == Showdown || s.finalState
  }

  /** `legal_actions`: every kind unless the hand is closed; a player with
      nothing behind may not raise, and may not call a bet above theirs
      either. */
  function LegalActions(s: State): (r: seq<ActionKind>)
    requires s.currentPlayer < |s.players|
    ensures Fold in r <==> !Closed(s)
    ensures CheckCall in r <==> !Closed(s) && (s.players[s.currentPlayer].stake != 0.0
                                               || s.minBet <= s.players[s.currentPlayer].betChips)
    ensures BetRaise in r <==> !Closed(s) && s.players[s.currentPlayer].stake != 0.0
    ensures forall i, j :: 0 <= i < j < |r| ==> KindIndex(r[i]) < KindIndex(r[j])
  {
    var p := s.players[s.currentPlayer];
    var illegal := (if Closed(s) then AllKinds else [])
      + (if p.stake == 0.0 then (if s.minBet > p.betChips then [CheckCall, BetRaise] else [BetRaise]) else []);
    var keep := (k: ActionKind) => k !in illegal;
    (if keep(Fold) then [Fold] else []) + (if keep(CheckCall) then [CheckCall] else [])
      + (if keep(BetRaise) then [BetRaise] else [])
  }

  function KindIndex(k: ActionKind): nat
  {
    match k
    case Fold => 0
    case CheckCall => 1
    case BetRaise => 2
  }

  // ----- The chips an action moves -----

  /** A check or call by `p` against the bet to match: nothing moves when
      there is nothing to call, otherwise the missing chips or the whole
      stake, whichever is less, go from the stake to the bet. */
  function CallMove(p: PlayerState, minBet: real): (q: PlayerState)
    ensures q == p.(betChips := q.betChips, stake := q.stake, lastStageAction := Some(CheckCall))
    ensures q.betChips + q.stake == p.betChips + p.stake
    ensures (minBet == 0.0 || minBet <= p.betChips) ==> q == p.(lastStageAction := Some(CheckCall))
    ensures minBet != 0.0 && minBet > p.betChips && p.stake >= 0.0 ==>
      p.betChips <= q.betChips <= minBet && (q.betChips == minBet || q.stake == 0.0)
    ensures p.stake >= 0.0 ==> q.stake >= 0.0
  {
    if minBet == 0.0 || minBet <= p.betChips then p.(lastStageAction := Some(CheckCall))
    else
      var required := minBet - p.betChips;
      var actual := if required > p.stake then p.stake else required;
      p.(betChips := p.betChips + actual, stake := p.stake - actual, lastStageAction := Some(CheckCall))
  }

  /** A bet (nothing to match) or raise (the missing chips plus the
      amount) by `p`: the chips asked for or the whole stake, whichever is
      less, go from the stake to the bet. */
  function RaiseMove(p: PlayerState, minBet: real, amount: real): (q: PlayerState)
    ensures q == p.(betChips := q.betChips, stake := q.stake, lastStageAction := Some(BetRaise))
    ensures var ask := if minBet == 0.0 then amount else minBet - p.betChips + amount;
            var moved := q.betChips - p.betChips;
            moved <= ask && moved <= p.stake && (moved == ask || moved == p.stake) && q.stake == p.stake - moved
  {
    var bet := if minBet == 0.0 then amount else (minBet - p.betChips) + amount;
    var actual := if bet > p.stake then p.stake else bet;
    p.(betChips := p.betChips + actual, stake := p.stake - actual, lastStageAction := Some(BetRaise))
  }

  /** The effect of one legal action on the acting player, the pot and the
      bet to match. Chips only move between the player's stake, bet and
      pot share, and the pot grows by what is bet. */
  function MoveChips(s: State, a: Action): (t: State)
    requires s.currentPlayer < |s.players|
    ensures |t.players| == |s.players|
    ensures t == s.(players := t.players, pot := t.pot, minBet := t.minBet)
    ensures forall j :: 0 <= j < |s.players| && j != s.currentPlayer ==> t.players[j] == s.players[j]
    ensures var p := s.players[s.currentPlayer]; var q := t.players[s.currentPlayer];
      && Owned(q) == Owned(p)
      && t.pot - InPlay(q) == s.pot - InPlay(p)
      && (q.active <==> p.active && a.kind != Fold)
      && (a.kind == Fold ==> q == p.(active := false, betChips := 0.0, potChips := InPlay(p), reward := -InPlay(p),
                                    lastStageAction := Some(Fold)))
      && (a.kind == CheckCall ==> q == CallMove(p, s.minBet))
      && (a.kind == BetRaise ==> q == RaiseMove(p, s.minBet, a.amount))
      && (a.kind == BetRaise ==> t.minBet == if q.betChips > s.minBet then q.betChips else s.minBet)
      && (a.kind != BetRaise ==> t.minBet == s.minBet)
  {
    var c := s.currentPlayer;
    var p := s.players[c];
    match a.kind
    case Fold =>
      var q := p.(active := false, potChips := p.potChips + p.betChips, betChips := 0.0,
                  reward := -(p.potChips + p.betChips), lastStageAction := Some(Fold));
      s.(players := s.players[c := q])
    case CheckCall =>
      var q := CallMove(p, s.minBet);
      s.(players := s.players[c := q], pot := s.pot + (q.betChips - p.betChips))
    case BetRaise =>
      var q := RaiseMove(p, s.minBet, a.amount);
      s.(players := s.players[c := q], pot := s.pot + (q.betChips - p.betChips),
         minBet := if q.betChips > s.minBet then q.betChips else s.minBet)
  }

  /** Chips owned by the table do not change with an action, and the pot
      moves with the chips committed. */
  lemma MoveChipsTotals(s: State, a: Action)
    requires s.currentPlayer < |s.players|
    ensures Total(MoveChips(s, a).players, Owned) == Total(s.players, Owned)
    ensures MoveChips(s, a).pot - Total(MoveChips(s, a).players, InPlay) == s.pot - Total(s.players, InPlay)
  {
    var t := MoveChips(s, a);
    var c := s.currentPlayer;
    assert t.players == s.players[c := t.players[c]];
    TotalUpdate(s.players, c, t.players[c], Owned);
    TotalUpdate(s.players, c, t.players[c], InPlay);
  }

  // ----- set_winners -----

  /** `set_winners`: each winner gets an equal share of what the other
      players committed, each other player loses what they committed;
      all bets and pot shares are cleared, nobody stays active and the
      hand is over. */
  function SetWinners(s: State, winners: seq<nat>): (t: State)
    requires |winners| > 0 && forall w :: w in winners ==> w < |s.players|
    ensures |t.players| == |s.players| && t == s.(players := t.players, finalState := true)
    ensures forall i :: 0 <= i < |s.players| ==>
      var p := s.players[i];
      && t.players[i] == p.(potChips := 0.0, betChips := 0.0, active := false, reward := t.players[i].reward)
      && (p.player !in winners ==> t.players[i].reward == -InPlay(p))
      && (p.player in winners ==> t.players[i].reward * (|winners| as real) == Total(s.players, LostBy(winners)))
  {
    var share := Total(s.players, LostBy(winners)) / (|winners| as real);
    var ps := seq(|s.players|, i requires 0 <= i < |s.players| =>
      var p := s.players[i];
      p.(potChips := 0.0, betChips := 0.0, active := false,
         reward := if p.player in winners then share else -InPlay(p)));
    s.(players := ps, finalState := true)
  }

  /** What a player gives up when `winners` take the pot. */
  function LostBy(winners: seq<nat>): PlayerState -> real
  {
    (p: PlayerState) => if p.player in winners then 0.0 else InPlay(p)
  }

  /** Players are numbered by their seat. */
  predicate SeatNumbered(ps: seq<PlayerState>)
  {
    forall i :: 0 <= i < |ps| ==> ps[i].player == i
  }

  predicate Distinct(ws: seq<nat>)
  {
    forall i, j :: 0 <= i < j < |ws| ==> ws[i] != ws[j]
  }

  /** 1 for a winner, 0 otherwise. */
  function WonBy(winners: seq<nat>): PlayerState -> real
  {
    (p: PlayerState) => if p.player in winners then 1.0 else 0.0
  }

  /** With seat-numbered players, as many players win as there are
      (distinct, seated) winners. */
  lemma WinnerCount(ps: seq<PlayerState>, winners: seq<nat>)
    requires SeatNumbered(ps) && Distinct(winners) && forall w :: w in winners ==> w < |ps|
    ensures Total(ps, WonBy(winners)) == |winners| as real
  {
    WinnersBelow(ps, |ps|, winners);
    assert ps[..|ps|] == ps;
    var below := set w | w in winners && w < |ps|;
    assert below == Elements(winners);
    DistinctCard(winners);
  }

  lemma {:induction false} WinnersBelow(ps: seq<PlayerState>, n: nat, winners: seq<nat>)
    requires SeatNumbered(ps) && n <= |ps|
    ensures Total(ps[..n], WonBy(winners)) == |set w | w in winners && w < n| as real
    decreases n
  {
    if n == 0 {
      assert (set w | w in winners && w < n) == {};
    } else {
      WinnersBelow(ps, n - 1, winners);
      var f := WonBy(winners);
      TotalSnoc(ps[..n], f);
      assert ps[..n][..n - 1] == ps[..n - 1];
      var lower := set w | w in winners && w < n - 1;
      var upper := set w | w in winners && w < n;
      if n - 1 in winners {
        assert upper == lower + {n - 1};
      } else {
        assert upper == lower;
      }
    }
  }

  function Elements(ws: seq<nat>): set<nat>
  {
    set w | w in ws
  }

  lemma ElementsSnoc(rest: seq<nat>, last: nat)
    ensures Elements(rest + [last]) == Elements(rest) + {last}
  {
  }

  lemma {:induction false} DistinctCard(ws: seq<nat>)
    requires Distinct(ws)
    ensures |Elements(ws)| == |ws|
    decreases |ws|
  {
    if |ws| > 0 {
      var rest := ws[..|ws| - 1];
      var last := ws[|ws| - 1];
      assert Distinct(rest);
      DistinctCard(rest);
      assert ws == rest + [last];
      ElementsSnoc(rest, last);
      assert last !in Elements(rest) by {
        forall i | 0 <= i < |rest| ensures rest[i] != last {
          assert rest[i] == ws[i];
        }
      }
    }
  }

  /** The payout is zero-sum: the winners' shares add up to what the other
      players lose. */
  lemma SetWinnersZeroSum(s: State, winners: seq<nat>)
    requires |winners| > 0 && forall w :: w in winners ==> w < |s.players|
    requires SeatNumbered(s.players) && Distinct(winners)
    ensures Total(SetWinners(s, winners).players, RewardOf) == 0.0
  {
    var k := |winners| as real;
    var lost := Total(s.players, LostBy(winners));
    var share := lost / k;
    SetWinnersTotal(s, winners);
    TotalLinear(s.players, share, WonBy(winners), LostBy(winners), Payout(winners, share));
    WinnerCount(s.players, winners);
    SplitEvenly(lost, k);
  }

  /** What a player ends with when each winner takes `share`. */
  function Payout(winners: seq<nat>, share: real): PlayerState -> real
  {
    (p: PlayerState) => share * WonBy(winners)(p) - LostBy(winners)(p)
  }

  lemma SetWinnersTotal(s: State, winners: seq<nat>)
    requires |winners| > 0 && forall w :: w in winners ==> w < |s.players|
    ensures Total(SetWinners(s, winners).players, RewardOf)
         == Total(s.players, Payout(winners, Total(s.players, LostBy(winners)) / (|winners| as real)))
  {
    var t := SetWinners(s, winners);
    var f := Payout(winners, Total(s.players, LostBy(winners)) / (|winners| as real));
    forall i | 0 <= i < |s.players| ensures RewardOf(t.players[i]) == f(s.players[i]) {
      SetWinnersShare(s, winners, i);
    }
    TotalSame(t.players, s.players, RewardOf, f);
  }

  /** A winner's reward is the even share of what the others lose. */
  lemma SetWinnersShare(s: State, winners: seq<nat>, i: nat)
    requires |winners| > 0 && forall w :: w in winners ==> w < |s.players|
    requires i < |s.players|
    ensures var p := s.players[i];
      SetWinners(s, winners).players[i].reward
      == if p.player in winners then Total(s.players, LostBy(winners)) / (|winners| as real) else -InPlay(p)
  {
  }

  lemma SplitEvenly(total: real, k: real)
    requires k > 0.0
    ensures total / k * k == total
  {
  }

  /** Totals are linear. */
  lemma {:induction false} TotalLinear(ps: seq<PlayerState>, c: real, f: PlayerState -> real,
                                       g: PlayerState -> real, h: PlayerState -> real)
    requires forall p :: h(p) == c * f(p) - g(p)
    ensures Total(ps, h) == c * Total(ps, f) - Total(ps, g)
    decreases |ps|
  {
    if |ps| > 0 {
      var n := |ps|;
      TotalLinear(ps[..n - 1], c, f, g, h);
      TotalSnoc(ps, f);
      TotalSnoc(ps, g);
      TotalSnoc(ps, h);
    }
  }

  // ----- to_next_stage -----

  /** A player who can still put chips in: active with something behind. */
  predicate Eligible(p: PlayerState)
  {
    p.active && p.stake > 0.0
  }

  predicate AnyEligible(ps: seq<PlayerState>)
  {
    exists i :: 0 <= i < |ps| && Eligible(ps[i])
  }

  /** The seat `k` places after seat `from`, round a table of `n`:
      (from + k) mod n. */
  function SeatAfter(from: nat, k: nat, n: nat): (r: nat)
    requires from < n && k < n
    ensures r < n
  {
    if from + k < n then from + k else from + k - n
  }

  /** The scan both `apply_action` and `to_next_stage` run: starting at
      seat `from` and going round at most once, the first eligible seat. */
  function ScanFrom(ps: seq<PlayerState>, from: nat, k: nat): (r: nat)
    requires from < |ps| && k <= |ps|
    requires exists j :: k <= j < |ps| && Eligible(ps[SeatAfter(from, j, |ps|)])
    ensures r < |ps| && Eligible(ps[r])
    ensures exists j :: (k <= j < |ps| && r == SeatAfter(from, j, |ps|)
                         && forall m :: k <= m < j ==> !Eligible(ps[SeatAfter(from, m, |ps|)]))
    decreases |ps| - k
  {
    if Eligible(ps[SeatAfter(from, k, |ps|)]) then SeatAfter(from, k, |ps|)
    else ScanFrom(ps, from, k + 1)
  }

  /** Some seat is eligible, so the scan from any seat finds one. */
  lemma ScanFinds(ps: seq<PlayerState>, from: nat)
    requires from < |ps| && AnyEligible(ps)
    ensures exists j :: 0 <= j < |ps| && Eligible(ps[SeatAfter(from, j, |ps|)])
  {
    var i :| 0 <= i < |ps| && Eligible(ps[i]);
    var j := if i >= from then i - from else i + |ps| - from;
    assert SeatAfter(from, j, |ps|) == i;
  }

  /** A player's bet moves into the pot share at the end of a street; an
      all-in player keeps the last action, everyone else has to act again. */
  function CollectBets(p: PlayerState): (q: PlayerState)
  {
    p.(potChips := p.potChips + p.betChips, betChips := 0.0,
       lastStageAction := if p.stake == 0.0 then p.lastStageAction else None)
  }

  /** Deal `k` board cards off the front of the deck. */
  function Deal(s: State, k: nat): (t: State)
    requires k <= |s.deck|
    ensures t.publicCards + t.deck == s.publicCards + s.deck
  {
    s.(publicCards := s.publicCards + s.deck[..k], deck := s.deck[k..])
  }

  /** The part of `to_next_stage` both versions share: the next stage, its
      board cards, the bets collected and no bet to match. */
  function StreetChange(s: State): (u: State)
    requires DealCount(NextStage(s.stage)) <= |s.deck|
  {
    var st := NextStage(s.stage);
    Deal(s, DealCount(st)).(stage := st, minBet := 0.0,
      players := seq(|s.players|, i requires 0 <= i < |s.players| => CollectBets(s.players[i])))
  }

  /** Who acts first on the new street: the first eligible seat after the
      button, with the range indices recomputed for the new board; if no
      seat is eligible the scan goes round once and the hand is at
      showdown. */
  function SeatFirst(u: State): (t: State)
    requires |u.players| > 0
    requires !AnyEligible(u.players) ==> u.stage == Showdown
    ensures |t.players| == |u.players|
    ensures AnyEligible(u.players) ==> OpensAfter(t.players, u.button, t.currentPlayer)
    ensures !AnyEligible(u.players) ==> t == u.(currentPlayer := (u.button + 1) % |u.players|)
  {
    var from := (u.button + 1) % |u.players|;
    if !AnyEligible(u.players) then u.(currentPlayer := from)
    else
      ScanFinds(u.players, from);
      var c := ScanFrom(u.players, from, 0);
      var t := UpdateRangeIndices(u.(currentPlayer := c));
      assert OpensAfter(u.players, u.button, c);
      SameEligibleOpens(u.players, t.players, u.button, c);
      t
  }

  /** The seat `c` is where the scan from the seat after the button stops:
      it is eligible and every seat passed on the way is not. */
  predicate OpensAfter(ps: seq<PlayerState>, button: nat, c: nat)
    requires |ps| > 0
  {
    var from := (button + 1) % |ps|;
    exists j :: 0 <= j < |ps| && c == SeatAfter(from, j, |ps|) && Eligible(ps[c])
      && forall m :: 0 <= m < j ==> !Eligible(ps[SeatAfter(from, m, |ps|)])
  }

  /** Where the scan stops depends only on who is eligible. */
  lemma SameEligibleOpens(ps: seq<PlayerState>, qs: seq<PlayerState>, button: nat, c: nat)
    requires |ps| > 0 && |qs| == |ps|
    requires forall i :: 0 <= i < |ps| ==> Eligible(qs[i]) == Eligible(ps[i])
    requires OpensAfter(ps, button, c)
    ensures OpensAfter(qs, button, c)
  {
    var from := (button + 1) % |ps|;
    var j :| 0 <= j < |ps| && c == SeatAfter(from, j, |ps|) && Eligible(ps[c])
             && forall m :: 0 <= m < j ==> !Eligible(ps[SeatAfter(from, m, |ps|)]);
    assert forall m :: 0 <= m < j ==> !Eligible(qs[SeatAfter(from, m, |ps|)]);
  }

  /** `to_next_stage` as written: when nobody active has chips behind, the
      stage jumps to showdown with only this street's cards dealt. */
  function ToNextStageAsWritten(s: State): (t: State)
    requires |s.players| > 0 && DealCount(NextStage(s.stage)) <= |s.deck|
    ensures Collected(s, t)
    ensures |t.publicCards| == |s.publicCards| + DealCount(NextStage(s.stage))
    ensures AnyEligible(t.players) == AnyEligible(s.players)
    ensures AnyEligible(s.players) ==> t.stage == NextStage(s.stage) && OpensAfter(t.players, s.button, t.currentPlayer)
    ensures !AnyEligible(s.players) ==> t.stage == Showdown
  {
    var u := StreetChange(s);
    assert forall i :: 0 <= i < |s.players| ==> Eligible(u.players[i]) == Eligible(s.players[i]);
    StreetChangeCollected(s);
    if !AnyEligible(u.players) && u.stage != Showdown then u.(stage := Showdown)
    else
      SeatFirstKeeps(u);
      CollectedAfterSeat(s, u, SeatFirst(u));
      SeatFirst(u)
  }

  /** The two street changes part only where the source skips to showdown:
      when some active player has chips behind, or when the river is left,
      they agree. */
  lemma AsWrittenAgrees(s: State)
    requires |s.players| > 0 && CardsToCome(s.stage) <= |s.deck|
    requires AnyEligible(s.players) || NextStage(s.stage) == Showdown
    ensures ToNextStageAsWritten(s) == ToNextStage(s)
  {
    CardsToComeStep(s.stage);
    var u := StreetChange(s);
    assert forall i :: 0 <= i < |s.players| ==> Eligible(u.players[i]) == Eligible(s.players[i]);
  }

  /** What every street change does: the board grows from the front of
      the deck, every bet is collected with nobody's chips changing, no
      bet is left to match, and the pot, the history and the status stay. */
  predicate Collected(s: State, t: State)
  {
    && |t.players| == |s.players|
    && t.publicCards + t.deck == s.publicCards + s.deck
    && t.minBet == 0.0 && t.button == s.button
    && (forall i :: 0 <= i < |s.players| ==>
      && t.players[i].betChips == 0.0
      && t.players[i].potChips == InPlay(s.players[i])
      && Owned(t.players[i]) == Owned(s.players[i])
      && t.players[i].active == s.players[i].active
      && t.players[i].hand == s.players[i].hand
      && t.players[i].player == s.players[i].player
      && t.players[i].reward == s.players[i].reward)
    && t.pot == s.pot && t.status == s.status && t.finalState == s.finalState
    && t.actionList == s.actionList && t.fromAction == s.fromAction && t.legalActions == s.legalActions
  }

  /** `to_next_stage`, with the rest of the board dealt when nobody active
      has chips behind and the hand goes straight to showdown. The cards
      move from the deck to the board in order, every bet is collected,
      nobody's chips change, and the hand either reaches the next street
      with an eligible player to act or reaches showdown with the board
      complete. */
  function ToNextStage(s: State): (t: State)
    requires |s.players| > 0 && CardsToCome(s.stage) <= |s.deck|
    ensures Collected(s, t)
    ensures t.stage == NextStage(s.stage) || t.stage == Showdown
    ensures |t.publicCards| == |s.publicCards| +
      (if t.stage == Showdown then CardsToCome(s.stage) else DealCount(NextStage(s.stage)))
    ensures CardsToCome(t.stage) <= |t.deck|
    ensures s.currentPlayer < |s.players| ==> t.currentPlayer < |t.players|
    ensures t.stage != Showdown ==> t.currentPlayer < |t.players| && Eligible(t.players[t.currentPlayer])
    ensures t.stage == NextStage(s.stage) <==> (s.stage == River || s.stage == Showdown || AnyEligible(t.players))
    ensures AnyEligible(t.players) ==> OpensAfter(t.players, s.button, t.currentPlayer)
  {
    CardsToComeStep(s.stage);
    var u := StreetChange(s);
    assert forall i :: 0 <= i < |s.players| ==> Eligible(u.players[i]) == Eligible(s.players[i]);
    if !AnyEligible(u.players) && u.stage != Showdown then RunOut(s)
    else NextStreet(s)
  }

  /** Nobody active has chips behind before the river: the rest of the
      board is dealt and the hand is at showdown. */
  function RunOut(s: State): (t: State)
    requires |s.players| > 0 && CardsToCome(s.stage) <= |s.deck| && NextStage(s.stage) != Showdown
    requires !AnyEligible(s.players)
    ensures Collected(s, t) && t.stage == Showdown && t.currentPlayer == s.currentPlayer
    ensures |t.publicCards| == |s.publicCards| + CardsToCome(s.stage)
    ensures !AnyEligible(t.players)
  {
    CardsToComeStep(s.stage);
    var u := StreetChange(s);
    assert forall i :: 0 <= i < |s.players| ==> Eligible(u.players[i]) == Eligible(s.players[i]);
    Deal(u, CardsToCome(u.stage)).(stage := Showdown)
  }

  /** Otherwise the hand moves to the next stage, and unless that is
      showdown an eligible player opens it. */
  function NextStreet(s: State): (t: State)
    requires |s.players| > 0 && CardsToCome(s.stage) <= |s.deck|
    requires AnyEligible(s.players) || NextStage(s.stage) == Showdown
    ensures Collected(s, t) && t.stage == NextStage(s.stage)
    ensures |t.publicCards| == |s.publicCards| + DealCount(NextStage(s.stage))
    ensures CardsToCome(t.stage) <= |t.deck| && t.currentPlayer < |t.players|
    ensures AnyEligible(s.players) ==> Eligible(t.players[t.currentPlayer])
    ensures AnyEligible(t.players) == AnyEligible(s.players)
    ensures AnyEligible(s.players) ==> OpensAfter(t.players, s.button, t.currentPlayer)
    ensures !AnyEligible(s.players) ==> t.currentPlayer == (s.button + 1) % |s.players|
  {
    CardsToComeStep(s.stage);
    var u := StreetChange(s);
    assert forall i :: 0 <= i < |s.players| ==> Eligible(u.players[i]) == Eligible(s.players[i]);
    SeatFirstKeeps(u);
    StreetChangeCollected(s);
    CollectedAfterSeat(s, u, SeatFirst(u));
    SeatFirst(u)
  }

  /** The street change collects every bet. */
  lemma StreetChangeCollected(s: State)
    requires DealCount(NextStage(s.stage)) <= |s.deck|
    ensures Collected(s, StreetChange(s))
  {
  }

  /** Seating a player and refreshing range indices after the bets are
      collected leaves them collected. */
  lemma CollectedAfterSeat(s: State, u: State, t: State)
    requires Collected(s, u) && |t.players| == |u.players|
    requires t == u.(players := t.players, currentPlayer := t.currentPlayer)
    requires forall i :: 0 <= i < |u.players| ==> t.players[i] == u.players[i].(rangeIdx := t.players[i].rangeIdx)
    ensures Collected(s, t)
  {
  }

  /** Seating the first player to act changes only the seat on turn and
      the range indices, and finds an eligible seat when there is one. */
  lemma SeatFirstKeeps(u: State)
    requires |u.players| > 0
    requires !AnyEligible(u.players) ==> u.stage == Showdown
    ensures var t := SeatFirst(u);
      && t == u.(players := t.players, currentPlayer := t.currentPlayer)
      && |t.players| == |u.players| && t.currentPlayer < |t.players|
      && (forall i :: 0 <= i < |u.players| ==> t.players[i] == u.players[i].(rangeIdx := t.players[i].rangeIdx))
      && (AnyEligible(u.players) ==> Eligible(t.players[t.currentPlayer]))
  {
  }

  /** The loop `while stage != Showdown { to_next_stage() }`. */
  function SkipToShowdown(s: State): (t: State)
    requires |s.players| > 0 && CardsToCome(s.stage) <= |s.deck|
    ensures t.stage == Showdown && |t.players| == |s.players|
    ensures t.publicCards + t.deck == s.publicCards + s.deck
    ensures |t.publicCards| == |s.publicCards| + CardsToCome(s.stage)
    ensures forall i :: 0 <= i < |s.players| ==>
      && Owned(t.players[i]) == Owned(s.players[i])
      && InPlay(t.players[i]) == InPlay(s.players[i])
      && t.players[i].active == s.players[i].active
      && t.players[i].hand == s.players[i].hand
      && t.players[i].player == s.players[i].player
      && t.players[i].reward == s.players[i].reward
    ensures s.currentPlayer < |s.players| ==> t.currentPlayer < |t.players|
    ensures t.button == s.button && t.pot == s.pot && t.status == s.status && t.finalState == s.finalState
      && t.actionList == s.actionList && t.fromAction == s.fromAction && t.legalActions == s.legalActions
    decreases 4 - StageIndex(s.stage)
  {
    if s.stage == Showdown then s
    else
      var u := ToNextStage(s);
      assert StageIndex(u.stage) > StageIndex(s.stage);
      SkipToShowdown(u)
  }

  /** The same loop over `to_next_stage` as written. */
  function SkipToShowdownAsWritten(s: State): (t: State)
    requires |s.players| > 0 && CardsToCome(s.stage) <= |s.deck|
    ensures t.stage == Showdown
    decreases 4 - StageIndex(s.stage)
  {
    if s.stage == Showdown then s
    else
      CardsToComeStep(s.stage);
      var u := ToNextStageAsWritten(s);
      assert u.stage == NextStage(s.stage) || u.stage == Showdown;
      assert |u.deck| == |s.deck| - DealCount(NextStage(s.stage));
      SkipToShowdownAsWritten(u)
  }

  /** As written, players all in before the flop reach showdown with only
      the flop on the board: the turn and river are never dealt. */
  lemma AllInPreflopAsWritten(s: State)
    requires |s.players| > 0 && s.stage == Preflop && 5 <= |s.deck|
    requires forall i :: 0 <= i < |s.players| ==> !Eligible(s.players[i])
    ensures |SkipToShowdownAsWritten(s).publicCards| == |s.publicCards| + 3
  {
    var u := StreetChange(s);
    assert forall i :: 0 <= i < |s.players| ==> !Eligible(u.players[i]);
    assert ToNextStageAsWritten(s) == u.(stage := Showdown);
  }

  // ----- Showdown -----

  /** The active players, in seat order. */
  function ActivePlayers(ps: seq<PlayerState>): (r: seq<PlayerState>)
    ensures forall p :: p in r <==> p in ps && p.active
  {
    if |ps| == 0 then []
    else
      var last := ps[|ps| - 1];
      assert ps == ps[..|ps| - 1] + [last];
      ActivePlayers(ps[..|ps| - 1]) + (if last.active then [last] else [])
  }

  predicate IdsIncreasing(ps: seq<PlayerState>)
  {
    forall i, j :: 0 <= i < j < |ps| ==> ps[i].player < ps[j].player
  }

  /** Appending a player with a larger id keeps ids increasing. */
  lemma IncreasingSnoc(ps: seq<PlayerState>, p: PlayerState)
    requires IdsIncreasing(ps) && forall q :: q in ps ==> q.player < p.player
    ensures IdsIncreasing(ps + [p])
  {
    forall i | 0 <= i < |ps| ensures ps[i].player < p.player {
      assert ps[i] in ps;
    }
  }

  /** Filtering keeps the ids increasing. */
  lemma {:induction false} ActiveIncreasing(ps: seq<PlayerState>)
    requires IdsIncreasing(ps)
    ensures IdsIncreasing(ActivePlayers(ps))
    decreases |ps|
  {
    if |ps| > 0 {
      var n := |ps|;
      var last := ps[n - 1];
      ActiveIncreasing(ps[..n - 1]);
      assert ActivePlayers(ps) == ActivePlayers(ps[..n - 1]) + (if last.active then [last] else []);
      if last.active {
        ActiveBelowLast(ps);
        IncreasingSnoc(ActivePlayers(ps[..n - 1]), last);
      }
    }
  }

  /** With increasing ids, every active player before the last seat has a
      smaller id than it. */
  lemma ActiveBelowLast(ps: seq<PlayerState>)
    requires IdsIncreasing(ps) && |ps| > 0
    ensures forall q :: q in ActivePlayers(ps[..|ps| - 1]) ==> q.player < ps[|ps| - 1].player
  {
    forall q | q in ActivePlayers(ps[..|ps| - 1]) ensures q.player < ps[|ps| - 1].player {
      var i :| 0 <= i < |ps| - 1 && ps[..|ps| - 1][i] == q;
    }
  }

  /** Seat-numbered players are in increasing id order, every id a seat. */
  lemma SeatNumberedIncreasing(ps: seq<PlayerState>)
    requires SeatNumbered(ps)
    ensures IdsIncreasing(ps) && forall p :: p in ps ==> p.player < |ps|
  {
  }

  /** Each active player's hand score on the board. */
  function Ranks(active: seq<PlayerState>, board: seq<Card>): (r: seq<Score>)
    requires |board| >= 3
    ensures |r| == |active| && forall i :: 0 <= i < |active| ==> r[i] == RankHand(active[i].hand, board)
  {
    seq(|active|, i requires 0 <= i < |active| => RankHand(active[i].hand, board))
  }

  /** The ids of the players whose score is `m`, in seat order. */
  function WinnerIds(active: seq<PlayerState>, ranks: seq<Score>, m: Score): (r: seq<nat>)
    requires |ranks| == |active|
    ensures forall x :: x in r <==> exists i :: 0 <= i < |active| && active[i].player == x && ranks[i] == m
  {
    if |active| == 0 then []
    else
      var n := |active|;
      var rest := WinnerIds(active[..n - 1], ranks[..n - 1], m);
      assert forall i :: 0 <= i < n - 1 ==> active[..n - 1][i] == active[i] && ranks[..n - 1][i] == ranks[i];
      rest + (if ranks[n - 1] == m then [active[n - 1].player] else [])
  }

  /** Winner ids come out in increasing order, so without repeats. */
  lemma {:induction false} WinnerIdsDistinct(active: seq<PlayerState>, ranks: seq<Score>, m: Score)
    requires |ranks| == |active| && IdsIncreasing(active)
    ensures Distinct(WinnerIds(active, ranks, m))
    ensures forall x :: x in WinnerIds(active, ranks, m) ==> x <= active[|active| - 1].player
    decreases |active|
  {
    if |active| > 0 {
      var n := |active|;
      var rest := WinnerIds(active[..n - 1], ranks[..n - 1], m);
      assert IdsIncreasing(active[..n - 1]);
      WinnerIdsDistinct(active[..n - 1], ranks[..n - 1], m);
      if n > 1 {
        assert active[n - 2].player < active[n - 1].player;
      }
      forall x | x in rest ensures x < active[n - 1].player {
        var i :| 0 <= i < n - 1 && active[..n - 1][i].player == x && ranks[..n - 1][i] == m;
      }
      var r := WinnerIds(active, ranks, m);
      assert r == rest + (if ranks[n - 1] == m then [active[n - 1].player] else []);
      forall i, j | 0 <= i < j < |r| ensures r[i] != r[j] {
        if j < |rest| {
          assert r[i] == rest[i] && r[j] == rest[j];
        } else {
          assert r[i] == rest[i] && rest[i] in rest;
        }
      }
    }
  }

  /** Rust's tuple order is total and antisymmetric. */
  lemma ScoreOrder(a: Score, b: Score)
    ensures ScoreLe(a, b) || ScoreLe(b, a)
    ensures ScoreLe(a, b) && ScoreLe(b, a) ==> a == b
  {
  }

  /** The smallest score is the one no other score is below. */
  lemma MinIsBest(ranks: seq<Score>)
    requires |ranks| > 0
    ensures forall i :: 0 <= i < |ranks| ==>
      (ranks[i] == MinScore(ranks) <==> forall j :: 0 <= j < |ranks| ==> ScoreLe(ranks[i], ranks[j]))
  {
    var m := MinScore(ranks);
    forall i | 0 <= i < |ranks|
      ensures ranks[i] == m <==> forall j :: 0 <= j < |ranks| ==> ScoreLe(ranks[i], ranks[j])
    {
      var k :| 0 <= k < |ranks| && ranks[k] == m;
      ScoreOrder(ranks[i], m);
    }
  }

  /** The winners at showdown: the active players whose best five-card
      score is the smallest, so that no active player beats a winner and
      every player who ties the best is a winner. */
  function ShowdownWinners(active: seq<PlayerState>, board: seq<Card>): (ws: seq<nat>)
    requires |board| >= 3 && |active| > 0
    ensures |ws| > 0
    ensures forall x :: x in ws <==> exists i :: (0 <= i < |active| && active[i].player == x
      && forall j :: 0 <= j < |active| ==> ScoreLe(Ranks(active, board)[i], Ranks(active, board)[j]))
  {
    var ranks := Ranks(active, board);
    BestIds(active, ranks);
    WinnerIds(active, ranks, MinScore(ranks))
  }

  lemma BestIds(active: seq<PlayerState>, ranks: seq<Score>)
    requires |ranks| == |active| > 0
    ensures |WinnerIds(active, ranks, MinScore(ranks))| > 0
    ensures forall x :: x in WinnerIds(active, ranks, MinScore(ranks)) <==> exists i :: (0 <= i < |active| && active[i].player == x
      && forall j :: 0 <= j < |active| ==> ScoreLe(ranks[i], ranks[j]))
  {
    var m := MinScore(ranks);
    var k :| 0 <= k < |ranks| && ranks[k] == m;
    MinIsBest(ranks);
    assert active[k].player in WinnerIds(active, ranks, m);
  }
}

=== FILE: rust_engine.dfy ===
/** The Rust engine's two entry points: `from_deck`, which seats the
    players, posts the blinds and deals the hole cards, and `apply_action`,
    which carries out one action and moves the hand on. */
module RustEngine {
  import opened Wrappers
  import opened Cards
  import opened RustState
  import opened HandClassifier
  import opened RustBetting

  /** An all-in threshold: fewer chips than this behind count as none. */
  const MinMeaningfulStake: real := 1.0

  /** The next seat round a table of `n`, (b + 1) mod n for a seat b. */
  function NextSeat(b: nat, n: nat): (r: nat)
    requires b < n
    ensures r < n
  {
    if b + 1 < n then b + 1 else 0
  }

  // ----- from_deck -----

  const MsgPlayers := "The number of players must be 2 or more"
  const MsgButton := "The button must be between the players"
  const MsgDeck := "The number of cards in the deck must be at least 2*n_players"
  const MsgSmallBlind := "The small blind must be greater than 0"
  const MsgBlinds := "The small blind must be smaller or equal than the big blind"
  const MsgStake := "The stake must be greater or equal than the big blind"

  /** The blind a seat posts: the small blind after the button, the big
      blind after that, nothing elsewhere. */
  function Blind(p: nat, button: nat, n: nat, sb: real, bb: real): real
    requires p < n && button < n
  {
    if p == NextSeat(button, n) then sb
    else if p == NextSeat(NextSeat(button, n), n) then bb
    else 0.0
  }

  /** The order a seat is dealt in: the seat after the button first. */
  function DealOrder(p: nat, button: nat, n: nat): (i: nat)
    requires p < n && button < n
    ensures i < n
  {
    if p > button then p - button - 1 else p + n - button - 1
  }

  /** The seat dealt in `DealOrder` position i is seat p. */
  lemma DealOrderOnto(button: nat, n: nat, i: nat)
    requires button < n && i < n
    ensures exists p: nat :: p < n && DealOrder(p, button, n) == i
  {
    var p := if button + 1 + i < n then button + 1 + i else button + 1 + i - n;
    assert DealOrder(p, button, n) == i;
  }

  /** Seat p's state after the deal: two cards from the deck in dealing
      order, the blind in front, the rest behind. */
  function Seated(p: nat, button: nat, n: nat, sb: real, bb: real, stake: real, deck: seq<Card>): PlayerState
    requires p < n && button < n && 2 * n <= |deck|
  {
    var i := DealOrder(p, button, n);
    var chips := Blind(p, button, n, sb, bb);
    PlayerState(p, (deck[2 * i], deck[2 * i + 1]), chips, 0.0, stake - chips, 0.0, true, -1, None)
  }

  /** The seats after the deal, listed by seat number. */
  function SeatAll(n: nat, button: nat, sb: real, bb: real, stake: real, deck: seq<Card>): (ps: seq<PlayerState>)
    requires 2 <= n && button < n && 2 * n <= |deck|
    ensures |ps| == n && SeatNumbered(ps)
    ensures forall p :: 0 <= p < n ==> ps[p] == Seated(p, button, n, sb, bb, stake, deck)
    ensures Total(ps, InPlay) == sb + bb
    ensures Total(ps, Owned) == Stacks(n, stake)
  {
    var ps := seq(n, p requires 0 <= p < n => Seated(p, button, n, sb, bb, stake, deck));
    BlindsTotal(ps, button, n, sb, bb, stake, deck);
    SeatsOwnStake(ps, stake);
    ps
  }

  /** The table `from_deck` builds from the seats, before its range
      indices are computed: no board, the blinds in the pot, the big blind
      as the bet to match and the seat after it on turn. */
  function Opening(n: nat, button: nat, sb: real, bb: real, stake: real, deck: seq<Card>): (s: State)
    requires 2 <= n && button < n && 2 * n <= |deck|
    ensures |s.players| == n
  {
    State(NextSeat(NextSeat(NextSeat(button, n), n), n), SeatAll(n, button, sb, bb, stake, deck), [], Preflop,
          button, None, [], [], deck[2 * n..], sb + bb, bb, false, StateStatus.Ok)
  }

  /** The table `from_deck` returns once its arguments pass: the opening
      table with its range indices and legal actions filled in. */
  function Dealt(n: nat, button: nat, sb: real, bb: real, stake: real, deck: seq<Card>): (t: State)
    requires 2 <= n && button < n && 2 * n <= |deck|
    ensures |t.players| == n
  {
    var u := UpdateRangeIndices(Opening(n, button, sb, bb, stake, deck));
    u.(legalActions := LegalActions(u))
  }

  /** The opening pot holds the blinds, which are all the chips in front,
      and the seats own n stakes. */
  lemma OpeningTotals(n: nat, button: nat, sb: real, bb: real, stake: real, deck: seq<Card>)
    requires 2 <= n && button < n && 2 * n <= |deck|
    ensures var s := Opening(n, button, sb, bb, stake, deck);
      && s.pot == sb + bb && Total(s.players, InPlay) == sb + bb
      && Total(s.players, Owned) == Stacks(n, stake)
  {
  }

  /** Filling in the range indices and legal actions changes no other
      field and nothing of a player but the range index. */
  lemma DealtFromOpening(n: nat, button: nat, sb: real, bb: real, stake: real, deck: seq<Card>)
    requires 2 <= n && button < n && 2 * n <= |deck|
    ensures Refilled(Opening(n, button, sb, bb, stake, deck), Dealt(n, button, sb, bb, stake, deck))
  {
  }

  /** `t` is `s` with new range indices and its legal actions listed. */
  predicate Refilled(s: State, t: State)
  {
    && |t.players| == |s.players|
    && t == s.(players := t.players, legalActions := t.legalActions)
    && t.currentPlayer < |t.players| && t.legalActions == LegalActions(t)
    && forall p :: 0 <= p < |s.players| ==> t.players[p] == s.players[p].(rangeIdx := t.players[p].rangeIdx)
  }

  /** Refilling keeps the seat numbers and the hole cards. */
  lemma RefilledHands(s: State, t: State, button: nat, deck: seq<Card>)
    requires Refilled(s, t) && SeatNumbered(s.players) && HoleCardsDealt(s.players, button, deck)
    ensures SeatNumbered(t.players) && HoleCardsDealt(t.players, button, deck)
  {
  }

  /** Refilling keeps every player's chips. */
  lemma RefilledChips(s: State, t: State, stake: real)
    requires Refilled(s, t) && StakesSplit(s.players, stake)
    ensures StakesSplit(t.players, stake)
    ensures forall p :: 0 <= p < |t.players| ==> t.players[p].betChips == s.players[p].betChips
  {
  }

  /** Refilling keeps the pot and the chip totals. */
  lemma RefilledTotals(s: State, t: State)
    requires Refilled(s, t)
    ensures t.pot == s.pot
    ensures Total(t.players, InPlay) == Total(s.players, InPlay)
    ensures Total(t.players, Owned) == Total(s.players, Owned)
  {
    TotalSame(s.players, t.players, InPlay, InPlay);
    TotalSame(s.players, t.players, Owned, Owned);
  }

  /** Each seat holds two cards from the front of the deck: the seat
      dealt i-th, walking round from the seat after the button, holds
      cards 2i and 2i + 1. */
  predicate HoleCardsDealt(ps: seq<PlayerState>, button: nat, deck: seq<Card>)
  {
    && button < |ps| && 2 * |ps| <= |deck|
    && forall p :: 0 <= p < |ps| ==>
         ps[p].hand == (deck[2 * DealOrder(p, button, |ps|)], deck[2 * DealOrder(p, button, |ps|) + 1])
  }

  /** The opening seats are numbered and dealt from the front of the
      deck. */
  lemma OpeningHands(n: nat, button: nat, sb: real, bb: real, stake: real, deck: seq<Card>)
    requires 2 <= n && button < n && 2 * n <= |deck|
    ensures var ps := SeatAll(n, button, sb, bb, stake, deck);
      SeatNumbered(ps) && HoleCardsDealt(ps, button, deck)
  {
  }

  /** The deal lists the players by seat and deals their hole cards from
      the front of the deck. */
  lemma DealtHands(n: nat, button: nat, sb: real, bb: real, stake: real, deck: seq<Card>)
    requires 2 <= n && button < n && 2 * n <= |deck|
    ensures var t := Dealt(n, button, sb, bb, stake, deck);
      SeatNumbered(t.players) && HoleCardsDealt(t.players, button, deck)
  {
    DealtFromOpening(n, button, sb, bb, stake, deck);
    OpeningHands(n, button, sb, bb, stake, deck);
    RefilledHands(Opening(n, button, sb, bb, stake, deck), Dealt(n, button, sb, bb, stake, deck), button, deck);
  }

  /** Every player is in, with nothing in the pot from earlier streets,
      no reward yet, and the stake split between the bet in front and the
      chips behind. */
  predicate StakesSplit(ps: seq<PlayerState>, stake: real)
  {
    forall p :: 0 <= p < |ps| ==>
      ps[p].betChips + ps[p].stake == stake && ps[p].active && ps[p].potChips == 0.0 && ps[p].reward == 0.0
  }

  /** The opening seats split their stakes and the two seats after the
      button post the blinds. */
  lemma OpeningChips(n: nat, button: nat, sb: real, bb: real, stake: real, deck: seq<Card>)
    requires 2 <= n && button < n && 2 * n <= |deck|
    ensures var ps := SeatAll(n, button, sb, bb, stake, deck);
      && StakesSplit(ps, stake)
      && ps[NextSeat(button, n)].betChips == sb
      && ps[NextSeat(NextSeat(button, n), n)].betChips == bb
  {
    var s1 := NextSeat(button, n);
    var s2 := NextSeat(s1, n);
    assert Seated(s1, button, n, sb, bb, stake, deck).betChips == sb;
    assert Seated(s2, button, n, sb, bb, stake, deck).betChips == bb;
  }

  /** After the deal every player is in with the stake split between the
      blind and what is behind, and the two seats after the button post
      the small and the big blind. */
  lemma DealtChips(n: nat, button: nat, sb: real, bb: real, stake: real, deck: seq<Card>)
    requires 2 <= n && button < n && 2 * n <= |deck|
    ensures var t := Dealt(n, button, sb, bb, stake, deck);
      && StakesSplit(t.players, stake)
      && t.players[NextSeat(button, n)].betChips == sb
      && t.players[NextSeat(NextSeat(button, n), n)].betChips == bb
  {
    DealtFromOpening(n, button, sb, bb, stake, deck);
    OpeningChips(n, button, sb, bb, stake, deck);
    RefilledChips(Opening(n, button, sb, bb, stake, deck), Dealt(n, button, sb, bb, stake, deck), stake);
  }

  /** The pot holds exactly the blinds, which are all the chips in front,
      and the table holds n stakes. */
  lemma DealtPot(n: nat, button: nat, sb: real, bb: real, stake: real, deck: seq<Card>)
    requires 2 <= n && button < n && 2 * n <= |deck|
    ensures var t := Dealt(n, button, sb, bb, stake, deck);
      && t.pot == sb + bb && t.pot == Total(t.players, InPlay)
      && Total(t.players, Owned) == Stacks(n, stake)
  {
    DealtFromOpening(n, button, sb, bb, stake, deck);
    OpeningTotals(n, button, sb, bb, stake, deck);
    RefilledTotals(Opening(n, button, sb, bb, stake, deck), Dealt(n, button, sb, bb, stake, deck));
  }

  /** The hand opens preflop with no board, the rest of the deck kept, the
      big blind as the bet to match, the seat after the big blind on turn
      and its legal actions listed. */
  lemma DealtTurn(n: nat, button: nat, sb: real, bb: real, stake: real, deck: seq<Card>)
    requires 2 <= n && button < n && 2 * n <= |deck|
    ensures var t := Dealt(n, button, sb, bb, stake, deck);
      && t.stage == Preflop && t.publicCards == [] && t.button == button && t.deck == deck[2 * n..]
      && t.minBet == bb && t.currentPlayer == NextSeat(NextSeat(NextSeat(button, n), n), n)
      && t.legalActions == LegalActions(t)
      && t.status == StateStatus.Ok && !t.finalState && t.actionList == [] && t.fromAction == None
  {
    DealtFromOpening(n, button, sb, bb, stake, deck);
  }

  /** After the deal every player owns exactly the stake, and the hand is
      at its start with a seated player to act. */
  lemma DealtStarts(n: nat, button: nat, sb: real, bb: real, stake: real, deck: seq<Card>)
    requires 2 <= n && button < n && 2 * n <= |deck|
    ensures var t := Dealt(n, button, sb, bb, stake, deck);
      && |t.players| == n && t.button == button && t.currentPlayer < n
      && t.stage == Preflop && !t.finalState
      && forall i :: 0 <= i < n ==> Owned(t.players[i]) == stake
  {
    DealtTurn(n, button, sb, bb, stake, deck);
    DealtChips(n, button, sb, bb, stake, deck);
  }

  /** A deal that leaves five cards for the board satisfies the hand
      invariant. */
  lemma DealtWellFormed(n: nat, button: nat, sb: real, bb: real, stake: real, deck: seq<Card>)
    requires 2 <= n && button < n && 2 * n <= |deck|
    ensures 2 * n + 5 <= |deck| ==> WellFormed(Dealt(n, button, sb, bb, stake, deck))
  {
    DealtHands(n, button, sb, bb, stake, deck);
    DealtChips(n, button, sb, bb, stake, deck);
    DealtPot(n, button, sb, bb, stake, deck);
    DealtTurn(n, button, sb, bb, stake, deck);
    StartWellFormed(Dealt(n, button, sb, bb, stake, deck));
  }

  /** A freshly dealt table with five cards left for the board is well
      formed. */
  lemma StartWellFormed(t: State)
    requires |t.players| >= 2 && SeatNumbered(t.players) && forall i :: 0 <= i < |t.players| ==> t.players[i].active
    requires t.currentPlayer < |t.players| && t.button < |t.players|
    requires t.stage == Preflop && t.publicCards == [] && t.status == StateStatus.Ok && !t.finalState
    requires t.pot == Total(t.players, InPlay) && t.legalActions == LegalActions(t)
    ensures 5 <= |t.deck| ==> WellFormed(t)
  {
    TwoActiveSeats(t.players, 0, 1);
  }

  /** `from_deck`: the arguments are checked in the source's order, each
      failure with the source's message; once they pass, the table is the
      deal `Dealt` describes. */
  function FromDeck(n: nat, button: nat, sb: real, bb: real, stake: real, deck: seq<Card>)
    : (r: Result<State, string>)
    ensures r.Err? <==> n < 2 || button >= n || |deck| < 2 * n || sb < 0.0 || bb < sb || stake < bb
    ensures n < 2 ==> r == Wrappers.Err(MsgPlayers)
    ensures n >= 2 && button >= n ==> r == Wrappers.Err(MsgButton)
    ensures n >= 2 && button < n && |deck| < 2 * n ==> r == Wrappers.Err(MsgDeck)
    ensures n >= 2 && button < n && |deck| >= 2 * n && sb < 0.0 ==> r == Wrappers.Err(MsgSmallBlind)
    ensures n >= 2 && button < n && |deck| >= 2 * n && sb >= 0.0 && bb < sb ==> r == Wrappers.Err(MsgBlinds)
    ensures r.Ok? ==> r.value == Dealt(n, button, sb, bb, stake, deck)
    ensures r.Ok? && 2 * n + 5 <= |deck| ==> WellFormed(r.value)
  {
    if n < 2 then Wrappers.Err(MsgPlayers)
    else if button >= n then Wrappers.Err(MsgButton)
    else if |deck| < 2 * n then Wrappers.Err(MsgDeck)
    else if sb < 0.0 then Wrappers.Err(MsgSmallBlind)
    else if bb < sb then Wrappers.Err(MsgBlinds)
    else if stake < bb then Wrappers.Err(MsgStake)
    else
      DealtWellFormed(n, button, sb, bb, stake, deck);
      Wrappers.Ok(Dealt(n, button, sb, bb, stake, deck))
  }

  /** The blinds are the only chips in front after the deal. */
  lemma BlindsTotal(players: seq<PlayerState>, button: nat, n: nat, sb: real, bb: real, stake: real, deck: seq<Card>)
    requires 2 <= n && button < n && 2 * n <= |deck|
    requires players == seq(n, p requires 0 <= p < n => Seated(p, button, n, sb, bb, stake, deck))
    ensures Total(players, InPlay) == sb + bb
  {
    var s1 := NextSeat(button, n);
    var s2 := NextSeat(s1, n);
    assert s1 != s2;
    var f := (p: PlayerState) => if p.player == s1 then sb else if p.player == s2 then bb else 0.0;
    TotalSame(players, players, InPlay, f);
    TwoSeats(players, s1, s2, sb, bb, f);
  }

  /** A column that is `x` at seat a, `y` at seat b and zero elsewhere sums
      to x + y. */
  lemma TwoSeats(ps: seq<PlayerState>, a: nat, b: nat, x: real, y: real, f: PlayerState -> real)
    requires SeatNumbered(ps) && a < |ps| && b < |ps| && a != b
    requires forall p :: f(p) == if p.player == a then x else if p.player == b then y else 0.0
    ensures Total(ps, f) == x + y
  {
    var c := Col(ps, f);
    assert c == seq(|ps|, i requires 0 <= i < |ps| => if i == a then x else if i == b then y else 0.0);
    var zeros := seq(|ps|, i requires 0 <= i < |ps| => 0.0);
    ZerosSum(|ps|);
    assert c == zeros[a := x][b := y];
    SumRUpdate(zeros, a, x);
    SumRUpdate(zeros[a := x], b, y);
  }

  lemma {:induction false} ZerosSum(n: nat)
    ensures SumR(seq(n, i requires 0 <= i < n => 0.0)) == 0.0
  {
    if n > 0 {
      ZerosSum(n - 1);
      assert seq(n, i requires 0 <= i < n => 0.0)[..n - 1] == seq(n - 1, i requires 0 <= i < n - 1 => 0.0);
    }
  }

  // ----- The states the engine reaches -----

  /** The shape every state from `from_deck` keeps: at least two seats
      numbered by position, the player to act and the button seated, the
      board as long as the stage says and enough cards left to finish it. */
  predicate Shaped(s: State)
  {
    && |s.players| >= 2 && SeatNumbered(s.players)
    && s.currentPlayer < |s.players| && s.button < |s.players|
    && |s.publicCards| + CardsToCome(s.stage) == 5
    && CardsToCome(s.stage) <= |s.deck|
  }

  /** A shaped state where a hand still in progress has two players in it,
      a pot holding exactly the chips committed and its legal actions up to
      date, and a finished hand's rewards add up to zero. */
  predicate WellFormed(s: State)
  {
    && Shaped(s)
    && (s.status == StateStatus.Ok && !s.finalState ==>
          && |ActivePlayers(s.players)| >= 2
          && s.pot == Total(s.players, InPlay)
          && s.legalActions == LegalActions(s))
    && (s.status == StateStatus.Ok && s.finalState ==> Total(s.players, RewardOf) == 0.0)
  }

  /** Two active seats make at least two active players. */
  lemma TwoActiveSeats(ps: seq<PlayerState>, i: nat, j: nat)
    requires SeatNumbered(ps) && i < j < |ps| && ps[i].active && ps[j].active
    ensures |ActivePlayers(ps)| >= 2
  {
    var r := ActivePlayers(ps);
    assert ps[i] in r && ps[j] in r;
    var k :| 0 <= k < |r| && r[k] == ps[i];
    var m :| 0 <= m < |r| && r[m] == ps[j];
    assert r[k].player != r[m].player;
  }

  /** Among seat-numbered players, the active ones are listed by seat, and
      each sits at the seat its id names. */
  lemma ActiveFacts(ps: seq<PlayerState>)
    requires SeatNumbered(ps)
    ensures var r := ActivePlayers(ps);
      && IdsIncreasing(r)
      && forall p :: p in r ==> p.player < |ps| && ps[p.player] == p && p.active
  {
    SeatNumberedIncreasing(ps);
    ActiveIncreasing(ps);
    forall p | p in ActivePlayers(ps) ensures p.player < |ps| && ps[p.player] == p {
      var i :| 0 <= i < |ps| && ps[i] == p;
    }
  }

  /** With two players active, one of them sits at a seat other than c. */
  lemma OtherActive(ps: seq<PlayerState>, c: nat)
    requires SeatNumbered(ps) && |ActivePlayers(ps)| >= 2
    ensures exists k :: 0 <= k < |ps| && k != c && ps[k].active
  {
    var r := ActivePlayers(ps);
    ActiveFacts(ps);
    assert r[0] in r && r[1] in r;
    if r[0].player != c {
      assert ps[r[0].player].active;
    } else {
      assert ps[r[1].player].active;
    }
  }

  /** The number of active players depends only on who is active. */
  lemma {:induction false} ActiveCountSame(ps: seq<PlayerState>, qs: seq<PlayerState>)
    requires |ps| == |qs| && forall i :: 0 <= i < |ps| ==> ps[i].active == qs[i].active
    ensures |ActivePlayers(ps)| == |ActivePlayers(qs)|
    decreases |ps|
  {
    if |ps| > 0 {
      ActiveCountSame(ps[..|ps| - 1], qs[..|qs| - 1]);
    }
  }

  // ----- apply_action -----

  /** What `apply_action` records for an action. */
  function Record(s: State, a: Action): ActionRecord
  {
    ActionRecord(s.currentPlayer, a, s.stage, s.legalActions)
  }

  /** A player with chips enough to matter: at least one chip behind and,
      once something is bet, at least a twentieth of the bet (and still one
      chip). */
  predicate HasMeaningfulStake(p: PlayerState)
  {
    && p.stake >= MinMeaningfulStake
    && (p.betChips > 0.0 ==> p.stake >= (if p.betChips * 0.05 > MinMeaningfulStake then p.betChips * 0.05 else MinMeaningfulStake))
  }

  /** A player with a meaningful stake can still put chips in. */
  lemma MeaningfulEligible(ps: seq<PlayerState>, p: PlayerState)
    requires p in ActivePlayers(ps) && HasMeaningfulStake(p)
    ensures AnyEligible(ps)
  {
    var i :| 0 <= i < |ps| && ps[i] == p;
  }

  /** The largest bet in front of the players, starting from zero. */
  function MaxBet(ps: seq<PlayerState>): (m: real)
    ensures m >= 0.0 && forall p :: p in ps ==> p.betChips <= m
    ensures m == 0.0 || exists p :: p in ps && p.betChips == m
  {
    if |ps| == 0 then 0.0
    else
      var rest := MaxBet(ps[..|ps| - 1]);
      var last := ps[|ps| - 1];
      assert ps == ps[..|ps| - 1] + [last];
      if last.betChips > rest then last.betChips else rest
  }

  /** How many players have chips behind. */
  function WithChips(ps: seq<PlayerState>): (k: nat)
    ensures k <= |ps|
    ensures k == 0 <==> forall p :: p in ps ==> p.stake <= 0.0
  {
    if |ps| == 0 then 0
    else
      var last := ps[|ps| - 1];
      assert ps == ps[..|ps| - 1] + [last];
      WithChips(ps[..|ps| - 1]) + (if last.stake > 0.0 then 1 else 0)
  }

  /** A showdown: the active players with the best five-card score share
      what everyone else committed, and the hand is over. */
  function AwardShowdown(w: State, active: seq<PlayerState>): (t: State)
    requires SeatNumbered(w.players) && |w.publicCards| >= 3 && |active| > 0
    requires IdsIncreasing(active) && forall p :: p in active ==> p.player < |w.players|
    ensures t.finalState && |t.players| == |w.players| && SeatNumbered(t.players)
    ensures t == w.(players := t.players, finalState := true) && Follows(w, t)
    ensures Total(t.players, RewardOf) == 0.0
    ensures forall i :: 0 <= i < |w.players| ==> t.players[i].hand == w.players[i].hand && !t.players[i].active
  {
    WinnersSeated(active, w.publicCards, |w.players|);
    Payout(w, ShowdownWinners(active, w.publicCards))
  }

  /** The one player left after everyone else folded takes the pot. */
  function LastStanding(x: State, winner: nat): (t: State)
    requires SeatNumbered(x.players) && winner < |x.players|
    ensures t.finalState && |t.players| == |x.players| && SeatNumbered(t.players)
    ensures t == x.(players := t.players, finalState := true) && Follows(x, t)
    ensures Total(t.players, RewardOf) == 0.0
    ensures forall i :: 0 <= i < |x.players| ==> t.players[i].hand == x.players[i].hand && !t.players[i].active
    ensures forall i :: 0 <= i < |x.players| && i != winner ==> t.players[i].reward == -InPlay(x.players[i])
    ensures t.players[winner].reward == Total(x.players, LostBy([winner]))
  {
    Payout(x, [winner])
  }

  /** `set_winners` on distinct seated winners: the hand is over, nobody
      stays in, and the rewards add up to zero. */
  function Payout(x: State, ws: seq<nat>): (t: State)
    requires SeatNumbered(x.players) && |ws| > 0 && Distinct(ws) && forall w :: w in ws ==> w < |x.players|
    ensures t.finalState && |t.players| == |x.players| && SeatNumbered(t.players)
    ensures t == x.(players := t.players, finalState := true) && Follows(x, t)
    ensures Total(t.players, RewardOf) == 0.0
    ensures forall i :: 0 <= i < |x.players| ==> t.players[i].hand == x.players[i].hand && !t.players[i].active
    ensures forall i :: 0 <= i < |x.players| && i !in ws ==> t.players[i].reward == -InPlay(x.players[i])
    ensures forall i :: 0 <= i < |x.players| && i in ws ==> t.players[i].reward * (|ws| as real) == Total(x.players, LostBy(ws))
  {
    SetWinnersZeroSum(x, ws);
    SetWinners(x, ws)
  }

  /** The showdown winners are distinct seated players. */
  lemma WinnersSeated(active: seq<PlayerState>, board: seq<Card>, n: nat)
    requires |board| >= 3 && |active| > 0
    requires IdsIncreasing(active) && forall p :: p in active ==> p.player < n
    ensures var ws := ShowdownWinners(active, board);
      Distinct(ws) && forall x :: x in ws ==> x < n
  {
    var ranks := Ranks(active, board);
    WinnerIdsSeated(active, ranks, MinScore(ranks), n);
  }

  /** The players with a given score are distinct seated players. */
  lemma WinnerIdsSeated(active: seq<PlayerState>, ranks: seq<Score>, m: Score, n: nat)
    requires |ranks| == |active|
    requires IdsIncreasing(active) && forall p :: p in active ==> p.player < n
    ensures var ws := WinnerIds(active, ranks, m);
      Distinct(ws) && forall x :: x in ws ==> x < n
  {
    WinnerIdsDistinct(active, ranks, m);
    var ws := WinnerIds(active, ranks, m);
    forall x | x in ws ensures x < n {
      var k :| 0 <= k < |active| && active[k].player == x;
      assert active[k] in active;
    }
  }

  // ----- The phases of apply_action -----

  /** `t` carries on the hand `v` was in: the same seats, hands and button,
      the same cards between board and deck, a stage no earlier and the
      same history. */
  predicate Follows(v: State, t: State)
  {
    && |t.players| == |v.players| && t.button == v.button
    && (forall i :: 0 <= i < |v.players| ==>
          t.players[i].hand == v.players[i].hand && t.players[i].player == v.players[i].player)
    && t.publicCards + t.deck == v.publicCards + v.deck
    && StageIndex(v.stage) <= StageIndex(t.stage)
    && t.actionList == v.actionList && t.fromAction == v.fromAction
  }

  /** `to_next_stage` keeps the state's shape, every player's chips and
      who is in the hand. */
  lemma NextStageKeeps(v: State)
    requires Shaped(v)
    ensures var w := ToNextStage(v);
      && Shaped(w) && Follows(v, w)
      && Total(w.players, InPlay) == Total(v.players, InPlay)
      && Total(w.players, Owned) == Total(v.players, Owned)
      && |ActivePlayers(w.players)| == |ActivePlayers(v.players)|
  {
    CardsToComeStep(v.stage);
    CollectedKeeps(v, ToNextStage(v));
  }

  /** Collecting the bets keeps the seat numbers and hands, every chip
      committed or owned, and who is in the hand. */
  lemma CollectedKeeps(v: State, w: State)
    requires Collected(v, w)
    ensures SeatNumbered(v.players) ==> SeatNumbered(w.players)
    ensures forall i :: 0 <= i < |v.players| ==>
      w.players[i].hand == v.players[i].hand && w.players[i].player == v.players[i].player
    ensures Total(w.players, InPlay) == Total(v.players, InPlay)
    ensures Total(w.players, Owned) == Total(v.players, Owned)
    ensures |ActivePlayers(w.players)| == |ActivePlayers(v.players)|
  {
    TotalSame(v.players, w.players, InPlay, InPlay);
    TotalSame(v.players, w.players, Owned, Owned);
    ActiveCountSame(v.players, w.players);
  }

  /** So does running the streets out to showdown. */
  lemma SkipKeeps(v: State)
    requires Shaped(v)
    ensures Shaped(SkipToShowdown(v)) && Follows(v, SkipToShowdown(v))
    ensures SkipToShowdown(v).stage == Showdown && |SkipToShowdown(v).publicCards| == 5
    ensures Total(SkipToShowdown(v).players, InPlay) == Total(v.players, InPlay)
    ensures Total(SkipToShowdown(v).players, Owned) == Total(v.players, Owned)
  {
    SkipShaped(v);
    SameChips(v.players, SkipToShowdown(v).players);
  }

  /** Running the streets out keeps the state's shape and completes the
      board. */
  lemma SkipShaped(v: State)
    requires Shaped(v)
    ensures Shaped(SkipToShowdown(v)) && Follows(v, SkipToShowdown(v))
    ensures SkipToShowdown(v).stage == Showdown && |SkipToShowdown(v).publicCards| == 5
  {
    var w := SkipToShowdown(v);
    RunOutShaped(v, w);
  }

  /** A showdown state with the whole board, reached from a shaped state
      with the seats, cards and history kept, is shaped and follows it. */
  lemma RunOutShaped(v: State, w: State)
    requires Shaped(v) && w.stage == Showdown && |w.players| == |v.players|
    requires w.publicCards + w.deck == v.publicCards + v.deck
    requires |w.publicCards| == |v.publicCards| + CardsToCome(v.stage)
    requires forall i :: 0 <= i < |v.players| ==>
      w.players[i].hand == v.players[i].hand && w.players[i].player == v.players[i].player
    requires w.currentPlayer < |w.players| && w.button == v.button
    requires w.actionList == v.actionList && w.fromAction == v.fromAction
    ensures Shaped(w) && Follows(v, w) && |w.publicCards| == 5
  {
    assert SeatNumbered(w.players);
  }

  /** Seats that keep their numbers and chips keep the chip totals. */
  lemma SameChips(ps: seq<PlayerState>, qs: seq<PlayerState>)
    requires |qs| == |ps|
    requires forall i :: 0 <= i < |ps| ==>
      Owned(qs[i]) == Owned(ps[i]) && InPlay(qs[i]) == InPlay(ps[i]) && qs[i].player == ps[i].player
    ensures SeatNumbered(ps) ==> SeatNumbered(qs)
    ensures Total(qs, InPlay) == Total(ps, InPlay) && Total(qs, Owned) == Total(ps, Owned)
  {
    TotalSame(ps, qs, InPlay, InPlay);
    TotalSame(ps, qs, Owned, Owned);
  }

  /** The end of `apply_action`: the last player standing wins; at
      showdown the best hands win; otherwise the legal actions are worked
      out for the player to act. */
  function Finish(x: State, active: seq<PlayerState>): (t: State)
    requires Shaped(x) && x.status == StateStatus.Ok && !x.finalState
    requires |active| > 0 && IdsIncreasing(active) && forall p :: p in active ==> p.player < |x.players|
    requires x.stage != Showdown ==>
      && Eligible(x.players[x.currentPlayer])
      && |ActivePlayers(x.players)| == |active|
      && x.pot == Total(x.players, InPlay)
    ensures WellFormed(t) && Follows(x, t) && t.status == StateStatus.Ok
    ensures t.finalState <==> |active| == 1 || x.stage == Showdown
    ensures !t.finalState ==> t.players == x.players && t.currentPlayer == x.currentPlayer && t.pot == x.pot
    ensures !t.finalState ==> Eligible(t.players[t.currentPlayer])
  {
    if |active| == 1 then
      assert active[0] in active;
      var y := LastStanding(x, active[0].player);
      var z := AtShowdown(y, active);
      FollowsTrans(x, y, z);
      z
    else AtShowdown(x, active)
  }

  /** The last two steps of `apply_action`: at showdown the best hands
      win, and the legal actions are worked out afresh. */
  function AtShowdown(y: State, active: seq<PlayerState>): (t: State)
    requires Shaped(y) && y.status == StateStatus.Ok
    requires |active| > 0 && IdsIncreasing(active) && forall p :: p in active ==> p.player < |y.players|
    requires y.finalState ==> Total(y.players, RewardOf) == 0.0
    requires !y.finalState && y.stage != Showdown ==>
      && Eligible(y.players[y.currentPlayer])
      && |ActivePlayers(y.players)| >= 2
      && y.pot == Total(y.players, InPlay)
    ensures WellFormed(t) && Follows(y, t) && t.status == StateStatus.Ok
    ensures t.finalState <==> y.finalState || y.stage == Showdown
    ensures !t.finalState ==> t.players == y.players && t.currentPlayer == y.currentPlayer && t.pot == y.pot
    ensures !t.finalState ==> Eligible(t.players[t.currentPlayer])
  {
    if y.stage == Showdown then
      var z := AwardShowdown(y, active);
      z.(legalActions := LegalActions(z))
    else y.(legalActions := LegalActions(y))
  }

  lemma FollowsTrans(a: State, b: State, c: State)
    requires Follows(a, b) && Follows(b, c)
    ensures Follows(a, c)
  {
  }

  /** There is someone active, and not everyone active is short of chips,
      so someone can still bet. */
  lemma SomeoneEligible(ps: seq<PlayerState>)
    requires |ActivePlayers(ps)| > 0
    requires !NoneMeaningful(ActivePlayers(ps))
    ensures AnyEligible(ps)
  {
    var p :| p in ActivePlayers(ps) && HasMeaningfulStake(p);
    MeaningfulEligible(ps, p);
  }

  /** An active seat is among the active players. */
  lemma SomeActive(ps: seq<PlayerState>)
    requires exists k :: 0 <= k < |ps| && ps[k].active
    ensures |ActivePlayers(ps)| > 0
  {
    var k :| 0 <= k < |ps| && ps[k].active;
    assert ps[k] in ActivePlayers(ps);
  }

  /** An eligible seat is among the active players. */
  lemma EligibleActive(ps: seq<PlayerState>, c: nat)
    requires c < |ps| && Eligible(ps[c])
    ensures |ActivePlayers(ps)| > 0
  {
    assert ps[c] in ActivePlayers(ps);
  }

  /** Everyone active is all in, short of a chip. */
  predicate AllShort(active: seq<PlayerState>)
  {
    forall p :: p in active ==> p.stake < MinMeaningfulStake
  }

  /** Nobody active has a meaningful stake. */
  predicate NoneMeaningful(active: seq<PlayerState>)
  {
    forall p :: p in active ==> !HasMeaningfulStake(p)
  }

  /** Everyone active has acted on this street or is all in. */
  predicate AllActed(active: seq<PlayerState>)
  {
    forall p :: p in active ==> p.lastStageAction.Some? || p.stake < MinMeaningfulStake
  }

  /** Everyone active has matched the largest bet or is all in. */
  predicate AllMatched(active: seq<PlayerState>)
  {
    forall p :: p in active ==> p.betChips == MaxBet(active) || p.stake < MinMeaningfulStake
  }

  /** Before the flop, the big blind has had a turn unless it folded. */
  predicate BigBlindHeard(v: State)
    requires Shaped(v)
  {
    var bb := v.players[NextSeat(NextSeat(v.button, |v.players|), |v.players|)];
    v.stage != Preflop || !bb.active || bb.lastStageAction.Some?
  }

  /** The betting round is over: two or more players in, all have acted,
      all bets are level, and before the flop the big blind has had its
      turn. */
  predicate RoundEnded(v: State, active: seq<PlayerState>)
    requires Shaped(v)
  {
    |active| >= 2 && AllActed(active) && AllMatched(active) && BigBlindHeard(v)
  }

  /** At most one player can still bet, and the others have acted; or
      nobody can. */
  predicate ShouldRunOut(active: seq<PlayerState>)
  {
    |active| > 1 && ((WithChips(active) <= 1 && AllActed(active)) || WithChips(active) == 0)
  }

  /** Straight to showdown: the rest of the board is dealt and the best
      hands among `active` win. */
  function ShowdownNow(v: State, active: seq<PlayerState>): (t: State)
    requires Shaped(v) && v.status == StateStatus.Ok
    requires |active| > 0 && IdsIncreasing(active) && forall p :: p in active ==> p.player < |v.players|
    ensures WellFormed(t) && Follows(v, t) && t.status == StateStatus.Ok && t.finalState
  {
    SkipKeeps(v);
    var w := SkipToShowdown(v);
    var t := AwardShowdown(w, active);
    FollowsTrans(v, w, t);
    t
  }

  /** `apply_action` after the next player to act has been found: players
      all short of chips go to showdown; a finished betting round moves to
      the next street; a hand where at most one player can still bet runs
      out to showdown; then `Finish`. */
  function Continue(v: State): (t: State)
    requires Shaped(v) && v.stage != Showdown && v.status == StateStatus.Ok && !v.finalState
    requires Eligible(v.players[v.currentPlayer]) && v.pot == Total(v.players, InPlay)
    ensures WellFormed(t) && Follows(v, t) && t.status == StateStatus.Ok
    ensures !t.finalState ==> Eligible(t.players[t.currentPlayer]) && t.pot == v.pot
    ensures !t.finalState ==> Total(t.players, Owned) == Total(v.players, Owned)
  {
    var active := ActivePlayers(v.players);
    ActiveFacts(v.players);
    EligibleActive(v.players, v.currentPlayer);
    if |active| > 1 && AllShort(active) then ShowdownNow(v, active)
    else if RoundEnded(v, active) then NextRound(v, active)
    else RunOut(v, active, ShouldRunOut(active))
  }

  /** The betting round is over: the next street is dealt, then the hand
      runs out or goes on. */
  function NextRound(v: State, active: seq<PlayerState>): (t: State)
    requires Shaped(v) && v.stage != Showdown && v.status == StateStatus.Ok && !v.finalState
    requires active == ActivePlayers(v.players) && |active| > 0 && IdsIncreasing(active)
    requires forall p :: p in active ==> p.player < |v.players|
    requires v.pot == Total(v.players, InPlay)
    ensures WellFormed(t) && Follows(v, t) && t.status == StateStatus.Ok
    ensures !t.finalState ==> Eligible(t.players[t.currentPlayer]) && t.pot == v.pot
    ensures !t.finalState ==> Total(t.players, Owned) == Total(v.players, Owned)
  {
    NextStageKeeps(v);
    var w := ToNextStage(v);
    var t := RunOut(w, active, ShouldRunOut(active));
    FollowsTrans(v, w, t);
    t
  }

  /** Running the hand out to showdown when at most one player can still
      bet, then `Finish`. */
  function RunOut(w: State, active: seq<PlayerState>, runOut: bool): (t: State)
    requires Shaped(w) && w.status == StateStatus.Ok && !w.finalState
    requires |active| > 0 && IdsIncreasing(active) && forall p :: p in active ==> p.player < |w.players|
    requires w.stage != Showdown ==>
      && Eligible(w.players[w.currentPlayer])
      && |ActivePlayers(w.players)| == |active|
      && w.pot == Total(w.players, InPlay)
    ensures WellFormed(t) && Follows(w, t) && t.status == StateStatus.Ok
    ensures !t.finalState ==> Eligible(t.players[t.currentPlayer]) && t.pot == w.pot && t.players == w.players
  {
    if runOut && w.stage != Showdown then
      SkipKeeps(w);
      var x := SkipToShowdown(w);
      var t := Finish(x, active);
      FollowsTrans(w, x, t);
      t
    else Finish(w, active)
  }

  /** `apply_action` after the chips have moved: if nobody active has a
      meaningful stake the hand runs out to showdown; otherwise the turn
      passes to the next seat, going round, that is active with chips
      behind. */
  function AfterMove(v: State): (t: State)
    requires Shaped(v) && v.stage != Showdown && v.status == StateStatus.Ok && !v.finalState
    requires (exists k :: 0 <= k < |v.players| && v.players[k].active) && v.pot == Total(v.players, InPlay)
    ensures WellFormed(t) && Follows(v, t) && t.status == StateStatus.Ok
    ensures !t.finalState ==> Eligible(t.players[t.currentPlayer]) && t.pot == v.pot
    ensures !t.finalState ==> Total(t.players, Owned) == Total(v.players, Owned)
  {
    var active := ActivePlayers(v.players);
    ActiveFacts(v.players);
    SomeActive(v.players);
    if |active| > 0 && NoneMeaningful(active) then ShowdownNow(v, active)
    else PassOn(v)
  }

  /** The turn passes to the next seat, going round, that is active with
      chips behind. */
  function PassOn(v: State): (t: State)
    requires Shaped(v) && v.stage != Showdown && v.status == StateStatus.Ok && !v.finalState
    requires |ActivePlayers(v.players)| > 0 && !NoneMeaningful(ActivePlayers(v.players))
    requires v.pot == Total(v.players, InPlay)
    ensures WellFormed(t) && Follows(v, t) && t.status == StateStatus.Ok
    ensures !t.finalState ==> Eligible(t.players[t.currentPlayer]) && t.pot == v.pot
    ensures !t.finalState ==> Total(t.players, Owned) == Total(v.players, Owned)
  {
    SomeoneEligible(v.players);
    var from := NextSeat(v.currentPlayer, |v.players|);
    ScanFinds(v.players, from);
    Continue(v.(currentPlayer := ScanFrom(v.players, from, 0)))
  }

  /** `apply_action`. A finished hand, or one that stopped on an error,
      is returned unchanged; an action at showdown is illegal and ends the
      hand. Otherwise the action is recorded; an action that is not legal
      ends the hand with an error and moves no chips; a legal one moves
      chips and the hand goes on, to the next player, the next street or
      its end. No chips are created or lost while the hand goes on, the
      player to act can bet, and a hand that ends normally is zero-sum. */
  function ApplyAction(s: State, a: Action): (t: State)
    requires WellFormed(s)
    ensures WellFormed(t)
    ensures s.status != StateStatus.Ok || s.finalState ==> t == s
    ensures s.status == StateStatus.Ok && !s.finalState && s.stage == Showdown ==>
      t == s.(status := StateStatus.IllegalAction, finalState := true)
    ensures s.status == StateStatus.Ok && !s.finalState && s.stage != Showdown ==>
      && t.fromAction == Some(Record(s, a))
      && t.actionList == s.actionList + [Record(s, a)]
      && (t.status == StateStatus.Ok <==> a.kind in s.legalActions)
      && (a.kind !in s.legalActions ==> t.finalState && t.players == s.players && t.pot == s.pot)
    ensures |t.players| == |s.players| && t.button == s.button
    ensures forall i :: 0 <= i < |s.players| ==>
      t.players[i].hand == s.players[i].hand && t.players[i].player == s.players[i].player
    ensures t.publicCards + t.deck == s.publicCards + s.deck
    ensures StageIndex(s.stage) <= StageIndex(t.stage)
    ensures t.status == StateStatus.Ok && !t.finalState ==>
      && Eligible(t.players[t.currentPlayer])
      && Total(t.players, Owned) == Total(s.players, Owned)
    ensures t.status == StateStatus.Ok && t.finalState ==> Total(t.players, RewardOf) == 0.0
  {
    if s.status != StateStatus.Ok || s.finalState then s
    else if s.stage == Showdown then s.(status := StateStatus.IllegalAction, finalState := true)
    else
      var u := s.(fromAction := Some(Record(s, a)), actionList := s.actionList + [Record(s, a)]);
      if a.kind !in s.legalActions then u.(status := StateStatus.IllegalAction, finalState := true)
      else Act(u, a)
  }

  /** A legal action by the player to act: the chips move and the hand
      goes on. */
  function Act(u: State, a: Action): (t: State)
    requires Shaped(u) && u.status == StateStatus.Ok && !u.finalState && u.stage != Showdown
    requires |ActivePlayers(u.players)| >= 2 && u.pot == Total(u.players, InPlay)
    ensures WellFormed(t) && Follows(u, t) && t.status == StateStatus.Ok
    ensures !t.finalState ==> Eligible(t.players[t.currentPlayer]) && Total(t.players, Owned) == Total(u.players, Owned)
  {
    MoveKeeps(u, a);
    MoveLeavesActive(u, a);
    AfterMove(MoveChips(u, a))
  }

  /** Moving one player's chips keeps the state's shape, the chips owned
      and the pot equal to the chips committed. */
  lemma MoveKeeps(u: State, a: Action)
    requires Shaped(u) && u.pot == Total(u.players, InPlay)
    ensures var v := MoveChips(u, a);
      && Shaped(v) && Follows(u, v)
      && v.stage == u.stage && v.status == u.status && v.finalState == u.finalState
      && v.pot == Total(v.players, InPlay)
      && Total(v.players, Owned) == Total(u.players, Owned)
  {
    MoveChipsTotals(u, a);
  }

  /** With two players in before an action, someone is still in after it. */
  lemma MoveLeavesActive(u: State, a: Action)
    requires Shaped(u) && |ActivePlayers(u.players)| >= 2
    ensures exists k :: 0 <= k < |u.players| && MoveChips(u, a).players[k].active
  {
    OtherActive(u.players, u.currentPlayer);
    var k :| 0 <= k < |u.players| && k != u.currentPlayer && u.players[k].active;
    assert MoveChips(u, a).players[k].active;
  }

  // ----- A hand played out -----

  /** A sequence of actions applied in turn. The state stays well formed,
      so no step can index a missing seat or run out of cards; while the
      hand goes on the chips owned at the table stay what they were; and
      once it is over normally the rewards add up to zero. */
  function Play(s: State, acts: seq<Action>): (t: State)
    requires WellFormed(s)
    ensures WellFormed(t)
    ensures t.status == StateStatus.Ok && !t.finalState ==> Total(t.players, Owned) == Total(s.players, Owned)
    ensures t.status == StateStatus.Ok && t.finalState ==> Total(t.players, RewardOf) == 0.0
    ensures |t.players| == |s.players| && t.publicCards + t.deck == s.publicCards + s.deck
    ensures (s.status != StateStatus.Ok || s.finalState) ==> t == s
    decreases |acts|
  {
    if |acts| == 0 then s
    else Play(ApplyAction(s, acts[0]), acts[1..])
  }

  /** The chips of n stacks of `stake` each, added up one stack at a
      time. */
  function Stacks(n: nat, stake: real): real
  {
    if n == 0 then 0.0 else Stacks(n - 1, stake) + stake
  }

  /** n stacks hold n times the stake. */
  lemma {:induction false} StacksProduct(n: nat, stake: real)
    ensures Stacks(n, stake) == n as real * stake
  {
    if n > 0 {
      StacksProduct(n - 1, stake);
    }
  }

  /** A column that is c for every player sums to c per player. */
  lemma {:induction false} TotalConstant(ps: seq<PlayerState>, f: PlayerState -> real, c: real)
    requires forall i :: 0 <= i < |ps| ==> f(ps[i]) == c
    ensures Total(ps, f) == Stacks(|ps|, c)
    decreases |ps|
  {
    if |ps| > 0 {
      TotalSnoc(ps, f);
      TotalConstant(ps[..|ps| - 1], f, c);
    }
  }

  /** Seats with nothing in the pot and `stake` between bet and behind own
      `stake` each. */
  lemma SeatsOwnStake(ps: seq<PlayerState>, stake: real)
    requires forall i :: 0 <= i < |ps| ==> ps[i].betChips + ps[i].stake == stake && ps[i].potChips == 0.0
    ensures Total(ps, Owned) == Stacks(|ps|, stake)
  {
    TotalConstant(ps, Owned, stake);
  }

  /** The engine's zero-sum property: from a deal with the board's five
      cards in the deck, whatever actions follow, a hand in progress holds
      exactly the players' starting stakes, and a hand that ends normally
      pays out as much as it takes. */
  lemma ZeroSumGame(n: nat, button: nat, sb: real, bb: real, stake: real, deck: seq<Card>, acts: seq<Action>)
    requires FromDeck(n, button, sb, bb, stake, deck).Ok? && 2 * n + 5 <= |deck|
    ensures var t := Play(FromDeck(n, button, sb, bb, stake, deck).value, acts);
      && (t.status == StateStatus.Ok && !t.finalState ==> Total(t.players, Owned) == n as real * stake)
      && (t.status == StateStatus.Ok && t.finalState ==> Total(t.players, RewardOf) == 0.0)
  {
    DealtWellFormed(n, button, sb, bb, stake, deck);
    DealtPot(n, button, sb, bb, stake, deck);
    StacksProduct(n, stake);
  }
}

=== FILE: rust_state.dfy ===
/** The Rust engine's `State` and `PlayerState` records, with the range
    index each player carries: a preflop hand class before the flop, a
    canonical two-card pair number after it. Amounts are `f64` in the
    source and exact reals here. */
module RustState {
  import opened Wrappers
  import opened Cards
  import opened RangeIndex
  import opened SuitMap
  import opened PreflopTable

  /** `Stage`, in the order the hand goes through it. */
  datatype Stage = Preflop | Flop | Turn | River | Showdown

  /** `ActionEnum`, listed in the order `ActionEnum::iter` yields it. */
  datatype ActionKind = Fold | CheckCall | BetRaise

  const AllKinds: seq<ActionKind> := [Fold, CheckCall, BetRaise]

  datatype Action = Action(kind: ActionKind, amount: real)

  datatype ActionRecord = ActionRecord(player: nat, action: Action, stage: Stage, legalActions: seq<ActionKind>)

  datatype StateStatus = Ok | IllegalAction | HighBet

  datatype PlayerState = PlayerState(
    player: nat,
    hand: (Card, Card),
    betChips: real,
    potChips: real,
    stake: real,
    reward: real,
    active: bool,
    rangeIdx: int,
    lastStageAction: Option<ActionKind>)

  datatype State = State(
    currentPlayer: nat,
    players: seq<PlayerState>,
    publicCards: seq<Card>,
    stage: Stage,
    button: nat,
    fromAction: Option<ActionRecord>,
    actionList: seq<ActionRecord>,
    legalActions: seq<ActionKind>,
    deck: seq<Card>,
    pot: real,
    minBet: real,
    finalState: bool,
    status: StateStatus)

  /** The range index is a preflop class number. */
  predicate IsPreflopIndex(s: State)
  {
    |s.publicCards| == 0 || s.stage == Preflop
  }

  /** A card's index after its suit is renamed by the canonical map. */
  function CanonicalIndex(m: seq<int>, c: Card): (i: int)
    requires IsPermutation4(m)
    ensures 0 <= i < NumCards && i / 4 == c.value && i % 4 == m[c.suit]
  {
    c.value * 4 + m[c.suit]
  }

  /** Two different cards keep different canonical indices. */
  lemma CanonicalIndexInjective(m: seq<int>, a: Card, b: Card)
    requires IsPermutation4(m)
    ensures CanonicalIndex(m, a) == CanonicalIndex(m, b) <==> a == b
  {
  }

  /** `calculate_range_idx`: -1 for a missing player; preflop, the hand's
      place in the preflop table as written less one; postflop, the
      co-lexicographic number of the hand's two cards after canonical suit
      renaming. */
  function CalculateRangeIdx(s: State, i: nat): (r: int)
    ensures i >= |s.players| ==> r == -1
    ensures i < |s.players| && IsPreflopIndex(s) ==>
      r + 1 == Evaluate2Cards(s.players[i].hand.0, s.players[i].hand.1) && 0 <= r < NumClasses
    ensures i < |s.players| && !IsPreflopIndex(s) && s.players[i].hand.0 != s.players[i].hand.1 ==>
      0 <= r < NumPairs
      && var m := CanonicalSuitMap(s.publicCards);
         var a := CanonicalIndex(m, s.players[i].hand.0);
         var b := CanonicalIndex(m, s.players[i].hand.1);
         ColexPair(r) == (Max(a, b), Min(a, b))
  {
    if i >= |s.players| then -1
    else
      var hand := s.players[i].hand;
      if IsPreflopIndex(s) then
        Evaluate2CardsRange(hand.0, hand.1);
        Evaluate2Cards(hand.0, hand.1) - 1
      else
        var m := CanonicalSuitMap(s.publicCards);
        var a := CanonicalIndex(m, hand.0);
        var b := CanonicalIndex(m, hand.1);
        PostflopPair(m, hand.0, hand.1);
        PairNumber(Max(a, b), Min(a, b))
  }

  /** The range index with the preflop table's missing rows restored: the
      corrected half of the preflop table finding. */
  function CalculateRangeIdxFixed(s: State, i: nat): (r: int)
    ensures i < |s.players| && IsPreflopIndex(s) ==>
      r + 1 == Evaluate2CardsFull(s.players[i].hand.0, s.players[i].hand.1) && 0 <= r < NumClasses
    ensures !(i < |s.players| && IsPreflopIndex(s)) ==> r == CalculateRangeIdx(s, i)
  {
    if i < |s.players| && IsPreflopIndex(s) then
      Evaluate2CardsFull(s.players[i].hand.0, s.players[i].hand.1) - 1
    else CalculateRangeIdx(s, i)
  }

  /** The source's pair formula, c1 (c1 - 1) / 2 + c2. */
  function PairNumber(c1: int, c2: int): int
  {
    c1 * (c1 - 1) / 2 + c2
  }

  /** Two different hole cards stay a pair of different canonical cards,
      and the pair's number names it back. */
  lemma PostflopPair(m: seq<int>, x: Card, y: Card)
    requires IsPermutation4(m)
    ensures var a := CanonicalIndex(m, x);
            var b := CanonicalIndex(m, y);
            x != y ==> (0 <= PairNumber(Max(a, b), Min(a, b)) < NumPairs
                        && ColexPair(PairNumber(Max(a, b), Min(a, b))) == (Max(a, b), Min(a, b)))
  {
    var a := CanonicalIndex(m, x);
    var b := CanonicalIndex(m, y);
    CanonicalIndexInjective(m, x, y);
    if x != y {
      ColexRoundTrip(Max(a, b), Min(a, b));
    }
  }

  /** Before the flop, as written, two players get the same range index
      exactly when their hands are of the same class or both fall back to
      the table's last place (A3s, A4s, A6s and 72o share it). */
  lemma PreflopIndexSeparates(s: State, i: nat, j: nat)
    requires i < |s.players| && j < |s.players| && IsPreflopIndex(s)
    ensures CalculateRangeIdx(s, i) == CalculateRangeIdx(s, j) <==>
            (ClassOf(s.players[i].hand.0, s.players[i].hand.1) == ClassOf(s.players[j].hand.0, s.players[j].hand.1)
             || (AtFallback(ClassOf(s.players[i].hand.0, s.players[i].hand.1))
                 && AtFallback(ClassOf(s.players[j].hand.0, s.players[j].hand.1))))
  {
    Evaluate2CardsSeparates(s.players[i].hand.0, s.players[i].hand.1, s.players[j].hand.0, s.players[j].hand.1);
  }

  /** As written, the range index differs from the corrected one exactly on
      the three classes missing from the table. */
  lemma RangeIdxAsWritten(s: State, i: nat)
    requires i < |s.players| && IsPreflopIndex(s)
    ensures CalculateRangeIdx(s, i) ==
            if MissingClass(ClassOf(s.players[i].hand.0, s.players[i].hand.1)) then Fallback - 1
            else CalculateRangeIdxFixed(s, i)
  {
    Evaluate2CardsAsWritten(s.players[i].hand.0, s.players[i].hand.1);
  }

  /** With the missing rows restored, two players share a preflop range
      index exactly when their hands are of the same class. */
  lemma PreflopIndexSeparatesFixed(s: State, i: nat, j: nat)
    requires i < |s.players| && j < |s.players| && IsPreflopIndex(s)
    ensures CalculateRangeIdxFixed(s, i) == CalculateRangeIdxFixed(s, j) <==>
            ClassOf(s.players[i].hand.0, s.players[i].hand.1) == ClassOf(s.players[j].hand.0, s.players[j].hand.1)
  {
    Evaluate2CardsFullSeparates(s.players[i].hand.0, s.players[i].hand.1, s.players[j].hand.0, s.players[j].hand.1);
  }

  /** After the flop, the range index depends on which cards are on the
      board and not on the order they came in. */
  lemma RangeIdxBoardOrderFree(s: State, t: State, i: nat)
    requires t == s.(publicCards := t.publicCards)
    requires multiset(s.publicCards) == multiset(t.publicCards)
    ensures CalculateRangeIdx(s, i) == CalculateRangeIdx(t, i)
  {
    CanonicalSuitMapOrderFree(s.publicCards, t.publicCards);
    assert |s.publicCards| == |multiset(s.publicCards)| == |t.publicCards|;
  }

  /** `update_range_indices`. */
  function UpdateRangeIndices(s: State): (t: State)
    ensures |t.players| == |s.players|
    ensures forall i :: 0 <= i < |s.players| ==>
      t.players[i] == s.players[i].(rangeIdx := CalculateRangeIdx(s, i))
    ensures t == s.(players := t.players)
  {
    s.(players := seq(|s.players|, i requires 0 <= i < |s.players| => s.players[i].(rangeIdx := CalculateRangeIdx(s, i))))
  }

  /** The range index reads only the hands, the board and the stage, so
      recomputing it changes nothing. */
  lemma UpdateRangeIndicesIdempotent(s: State)
    ensures UpdateRangeIndices(UpdateRangeIndices(s)) == UpdateRangeIndices(s)
  {
    var t := UpdateRangeIndices(s);
    forall i | 0 <= i < |s.players| ensures CalculateRangeIdx(t, i) == CalculateRangeIdx(s, i) {
      assert t.players[i].hand == s.players[i].hand;
    }
  }
}

=== FILE: scenario.dfy ===
/** The scenario form of the C++ `reset(isNewRound, hole_cards,
    board_cards)`: the street is read off the number of board cards, and
    the given board and hole cards are taken out of the deck, where a card
    that is no longer in the deck is reported as a duplicate. */
module Scenario {
  import opened Wrappers
  import opened Cards
  import opened PokerTable
  import opened BettingRound

  /** The street a scenario starts on; any count other than 0, 3, 4 or 5
      starts preflop. */
  function RoundFromBoard(n: int): (r: int)
    ensures PREFLOP <= r <= RIVER
  {
    if n == 0 then PREFLOP
    else if n == 3 then FLOP
    else if n == 4 then TURN
    else if n == 5 then RIVER
    else PREFLOP
  }

  /** Reading the street off a dealt board gives the street back, and a
      count is read as a street exactly when it is a street's board size. */
  lemma RoundFromBoardRoundTrip(r: int, n: int)
    requires PREFLOP <= r <= RIVER
    ensures RoundFromBoard(BoardCards(r)) == r
    ensures BoardCards(RoundFromBoard(n)) == n <==> n in {0, 3, 4, 5}
  {
  }

  /** `Deck::removeCard`: it succeeds only when the card is still in the
      deck. The deck is the set of card indices left in it. */
  function RemoveCard(deck: set<CardIndex>, c: CardIndex): (r: Option<set<CardIndex>>)
    ensures r.Some? <==> c in deck
    ensures r.Some? ==> r.value == deck - {c} && |r.value| == |deck| - 1
  {
    if c in deck then Some(deck - {c}) else None
  }

  predicate ValidIndex(x: int)
  {
    0 <= x < 52
  }

  predicate NoRepeats(xs: seq<CardIndex>)
  {
    forall i, j :: 0 <= i < j < |xs| ==> xs[i] != xs[j]
  }

  /** The cards a list names. */
  function CardsOf(xs: seq<CardIndex>): set<CardIndex>
  {
    set k | 0 <= k < |xs| :: xs[k]
  }

  /** Every card of `xs` is in the deck and none is named twice. */
  predicate Available(xs: seq<CardIndex>, deck: set<CardIndex>)
  {
    NoRepeats(xs) && forall i :: 0 <= i < |xs| ==> xs[i] in deck
  }

  /** Naming one more card keeps the cards available exactly when it is in
      the deck and the rest are available in the deck without it. */
  lemma AvailableCons(c: CardIndex, xs: seq<CardIndex>, deck: set<CardIndex>)
    ensures Available([c] + xs, deck) <==> c in deck && Available(xs, deck - {c})
  {
    var ys := [c] + xs;
    assert ys[0] == c;
    if Available(ys, deck) {
      forall i | 0 <= i < |xs| ensures xs[i] in deck - {c} {
        assert ys[0] != ys[i + 1];
      }
      forall i, j | 0 <= i < j < |xs| ensures xs[i] != xs[j] {
        assert ys[i + 1] != ys[j + 1];
      }
    }
    if c in deck && Available(xs, deck - {c}) {
      forall i | 0 <= i < |ys| ensures ys[i] in deck {
        if i > 0 {
          assert ys[i] == xs[i - 1];
        }
      }
      forall i, j | 0 <= i < j < |ys| ensures ys[i] != ys[j] {
        if i > 0 {
          assert ys[i] == xs[i - 1] && ys[j] == xs[j - 1];
        } else {
          assert ys[j] == xs[j - 1] && xs[j - 1] in deck - {c};
        }
      }
    }
  }

  // ----- Board cards -----

  function BoardLimit(cards: seq<int>): nat
  {
    Min(|cards|, 5)
  }

  /** The valid board indices from position `i` on, within the first five. */
  function BoardNamed(cards: seq<int>, i: nat): seq<CardIndex>
    requires i <= BoardLimit(cards)
    decreases BoardLimit(cards) - i
  {
    if i == BoardLimit(cards) then []
    else if ValidIndex(cards[i]) then [cards[i] as CardIndex] + BoardNamed(cards, i + 1)
    else BoardNamed(cards, i + 1)
  }

  /** The board loop of the scenario reset: each of the first five valid
      indices is taken out of the deck and put in its slot; an invalid index
      is skipped, and a card no longer in the deck is an error. */
  function PlaceBoard(cards: seq<int>, i: nat, slots: seq<Option<Card>>, deck: set<CardIndex>)
    : (r: Result<(seq<Option<Card>>, set<CardIndex>), string>)
    requires |slots| == 5 && i <= BoardLimit(cards)
    ensures r.Ok? ==> |r.value.0| == 5 && r.value.1 <= deck
    decreases BoardLimit(cards) - i
  {
    if i == BoardLimit(cards) then Ok((slots, deck))
    else if ValidIndex(cards[i]) then
      match RemoveCard(deck, cards[i])
      case None => Err("Duplicate card detected in board cards")
      case Some(rest) => PlaceBoard(cards, i + 1, slots[i := Some(FromIndex(cards[i]))], rest)
    else PlaceBoard(cards, i + 1, slots, deck)
  }

  /** Placing the board fails exactly when a named card is missing from the
      deck or named twice; on success the named cards have left the deck
      and sit in their slots, and the other slots are untouched. */
  lemma {:induction false} PlaceBoardSpec(cards: seq<int>, i: nat, slots: seq<Option<Card>>, deck: set<CardIndex>)
    requires |slots| == 5 && i <= BoardLimit(cards)
    ensures PlaceBoard(cards, i, slots, deck).Ok? <==> Available(BoardNamed(cards, i), deck)
    ensures PlaceBoard(cards, i, slots, deck).Ok? ==>
      var r := PlaceBoard(cards, i, slots, deck).value;
      && r.1 == deck - CardsOf(BoardNamed(cards, i))
      && (forall j :: i <= j < BoardLimit(cards) && ValidIndex(cards[j]) ==> r.0[j] == Some(FromIndex(cards[j])))
      && (forall j :: 0 <= j < 5 && !(i <= j < BoardLimit(cards) && ValidIndex(cards[j])) ==> r.0[j] == slots[j])
    decreases BoardLimit(cards) - i
  {
    if i < BoardLimit(cards) {
      if ValidIndex(cards[i]) {
        var c := cards[i] as CardIndex;
        AvailableCons(c, BoardNamed(cards, i + 1), deck);
        if c in deck {
          PlaceBoardSpec(cards, i + 1, slots[i := Some(FromIndex(c))], deck - {c});
          NamedSetCons(c, BoardNamed(cards, i + 1));
        }
      } else {
        PlaceBoardSpec(cards, i + 1, slots, deck);
      }
    }
  }

  lemma NamedSetCons(c: CardIndex, xs: seq<CardIndex>)
    ensures CardsOf([c] + xs) == {c} + CardsOf(xs)
  {
    var ys := [c] + xs;
    forall x | x in CardsOf(ys)
      ensures x in {c} + CardsOf(xs)
    {
      var k :| 0 <= k < |ys| && ys[k] == x;
      if k > 0 {
        assert xs[k - 1] == x;
      }
    }
    forall x | x in CardsOf(xs)
      ensures x in CardsOf(ys)
    {
      var k :| 0 <= k < |xs| && xs[k] == x;
      assert ys[k + 1] == x;
    }
    assert ys[0] == c;
  }

  // ----- Hole cards -----

  function HoleLimit(holes: seq<seq<int>>, n: nat): nat
  {
    Min(|holes|, n)
  }

  /** A player's hole cards are placed when at least two indices are given
      and both are valid. */
  predicate HolesGiven(h: seq<int>)
  {
    |h| >= 2 && ValidIndex(h[0]) && ValidIndex(h[1])
  }

  /** The valid hole-card pairs from player `i` on, in order. */
  function HolesNamed(holes: seq<seq<int>>, n: nat, i: nat): seq<CardIndex>
    requires i <= HoleLimit(holes, n)
    decreases HoleLimit(holes, n) - i
  {
    if i == HoleLimit(holes, n) then []
    else if HolesGiven(holes[i]) then
      [holes[i][0] as CardIndex, holes[i][1] as CardIndex] + HolesNamed(holes, n, i + 1)
    else HolesNamed(holes, n, i + 1)
  }

  /** The hole-card loop of the scenario reset. Both cards of a pair are
      removed from the deck; a pair naming one card twice, or a card no
      longer in the deck, is an error; an incomplete or invalid pair is
      skipped (that player is dealt at random later). */
  function PlaceHoles(holes: seq<seq<int>>, n: nat, i: nat, hands: seq<Option<(Card, Card)>>, deck: set<CardIndex>)
    : (r: Result<(seq<Option<(Card, Card)>>, set<CardIndex>), string>)
    requires |hands| == n && i <= HoleLimit(holes, n)
    ensures r.Ok? ==> |r.value.0| == n && r.value.1 <= deck
    decreases HoleLimit(holes, n) - i
  {
    if i == HoleLimit(holes, n) then Ok((hands, deck))
    else if HolesGiven(holes[i]) then
      var c1 := holes[i][0] as CardIndex;
      var c2 := holes[i][1] as CardIndex;
      if c1 == c2 then Err("Duplicate card detected for player: both hole cards are the same")
      else
        var r1 := RemoveCard(deck, c1);
        var r2 := RemoveCard(if r1.Some? then r1.value else deck, c2);
        if r1.None? || r2.None? then Err("Duplicate card detected for player: card already specified")
        else PlaceHoles(holes, n, i + 1, hands[i := Some((FromIndex(c1), FromIndex(c2)))], r2.value)
    else PlaceHoles(holes, n, i + 1, hands, deck)
  }

  /** Placing the hole cards fails exactly when a named card is missing
      from the deck or named twice; on success every given pair is in its
      player's hand and every other hand is untouched. */
  lemma {:induction false} PlaceHolesSpec(holes: seq<seq<int>>, n: nat, i: nat, hands: seq<Option<(Card, Card)>>, deck: set<CardIndex>)
    requires |hands| == n && i <= HoleLimit(holes, n)
    ensures PlaceHoles(holes, n, i, hands, deck).Ok? <==> Available(HolesNamed(holes, n, i), deck)
    ensures PlaceHoles(holes, n, i, hands, deck).Ok? ==>
      var r := PlaceHoles(holes, n, i, hands, deck).value;
      && |r.0| == n
      && (forall j :: i <= j < HoleLimit(holes, n) && HolesGiven(holes[j]) ==>
            r.0[j] == Some((FromIndex(holes[j][0]), FromIndex(holes[j][1]))))
      && (forall j :: 0 <= j < n && !(i <= j < HoleLimit(holes, n) && HolesGiven(holes[j])) ==> r.0[j] == hands[j])
    decreases HoleLimit(holes, n) - i
  {
    if i < HoleLimit(holes, n) {
      if HolesGiven(holes[i]) {
        var c1 := holes[i][0] as CardIndex;
        var c2 := holes[i][1] as CardIndex;
        var rest := HolesNamed(holes, n, i + 1);
        assert HolesNamed(holes, n, i) == [c1] + ([c2] + rest);
        AvailableCons(c1, [c2] + rest, deck);
        AvailableCons(c2, rest, deck - {c1});
        if c1 != c2 && c1 in deck && c2 in deck - {c1} {
          PlaceHolesSpec(holes, n, i + 1, hands[i := Some((FromIndex(c1), FromIndex(c2)))], deck - {c1} - {c2});
        }
      } else {
        PlaceHolesSpec(holes, n, i + 1, hands, deck);
      }
    }
  }

  /** The cards of a scenario: the board first, then the hole cards, both
      taken from the deck. */
  function PlaceScenario(cards: seq<int>, holes: seq<seq<int>>, n: nat, deck: set<CardIndex>)
    : (r: Result<(seq<Option<Card>>, seq<Option<(Card, Card)>>, set<CardIndex>), string>)
  {
    var empty: seq<Option<Card>> := [None, None, None, None, None];
    match PlaceBoard(cards, 0, empty, deck)
    case Err(e) => Err(e)
    case Ok(b) =>
      match PlaceHoles(holes, n, 0, seq(n, i => None), b.1)
      case Err(e) => Err(e)
      case Ok(h) => Ok((b.0, h.0, h.1))
  }

  /** A scenario is accepted exactly when the cards it names, board and
      hole cards together, are all in the deck and pairwise different. */
  lemma PlaceScenarioSpec(cards: seq<int>, holes: seq<seq<int>>, n: nat, deck: set<CardIndex>)
    ensures PlaceScenario(cards, holes, n, deck).Ok?
        <==> Available(BoardNamed(cards, 0) + HolesNamed(holes, n, 0), deck)
  {
    var empty: seq<Option<Card>> := [None, None, None, None, None];
    var xs := BoardNamed(cards, 0);
    var ys := HolesNamed(holes, n, 0);
    PlaceBoardSpec(cards, 0, empty, deck);
    AvailableAppend(xs, ys, deck);
    if Available(xs, deck) {
      var b := PlaceBoard(cards, 0, empty, deck).value;
      PlaceHolesSpec(holes, n, 0, seq(n, i => None), b.1);
    }
  }

  /** Naming two lists of cards keeps them available exactly when the
      first is available and the second is available in what is left. */
  lemma {:induction false} AvailableAppend(xs: seq<CardIndex>, ys: seq<CardIndex>, deck: set<CardIndex>)
    ensures Available(xs + ys, deck) <==>
      Available(xs, deck) && Available(ys, deck - CardsOf(xs))
    decreases |xs|
  {
    if |xs| == 0 {
      assert xs + ys == ys;
      assert CardsOf(xs) == {};
    } else {
      var c := xs[0];
      var rest := xs[1..];
      assert xs == [c] + rest;
      assert xs + ys == [c] + (rest + ys);
      AvailableCons(c, rest + ys, deck);
      AvailableCons(c, rest, deck);
      AvailableAppend(rest, ys, deck - {c});
      NamedSetCons(c, rest);
      assert deck - {c} - CardsOf(rest) == deck - CardsOf(xs);
    }
  }
}

=== FILE: seat_scan.dfy ===
/** The cyclic seat scan that every engine uses to find who acts next: look
    at the seats start + lo, start + lo + 1, ... (modulo the table
    size) and stop at the first seat that passes a test. */
module SeatScan {
  import opened Wrappers

  /** The seat `j` places after seat `start` on an n-seat table. */
  function SeatAt(start: nat, j: nat, n: nat): (s: nat)
    requires start < n && j <= n
    ensures s < n && s == (start + j) % n
    ensures s == if start + j < n then start + j else start + j - n
  {
    if start + j < n then
      SmallMod(start + j, n);
      start + j
    else
      WrapMod(start + j, n);
      start + j - n
  }

  /** Below the table size, counting round the table changes nothing. */
  lemma SmallMod(a: nat, n: nat)
    requires a < n
    ensures a % n == a
  {
  }

  /** Past the table size, counting round the table wraps once. */
  lemma WrapMod(a: nat, n: nat)
    requires n <= a < 2 * n
    ensures a % n == a - n
  {
    assert a == n + (a - n);
  }

  /** The first offset `j` in [lo, hi) whose seat passes the test `ok`. */
  function FirstFrom(ok: seq<bool>, start: nat, lo: nat, hi: nat): (r: Option<nat>)
    requires start < |ok| && lo <= hi <= |ok| + 1
    ensures r.Some? ==> lo <= r.value < hi && ok[SeatAt(start, r.value, |ok|)]
    ensures r.Some? ==> forall j :: lo <= j < r.value ==> !ok[SeatAt(start, j, |ok|)]
    ensures r.None? ==> forall j :: lo <= j < hi ==> !ok[SeatAt(start, j, |ok|)]
    decreases hi - lo
  {
    if lo == hi then None
    else if ok[SeatAt(start, lo, |ok|)] then Some(lo)
    else FirstFrom(ok, start, lo + 1, hi)
  }

  /** The offset at which a lap from `start` reaches `seat`. */
  function OffsetOf(start: nat, seat: nat, n: nat): (k: nat)
    requires start < n && seat < n
    ensures k < n && SeatAt(start, k, n) == seat
  {
    if seat >= start then seat - start else seat + n - start
  }

  /** A scan over a full lap that finds nothing means no seat passes.
      The lap may run over offsets 0 .. n - 1 or 1 .. n; offset n is the
      start seat again. */
  lemma FullLapNone(ok: seq<bool>, start: nat, lo: nat)
    requires start < |ok| && lo <= 1
    requires FirstFrom(ok, start, lo, lo + |ok|).None?
    ensures forall seat :: 0 <= seat < |ok| ==> !ok[seat]
  {
    var n := |ok|;
    forall seat | 0 <= seat < n ensures !ok[seat] {
      var k := OffsetOf(start, seat, n);
      if k < lo {
        assert SeatAt(start, n, n) == seat;
      }
    }
  }
}

=== FILE: seat_table.dfy ===
/** The seat table in front of the Rust engine (`game_server.rs`): players
    register by id and name, take numbered seats, start a hand on the
    seated players, act in turn, and see their chips follow the hand; when
    the hand ends the chips are settled and the dealer button moves to the
    next occupied seat. */
module SeatTable {
  import opened Wrappers
  import opened Cards
  import opened RustState
  import opened RustBetting
  import opened RustEngine
  import opened SeatScan

  /** Seat numbers and the table size are bytes. */
  type U8 = x: int | 0 <= x < 256

  /** What a client asks for. */
  datatype Move = Folds | Checks | Calls | Raises(amount: real) | Bets(amount: real)

  /** A registered player: the seat taken, if any, and the chips shown. */
  datatype GamePlayer = GamePlayer(
    id: string,
    name: string,
    seat: Option<U8>,
    chips: real,
    connected: bool,
    sessionStart: real)

  datatype Config = Config(maxPlayers: U8, defaultStack: real, smallBlind: real, bigBlind: real, ante: real)

  /** Six seats, stacks of 1000, blinds of 5 and 10, no ante. */
  const DefaultConfig: Config := Config(6, 1000.0, 5.0, 10.0, 0.0)

  /** The table: registered players by id, seat number to player id, the
      hand in progress, the seats dealt in when it started (in engine
      order), the dealer's seat and whether a hand is running. */
  datatype Table = Table(
    members: map<string, GamePlayer>,
    seats: map<U8, string>,
    game: Option<State>,
    lineup: seq<U8>,
    config: Config,
    dealerSeat: U8,
    running: bool)

  datatype TableError =
    | NameTaken(name: string)
    | InvalidSeat(seat: U8)
    | SeatOccupied(seat: U8)
    | PlayerNotFound
    | NotEnoughPlayers
    | NoDealer
    | ButtonPlayerMissing
    | EngineRefused(reason: string)
    | NoActiveGame
    | NotSeated
    | NotYourTurn

  /** Seats and players agree: every taken seat is in range and names a
      registered player sitting there, and every seated player's seat names
      them back. */
  predicate Consistent(t: Table)
  {
    && (forall s :: s in t.seats ==>
          && 1 <= s <= t.config.maxPlayers
          && t.seats[s] in t.members
          && t.members[t.seats[s]].seat == Some(s))
    && (forall id :: id in t.members ==>
          && t.members[id].id == id
          && (t.members[id].seat.Some? ==>
                t.members[id].seat.value in t.seats && t.seats[t.members[id].seat.value] == id))
  }

  /** No two connected players share a name. */
  predicate UniqueNames(t: Table)
  {
    forall a, b :: a in t.members && b in t.members && a != b && t.members[a].connected && t.members[b].connected ==>
      t.members[a].name != t.members[b].name
  }

  /** A new table: nobody registered, the dealer at seat 1, no hand. */
  function NewTable(config: Option<Config>): (t: Table)
    ensures Consistent(t) && UniqueNames(t)
    ensures t.members == map[] && t.seats == map[] && t.game.None? && !t.running
    ensures t.dealerSeat == 1
    ensures config.None? ==> t.config.maxPlayers == 6 && t.config.defaultStack == 1000.0
  {
    Table(map[], map[], None, [], if config.Some? then config.value else DefaultConfig, 1, false)
  }

  // ----- Registration and seating -----

  /** `register_player`: a known id reconnects under the new name, keeping
      its seat and chips; a new id is refused when a connected player
      already has the name, and otherwise joins unseated with the default
      stack. */
  function Register(t: Table, name: string, id: string): (r: Result<Table, TableError>)
    ensures id in t.members ==> r.Ok?
    ensures id !in t.members ==>
      (r.Err? <==> exists p :: p in t.members.Values && p.name == name && p.connected)
    ensures r.Err? ==> r.error == NameTaken(name)
    ensures r.Ok? ==>
      && r.value == t.(members := r.value.members)
      && r.value.members.Keys == t.members.Keys + {id}
      && r.value.members[id].name == name && r.value.members[id].connected
      && forall o :: o in t.members && o != id ==> r.value.members[o] == t.members[o]
    ensures r.Ok? && id in t.members ==>
      r.value.members[id] == t.members[id].(name := name, connected := true)
    ensures r.Ok? && id !in t.members ==>
      && r.value.members[id].seat.None?
      && r.value.members[id].chips == t.config.defaultStack
      && r.value.members[id].sessionStart == t.config.defaultStack
    ensures r.Ok? && Consistent(t) ==> Consistent(r.value)
    ensures r.Ok? && id !in t.members && UniqueNames(t) ==> UniqueNames(r.value)
  {
    if id in t.members then
      Wrappers.Ok(t.(members := t.members[id := t.members[id].(connected := true, name := name)]))
    else if exists p :: p in t.members.Values && p.name == name && p.connected then
      Wrappers.Err(NameTaken(name))
    else
      var p := GamePlayer(id, name, None, t.config.defaultStack, true, t.config.defaultStack);
      var r := t.(members := t.members[id := p]);
      assert UniqueNames(t) ==> UniqueNames(r) by {
        if UniqueNames(t) {
          forall a, b | a in r.members && b in r.members && a != b && r.members[a].connected && r.members[b].connected
            ensures r.members[a].name != r.members[b].name
          {
            if a == id { assert t.members[b] in t.members.Values; }
            if b == id { assert t.members[a] in t.members.Values; }
          }
        }
      }
      Wrappers.Ok(r)
  }

  /** `player_disconnected`: a known player is marked as gone. */
  function Disconnect(t: Table, id: string): (r: Table)
    ensures id !in t.members ==> r == t
    ensures r == t.(members := r.members) && r.members.Keys == t.members.Keys
    ensures id in t.members ==> r.members[id] == t.members[id].(connected := false)
    ensures forall o :: o in t.members && o != id ==> r.members[o] == t.members[o]
    ensures Consistent(t) ==> Consistent(r)
    ensures UniqueNames(t) ==> UniqueNames(r)
  {
    if id in t.members then t.(members := t.members[id := t.members[id].(connected := false)]) else t
  }

  /** A player who drops out and comes back under the same name finds the
      table as they left it. */
  lemma ReconnectRestores(t: Table, id: string)
    requires id in t.members && t.members[id].connected
    ensures Register(Disconnect(t, id), t.members[id].name, id) == Wrappers.Ok(t)
  {
    var r := Register(Disconnect(t, id), t.members[id].name, id);
    assert r.value.members == t.members;
  }

  /** `seat_player`: the seat must be within 1..max_players and free, and
      the player registered; the player leaves their old seat for the new
      one. */
  function SeatPlayer(t: Table, id: string, seat: U8): (r: Result<Table, TableError>)
    ensures seat < 1 || seat > t.config.maxPlayers ==> r == Wrappers.Err(InvalidSeat(seat))
    ensures 1 <= seat <= t.config.maxPlayers && seat in t.seats ==> r == Wrappers.Err(SeatOccupied(seat))
    ensures 1 <= seat <= t.config.maxPlayers && seat !in t.seats && id !in t.members ==> r == Wrappers.Err(PlayerNotFound)
    ensures r.Ok? <==> 1 <= seat <= t.config.maxPlayers && seat !in t.seats && id in t.members
    ensures r.Ok? ==>
      && r.value == t.(members := r.value.members, seats := r.value.seats)
      && seat in r.value.seats && r.value.seats[seat] == id
      && r.value.members.Keys == t.members.Keys
      && r.value.members[id] == t.members[id].(seat := Some(seat))
      && (forall o :: o in t.members && o != id ==> r.value.members[o] == t.members[o])
      && (forall s :: s in t.seats && Some(s) != t.members[id].seat ==> s in r.value.seats && r.value.seats[s] == t.seats[s])
      && (forall s :: s in r.value.seats && s != seat ==> s in t.seats)
      && (t.members[id].seat.Some? && t.members[id].seat.value != seat ==> t.members[id].seat.value !in r.value.seats)
    ensures r.Ok? && Consistent(t) ==> Consistent(r.value)
  {
    if seat < 1 || seat > t.config.maxPlayers then Wrappers.Err(InvalidSeat(seat))
    else if seat in t.seats then Wrappers.Err(SeatOccupied(seat))
    else if id !in t.members then Wrappers.Err(PlayerNotFound)
    else
      MoveToConsistent(t, id, seat);
      Wrappers.Ok(MoveTo(t, id, seat))
  }

  /** The player leaves their old seat, if any, and takes `seat`. */
  function MoveTo(t: Table, id: string, seat: U8): (u: Table)
    requires id in t.members
  {
    var p := t.members[id];
    var freed := if p.seat.Some? then t.seats - {p.seat.value} else t.seats;
    t.(members := t.members[id := p.(seat := Some(seat))], seats := freed[seat := id])
  }

  /** Moving a registered player to a free seat in range keeps seats and
      players agreeing. */
  lemma MoveToConsistent(t: Table, id: string, seat: U8)
    requires id in t.members && seat !in t.seats && 1 <= seat <= t.config.maxPlayers
    ensures Consistent(t) ==> Consistent(MoveTo(t, id, seat))
  {
  }

  // ----- Seat order -----

  /** The members of `keys` in lo..hi-1, in ascending order. */
  function Ascending(keys: set<U8>, lo: nat, hi: nat): (r: seq<U8>)
    requires hi <= 256
    ensures forall x :: x in r <==> x in keys && lo <= x < hi
    ensures forall i, j :: 0 <= i < j < |r| ==> r[i] < r[j]
    decreases hi - lo
  {
    if lo >= hi then []
    else
      var rest := Ascending(keys, lo + 1, hi);
      assert forall k :: 0 <= k < |rest| ==> rest[k] in rest;
      if lo in keys then [lo as U8] + rest else rest
  }

  /** The taken seats in ascending order. */
  function SeatOrder(seats: map<U8, string>): (r: seq<U8>)
    ensures forall x :: x in r <==> x in seats
    ensures forall i, j :: 0 <= i < j < |r| ==> r[i] < r[j]
    ensures |r| == |seats|
  {
    var r := Ascending(seats.Keys, 0, 256);
    IncreasingCount(r);
    assert Members(r) == seats.Keys;
    r
  }

  /** The seats a sequence names. */
  function Members(r: seq<U8>): set<U8>
  {
    set x | x in r
  }

  /** A strictly increasing sequence names as many seats as it has
      entries. */
  lemma {:induction false} IncreasingCount(r: seq<U8>)
    requires forall i, j :: 0 <= i < j < |r| ==> r[i] < r[j]
    ensures |Members(r)| == |r|
    decreases |r|
  {
    if |r| > 0 {
      var rest := r[..|r| - 1];
      var last := r[|r| - 1];
      IncreasingCount(rest);
      assert r == rest + [last];
      assert Members(r) == Members(rest) + {last};
      assert last !in Members(rest) by {
        forall i | 0 <= i < |rest| ensures rest[i] != last {
          assert rest[i] == r[i];
        }
      }
    }
  }

  /** Where `x` stands in `xs`. */
  function IndexIn(xs: seq<U8>, x: U8): (r: Option<nat>)
    ensures r.Some? ==> r.value < |xs| && xs[r.value] == x
    ensures r.None? <==> x !in xs
  {
    if |xs| == 0 then None
    else if xs[0] == x then Some(0)
    else
      match IndexIn(xs[1..], x)
      case None => None
      case Some(i) =>
        Some(i + 1)
  }

  /** `rotate_dealer`: the dealer moves to the seat after theirs in
      ascending seat order, wrapping around; from an empty seat it goes to
      the lowest taken seat, and with no seat taken it stays. */
  function RotateDealer(seats: map<U8, string>, dealer: U8): (r: U8)
    ensures |seats| == 0 ==> r == dealer
    ensures |seats| > 0 ==> r in seats
  {
    var order := SeatOrder(seats);
    if |order| == 0 then dealer else NextInOrder(order, dealer)
  }

  /** The entry after `dealer` in `order`, wrapping around, or the first
      entry when `dealer` is not in it. */
  function NextInOrder(order: seq<U8>, dealer: U8): (r: U8)
    requires |order| > 0
    ensures r in order
  {
    match IndexIn(order, dealer)
    case Some(i) => order[(i + 1) % |order|]
    case None => order[0]
  }

  /** In an increasing sequence the entry after `i` is the lowest above
      it. */
  lemma IncreasingNext(order: seq<U8>, i: nat, s: U8)
    requires forall a, b :: 0 <= a < b < |order| ==> order[a] < order[b]
    requires i < |order| && s in order && s > order[i]
    ensures i + 1 < |order| && order[i + 1] <= s
  {
    var j :| 0 <= j < |order| && order[j] == s;
    assert j > i;
  }

  /** In an increasing sequence the first entry is the lowest. */
  lemma IncreasingFirst(order: seq<U8>, s: U8)
    requires forall a, b :: 0 <= a < b < |order| ==> order[a] < order[b]
    requires s in order
    ensures order[0] <= s
  {
    var j :| 0 <= j < |order| && order[j] == s;
  }

  /** From the last entry of an increasing sequence the next entry is the
      first. */
  lemma NextInOrderFromTop(order: seq<U8>, dealer: U8)
    requires forall a, b :: 0 <= a < b < |order| ==> order[a] < order[b]
    requires dealer in order && forall s :: s in order ==> s <= dealer
    ensures NextInOrder(order, dealer) == order[0]
  {
    var i := IndexIn(order, dealer).value;
    assert order[|order| - 1] in order;
    assert i + 1 == |order|;
  }

  /** In an increasing sequence: from outside it, or from its last entry,
      the next entry is the lowest. */
  lemma NextInOrderWraps(order: seq<U8>, dealer: U8)
    requires |order| > 0 && forall a, b :: 0 <= a < b < |order| ==> order[a] < order[b]
    requires dealer !in order || forall s :: s in order ==> s <= dealer
    ensures forall s :: s in order ==> NextInOrder(order, dealer) <= s
  {
    if dealer in order {
      NextInOrderFromTop(order, dealer);
    } else {
      assert NextInOrder(order, dealer) == order[0];
    }
    forall s | s in order ensures order[0] <= s {
      IncreasingFirst(order, s);
    }
  }

  /** In an increasing sequence: from an entry below the last, the next
      entry is the lowest one above it. */
  lemma NextInOrderAbove(order: seq<U8>, dealer: U8, above: U8)
    requires forall a, b :: 0 <= a < b < |order| ==> order[a] < order[b]
    requires dealer in order && above in order && above > dealer
    ensures NextInOrder(order, dealer) > dealer
    ensures forall s :: s in order && s > dealer ==> NextInOrder(order, dealer) <= s
  {
    var i := IndexIn(order, dealer).value;
    IncreasingNext(order, i, above);
    assert NextInOrder(order, dealer) == order[i + 1] by {
      SmallMod(i + 1, |order|);
    }
    forall s | s in order && s > dealer ensures order[i + 1] <= s {
      IncreasingNext(order, i, s);
    }
  }

  /** From an empty seat, or from the highest taken seat, the dealer moves
      to the lowest taken seat. */
  lemma RotateDealerWraps(seats: map<U8, string>, dealer: U8)
    requires |seats| > 0
    requires dealer !in seats || forall s :: s in seats ==> s <= dealer
    ensures forall s :: s in seats ==> RotateDealer(seats, dealer) <= s
  {
    NextInOrderWraps(SeatOrder(seats), dealer);
  }

  /** From a taken seat below the highest, the dealer moves to the lowest
      taken seat above theirs. */
  lemma RotateDealerIsNextSeat(seats: map<U8, string>, dealer: U8, above: U8)
    requires dealer in seats && above in seats && above > dealer
    ensures RotateDealer(seats, dealer) > dealer
    ensures forall s :: s in seats && s > dealer ==> RotateDealer(seats, dealer) <= s
  {
    NextInOrderAbove(SeatOrder(seats), dealer, above);
  }

  /** The engine's player `i` sits at seat i + 1, as written: the seat
      numbers are read as positions. */
  function TurnSeatAsWritten(st: State): (seat: U8)
    ensures st.currentPlayer < 255 ==> seat == st.currentPlayer + 1
  {
    (st.currentPlayer + 1) % 256
  }

  /** The engine's button, as written: the dealer's seat number less one. */
  function ButtonAsWritten(dealer: U8): (b: U8)
    ensures dealer >= 1 ==> b == dealer - 1
  {
    (dealer + 255) % 256
  }

  /** Seats 1 and 3 taken and the dealer at seat 1: as written the engine
      deals two players with the button on player 0, so player 1 acts
      first, and the seat it is read as, seat 2, is empty; nobody can act
      and the hand never moves. Dealt by seat order, player 1 is the player
      at seat 3. */
  lemma GapStrandsTurnAsWritten(t: Table, deck: seq<Card>)
    requires t.seats.Keys == {1, 3} && t.dealerSeat == 1
    requires FromDeck(2, ButtonAsWritten(1), t.config.smallBlind, t.config.bigBlind, t.config.defaultStack, deck).Ok?
    ensures var st := FromDeck(2, ButtonAsWritten(1), t.config.smallBlind, t.config.bigBlind, t.config.defaultStack, deck).value;
      TurnSeatAsWritten(st) == 2 && 2 !in t.seats
    ensures SeatOrder(t.seats) == [1, 3]
  {
    assert ButtonAsWritten(1) == 0;
    HeadsUpTurn(t.config.smallBlind, t.config.bigBlind, t.config.defaultStack, deck);
    GapOrder(t.seats);
  }

  /** Two players with the button on player 0: player 1 acts first. */
  lemma HeadsUpTurn(sb: real, bb: real, stake: real, deck: seq<Card>)
    requires FromDeck(2, 0, sb, bb, stake, deck).Ok?
    ensures FromDeck(2, 0, sb, bb, stake, deck).value.currentPlayer == 1
  {
    DealtTurn(2, 0, sb, bb, stake, deck);
    assert NextSeat(0, 2) == 1 && NextSeat(1, 2) == 0;
  }

  lemma GapOrder(seats: map<U8, string>)
    requires seats.Keys == {1, 3}
    ensures SeatOrder(seats) == [1, 3]
  {
    var order := SeatOrder(seats);
    assert 1 in order && 3 in order;
    assert |order| == 2;
    assert order[0] < order[1];
  }

  /** Seats 1..n taken: the seat order reads seat i + 1 for player i, as
      written. */
  lemma ContiguousSeatsAgree(seats: map<U8, string>, n: nat)
    requires n < 256 && forall x: U8 :: x in seats <==> 1 <= x <= n
    ensures |SeatOrder(seats)| == n
    ensures forall i :: 0 <= i < n ==> SeatOrder(seats)[i] == i + 1
  {
    AscendingRange(seats.Keys, 1, n);
    assert SeatOrder(seats) == Ascending(seats.Keys, 1, 256);
  }

  /** With seats 1..n taken, the taken seats from `lo` on are lo, lo + 1,
      …, n. */
  lemma {:induction false} AscendingRange(keys: set<U8>, lo: nat, n: nat)
    requires 1 <= lo <= 256 && n < 256 && forall x: U8 :: x in keys <==> 1 <= x <= n
    ensures var a := Ascending(keys, lo, 256);
      && |a| == (if lo <= n then n + 1 - lo else 0)
      && forall i :: 0 <= i < |a| ==> a[i] == lo + i
    decreases 256 - lo
  {
    if lo < 256 {
      AscendingRange(keys, lo + 1, n);
    }
  }

  // ----- Starting a hand and acting -----

  /** `start_game`: two or more seated players and a player at the dealer's
      seat are needed; the engine deals the seated players in seat order
      with the button on the dealer, and the hand runs. The deck is the
      argument `Card::collect` would supply. */
  function StartGame(t: Table, deck: seq<Card>): (r: Result<Table, TableError>)
    ensures |t.seats| < 2 ==> r == Wrappers.Err(NotEnoughPlayers)
    ensures |t.seats| >= 2 && t.dealerSeat !in t.seats ==> r == Wrappers.Err(NoDealer)
    ensures (&& Consistent(t) && |t.seats| >= 2 && t.dealerSeat in t.seats
             && 0.0 <= t.config.smallBlind <= t.config.bigBlind <= t.config.defaultStack
             && 2 * |t.seats| <= |deck|) ==> r.Ok?
    ensures r.Ok? ==> Started(t, r.value)
    ensures r.Ok? && 2 * |t.seats| + 5 <= |deck| ==> WellFormed(r.value.game.value)
  {
    if |t.seats| < 2 then Wrappers.Err(NotEnoughPlayers)
    else if t.dealerSeat !in t.seats then Wrappers.Err(NoDealer)
    else if t.seats[t.dealerSeat] !in t.members then Wrappers.Err(ButtonPlayerMissing)
    else
      var lineup := SeatOrder(t.seats);
      var button := IndexIn(lineup, t.dealerSeat).value;
      var made := FromDeck(|t.seats|, button, t.config.smallBlind, t.config.bigBlind, t.config.defaultStack, deck);
      if made.Err? then Wrappers.Err(EngineRefused(made.error))
      else
        LaunchStarts(t, deck);
        Wrappers.Ok(t.(game := Some(made.value), lineup := lineup, running := true))
  }

  /** A started table: only the game, the seat order and the running flag
      change; the seat order is the ascending seat order; the engine holds
      one player per taken seat, every one with the default stack, the
      button on the dealer's seat and the hand at its start. */
  predicate Started(t: Table, u: Table)
  {
    && u == t.(game := u.game, lineup := u.lineup, running := true)
    && u.game.Some? && u.lineup == SeatOrder(t.seats)
    && var st := u.game.value;
       && |st.players| == |t.seats| == |u.lineup| && st.button < |st.players|
       && u.lineup[st.button] == t.dealerSeat
       && st.currentPlayer < |st.players|
       && st.stage == Preflop && !st.finalState
       && (forall i :: 0 <= i < |st.players| ==> Owned(st.players[i]) == t.config.defaultStack)
  }

  /** The hand `start_game` builds from the seat order and the dealer's
      place in it gives a started table. */
  lemma LaunchStarts(t: Table, deck: seq<Card>)
    requires |t.seats| >= 2 && t.dealerSeat in t.seats && 2 * |t.seats| <= |deck|
    ensures var lineup := SeatOrder(t.seats);
      var button := IndexIn(lineup, t.dealerSeat).value;
      button < |t.seats| &&
      Started(t, t.(game := Some(Dealt(|t.seats|, button, t.config.smallBlind, t.config.bigBlind, t.config.defaultStack, deck)),
                    lineup := lineup, running := true))
  {
    var lineup := SeatOrder(t.seats);
    var button := IndexIn(lineup, t.dealerSeat).value;
    var c := t.config;
    DealtStarts(|t.seats|, button, c.smallBlind, c.bigBlind, c.defaultStack, deck);
  }

  /** Dealt by seat order, the player on move when a hand starts sits at a
      taken seat, so their move passes the turn check. */
  lemma StartedTurnIsSeated(t: Table, deck: seq<Card>)
    requires Consistent(t) && StartGame(t, deck).Ok?
    ensures var u := StartGame(t, deck).value; var st := u.game.value;
      && st.currentPlayer < |u.lineup|
      && var seat := u.lineup[st.currentPlayer];
         && seat in u.seats && u.seats[seat] in u.members
         && u.members[u.seats[seat]].seat == Some(seat)
         && OnMove(u.lineup, st, seat)
  {
    var u := StartGame(t, deck).value;
    assert u.lineup[u.game.value.currentPlayer] in u.lineup;
  }

  /** The engine action a move stands for: check and call are the same
      move, and so are bet and raise. */
  function ToEngine(m: Move): (a: Action)
    ensures a.kind == Fold <==> m.Folds?
    ensures a.kind == CheckCall <==> m.Checks? || m.Calls?
    ensures a.kind == BetRaise ==> a.amount == m.amount
    ensures a.kind != BetRaise ==> a.amount == 0.0
  {
    match m
    case Folds => Action(Fold, 0.0)
    case Checks => Action(CheckCall, 0.0)
    case Calls => Action(CheckCall, 0.0)
    case Raises(x) => Action(BetRaise, x)
    case Bets(x) => Action(BetRaise, x)
  }

  /** Two moves reach the engine as the same action exactly when they are
      the same move, or both a check or call, or a bet and a raise of the
      same amount. */
  lemma ToEngineCollapses(m1: Move, m2: Move)
    ensures ToEngine(m1) == ToEngine(m2) <==>
      || m1 == m2
      || ((m1.Checks? || m1.Calls?) && (m2.Checks? || m2.Calls?))
      || ((m1.Raises? || m1.Bets?) && (m2.Raises? || m2.Bets?) && m1.amount == m2.amount)
  {
  }

  /** Where a seat sits in the hand in progress, if it was dealt in. */
  function Slot(lineup: seq<U8>, st: State, seat: Option<U8>): (r: Option<nat>)
    ensures r.Some? ==> r.value < |st.players| && r.value < |lineup| && seat == Some(lineup[r.value])
    ensures seat.Some? && IndexIn(lineup, seat.value).Some? && IndexIn(lineup, seat.value).value < |st.players| ==> r.Some?
  {
    if seat.None? then None
    else
      match IndexIn(lineup, seat.value)
      case Some(i) => if i < |st.players| then Some(i) else None
      case None => None
  }

  /** The seat whose turn it is. */
  predicate OnMove(lineup: seq<U8>, st: State, seat: U8)
  {
    st.currentPlayer < |lineup| && lineup[st.currentPlayer] == seat
  }

  /** `sync_player_chips_from_game_state`: a player dealt in shows what is
      behind plus what is bet this street. */
  function SyncChips(members: map<string, GamePlayer>, lineup: seq<U8>, st: State): (r: map<string, GamePlayer>)
    ensures r.Keys == members.Keys
    ensures forall id :: id in members ==> r[id] == members[id].(chips := r[id].chips)
    ensures forall id :: id in members && Slot(lineup, st, members[id].seat).Some? ==>
      var p := st.players[Slot(lineup, st, members[id].seat).value];
      r[id].chips == p.stake + p.betChips
    ensures forall id :: id in members && Slot(lineup, st, members[id].seat).None? ==> r[id] == members[id]
  {
    map id | id in members ::
      match Slot(lineup, st, members[id].seat)
      case Some(i) => members[id].(chips := st.players[i].stake + st.players[i].betChips)
      case None => members[id]
  }

  /** The chips shown after the hand, as written: what is behind plus the
      reward, at least zero. The reward already counts what the player put
      in, and so does the stake, which the engine never gives back. */
  function EndChipsAsWritten(p: PlayerState): (c: real)
    ensures c >= 0.0 && c >= p.stake + p.reward
  {
    if p.stake + p.reward > 0.0 then p.stake + p.reward else 0.0
  }

  /** The chips shown after the hand: the stack the hand started with plus
      the reward, at least zero. */
  function EndChips(stack: real, p: PlayerState): (c: real)
    ensures c >= 0.0
    ensures stack + p.reward >= 0.0 ==> c - stack == p.reward
  {
    if stack + p.reward > 0.0 then stack + p.reward else 0.0
  }

  /** A player who put `x` > 0 into a hand they started with `stack` and
      lost: `set_winners` leaves the stake at stack - x and the reward at
      -x, so as written the table shows stack - 2x where the player has
      stack - x left. */
  lemma LoserChargedTwiceAsWritten(s: State, winners: seq<nat>, i: nat, stack: real)
    requires |winners| > 0 && (forall w :: w in winners ==> w < |s.players|) && i < |s.players|
    requires s.players[i].player !in winners
    requires Owned(s.players[i]) == stack && InPlay(s.players[i]) > 0.0
    requires stack >= 2.0 * InPlay(s.players[i])
    ensures var p := SetWinners(s, winners).players[i];
      && EndChipsAsWritten(p) == stack - 2.0 * InPlay(s.players[i])
      && EndChips(stack, p) == stack - InPlay(s.players[i])
      && EndChipsAsWritten(p) < EndChips(stack, p)
  {
  }

  /** A player dealt into a hand keeps what they did not lose: the stack
      less what they put in, plus what they won. */
  lemma EndChipsKeepsStake(s: State, winners: seq<nat>, i: nat, stack: real)
    requires |winners| > 0 && (forall w :: w in winners ==> w < |s.players|) && i < |s.players|
    requires Owned(s.players[i]) == stack && s.players[i].stake >= 0.0
    ensures var p := SetWinners(s, winners).players[i];
      EndChips(stack, p) == p.stake + InPlay(s.players[i]) + p.reward || EndChips(stack, p) == 0.0
  {
  }

  /** `handle_game_end`: the chips of every player dealt in are settled,
      the hand is cleared and the dealer button moves on. */
  function EndHand(t: Table, st: State): (r: Table)
    ensures r == t.(members := r.members, game := None, lineup := [], running := false, dealerSeat := r.dealerSeat)
    ensures r.dealerSeat == RotateDealer(t.seats, t.dealerSeat)
    ensures r.members.Keys == t.members.Keys
    ensures forall id :: id in t.members ==> r.members[id] == t.members[id].(chips := r.members[id].chips)
    ensures forall id :: id in t.members && Slot(t.lineup, st, t.members[id].seat).Some? ==>
      r.members[id].chips == EndChips(t.config.defaultStack, st.players[Slot(t.lineup, st, t.members[id].seat).value])
    ensures forall id :: id in t.members && Slot(t.lineup, st, t.members[id].seat).None? ==>
      r.members[id] == t.members[id]
  {
    var settled := map id | id in t.members ::
      match Slot(t.lineup, st, t.members[id].seat)
      case Some(i) => t.members[id].(chips := EndChips(t.config.defaultStack, st.players[i]))
      case None => t.members[id];
    t.(members := settled, game := None, lineup := [], running := false,
       dealerSeat := RotateDealer(t.seats, t.dealerSeat))
  }

  /** Changing only players' chips keeps seats and players in agreement. */
  lemma ChipsOnlyConsistent(t: Table, members: map<string, GamePlayer>)
    requires Consistent(t) && members.Keys == t.members.Keys
    requires forall id :: id in t.members ==> members[id] == t.members[id].(chips := members[id].chips)
    ensures Consistent(t.(members := members))
  {
    var u := t.(members := members);
    forall s | s in u.seats ensures u.members[u.seats[s]].seat == Some(s) {
      assert t.seats[s] in t.members;
    }
  }

  /** What follows the engine's move at the table: the chips shown follow
      the hand, and a hand that is over is settled. */
  function Follow(t: Table, st: State): (r: Table)
    ensures r.seats == t.seats && r.config == t.config && r.members.Keys == t.members.Keys
    ensures forall o :: o in t.members ==> r.members[o] == t.members[o].(chips := r.members[o].chips)
    ensures !st.finalState ==> r == t.(game := Some(st), members := r.members)
    ensures st.finalState ==> r.game.None? && !r.running && r.dealerSeat == RotateDealer(t.seats, t.dealerSeat)
    ensures Consistent(t) ==> Consistent(r)
  {
    var synced := t.(game := Some(st), members := SyncChips(t.members, t.lineup, st));
    var r := if st.finalState then EndHand(synced, st) else synced;
    assert Consistent(t) ==> Consistent(r) by {
      if Consistent(t) {
        ChipsOnlyConsistent(t, synced.members);
        ChipsOnlyConsistent(t, r.members);
      }
    }
    r
  }

  /** `handle_action`: there must be a hand, the player must be registered,
      seated and on move; the move goes to the engine, the chips shown
      follow the hand, and when the hand is over it is settled. */
  function HandleAction(t: Table, id: string, m: Move): (r: Result<Table, TableError>)
    requires t.game.Some? ==> WellFormed(t.game.value)
    ensures t.game.None? ==> r == Wrappers.Err(NoActiveGame)
    ensures t.game.Some? && id !in t.members ==> r == Wrappers.Err(PlayerNotFound)
    ensures t.game.Some? && id in t.members && t.members[id].seat.None? ==> r == Wrappers.Err(NotSeated)
    ensures (&& t.game.Some? && id in t.members && t.members[id].seat.Some?
             && !OnMove(t.lineup, t.game.value, t.members[id].seat.value)) ==> r == Wrappers.Err(NotYourTurn)
    ensures r.Ok? <==> t.game.Some? && id in t.members && t.members[id].seat.Some?
                       && OnMove(t.lineup, t.game.value, t.members[id].seat.value)
    ensures r.Ok? ==> r.value == Follow(t, ApplyAction(t.game.value, ToEngine(m)))
    ensures r.Ok? && r.value.game.Some? ==> WellFormed(r.value.game.value)
    ensures r.Ok? && Consistent(t) ==> Consistent(r.value)
  {
    if t.game.None? then Wrappers.Err(NoActiveGame)
    else if id !in t.members then Wrappers.Err(PlayerNotFound)
    else if t.members[id].seat.None? then Wrappers.Err(NotSeated)
    else if !OnMove(t.lineup, t.game.value, t.members[id].seat.value) then Wrappers.Err(NotYourTurn)
    else Wrappers.Ok(Follow(t, ApplyAction(t.game.value, ToEngine(m))))
  }

  // ----- What a client is shown -----

  /** `can_player_check`: the player's bet already matches the bet to
      match. */
  predicate CanCheck(st: State, i: nat)
  {
    i < |st.players| && st.players[i].betChips >= st.minBet
  }

  /** `get_call_amount`: what is missing to the bet to match, at least zero
      and at most what is behind. */
  function CallAmount(st: State, i: nat): (c: real)
    ensures i >= |st.players| ==> c == 0.0
    ensures i < |st.players| && st.players[i].stake >= 0.0 ==> 0.0 <= c <= st.players[i].stake
    ensures i < |st.players| && 0.0 <= st.minBet - st.players[i].betChips <= st.players[i].stake ==>
      st.players[i].betChips + c == st.minBet
  {
    if i < |st.players| then
      var p := st.players[i];
      var missing := if st.minBet - p.betChips > 0.0 then st.minBet - p.betChips else 0.0;
      if missing < p.stake then missing else p.stake
    else 0.0
  }

  /** With chips behind, a player can check exactly when there is nothing
      to call. */
  lemma CanCheckIffNothingToCall(st: State, i: nat)
    requires i < |st.players| && st.players[i].stake > 0.0
    ensures CanCheck(st, i) <==> CallAmount(st, i) == 0.0
  {
  }

  /** The call amount shown is what the engine takes from the stake and
      puts in the pot when the player on move checks or calls. */
  lemma CallAmountIsEngineCall(s: State, x: real)
    requires s.currentPlayer < |s.players|
    requires s.players[s.currentPlayer].stake >= 0.0 && s.players[s.currentPlayer].betChips >= 0.0
    ensures var c := s.currentPlayer; var t := MoveChips(s, Action(CheckCall, x));
      && t.players[c].stake == s.players[c].stake - CallAmount(s, c)
      && t.players[c].betChips == s.players[c].betChips + CallAmount(s, c)
      && t.pot == s.pot + CallAmount(s, c)
  {
  }
}

=== FILE: showdown.dfy ===
/** The C++ engine's showdown: ordering the contenders by hand strength
    (`sortPlayersByHandStrength`), grouping equal hands
    (`groupPlayersByHandStrength`), splitting one pot among the strongest
    group (`distributePot`) and paying out the main pot and every side pot
    (`_assignRewardsAndResetBets`). The hand evaluator is abstract: seat s
    holds a hand of strength `strength[s]`, and a lower number is a
    stronger hand. Seats are named by their index. */
module Showdown {
  import opened Wrappers
  import opened PokerTable
  import opened PotLedger

  predicate AllSeats(xs: seq<nat>, n: nat)
  {
    forall i :: 0 <= i < |xs| ==> xs[i] < n
  }

  predicate Distinct(xs: seq<nat>)
  {
    forall i, j :: 0 <= i < j < |xs| ==> xs[i] != xs[j]
  }

  /** Stronger (smaller) hands first. */
  predicate SortedByStrength(xs: seq<nat>, strength: seq<nat>)
    requires AllSeats(xs, |strength|)
  {
    forall i, j :: 0 <= i < j < |xs| ==> strength[xs[i]] <= strength[xs[j]]
  }

  /** Every seat of `xs` holds a hand no stronger than `v`. */
  predicate NoStrongerThan(xs: seq<nat>, strength: seq<nat>, v: int)
    requires AllSeats(xs, |strength|)
  {
    forall i :: 0 <= i < |xs| ==> v <= strength[xs[i]]
  }

  /** The bound depends only on which seats are listed. */
  lemma NoStrongerThanPermutation(xs: seq<nat>, ys: seq<nat>, strength: seq<nat>, v: int)
    requires AllSeats(xs, |strength|) && AllSeats(ys, |strength|) && multiset(xs) == multiset(ys)
    requires NoStrongerThan(xs, strength, v)
    ensures NoStrongerThan(ys, strength, v)
  {
    forall j | 0 <= j < |ys| ensures v <= strength[ys[j]] {
      assert ys[j] in multiset(xs);
      var m :| 0 <= m < |xs| && xs[m] == ys[j];
    }
  }

  /** Put `x` in front of the first seat whose hand is not stronger. */
  function InsertByStrength(x: nat, xs: seq<nat>, strength: seq<nat>): (r: seq<nat>)
    requires x < |strength| && AllSeats(xs, |strength|)
    ensures multiset(r) == multiset(xs) + multiset{x}
    ensures AllSeats(r, |strength|)
  {
    if |xs| == 0 || strength[x] <= strength[xs[0]] then [x] + xs
    else
      assert xs == [xs[0]] + xs[1..];
      [xs[0]] + InsertByStrength(x, xs[1..], strength)
  }

  /** Inserting into a list sorted by strength keeps it sorted. */
  lemma {:induction false} InsertSorted(x: nat, xs: seq<nat>, strength: seq<nat>)
    requires x < |strength| && AllSeats(xs, |strength|) && SortedByStrength(xs, strength)
    ensures SortedByStrength(InsertByStrength(x, xs, strength), strength)
  {
    if |xs| > 0 && strength[x] > strength[xs[0]] {
      var rest := InsertByStrength(x, xs[1..], strength);
      InsertSorted(x, xs[1..], strength);
      assert xs == [xs[0]] + xs[1..];
      assert NoStrongerThan(xs[1..] + [x], strength, strength[xs[0]]);
      NoStrongerThanPermutation(xs[1..] + [x], rest, strength, strength[xs[0]]);
    }
  }

  /** The ordering `std::sort` produces with the strength comparator.
      `std::sort` is not stable, so the order among equal hands is not
      fixed by the source; this insertion sort keeps seat order among
      them, which is one of the orders `std::sort` may produce. */
  function SortByStrength(xs: seq<nat>, strength: seq<nat>): (r: seq<nat>)
    requires AllSeats(xs, |strength|)
    ensures multiset(r) == multiset(xs)
    ensures AllSeats(r, |strength|) && SortedByStrength(r, strength)
  {
    if |xs| == 0 then []
    else
      assert xs == [xs[0]] + xs[1..];
      var rest := SortByStrength(xs[1..], strength);
      InsertSorted(xs[0], rest, strength);
      InsertByStrength(xs[0], rest, strength)
  }

  /** The groups laid end to end. */
  function Flatten(groups: seq<seq<nat>>): seq<nat>
  {
    if |groups| == 0 then [] else Flatten(groups[..|groups| - 1]) + groups[|groups| - 1]
  }

  lemma FlattenSnoc(groups: seq<seq<nat>>, g: seq<nat>)
    ensures Flatten(groups + [g]) == Flatten(groups) + g
  {
    assert (groups + [g])[..|groups|] == groups;
  }

  /** Every seat of `g` holds a hand of strength `rank`. */
  predicate Uniform(g: seq<nat>, strength: seq<nat>, rank: int)
  {
    AllSeats(g, |strength|) && forall i :: 0 <= i < |g| ==> strength[g[i]] == rank
  }

  lemma UniformSnoc(g: seq<nat>, seat: nat, strength: seq<nat>, rank: int)
    requires Uniform(g, strength, rank) && seat < |strength| && strength[seat] == rank
    ensures Uniform(g + [seat], strength, rank)
  {
  }

  /** Every group is non-empty, holds hands of one strength, and the
      groups go from strongest to weakest. */
  predicate WellGrouped(groups: seq<seq<nat>>, strength: seq<nat>)
  {
    (forall g :: 0 <= g < |groups| ==> |groups[g]| > 0 && AllSeats(groups[g], |strength|))
    && (forall g, i :: 0 <= g < |groups| && 0 <= i < |groups[g]| ==>
          strength[groups[g][i]] == strength[groups[g][0]])
    && (forall g, h :: 0 <= g < h < |groups| ==> strength[groups[g][0]] < strength[groups[h][0]])
  }

  /** Appending a uniform group weaker than the last one keeps the
      grouping well formed. */
  lemma WellGroupedSnoc(groups: seq<seq<nat>>, g: seq<nat>, strength: seq<nat>, rank: int)
    requires WellGrouped(groups, strength)
    requires |g| > 0 && Uniform(g, strength, rank)
    requires |groups| > 0 ==> strength[groups[|groups| - 1][0]] < rank
    ensures WellGrouped(groups + [g], strength)
    ensures strength[(groups + [g])[|groups|][0]] == rank
  {
    var r := groups + [g];
    forall a, b | 0 <= a < b < |r| ensures strength[r[a][0]] < strength[r[b][0]] {
      if b == |groups| && a < |groups| - 1 {
        assert strength[groups[a][0]] < strength[groups[|groups| - 1][0]];
      }
    }
  }

  /** The state of the grouping loop after `k` seats: closed groups,
      then the open group `current` of strength `rank` (-1 before the
      first seat). */
  predicate Grouping(sorted: seq<nat>, strength: seq<nat>, k: nat, groups: seq<seq<nat>>, current: seq<nat>, rank: int)
  {
    && k <= |sorted| && AllSeats(sorted, |strength|)
    && Flatten(groups) + current == sorted[..k]
    && WellGrouped(groups, strength)
    && OpenGroup(sorted, strength, k, groups, current, rank)
  }

  /** The open group: empty with rank -1 before the first seat, else
      non-empty, of the last seat's strength and weaker than every closed
      group. */
  predicate OpenGroup(sorted: seq<nat>, strength: seq<nat>, k: nat, groups: seq<seq<nat>>, current: seq<nat>, rank: int)
    requires k <= |sorted| && AllSeats(sorted, |strength|) && WellGrouped(groups, strength)
  {
    && (k == 0 ==> groups == [] && current == [] && rank == -1)
    && (k > 0 ==> |current| > 0 && rank == strength[sorted[k - 1]])
    && Uniform(current, strength, rank)
    && (k > 0 && |groups| > 0 ==> strength[groups[|groups| - 1][0]] < rank)
  }

  /** A seat of the open group's strength, or the first seat, joins the
      open group. */
  lemma GroupingExtend(sorted: seq<nat>, strength: seq<nat>, k: nat, groups: seq<seq<nat>>, current: seq<nat>, rank: int)
    requires AllSeats(sorted, |strength|) && k < |sorted|
    requires Grouping(sorted, strength, k, groups, current, rank)
    requires rank == -1 || strength[sorted[k]] == rank
    ensures Grouping(sorted, strength, k + 1, groups, current + [sorted[k]], strength[sorted[k]])
  {
    TakeOneMore(sorted, k);
    UniformSnoc(current, sorted[k], strength, strength[sorted[k]]);
    assert Flatten(groups) + (current + [sorted[k]]) == sorted[..k + 1];
  }

  /** A weaker seat closes the open group and opens a new one. */
  lemma GroupingClose(sorted: seq<nat>, strength: seq<nat>, k: nat, groups: seq<seq<nat>>, current: seq<nat>, rank: int)
    requires AllSeats(sorted, |strength|) && SortedByStrength(sorted, strength) && 0 < k < |sorted|
    requires Grouping(sorted, strength, k, groups, current, rank)
    requires strength[sorted[k]] != rank
    ensures Grouping(sorted, strength, k + 1, groups + [current], [sorted[k]], strength[sorted[k]])
  {
    TakeOneMore(sorted, k);
    assert strength[sorted[k - 1]] <= strength[sorted[k]];
    FlattenSnoc(groups, current);
    WellGroupedSnoc(groups, current, strength, rank);
    UniformSnoc([], sorted[k], strength, strength[sorted[k]]);
    assert Flatten(groups + [current]) + [sorted[k]] == sorted[..k + 1];
  }

  /** The open group closes at the end of the list. */
  lemma GroupingDone(sorted: seq<nat>, strength: seq<nat>, groups: seq<seq<nat>>, current: seq<nat>, rank: int)
    requires Grouping(sorted, strength, |sorted|, groups, current, rank)
    ensures |current| > 0 ==> Flatten(groups + [current]) == sorted && WellGrouped(groups + [current], strength)
    ensures |current| == 0 ==> Flatten(groups) == sorted
  {
    assert sorted[..|sorted|] == sorted;
    if |current| > 0 {
      FlattenSnoc(groups, current);
      WellGroupedSnoc(groups, current, strength, rank);
    }
  }

  /** The grouping loop of `groupPlayersByHandStrength` over an already
      sorted list; -1 marks "no group started yet", which no strength can
      equal. */
  method GroupSorted(sorted: seq<nat>, strength: seq<nat>) returns (groups: seq<seq<nat>>)
    requires AllSeats(sorted, |strength|) && SortedByStrength(sorted, strength)
    ensures Flatten(groups) == sorted
    ensures WellGrouped(groups, strength)
  {
    groups := [];
    var current: seq<nat> := [];
    var currentRank: int := -1;
    var k := 0;
    while k < |sorted|
      invariant Grouping(sorted, strength, k, groups, current, currentRank)
    {
      var seat := sorted[k];
      var rank := strength[seat];
      if currentRank == -1 || rank == currentRank {
        GroupingExtend(sorted, strength, k, groups, current, currentRank);
        current := current + [seat];
      } else {
        GroupingClose(sorted, strength, k, groups, current, currentRank);
        groups := groups + [current];
        current := [seat];
      }
      currentRank := rank;
      k := k + 1;
    }
    GroupingDone(sorted, strength, groups, current, currentRank);
    if |current| > 0 {
      groups := groups + [current];
    }
  }

  /** `groupPlayersByHandStrength`: the groups split the given seats, one
      strength per group, strongest group first. */
  method GroupByStrength(seats: seq<nat>, strength: seq<nat>) returns (groups: seq<seq<nat>>)
    requires AllSeats(seats, |strength|)
    ensures multiset(Flatten(groups)) == multiset(seats)
    ensures WellGrouped(groups, strength)
    ensures |groups| == 0 <==> |seats| == 0
  {
    var sorted := SortByStrength(seats, strength);
    groups := GroupSorted(sorted, strength);
    if |seats| > 0 {
      assert seats[0] in multiset(sorted);
    }
    if |groups| == 0 {
      assert Flatten(groups) == [];
    }
  }

  // ----- One pot -----

  /** Who may win a pot: players who did not fold, and also folded players
      who are marked all-in. */
  predicate ShowdownEligible(p: Player)
  {
    !p.folded || p.isAllin
  }

  function Filter(xs: seq<nat>, ps: seq<Player>): (r: seq<nat>)
    requires AllSeats(xs, |ps|)
    ensures AllSeats(r, |ps|)
    ensures forall s :: s in r <==> s in xs && ShowdownEligible(ps[s])
    ensures Distinct(xs) ==> Distinct(r)
  {
    if |xs| == 0 then []
    else
      var rest := Filter(xs[..|xs| - 1], ps);
      var x := xs[|xs| - 1];
      assert forall s :: s in xs <==> s in xs[..|xs| - 1] || s == x;
      if ShowdownEligible(ps[x]) then rest + [x] else rest
  }

  /** The chips each seat gets from one pot: `share` each for the winners,
      and the remainder on top for the first winner. */
  function Shares(n: nat, winners: seq<nat>, share: int, remainder: int): (a: seq<int>)
    requires |winners| > 0
    ensures |a| == n
  {
    seq(n, s requires 0 <= s < n =>
      if s == winners[0] then share + remainder else if s in winners then share else 0)
  }

  /** Number of entries of `xs` below `k`. */
  function CountBelow(xs: seq<nat>, k: nat): (c: nat)
    ensures c <= |xs|
  {
    if |xs| == 0 then 0 else CountBelow(xs[..|xs| - 1], k) + (if xs[|xs| - 1] < k then 1 else 0)
  }

  lemma {:induction false} CountBelowStep(xs: seq<nat>, k: nat)
    requires Distinct(xs)
    ensures CountBelow(xs, k + 1) == CountBelow(xs, k) + (if k in xs then 1 else 0)
    decreases |xs|
  {
    if |xs| > 0 {
      var init := xs[..|xs| - 1];
      assert forall y :: y in xs <==> y in init || y == xs[|xs| - 1];
      CountBelowStep(init, k);
    }
  }

  lemma {:induction false} CountBelowAll(xs: seq<nat>, n: nat)
    requires AllSeats(xs, n)
    ensures CountBelow(xs, n) == |xs|
    decreases |xs|
  {
    if |xs| > 0 {
      CountBelowAll(xs[..|xs| - 1], n);
    }
  }

  /** The first `k` seats' shares add up to one share per winner among
      them, plus the remainder if the first winner is among them. */
  lemma {:induction false} SharesSum(n: nat, winners: seq<nat>, share: int, remainder: int, k: nat)
    requires |winners| > 0 && AllSeats(winners, n) && Distinct(winners) && k <= n
    ensures Sum(Shares(n, winners, share, remainder)[..k])
         == share * CountBelow(winners, k) + (if winners[0] < k then remainder else 0)
  {
    var a := Shares(n, winners, share, remainder);
    if k == 0 {
      CountBelowZero(winners);
    } else {
      SharesSum(n, winners, share, remainder, k - 1);
      CountBelowStep(winners, k - 1);
      assert a[..k][..k - 1] == a[..k - 1];
      MulSucc(share, CountBelow(winners, k - 1));
    }
  }

  lemma MulSucc(a: int, c: int)
    ensures a * (c + 1) == a * c + a
  {
  }

  lemma {:induction false} CountBelowZero(xs: seq<nat>)
    ensures CountBelow(xs, 0) == 0
    decreases |xs|
  {
    if |xs| > 0 {
      CountBelowZero(xs[..|xs| - 1]);
    }
  }

  /** The winners of one pot in `distributePot`: the showdown-eligible
      contenders if there is at most one of them, else the strongest group
      among them. */
  method PotWinners(contenders: seq<nat>, ps: seq<Player>, strength: seq<nat>)
    returns (winners: seq<nat>)
    requires |strength| == |ps| && AllSeats(contenders, |ps|) && Distinct(contenders)
    ensures AllSeats(winners, |ps|) && Distinct(winners)
    ensures forall s :: s in winners ==> s in contenders && ShowdownEligible(ps[s])
    ensures forall s, t :: s in winners && t in contenders && ShowdownEligible(ps[t]) ==>
      strength[s] <= strength[t]
    ensures forall s, t :: s in winners && t in winners ==> strength[s] == strength[t]
    ensures |winners| > 0 <==> exists t :: t in contenders && ShowdownEligible(ps[t])
    ensures forall s, t :: s in winners && t in contenders && ShowdownEligible(ps[t]) && strength[t] == strength[s] ==>
      t in winners
  {
    var showdown := Filter(contenders, ps);
    if |showdown| <= 1 {
      winners := showdown;
      forall t | t in contenders && ShowdownEligible(ps[t]) ensures t in showdown && t == showdown[0] {
      }
      if |showdown| == 1 {
        assert showdown[0] in showdown;
      }
      return;
    }
    var groups := GroupByStrength(showdown, strength);
    winners := groups[0];
    FlattenHead(groups);
    forall s, t | s in winners && t in contenders && ShowdownEligible(ps[t])
      ensures strength[s] <= strength[t]
    {
      assert t in multiset(Flatten(groups));
      FlattenMember(groups, t, strength);
    }
    forall s | s in winners ensures s in contenders && ShowdownEligible(ps[s]) {
      assert s in multiset(Flatten(groups));
      assert s in multiset(showdown);
    }
    forall s, t | s in winners && t in contenders && ShowdownEligible(ps[t]) && strength[t] == strength[s]
      ensures t in winners
    {
      assert t in multiset(showdown);
      assert t in multiset(Flatten(groups));
      FlattenTop(groups, t, strength);
    }
    DistinctFlattenHead(groups, showdown);
    assert showdown[0] in contenders && ShowdownEligible(ps[showdown[0]]);
  }

  /** Euclidean division splits a non-negative pot exactly. */
  lemma SplitEvenly(pot: int, n: int)
    requires pot >= 0 && n > 0
    ensures pot / n >= 0 && 0 <= pot % n < n
    ensures (pot / n) * n + pot % n == pot
  {
  }

  lemma SharesSpec(n: nat, winners: seq<nat>, share: int, remainder: int)
    requires |winners| > 0 && AllSeats(winners, n) && Distinct(winners)
    ensures forall s :: 0 <= s < n && s !in winners ==> Shares(n, winners, share, remainder)[s] == 0
    ensures Shares(n, winners, share, remainder)[winners[0]] == share + remainder
    ensures forall s :: s in winners && s != winners[0] ==> Shares(n, winners, share, remainder)[s] == share
    ensures Sum(Shares(n, winners, share, remainder)) == share * |winners| + remainder
  {
    var a := Shares(n, winners, share, remainder);
    SharesSum(n, winners, share, remainder, n);
    CountBelowAll(winners, n);
    assert a[..n] == a;
  }

  /** `distributePot`: nothing for an empty pot or no eligible contender;
      otherwise the winners split the pot evenly and the first of them also
      takes what does not divide. Awards are returned per seat. */
  method DistributePot(pot: int, contenders: seq<nat>, ps: seq<Player>, strength: seq<nat>)
    returns (awards: seq<int>, winners: seq<nat>)
    requires |strength| == |ps| && AllSeats(contenders, |ps|) && Distinct(contenders)
    ensures |awards| == |ps| && AllSeats(winners, |ps|)
    ensures forall s :: 0 <= s < |ps| && s !in winners ==> awards[s] == 0
    ensures forall s :: s in winners ==> s in contenders && ShowdownEligible(ps[s])
    ensures forall s, t :: s in winners && t in contenders && ShowdownEligible(ps[t]) ==>
      strength[s] <= strength[t]
    ensures forall s, t :: s in winners && t in winners ==> strength[s] == strength[t]
    ensures forall s, t :: s in winners && t in contenders && ShowdownEligible(ps[t]) && strength[t] == strength[s] ==>
      t in winners
    ensures forall s :: s in winners && s != winners[0] ==> awards[s] == pot / |winners|
    ensures |winners| > 0 ==> awards[winners[0]] == pot / |winners| + pot % |winners|
    ensures |winners| > 0 <==> pot > 0 && exists t :: t in contenders && ShowdownEligible(ps[t])
    ensures forall s :: 0 <= s < |ps| ==> awards[s] >= 0
    ensures Sum(awards) == if |winners| > 0 then pot else 0
  {
    awards := seq(|ps|, s => 0);
    winners := [];
    if pot <= 0 || |contenders| == 0 {
      ZeroSum(|ps|);
      return;
    }
    winners := PotWinners(contenders, ps, strength);
    if |winners| == 0 {
      ZeroSum(|ps|);
      return;
    }
    var share := pot / |winners|;
    var remainder := pot % |winners|;
    SplitEvenly(pot, |winners|);
    SharesSpec(|ps|, winners, share, remainder);
    awards := Shares(|ps|, winners, share, remainder);
  }

  lemma ZeroSum(n: nat)
    ensures Sum(seq(n, s => 0)) == 0
  {
    if n > 0 {
      assert seq(n, s => 0)[..n - 1] == seq(n - 1, s => 0);
      ZeroSum(n - 1);
    }
  }

  lemma FlattenHead(groups: seq<seq<nat>>)
    requires |groups| > 0
    ensures forall s :: s in groups[0] ==> s in Flatten(groups)
  {
    if |groups| > 1 {
      FlattenHead(groups[..|groups| - 1]);
    }
  }

  lemma DistinctFlattenHead(groups: seq<seq<nat>>, seats: seq<nat>)
    requires |groups| > 0 && Distinct(seats) && multiset(Flatten(groups)) == multiset(seats)
    ensures Distinct(groups[0])
  {
    if |groups| > 1 {
      var init := groups[..|groups| - 1];
      assert Flatten(groups) == Flatten(init) + groups[|groups| - 1];
      assert init[0] == groups[0];
      assert multiset(Flatten(init)) <= multiset(seats);
      DistinctSub(Flatten(init), seats);
      DistinctFlattenHead(init, Flatten(init));
    } else {
      assert Flatten(groups) == groups[0] by { assert groups[..0] == []; }
      DistinctSub(groups[0], seats);
    }
  }

  lemma DistinctSub(xs: seq<nat>, ys: seq<nat>)
    requires Distinct(ys) && multiset(xs) <= multiset(ys)
    ensures Distinct(xs)
  {
    forall i, j | 0 <= i < j < |xs| ensures xs[i] != xs[j] {
      if xs[i] == xs[j] {
        assert multiset(xs)[xs[i]] >= 2 by {
          assert xs == xs[..i] + [xs[i]] + xs[i + 1..];
          assert xs[j] in xs[i + 1..];
        }
        DistinctCount(ys, xs[i]);
      }
    }
  }

  lemma DistinctCount(ys: seq<nat>, x: nat)
    requires Distinct(ys)
    ensures multiset(ys)[x] <= 1
  {
    if |ys| > 0 {
      var init := ys[..|ys| - 1];
      assert ys == init + [ys[|ys| - 1]];
      DistinctCount(init, x);
      if ys[|ys| - 1] == x {
        assert x !in init;
      }
    }
  }

  /** A seat in some group is no stronger than the first group. */
  lemma FlattenMember(groups: seq<seq<nat>>, t: nat, strength: seq<nat>)
    requires |groups| > 0 && WellGrouped(groups, strength) && t in Flatten(groups)
    ensures t < |strength| && strength[groups[0][0]] <= strength[t]
  {
    var init := groups[..|groups| - 1];
    var last := groups[|groups| - 1];
    if t in last {
      var i :| 0 <= i < |last| && last[i] == t;
    } else {
      assert |init| > 0;
      assert WellGrouped(init, strength);
      FlattenMember(init, t, strength);
    }
  }

  /** A seat in some group as strong as the first group is in the first
      group. */
  lemma {:induction false} FlattenTop(groups: seq<seq<nat>>, t: nat, strength: seq<nat>)
    requires |groups| > 0 && WellGrouped(groups, strength) && t in Flatten(groups)
    requires t < |strength| && strength[t] == strength[groups[0][0]]
    ensures t in groups[0]
  {
    var init := groups[..|groups| - 1];
    var last := groups[|groups| - 1];
    if t in last {
      var i :| 0 <= i < |last| && last[i] == t;
    } else {
      assert |init| > 0;
      assert WellGrouped(init, strength);
      FlattenTop(init, t, strength);
    }
  }

  // ----- All pots -----

  /** Seats that take part in the showdown: eligible and invested this
      hand, in seat order (`playersToShowHands`). */
  function ShowdownSeats(ps: seq<Player>, k: nat): (r: seq<nat>)
    requires k <= |ps|
    ensures AllSeats(r, k) && Distinct(r)
    ensures forall s :: s in r <==> 0 <= s < k && ShowdownEligible(ps[s]) && ps[s].totalInvested > 0
  {
    if k == 0 then []
    else
      var rest := ShowdownSeats(ps, k - 1);
      if ShowdownEligible(ps[k - 1]) && ps[k - 1].totalInvested > 0 then rest + [k - 1] else rest
  }

  /** The showdown seats eligible for layer `k`: those whose side-pot rank
      reaches it. */
  function Reaching(seats: seq<nat>, ps: seq<Player>, k: int): (r: seq<nat>)
    requires AllSeats(seats, |ps|) && Distinct(seats)
    ensures AllSeats(r, |ps|) && Distinct(r)
    ensures forall s :: s in r <==> s in seats && ps[s].sidePotRank >= k
  {
    if |seats| == 0 then []
    else
      var init := seats[..|seats| - 1];
      var x := seats[|seats| - 1];
      var rest := Reaching(init, ps, k);
      assert forall s :: s in seats <==> s in init || s == x;
      assert x !in init;
      if ps[x].sidePotRank >= k then rest + [x] else rest
  }

  function AddAwards(a: seq<int>, b: seq<int>): (c: seq<int>)
    requires |a| == |b|
    ensures |c| == |a| && forall i :: 0 <= i < |a| ==> c[i] == a[i] + b[i]
  {
    seq(|a|, i requires 0 <= i < |a| => a[i] + b[i])
  }

  lemma {:induction false} SumAddAwards(a: seq<int>, b: seq<int>)
    requires |a| == |b|
    ensures Sum(AddAwards(a, b)) == Sum(a) + Sum(b)
    decreases |a|
  {
    if |a| > 0 {
      var n := |a|;
      assert AddAwards(a, b)[..n - 1] == AddAwards(a[..n - 1], b[..n - 1]);
      SumAddAwards(a[..n - 1], b[..n - 1]);
    }
  }

  /** The pots in layer order: the main pot, then the side pots. */
  function Layers(main: int, sides: seq<int>): seq<int>
  {
    [main] + sides
  }

  lemma SumLayers(main: int, sides: seq<int>)
    ensures Sum(Layers(main, sides)) == main + Sum(sides)
  {
    SumAppend([main], sides);
    assert Sum([main]) == main by { assert [main][..0] == []; }
  }

  lemma SumTakeOneMore(s: seq<int>, k: nat)
    requires k < |s|
    ensures Sum(s[..k + 1]) == Sum(s[..k]) + s[k]
  {
    assert s[..k + 1][..k] == s[..k];
  }

  /** `award` on every seat. */
  function Credit(ps: seq<Player>, awards: seq<int>): (qs: seq<Player>)
    requires |awards| == |ps| && forall i :: 0 <= i < |ps| ==> awards[i] >= 0
    ensures |qs| == |ps|
    ensures forall i :: 0 <= i < |ps| ==> qs[i] == ps[i].(stack := ps[i].stack + awards[i])
  {
    seq(|ps|, i requires 0 <= i < |ps| => ps[i].(stack := ps[i].stack + awards[i]))
  }

  lemma {:induction false} CreditTotal(ps: seq<Player>, awards: seq<int>)
    requires |awards| == |ps| && forall i :: 0 <= i < |ps| ==> awards[i] >= 0
    ensures Total(Credit(ps, awards), StackOf) == Total(ps, StackOf) + Sum(awards)
    decreases |ps|
  {
    if |ps| > 0 {
      var n := |ps|;
      assert Credit(ps, awards)[..n - 1] == Credit(ps[..n - 1], awards[..n - 1]);
      CreditTotal(ps[..n - 1], awards[..n - 1]);
    }
  }

  /** Some showdown player put in the most chips of anyone. */
  predicate TopInvestorShows(ps: seq<Player>)
  {
    exists t :: 0 <= t < |ps| && ShowdownEligible(ps[t]) && ps[t].totalInvested > 0
                && ps[t].totalInvested == MaxInvested(ps)
  }

  lemma {:induction false} CountExactlyBounded(ps: seq<Player>, v: int)
    requires CountExactly(ps, v) >= 1
    ensures v <= MaxInvested(ps)
    decreases |ps|
  {
    if ps[|ps| - 1].totalInvested != v {
      CountExactlyBounded(ps[..|ps| - 1], v);
    }
  }

  /** After `_calculateSidePots`, the top investor's rank is the last
      layer. */
  lemma TopRank(ps: seq<Player>, qs: seq<Player>, levels: seq<nat>, t: nat)
    requires |qs| == |ps| && t < |ps| && StrictlyIncreasing(levels)
    requires forall k :: 0 <= k < |levels| ==> levels[k] > 0 && CountExactly(ps, levels[k]) >= 1
    requires forall i :: 0 <= i < |ps| && ps[i].totalInvested > 0 ==>
      0 <= qs[i].sidePotRank < |levels| && levels[qs[i].sidePotRank] == ps[i].totalInvested
    requires ps[t].totalInvested > 0 && ps[t].totalInvested == MaxInvested(ps)
    ensures qs[t].sidePotRank == |levels| - 1
  {
    var r := qs[t].sidePotRank;
    var last := |levels| - 1;
    CountExactlyBounded(ps, levels[last]);
  }

  /** What a lone showdown player `w` gets from layer `k`: the main pot
      outright, a side pot only if their rank reaches it. */
  function Lone(pot: int, k: nat, w: nat, ps: seq<Player>): (r: (seq<int>, seq<nat>))
    requires w < |ps|
    ensures |r.0| == |ps|
    ensures r.1 == [] || r.1 == [w]
    ensures r.1 == [w] <==> pot > 0 && (k == 0 || ps[w].sidePotRank >= k)
    ensures forall s :: 0 <= s < |ps| && s != w ==> r.0[s] == 0
    ensures r.0[w] == if r.1 == [w] then pot else 0
    ensures Sum(r.0) == if r.1 == [w] then pot else 0
  {
    var zeros := seq(|ps|, s => 0);
    ZeroSum(|ps|);
    if pot > 0 && (k == 0 || ps[w].sidePotRank >= k) then
      SumUpdate(zeros, w, pot);
      (zeros[w := pot], [w])
    else (zeros, [])
  }

  /** Paying layer `k` (pot `pot`) of `_assignRewardsAndResetBets`: to the
      lone showdown player, or through `distributePot` among the showdown
      players whose rank reaches the layer. */
  method PayLayer(pot: int, k: nat, seats: seq<nat>, ps: seq<Player>, strength: seq<nat>)
    returns (a: seq<int>)
    requires AllSeats(seats, |ps|) && Distinct(seats) && |strength| == |ps| && pot > 0
    requires forall s :: s in seats ==> ShowdownEligible(ps[s])
    ensures |a| == |ps|
    ensures forall s :: 0 <= s < |ps| ==> a[s] >= 0
    ensures forall s :: 0 <= s < |ps| && a[s] != 0 ==> s in seats
    ensures Sum(a) == 0 || Sum(a) == pot
    ensures (exists t :: t in seats && ps[t].sidePotRank >= k) ==> Sum(a) == pot
    ensures |seats| == 1 ==> Sum(a) == if k == 0 || ps[seats[0]].sidePotRank >= k then pot else 0
  {
    if |seats| == 1 {
      var w := seats[0];
      var lone := Lone(pot, k, w, ps);
      a := lone.0;
      assert forall t :: t in seats ==> t == w;
    } else {
      var contenders := Reaching(seats, ps, k);
      var winners;
      a, winners := DistributePot(pot, contenders, ps, strength);
      if t :| t in seats && ps[t].sidePotRank >= k {
        assert t in contenders;
      }
    }
  }

  /** Awards that are never negative and go only to showdown seats. */
  predicate ToSeats(awards: seq<int>, seats: seq<nat>, n: nat)
  {
    |awards| == n && forall s :: 0 <= s < n ==> awards[s] >= 0 && (awards[s] != 0 ==> s in seats)
  }

  lemma AddAwardsToSeats(awards: seq<int>, a: seq<int>, seats: seq<nat>, n: nat)
    requires ToSeats(awards, seats, n) && ToSeats(a, seats, n)
    ensures ToSeats(AddAwards(awards, a), seats, n)
  {
  }

  /** The payout loop of `_assignRewardsAndResetBets` over the layers in
      order: at most the layers' total is paid, and all of it when some
      showdown seat reaches the last layer. */
  method PayLayers(pots: seq<int>, seats: seq<nat>, ps: seq<Player>, strength: seq<nat>)
    returns (awards: seq<int>)
    requires AllSeats(seats, |ps|) && Distinct(seats) && |strength| == |ps|
    requires forall s :: s in seats ==> ShowdownEligible(ps[s])
    requires forall k :: 0 <= k < |pots| ==> pots[k] > 0
    ensures ToSeats(awards, seats, |ps|)
    ensures 0 <= Sum(awards) <= Sum(pots)
    ensures (exists t :: t in seats && ps[t].sidePotRank >= |pots| - 1) ==> Sum(awards) == Sum(pots)
    ensures |seats| == 1 ==> Sum(awards) + Sum(Unreached(pots, ps[seats[0]].sidePotRank)) == Sum(pots)
  {
    var top := exists t :: t in seats && ps[t].sidePotRank >= |pots| - 1;
    var rank := if |seats| == 1 then ps[seats[0]].sidePotRank else 0;
    awards := seq(|ps|, s => 0);
    ZeroSum(|ps|);
    var k := 0;
    while k < |pots|
      invariant 0 <= k <= |pots| && ToSeats(awards, seats, |ps|)
      invariant 0 <= Sum(awards) <= Sum(pots[..k])
      invariant top ==> Sum(awards) == Sum(pots[..k])
      invariant |seats| == 1 ==> Sum(awards) + Sum(Unreached(pots[..k], rank)) == Sum(pots[..k])
    {
      var a := PayLayer(pots[k], k, seats, ps, strength);
      SumAddAwards(awards, a);
      SumTakeOneMore(pots, k);
      UnreachedStep(pots, k, rank);
      AddAwardsToSeats(awards, a, seats, |ps|);
      awards := AddAwards(awards, a);
      k := k + 1;
    }
    assert pots[..k] == pots;
  }

  /** The layers a lone showdown player of pot rank `rank` leaves unpaid:
      every side pot whose number the rank does not reach. */
  function Unreached(pots: seq<int>, rank: int): (r: seq<int>)
    ensures |r| == |pots|
  {
    seq(|pots|, k requires 0 <= k < |pots| => if k == 0 || rank >= k then 0 else pots[k])
  }

  lemma UnreachedStep(pots: seq<int>, k: nat, rank: int)
    requires k < |pots|
    ensures Sum(Unreached(pots[..k + 1], rank)) ==
      Sum(Unreached(pots[..k], rank)) + if k == 0 || rank >= k then 0 else pots[k]
  {
    assert Unreached(pots[..k + 1], rank)[..k] == Unreached(pots[..k], rank);
  }

  /** The pots `_assignRewardsAndResetBets` leaves standing, given how many
      players show down and, for a lone one, their pot rank: all of them
      when nobody shows down; with one, the side pots their rank does not
      reach; with several, none, since every pot is cleared whether or not
      anybody could take it. */
  function PotsLeft(main: int, sides: seq<int>, showing: nat, rank: int): (r: (int, seq<int>))
    ensures |r.1| == |sides|
    ensures showing == 0 ==> r == (main, sides)
    ensures showing > 0 && main >= 0 ==> r.0 == 0
  {
    if showing == 0 then (main, sides)
    else if showing == 1 then
      (if main > 0 then 0 else main,
       seq(|sides|, i requires 0 <= i < |sides| => if sides[i] > 0 && rank >= i + 1 then 0 else sides[i]))
    else
      (0, seq(|sides|, i requires 0 <= i < |sides| => if sides[i] > 0 then 0 else sides[i]))
  }

  /** With positive pots, what a lone showdown player leaves unpaid is what
      stays standing. */
  lemma LoneLeavesUnreached(main: int, sides: seq<int>, rank: int)
    requires main > 0 && forall i :: 0 <= i < |sides| ==> sides[i] > 0
    ensures var left := PotsLeft(main, sides, 1, rank);
      left.0 + Sum(left.1) == Sum(Unreached(Layers(main, sides), rank))
  {
    var left := PotsLeft(main, sides, 1, rank);
    assert Unreached(Layers(main, sides), rank) == [0] + left.1;
    SumAppend([0], left.1);
    assert Sum([0]) == 0 by { assert [0][..0] == []; }
  }

  /** With several showdown players, no pot is left standing. */
  lemma SeveralLeaveNothing(main: int, sides: seq<int>, showing: nat, rank: int)
    requires showing > 1 && forall i :: 0 <= i < |sides| ==> sides[i] >= 0
    ensures var left := PotsLeft(main, sides, showing, rank);
      left.0 == 0 && forall i :: 0 <= i < |left.1| ==> left.1[i] == 0
  {
  }

  /** `_assignRewardsAndResetBets`: recompute the pots, then pay them. A
      lone showdown player takes the main pot and every side pot their
      rank reaches (others stay unpaid); with several, each pot goes through
      `distributePot` among the showdown players whose rank reaches it,
      and every pot is cleared, paid or not. Returns the players after the awards, the chips paid out and the
      pots left standing. */
  method AssignRewards(ps: seq<Player>, mainPot: int, strength: seq<nat>)
    returns (qs: seq<Player>, paid: int, left: (int, seq<int>))
    requires |strength| == |ps|
    ensures |qs| == |ps|
    ensures forall i :: 0 <= i < |ps| ==>
      qs[i] == ps[i].(stack := qs[i].stack, sidePotRank := qs[i].sidePotRank)
    ensures forall i :: 0 <= i < |ps| ==> qs[i].stack >= ps[i].stack
    ensures forall i :: 0 <= i < |ps| && qs[i].stack > ps[i].stack ==>
      ShowdownEligible(ps[i]) && ps[i].totalInvested > 0
    ensures Total(qs, StackOf) == Total(ps, StackOf) + paid
    ensures 0 <= paid <= Total(ps, InvestedOf)
    ensures TopInvestorShows(ps) ==> paid == Total(ps, InvestedOf)
    ensures |ShowdownSeats(ps, |ps|)| == 0 ==> paid == 0
    ensures |ShowdownSeats(ps, |ps|)| == 0 && (exists i :: 0 <= i < |ps| && ps[i].totalInvested > 0) ==>
      left.0 + Sum(left.1) == Total(ps, InvestedOf)
    ensures |ShowdownSeats(ps, |ps|)| == 1 ==> paid + left.0 + Sum(left.1) == Total(ps, InvestedOf)
    ensures |ShowdownSeats(ps, |ps|)| > 1 ==> left.0 == 0 && forall i :: 0 <= i < |left.1| ==> left.1[i] == 0
  {
    var main, sides, seats, rank;
    qs, paid, main, sides, seats, rank := PayPots(ps, mainPot, strength);
    left := PotsLeft(main, sides, |seats|, rank);
    if |seats| == 1 {
      assert seats[0] in ShowdownSeats(ps, |ps|);
      LoneLeavesUnreached(main, sides, rank);
    } else if |seats| > 1 {
      SeveralLeaveNothing(main, sides, |seats|, rank);
    }
  }

  /** `_calculateSidePots` as the payout reads it: the players with their
      pot ranks, the main and side pots, and the layers to pay in order,
      every one positive; nothing to pay when nobody put chips in, and
      otherwise layers holding everything put in, the top investor's rank
      reaching the last of them. */
  method PotLayers(ps: seq<Player>, mainPot: int)
    returns (ranked: seq<Player>, main: int, sides: seq<int>, pots: seq<int>)
    ensures |ranked| == |ps|
    ensures forall i :: 0 <= i < |ps| ==> ranked[i] == ps[i].(sidePotRank := ranked[i].sidePotRank)
    ensures forall k :: 0 <= k < |pots| ==> pots[k] > 0
    ensures pots == [] <==> forall i :: 0 <= i < |ps| ==> ps[i].totalInvested == 0
    ensures pots == [] ==> main == mainPot && sides == []
    ensures pots != [] ==> pots == Layers(main, sides) && main + Sum(sides) == Total(ps, InvestedOf)
    ensures forall i :: 0 <= i < |ps| && ps[i].totalInvested > 0 ==> 0 <= ranked[i].sidePotRank < |pots|
    ensures forall t :: 0 <= t < |ps| && ps[t].totalInvested > 0 && ps[t].totalInvested == MaxInvested(ps) ==>
      ranked[t].sidePotRank == |pots| - 1
  {
    var levels;
    ranked, main, sides, levels := CalculateSidePots(ps, mainPot);
    pots := if levels == [] then [] else Layers(main, sides);
    forall k | 0 <= k < |pots| ensures pots[k] > 0 {
      assert pots[k] == LayerPot(ps, levels, k);
    }
    forall t | 0 <= t < |ps| && ps[t].totalInvested > 0 && ps[t].totalInvested == MaxInvested(ps)
      ensures ranked[t].sidePotRank == |pots| - 1
    {
      TopRank(ps, ranked, levels, t);
    }
    if levels != [] {
      CountExactlyWitness(ps, levels[0]);
    }
  }

  /** A level somebody put in exactly is somebody's investment. */
  lemma {:induction false} CountExactlyWitness(ps: seq<Player>, level: int)
    requires CountExactly(ps, level) >= 1
    ensures exists i :: 0 <= i < |ps| && ps[i].totalInvested == level
  {
    var n := |ps| - 1;
    if ps[n].totalInvested != level {
      CountExactlyWitness(ps[..n], level);
      var i :| 0 <= i < n && ps[..n][i].totalInvested == level;
      assert ps[i].totalInvested == level;
    }
  }

  /** The paying part of `_assignRewardsAndResetBets`: the recomputed main
      and side pots, the showdown seats, the lone showdown player's pot
      rank, and what the payout leaves of the pots. */
  method PayPots(ps: seq<Player>, mainPot: int, strength: seq<nat>)
    returns (qs: seq<Player>, paid: int, main: int, sides: seq<int>, seats: seq<nat>, rank: int)
    requires |strength| == |ps|
    ensures |qs| == |ps|
    ensures forall i :: 0 <= i < |ps| ==>
      qs[i] == ps[i].(stack := qs[i].stack, sidePotRank := qs[i].sidePotRank)
    ensures forall i :: 0 <= i < |ps| ==> qs[i].stack >= ps[i].stack
    ensures forall i :: 0 <= i < |ps| && qs[i].stack > ps[i].stack ==>
      ShowdownEligible(ps[i]) && ps[i].totalInvested > 0
    ensures Total(qs, StackOf) == Total(ps, StackOf) + paid
    ensures 0 <= paid <= Total(ps, InvestedOf)
    ensures TopInvestorShows(ps) ==> paid == Total(ps, InvestedOf)
    ensures seats == ShowdownSeats(ps, |ps|)
    ensures |seats| == 0 ==> paid == 0
    ensures (exists i :: 0 <= i < |ps| && ps[i].totalInvested > 0) ==> main + Sum(sides) == Total(ps, InvestedOf)
    ensures |seats| > 0 ==> main > 0 && forall i :: 0 <= i < |sides| ==> sides[i] > 0
    ensures |seats| == 1 ==> paid + Sum(Unreached(Layers(main, sides), rank)) == main + Sum(sides)
  {
    var ranked, pots, awards;
    ranked, main, sides, pots := PotLayers(ps, mainPot);
    qs, awards, seats := PaySeats(ps, ranked, pots, strength);
    paid := Sum(awards);
    rank := if |seats| == 1 then ranked[seats[0]].sidePotRank else 0;
    if pots == [] {
      ZeroSum(0);
      TotalZero(ps, InvestedOf);
    } else {
      SumLayers(main, sides);
    }
    if |seats| > 0 {
      assert ps[seats[0]].totalInvested > 0;
      LayersPositive(main, sides);
    }
  }

  /** Pays the layered pots to the seats that show down, crediting each seat's stack with its awards. */
  method PaySeats(ps: seq<Player>, ranked: seq<Player>, pots: seq<int>, strength: seq<nat>)
    returns (qs: seq<Player>, awards: seq<int>, seats: seq<nat>)
    requires |ranked| == |ps| && |strength| == |ps|
    requires forall i :: 0 <= i < |ps| ==> ranked[i] == ps[i].(sidePotRank := ranked[i].sidePotRank)
    requires forall k :: 0 <= k < |pots| ==> pots[k] > 0
    requires forall t :: 0 <= t < |ps| && ps[t].totalInvested > 0 && ps[t].totalInvested == MaxInvested(ps) ==>
      ranked[t].sidePotRank == |pots| - 1
    ensures |qs| == |ps|
    ensures forall i :: 0 <= i < |ps| ==>
      qs[i] == ps[i].(stack := qs[i].stack, sidePotRank := qs[i].sidePotRank)
    ensures forall i :: 0 <= i < |ps| ==> qs[i].stack >= ps[i].stack
    ensures forall i :: 0 <= i < |ps| && qs[i].stack > ps[i].stack ==>
      ShowdownEligible(ps[i]) && ps[i].totalInvested > 0
    ensures Total(qs, StackOf) == Total(ps, StackOf) + Sum(awards)
    ensures 0 <= Sum(awards) <= Sum(pots)
    ensures TopInvestorShows(ps) ==> Sum(awards) == Sum(pots)
    ensures seats == ShowdownSeats(ps, |ps|)
    ensures |seats| == 0 ==> Sum(awards) == 0
    ensures |seats| == 1 ==> Sum(awards) + Sum(Unreached(pots, ranked[seats[0]].sidePotRank)) == Sum(pots)
  {
    seats := ShowdownSeats(ranked, |ranked|);
    ShowdownSeatsSame(ps, ranked, |ps|);
    awards := PayLayers(pots, seats, ranked, strength);
    if TopInvestorShows(ps) {
      var t :| 0 <= t < |ps| && ShowdownEligible(ps[t]) && ps[t].totalInvested > 0
               && ps[t].totalInvested == MaxInvested(ps);
      assert t in seats;
    }
    qs := Credit(ranked, awards);
    CreditRanked(ps, ranked, awards, seats);
    CreditTotal(ranked, awards);
    TotalSame(ps, ranked, StackOf, StackOf);
    if |seats| == 0 {
      NoSeatsNoAwards(awards, |ps|);
    }
  }

  /** Crediting awards to the ranked seats changes, against the unranked seats, only stacks and ranks,
      and only a showdown seat that put chips in gains. */
  lemma CreditRanked(ps: seq<Player>, ranked: seq<Player>, awards: seq<int>, seats: seq<nat>)
    requires |ranked| == |ps| && forall i :: 0 <= i < |ps| ==> ranked[i] == ps[i].(sidePotRank := ranked[i].sidePotRank)
    requires ToSeats(awards, seats, |ps|)
    requires forall s :: s in seats ==> 0 <= s < |ps| && ShowdownEligible(ps[s]) && ps[s].totalInvested > 0
    ensures forall i :: 0 <= i < |ps| ==>
      Credit(ranked, awards)[i] == ps[i].(stack := Credit(ranked, awards)[i].stack, sidePotRank := Credit(ranked, awards)[i].sidePotRank)
    ensures forall i :: 0 <= i < |ps| ==> Credit(ranked, awards)[i].stack >= ps[i].stack
    ensures forall i :: 0 <= i < |ps| && Credit(ranked, awards)[i].stack > ps[i].stack ==>
      ShowdownEligible(ps[i]) && ps[i].totalInvested > 0
  {
  }

  /** Awards that may go to no seat are all zero. */
  lemma {:induction false} NoSeatsNoAwards(awards: seq<int>, n: nat)
    requires ToSeats(awards, [], n)
    ensures Sum(awards) == 0
    decreases n
  {
    if n > 0 {
      assert ToSeats(awards[..n - 1], [], n - 1);
      NoSeatsNoAwards(awards[..n - 1], n - 1);
    }
  }

  /** Positive layers have a positive main pot and positive side pots. */
  lemma LayersPositive(main: int, sides: seq<int>)
    requires forall k :: 0 <= k < |Layers(main, sides)| ==> Layers(main, sides)[k] > 0
    ensures main > 0 && forall i :: 0 <= i < |sides| ==> sides[i] > 0
  {
    assert Layers(main, sides)[0] == main;
    forall i | 0 <= i < |sides| ensures sides[i] > 0 {
      assert Layers(main, sides)[i + 1] == sides[i];
    }
  }

  /** Tables whose seats agree on showing down and on what they put in
      have the same showdown seats. */
  lemma {:induction false} ShowdownSeatsSame(ps: seq<Player>, qs: seq<Player>, k: nat)
    requires k <= |ps| && k <= |qs|
    requires forall i :: 0 <= i < k ==>
      ShowdownEligible(ps[i]) == ShowdownEligible(qs[i]) && ps[i].totalInvested == qs[i].totalInvested
    ensures ShowdownSeats(ps, k) == ShowdownSeats(qs, k)
  {
    if k > 0 {
      ShowdownSeatsSame(ps, qs, k - 1);
    }
  }
}

=== FILE: suit_map.dfy ===
/** The canonical suit map shared by both engines (C++
    `_getCanonicalSuitMap_static`, Rust `get_canonical_suit_map`): the four
    suits are sorted by how many board cards they hold (more first), then by
    the bit mask of the ranks they hold (larger first), then by suit number
    (smaller first), and each suit is mapped to its position in that order.
    Sorting by a strict total order puts each suit at the position equal to
    the number of suits that precede it, which is how the map is written
    here. */
module SuitMap {
  import opened Cards

  /** Number of board cards of suit `s` (the `count += 1` loop). */
  function Count(board: seq<Card>, s: Suit): nat
  {
    if |board| == 0 then 0
    else Count(board[..|board| - 1], s) + (if board[|board| - 1].suit == s then 1 else 0)
  }

  /** Ranks of suit `s` present on the board. */
  function RankSet(board: seq<Card>, s: Suit): set<int>
  {
    set c | c in board && c.suit == s :: c.value as int
  }

  function Pow2(n: nat): (p: nat)
    ensures p >= 1
  {
    if n == 0 then 1 else 2 * Pow2(n - 1)
  }

  /** The bit mask with bit r set for every r < n in `rs`. */
  function Bits(rs: set<int>, n: nat): nat
  {
    if n == 0 then 0 else Bits(rs, n - 1) + (if n - 1 in rs then Pow2(n - 1) else 0)
  }

  /** `rank_mask |= 1 << rank` over the board. */
  function RankMask(board: seq<Card>, s: Suit): nat
  {
    Bits(RankSet(board, s), 13)
  }

  /** The sort comparator: `a` comes before `b`. */
  predicate Before(board: seq<Card>, a: Suit, b: Suit)
  {
    Count(board, a) > Count(board, b)
    || (Count(board, a) == Count(board, b)
        && (RankMask(board, a) > RankMask(board, b)
            || (RankMask(board, a) == RankMask(board, b) && a < b)))
  }

  function Ind(b: bool): nat
  {
    if b then 1 else 0
  }

  /** Position of suit `s` after sorting: the number of suits before it. */
  function Position(board: seq<Card>, s: Suit): nat
  {
    Ind(Before(board, 0, s)) + Ind(Before(board, 1, s))
    + Ind(Before(board, 2, s)) + Ind(Before(board, 3, s))
  }

  /** The comparator is a strict total order on the four suits. */
  lemma BeforeTotalOrder(board: seq<Card>, a: Suit, b: Suit, c: Suit)
    ensures !Before(board, a, a)
    ensures a != b ==> (Before(board, a, b) <==> !Before(board, b, a))
    ensures Before(board, a, b) && Before(board, b, c) ==> Before(board, a, c)
  {
  }

  lemma PositionOrder(board: seq<Card>, a: Suit, b: Suit)
    ensures Position(board, a) < 4
    ensures Before(board, a, b) ==> Position(board, a) < Position(board, b)
  {
    forall t: Suit ensures Before(board, t, a) && Before(board, a, b) ==> Before(board, t, b) {
      BeforeTotalOrder(board, t, a, b);
    }
    BeforeTotalOrder(board, a, a, a);
  }

  predicate IsPermutation4(m: seq<int>)
  {
    |m| == 4
    && (forall i :: 0 <= i < 4 ==> 0 <= m[i] < 4)
    && (forall i, j :: 0 <= i < j < 4 ==> m[i] != m[j])
  }

  /** The canonical map: original suit to its sorted position. It is a
      permutation of 0 .. 3, and a suit maps below another exactly when it
      comes first under the comparator. */
  function CanonicalSuitMap(board: seq<Card>): (m: seq<int>)
    ensures IsPermutation4(m)
    ensures forall a: Suit, b: Suit :: m[a] < m[b] <==> Before(board, a, b)
  {
    var m := [Position(board, 0), Position(board, 1), Position(board, 2), Position(board, 3)];
    assert forall a: Suit, b: Suit :: m[a] == Position(board, a) && m[b] == Position(board, b);
    forall a: Suit, b: Suit ensures m[a] < m[b] <==> Before(board, a, b) {
      PositionOrder(board, a, b);
      PositionOrder(board, b, a);
      BeforeTotalOrder(board, a, b, a);
    }
    m
  }

  /** Number of board cards equal to `Card(v, s)` summed over the values
      below `n`: a count that only looks at the multiset of cards. */
  function MultiplicitySum(ms: multiset<Card>, s: Suit, n: nat): nat
    requires n <= 13
  {
    if n == 0 then 0 else MultiplicitySum(ms, s, n - 1) + ms[Card(n - 1, s)]
  }

  lemma {:induction false} MultiplicitySumAdd(ms: multiset<Card>, c: Card, s: Suit, n: nat)
    requires n <= 13
    ensures MultiplicitySum(ms + multiset{c}, s, n)
         == MultiplicitySum(ms, s, n) + (if c.suit == s && c.value < n then 1 else 0)
  {
    if n > 0 {
      MultiplicitySumAdd(ms, c, s, n - 1);
    }
  }

  lemma {:induction false} MultiplicitySumEmpty(s: Suit, n: nat)
    requires n <= 13
    ensures MultiplicitySum(multiset{}, s, n) == 0
  {
    if n > 0 {
      MultiplicitySumEmpty(s, n - 1);
    }
  }

  lemma {:induction false} CountIsMultiplicity(board: seq<Card>, s: Suit)
    ensures Count(board, s) == MultiplicitySum(multiset(board), s, 13)
  {
    if |board| == 0 {
      MultiplicitySumEmpty(s, 13);
    } else {
      var init := board[..|board| - 1];
      var last := board[|board| - 1];
      assert board == init + [last];
      assert multiset(board) == multiset(init) + multiset{last};
      CountIsMultiplicity(init, s);
      MultiplicitySumAdd(multiset(init), last, s, 13);
    }
  }

  /** The map depends only on which cards are on the board, not on their
      order. */
  lemma CanonicalSuitMapOrderFree(b1: seq<Card>, b2: seq<Card>)
    requires multiset(b1) == multiset(b2)
    ensures CanonicalSuitMap(b1) == CanonicalSuitMap(b2)
  {
    forall s: Suit ensures Count(b1, s) == Count(b2, s) && RankSet(b1, s) == RankSet(b2, s) {
      CountIsMultiplicity(b1, s);
      CountIsMultiplicity(b2, s);
      assert forall c :: c in b1 <==> c in b2 by {
        forall c ensures c in b1 <==> c in b2 {
          assert c in b1 <==> c in multiset(b1);
          assert c in b2 <==> c in multiset(b2);
        }
      }
    }
  }
}

=== FILE: wrappers.dfy ===
/** Failure-compatible wrappers shared by every module of the model.
    `Option` stands for a nullable value or Rust's `Option`, and `Result`
    for Rust's `Result` or a C++ function that may throw. */
module Wrappers {

  datatype Option<+T> = None | Some(value: T)

  datatype Result<+R, +E> = Ok(value: R) | Err(error: E)

  /** Larger of two integers. */
  function Max(a: int, b: int): int
  {
    if a >= b then a else b
  }

  /** Smallest of two integers. */
  function Min(a: int, b: int): int
  {
    if a <= b then a else b
  }

  /** Sum of a sequence of integers. */
  function Sum(s: seq<int>): int
  {
    if |s| == 0 then 0 else Sum(s[..|s| - 1]) + s[|s| - 1]
  }

  /** Sum of a sequence of reals. */
  function SumR(s: seq<real>): real
  {
    if |s| == 0 then 0.0 else SumR(s[..|s| - 1]) + s[|s| - 1]
  }

  /** Number of `true` entries. */
  function CountTrue(bs: seq<bool>): (c: nat)
    ensures c <= |bs|
  {
    if |bs| == 0 then 0 else CountTrue(bs[..|bs| - 1]) + (if bs[|bs| - 1] then 1 else 0)
  }

  lemma {:induction false} CountTrueZero(bs: seq<bool>)
    ensures CountTrue(bs) == 0 <==> forall i :: 0 <= i < |bs| ==> !bs[i]
    decreases |bs|
  {
    if |bs| > 0 {
      CountTrueZero(bs[..|bs| - 1]);
      assert forall i :: 0 <= i < |bs| - 1 ==> bs[..|bs| - 1][i] == bs[i];
    }
  }

  /** Fewer `true` entries where every entry implies the other's. */
  lemma {:induction false} CountTrueMono(xs: seq<bool>, ys: seq<bool>)
    requires |xs| == |ys| && forall i :: 0 <= i < |xs| && xs[i] ==> ys[i]
    ensures CountTrue(xs) <= CountTrue(ys)
    decreases |xs|
  {
    if |xs| > 0 {
      CountTrueMono(xs[..|xs| - 1], ys[..|ys| - 1]);
    }
  }

  /** A sum of non-negative numbers is non-negative. */
  lemma {:induction false} SumNonNegative(s: seq<int>)
    requires forall i :: 0 <= i < |s| ==> s[i] >= 0
    ensures Sum(s) >= 0
    decreases |s|
  {
    if |s| > 0 {
      SumNonNegative(s[..|s| - 1]);
    }
  }

  /** A prefix one element longer is the prefix with that element
      appended. */
  lemma TakeOneMore<T>(s: seq<T>, k: nat)
    requires k < |s|
    ensures s[..k + 1] == s[..k] + [s[k]]
  {
  }

  lemma {:induction false} SumAppend(s: seq<int>, t: seq<int>)
    ensures Sum(s + t) == Sum(s) + Sum(t)
    decreases |t|
  {
    if |t| == 0 {
      assert s + t == s;
    } else {
      assert (s + t)[..|s + t| - 1] == s + t[..|t| - 1];
      SumAppend(s, t[..|t| - 1]);
    }
  }

  lemma {:induction false} SumRAppend(s: seq<real>, t: seq<real>)
    ensures SumR(s + t) == SumR(s) + SumR(t)
    decreases |t|
  {
    if |t| == 0 {
      assert s + t == s;
    } else {
      assert (s + t)[..|s + t| - 1] == s + t[..|t| - 1];
      SumRAppend(s, t[..|t| - 1]);
    }
  }

  /** Summing one updated position changes the sum by the difference. */
  lemma {:induction false} SumUpdate(s: seq<int>, i: int, v: int)
    requires 0 <= i < |s|
    ensures Sum(s[i := v]) == Sum(s) - s[i] + v
  {
    assert s == s[..i] + [s[i]] + s[i + 1..];
    assert s[i := v] == s[..i] + [v] + s[i + 1..];
    SumAppend(s[..i] + [s[i]], s[i + 1..]);
    SumAppend(s[..i], [s[i]]);
    SumAppend(s[..i] + [v], s[i + 1..]);
    SumAppend(s[..i], [v]);
    assert Sum([s[i]]) == s[i] by { assert [s[i]][..0] == []; }
    assert Sum([v]) == v by { assert [v][..0] == []; }
  }

  lemma {:induction false} SumRUpdate(s: seq<real>, i: int, v: real)
    requires 0 <= i < |s|
    ensures SumR(s[i := v]) == SumR(s) - s[i] + v
  {
    assert s == s[..i] + [s[i]] + s[i + 1..];
    assert s[i := v] == s[..i] + [v] + s[i + 1..];
    SumRAppend(s[..i] + [s[i]], s[i + 1..]);
    SumRAppend(s[..i], [s[i]]);
    SumRAppend(s[..i] + [v], s[i + 1..]);
    SumRAppend(s[..i], [v]);
    assert SumR([s[i]]) == s[i] by { assert [s[i]][..0] == []; }
    assert SumR([v]) == v by { assert [v][..0] == []; }
  }
}
